=== FILE: README.md ===
# A verified model of the ac_sc_grinder speed-controller core

The firmware drives a universal motor through a triac. On every tick
(17857 Hz) it samples the mains voltage, the motor current and the knob.
It detects zero crossings and opens the triac at a phase angle chosen by
the regulator. It estimates the motor speed from the back-EMF once per
half-wave, using a calibrated table of the motor's resistance. A
calibration sequence builds that table and tunes the regulator. The user
starts it by turning the knob up three times.

Two firmware revisions share the source tree, and both are modelled here,
side by side, over shared primitives:

- the older one: `Sensors`, `TriacDriver`, `SpeedController` (PID with a
  speed-to-setpoint correction table) and the switch-based `Calibrator`
  of `src/calibrator.h`, whose stages are called as `tick()` without
  arguments and are not part of this model, so their results are inputs;
- the newer one: `Io`, `Meter`, the ADRC `Regulator`, and the coroutine
  calibrators of `src/calibrator/`, each a `tick(io_data)` built on
  `YIELD` (knob gesture, noise, static, speed, PID and ADRC tuning);
- the shared primitives: the two-heap running median, the three-slot
  stability window, the integer truncated mean and the flash EEPROM
  emulator, together with the in-memory flash driver of its tests.

fix16 values are `int`s holding value * 65536. The C operators whose
meaning differs from Dafny's are written out: truncating division
(`Fix16.CDiv`), arithmetic shifts (`Fix16.Asr`), and `uint32_t`/`int32_t`
wrap-around (`Fix16.U32`, `Fix16.I32`). Signed overflow is undefined in C;
where a product on a C `int` can leave the 32-bit range, the model takes the
two's-complement wrap-around. The libfixmath operations are
abstract: `Fix16.Lib` holds them as function values, and `Fix16.Lawful`
collects the only facts the proofs use. These are that `fix16_mul` is
within one raw unit of the exact product when that fits, three facts
about `fix16_div` (zero divided by anything is at most zero, a proper
fraction lands in [0, 1.0], and a positive divisor gives a quotient
within one raw unit of the exact one while that is at most 2^14), and
that `fix16_sinusize` maps into [0, 1).

Every tick-driven object is an immutable datatype with a pure step
function. Globals the code reads or writes (`io.setpoint`, `meter.speed`,
the regulator, EEPROM writes) become explicit inputs and outputs. A
coroutine built on the `YIELD` macros is a resume point plus the locals
that live across it. One call runs from that point to the next `YIELD`,
and a `return` without a `YIELD` restarts the coroutine from the top on
the next call. The PID and ADRC calibrators share one generic search
engine (`SearchCalibrator`). Each search is a `SearchPlan` holding the
half-cut rule, start, step, the regulator settings for settling and for
measuring, and the scaling of the result.

Where the code and its comments or documentation disagree, the model
follows the code. The discrepancies are listed under "## Findings". Each
has a member modelling the code as written, with the input that shows
the problem, and a corrected member that the rest of the model uses.

## Model

| member | source | states |
|---|---|---|
| Median.New | src/math/median.h:16-26 | a fresh filter holds no values, satisfies the representation invariant and keeps its capacity |
| Median.Reset | src/math/median.h:20-26 | reset empties both halves whatever was held, so the next `result()` is 0 |
| Median.LastMaxIndex | src/math/median.h:148-160 | the scan returns an index of the maximum of the low half, and no later slot holds that maximum |
| Median.LastMinIndex | src/math/median.h:162-174 | the scan returns an index of the minimum of the high half, and no later slot holds that minimum |
| Median.Add | src/math/median.h:46-137 | below capacity, add puts exactly the new value into the held multiset and keeps the invariant (every low value at most every high value, halves differ in size by at most one, the cached indices point at the extremes); at capacity it changes nothing |
| Median.AddLowMoveMax | src/math/median.h:77-91 | a value below the low maximum while the low half is bigger: the maximum moves up, the value takes its slot, the invariant holds and the multiset grows by the value |
| Median.AddLowAppend | src/math/median.h:92-96 | a value below the low maximum joins the low half when it is not bigger, keeping the invariant |
| Median.AddHighMoveMin | src/math/median.h:98-112 | the mirror image: the high minimum moves down and the value takes its slot |
| Median.AddHighAppend | src/math/median.h:113-117 | a value at or above the high minimum joins the high half when it is not bigger |
| Median.AddBetween | src/math/median.h:119-136 | a value between the halves joins the smaller half (the low one on a tie) and becomes its extreme |
| Median.LowMaxRank | src/math/median.h:41-43 | the low maximum is the (|lo|-1)-th smallest of all held values |
| Median.HighMinRank | src/math/median.h:41-43 | the high minimum is the |lo|-th smallest of all held values |
| Median.Result | src/math/median.h:28-44 | the result is 0 with no data, the middle value of an odd count, and the two middle values summed and divided by 2 with C truncation for an even count |
| Median.IsMedianPermutation | src/math/median.h:28-44 | the median depends only on the multiset of values, not on the order they sit in the halves |
| Median.Accepted | src/math/median.h:68-70 | the values kept out of a history are its first min(n, SIZE) values |
| Median.AddKeepsPrefix | src/math/median.h:46-137 | one add keeps the held values equal to the accepted prefix of the history |
| Median.FillHoldsPrefix | src/math/median.h:46-137 | after reset and any sequence of adds the filter holds exactly the first SIZE values added, and later adds change nothing |
| Median.FillMedian | src/math/median.h:28-137 | after any sequence of adds the result is the median of the first SIZE values added, whatever their order |
| Median.WithinCapacity | src/math/median.h:140-146 | neither half outgrows its array of SIZE / 2 + (SIZE & 1) slots |
| StabilityFilter.EdgeMultiplier | src/math/stability_filter.h:59 | the edge multiplier is the raw precision divided by 100 with truncation, so it lies within 1/100 of precision/100 |
| StabilityFilter.New | src/math/stability_filter.h:15-17 | a fresh filter has no pushes counted, head at slot 0 and the multiplier derived from the precision |
| StabilityFilter.Reset | src/math/stability_filter.h:19-23 | reset zeroes head and count and leaves the ring contents in place |
| StabilityFilter.Push | src/math/stability_filter.h:25-29 | push writes the value at the head slot only, advances the head with the wrap 2 to 0 and counts one more push |
| StabilityFilter.PushAllTracksHistory | src/math/stability_filter.h:25-29 | after a reset and any pushes, the three slots behind the head hold the last three values pushed, newest first |
| StabilityFilter.IsStableMatchesHistory | src/math/stability_filter.h:31-48 | `is_stable()` is false before three pushes since the reset and afterwards holds exactly when the spread of the last three values is within |max| times the multiplier, whatever slots they sit in |
| StabilityFilter.RingWindow | src/math/stability_filter.h:35-47 | a full ring answers `is_stable()` exactly as its contents read in push order |
| StabilityFilter.AverageMatchesHistory | src/math/stability_filter.h:50-52 | after three pushes `average()` is the sum of the last three values divided by 3 with C truncation, independent of head position |
| StabilityFilter.EqualValuesStable | src/math/stability_filter.h:40-47 | three equal values are reported stable for any non-negative multiplier up to 1.0 |
| TruncatedMean.Kept | src/math/truncated_mean.cpp:66-75 | the second pass keeps no more samples than the batch holds |
| TruncatedMean.KeptExactly | src/math/truncated_mean.cpp:66-75 | a sample value is kept exactly when its squared deviation from the mean, as the C `int` product holds it, is below `sigma_win_square`; for a 12-bit mean and value that is the true square |
| TruncatedMean.DeviationExact | src/math/truncated_mean.cpp:70 | for a 12-bit mean and value the `int` product `(mean - val) * (mean - val)` does not wrap |
| TruncatedMean.WideOutlierKept | src/math/truncated_mean.cpp:56-80 | for seven zeros and one 65535 the `int` products wrap: the window bound is 100643840 instead of 637514752, the outlier's squared deviation goes negative, all eight samples are kept and the result is 8192, where the unbounded products would drop the outlier |
| TruncatedMean.NoWrapFor12Bit | src/math/truncated_mean.cpp:44-52 | for at most 16 12-bit samples, `s`, `s2` and `s * s` all fit in uint32, so the uint32 sums never wrap |
| TruncatedMean.SumSquareBound | src/math/truncated_mean.cpp:56 | (Σv)² ≤ n·Σv², so `s * s / count` never exceeds `s2` |
| TruncatedMean.VarianceNumeratorExact | src/math/truncated_mean.cpp:56 | for 12-bit batches the unsigned numerator `s2 - s * s / count` does not underflow and `sigma_square` is its exact quotient by count - 1 |
| TruncatedMean.MeanOfEightIsRounded | src/math/truncated_mean.cpp:54 | with count 8 the reciprocal table is exact: `mean` is the sum divided by 8 rounded half up, the same as the division-based variant |
| TruncatedMean.MeanOfThreeRoundsLow | src/math/truncated_mean.cpp:22-54 | with count 3 the rounded-down 1/3 makes the mean of 0, 1, 1 come out as 0 where exact rounding gives 1 |
| TruncatedMean.TruncatedMeanBounded | src/math/truncated_mean.cpp:38-81 | a batch of 2 to 16 samples lying in [lo, hi] gives a result in [lo, hi], on both the kept-samples path and the fallback to the mean |
| TruncatedMean.ConstantBatch | src/math/truncated_mean.cpp:56-78 | a constant batch returns that constant: zero variance keeps nothing and the fallback is the mean (for both variants) |
| TruncatedMean.TruncatedMeanDivBounded | src/sensors.h:154-197 | the older division-based member also stays within the range of its samples |
| FlashDriver.New | test/test_eeprom_emu/eeprom_flash_driver.h:11-14 | a fresh driver has every byte of both banks at 0xFF, so both banks read erased |
| FlashDriver.Erase | test/test_eeprom_emu/eeprom_flash_driver.h:20-23 | erase sets exactly the bank's BankSize bytes to 0xFF and leaves every other byte untouched |
| FlashDriver.Read | test/test_eeprom_emu/eeprom_flash_driver.h:25-30 | a read assembles two bytes into a 16-bit word |
| FlashDriver.Write | test/test_eeprom_emu/eeprom_flash_driver.h:32-38 | a write changes no byte outside the two it addresses |
| FlashDriver.TestDriverLawful | test/test_eeprom_emu/eeprom_flash_driver.h:20-38 | the test driver meets every law the emulator relies on: 16-bit reads, a written word reads back little-endian, no other word changes, an erased bank reads EMPTY and the other bank is untouched |
| FlashDriver.BlankFlashReadsDefault | test/test_eeprom_emu/eeprom_flash_driver.h:11-14 | on a new test flash the emulator starts consistent with an empty log, so every read answers its default |
| EepromEmu.Records | src/eeprom_emu.h:21-41 | the record slots between two record boundaries, oldest first, one per 8 bytes |
| EepromEmu.LookupSpec | src/eeprom_emu.h:175-191 | the newest-first lookup finds nothing exactly when no committed record has the address, and otherwise the value of a committed record with no later committed record for that address |
| EepromEmu.ScanMatchesLog | src/eeprom_emu.h:176-191 | the reverse scan of `read_u32` skips uncommitted slots and other addresses, and answers the lookup of the log or the default |
| EepromEmu.WrittenRecord | src/eeprom_emu.h:129-132 | the four word writes leave a committed record of the given address and halves in the slot and change no word outside it |
| EepromEmu.WriteRecordKeepsRecords | src/eeprom_emu.h:212-215 | a record written outside a range of slots leaves the records of that range alone |
| EepromEmu.ClearSpec | src/eeprom_emu.h:59-65 | `is_clear` holds exactly when every word of the bank reads EMPTY |
| EepromEmu.EraseIfDirtySpec | src/eeprom_emu.h:93 | erase-if-not-clear always leaves the bank erased and the other bank untouched |
| EepromEmu.FindFromSpec | src/eeprom_emu.h:77-90 | `find_write_offset` returns the first slot whose four words are all EMPTY, or the bank size when every slot is used |
| EepromEmu.FresherInSpec | src/eeprom_emu.h:111-125 | the inner loop of `move_bank` finds a fresher record exactly when a later committed record has the same address |
| EepromEmu.Survivors | src/eeprom_emu.h:98-134 | the copy loop copies only committed records of addresses other than the ignored one, oldest first |
| EepromEmu.SurvivorsLookup | src/eeprom_emu.h:98-134 | the copied log means what the old log meant for every address except the ignored one, which is gone |
| EepromEmu.WriteRecordsEffect | src/eeprom_emu.h:129-133 | records copied from a destination offset read back as the old log followed by those records, and nothing outside their slots changes |
| EepromEmu.Init | src/eeprom_emu.h:149-166 | `init` leaves an initialised emulator on a valid bank and record boundary; what it finds on a blank, a consistent and a foreign-version flash is stated by `InitFresh`, `ReInit` and `InitMismatch` |
| EepromEmu.Ready | src/eeprom_emu.h:173-196 | the implicit `if (!initialized) init()` always leaves an initialised emulator with the same version |
| EepromEmu.ReadU32 | src/eeprom_emu.h:171-192 | a read leaves the emulator initialised |
| EepromEmu.MoveBank | src/eeprom_emu.h:92-147 | the bank move leaves a write offset on a record boundary no later than the old one |
| EepromEmu.Move | src/eeprom_emu.h:92-147 | the move switches to the other bank with a write offset no later than before |
| EepromEmu.Append | src/eeprom_emu.h:211-216 | appending stays on the bank and advances the write offset by one record |
| EepromEmu.WriteU32 | src/eeprom_emu.h:194-217 | a write leaves the emulator initialised |
| EepromEmu.InitFresh | src/eeprom_emu.h:155-164 | on a blank flash `init` marks bank 0 active with an empty log and the invariant holds |
| EepromEmu.InitMismatch | src/eeprom_emu.h:153-164 | when neither bank carries an active header for this version, whether blank or written under another version, `init` erases bank 0 if needed, marks it active and starts an empty log, and the invariant holds |
| EepromEmu.VersionMismatch | test/eeprom_emu/test_eeprom_emu.cpp:94-119 | on a flash whose banks are not active for this version, records stored under another version are invisible: a read gives its default, a write is appended to the fresh log, and reading the address back gives the value written |
| EepromEmu.FindFromCommitted | src/eeprom_emu.h:77-90 | with committed records up to `next` and erased words from there, the first free slot is `next` |
| EepromEmu.ReInit | src/eeprom_emu.h:149-166 | restarting on the flash of a consistent emulator selects the same bank and write offset again |
| EepromEmu.ReadU32Spec | src/eeprom_emu.h:171-192 | `read_u32` returns the value of the newest committed record for the address in the current bank, or the default when there is none |
| EepromEmu.WideAddressReadsDefault | src/eeprom_emu.h:183 | stored addresses are 16-bit, so an address of 2^16 or more always reads the default |
| EepromEmu.AppendSpec | src/eeprom_emu.h:211-216 | an append keeps the invariant and adds exactly one committed record to the log |
| EepromEmu.CopyRecords | src/eeprom_emu.h:94-134 | copying into an erased bank leaves exactly the copied records as its log, the rest erased, and the other bank untouched |
| EepromEmu.MarkActive | src/eeprom_emu.h:136-138 | writing BANK_MARK and VERSION makes the new bank active without touching its records |
| EepromEmu.RetireBank | src/eeprom_emu.h:143-146 | dirtying and erasing the old bank leaves the new bank alone and the old one inactive |
| EepromEmu.MoveSpec | src/eeprom_emu.h:92-147 | a bank move keeps the invariant and the new log is the survivors of the old, so every other address keeps its value |
| EepromEmu.PreviousSpec | src/eeprom_emu.h:200-202 | the comparison read with default `val + 1` equals `val` exactly when the log holds `val` for the address |
| EepromEmu.WriteU32Outcome | src/eeprom_emu.h:194-217 | a write appends nothing exactly when the address already holds the value; it overflows only when the bank is still full after the move |
| EepromEmu.WriteU32Spec | src/eeprom_emu.h:194-217 | unless it overflows, a write keeps the invariant, maps the low 16 bits of the address to the value and every other address to what it held |
| EepromEmu.ReadAfterWrite | src/eeprom_emu.h:171-217 | after a write, reading the stored address gives the value written and every other address reads as before |
| Io.SmoothKnobBetween | src/io.h:78-82 | for non-negative inputs the smoothed knob `(15 * prev + new) >> 4` lies between the previous value and the new reading |
| Io.CountPhase | src/io.h:144-165 | the counter restarts at 0 on every zero cross and otherwise counts one up; the period changes only on a zero-cross-down after an earlier crossing, to the counted ticks; the start-up flags latch |
| Io.TicksThreshold | src/io.h:205-211 | the opening threshold is a uint32 tick count |
| Io.PhaseTick | src/io.h:168-225 | the triac opens exactly when it has not opened in this half-wave, a period is known, the threshold is reached and more than the 4-tick tail is left; it closes only when open and the tail is reached; a zero cross clears both flags and drives ignition off; the state invariant (closed only after opened, nothing before a period) is kept |
| Io.Consume | src/io.h:55-119 | the voltage-reference, shunt and divider scaling is fix16 through `Fix16.Lib`, with the `int` results wrapped to 32 bits; zero-cross-up holds iff the previous voltage was 0 and the new one is positive, zero-cross-down iff the previous was positive and the new one is 0; the current is never negative after the offset; the phase advances by `count_phase` and `triac_update` |
| TriacDriver.Tick | src/triac_driver.h:25-128 | a zero cross rearms (flags cleared, ignition off, period recorded on a down crossing once a full half-period was seen); before a period is known only the counter moves; the triac opens at most once per half-wave, never within the last 4 ticks, closes only after opening, and the counter ends one higher, so it reads 1 after a crossing |
| TriacDriver.TickMatchesIo | src/triac_driver.h:25-81 | started one count ahead of `Io`, the older driver opens and closes the triac exactly when `Io` does, except that the half-period it records is one tick longer |
| TriacDriver.CrossingMatchesIo | src/triac_driver.h:107-128 | on a crossing tick `Io` leaves the counter at 0 where the older driver leaves 1, with the same triac decisions |
| TriacDriver.BetweenMatchesIo | src/triac_driver.h:51-80 | between crossings both revisions make the same triac decisions, the older one a count ahead |
| HalfWaves.StepInHalfWave | src/io.h:164-224 | a tick without a zero cross advances the counter by one, keeps the period and start-up flags, and sets each once-per-half-wave flag at most once, closing only after opening |
| HalfWaves.AtMostOncePerHalfWave | src/io.h:194-224 | over any run of ticks inside a half-wave the triac opens at most once and closes at most once and only after it opened, in both revisions |
| HalfWaves.PeriodIsHalfWaveLength | src/io.h:148-158 | an up crossing, n ticks and a down crossing record a half-period of n in `Io` and n + 1 in the older driver |
| Meter.ResetState | src/meter.h:96-108 | `reset_state` clears the crossing flag, the speed, both sums, the buffer head and the tick counter, keeps the configuration, and leaves a valid meter |
| Meter.InterpInv | src/meter.h:76-89 | the precomputed inverse widths are 1.0 for the first entry and for every bracket where the resistance table does not rise |
| Meter.Configure | src/meter.h:58-94 | `configure` stores the speed factor and the table, computes the inverse widths, and calibrates exactly when the first entry differs from the marker; the state is reset |
| Meter.BlankTableUncalibrated | src/meter.h:64-91 | an EEPROM with no stored table (every entry the marker default) leaves the meter uncalibrated and every inverse width at 1.0 |
| Meter.FlatBracketScale | src/meter.h:81-133 | in a bracket whose inverse width fell back to 1.0 the interpolation scale is the raw distance from the bracket's first setpoint |
| Meter.InverseScaleWithin | src/meter.h:130-133 | in a rising bracket narrower than 1.0, the distance times the rounded inverse width `fix16_div(1.0, width)` gives a scale in [0, 1.0] |
| Meter.ResistanceBetween | src/meter.h:117-140 | with the inverses `configure` computes, a setpoint inside the table range gives a resistance between the two entries of its bracket, up to two raw units of rounding |
| Meter.Finish | src/meter.h:212-229 | at an up crossing the speed becomes zero when the power is below the noise threshold for the samples stored, otherwise the estimate clamped at zero; the sums and the head are reset |
| Meter.SpeedTick | src/meter.h:155-230 | `speed_tick`, with the fallback corrected: speed zero until calibrated and until the first up crossing; speed changes only at an up crossing and is never negative; positive samples are stored while there is room; negative ticks replay them negated in order, then walk back from the last; the head never passes the buffer end |
| Meter.NoSpeedBeforeFirstCrossing | src/meter.h:164-173 | after a reset, ticks without an up crossing only hold the speed at zero |
| Meter.PositiveRunFills | src/meter.h:183-190 | a positive half-wave of n ticks stores min(head + n, 372) samples and leaves the tick counter alone |
| Meter.NegativeRunReplays | src/meter.h:191-196 | a negative half-wave no longer than the stored samples replays one sample per tick and keeps the head |
| Meter.AsWrittenAgrees | src/meter.h:191-199 | as long as the fallback is not reached, the code as written and the corrected meter compute the same state |
| Meter.AsWrittenFallback | src/meter.h:196-198 | the fallback as written reads the slot just past the last stored sample; a full buffer makes that slot out of bounds, and an empty one wraps the head to 2^32 - 1 |
| Meter.AsWrittenOverrunsBuffer | src/meter.h:183-199 | a 372-tick positive half-wave, a down crossing and 371 negative ticks make the next tick read `voltage_buffer[372]` as written; the corrected meter replays the last sample |
| Resistance.FindBracket | src/meter.h:124-137 | the bracket loop returns the first bracket at or after the start that holds the setpoint, or -1 when none does |
| Resistance.BracketUnique | src/meter.h:124-126 | with increasing setpoints at most one bracket holds a setpoint, so the first match is the only one |
| Resistance.BracketFound | src/meter.h:119-126 | between the first and last of increasing setpoints the loop always finds a bracket |
| Resistance.InterpolateBetween | src/meter.h:128-135 | a scale in [0, 1] keeps the interpolated value between the two entries, up to rounding; a zero scale gives the first entry exactly |
| Resistance.MotorResistance | src/meter.h:117-140 | `get_motor_resistance` returns the first entry below the first setpoint and the last entry from 1.0 on; in range it lies between its bracket's entries, by `Meter.ResistanceBetween` for the inverse-width rule and `Resistance.DividedResistanceBetween` for the division rule |
| Resistance.MotorResistanceInBracket | src/meter.h:124-136 | a setpoint in range is interpolated in the one bracket that holds it |
| Resistance.DividedResistanceBetween | src/sensors.h:246-258 | the older rule divides by the bracket width, so the result lies between the two entries of its bracket, up to rounding |
| Resistance.SetpointTablesIncrease | src/meter.h:39-47 | both setpoint tables strictly increase and end at 1.0 |
| Sensors.Initial | src/sensors.h:26-52 | the object as constructed is a valid, uncalibrated sensor with zero speed |
| Sensors.ConfigureWith | src/sensors.h:85-112 | `configure` stores the shunt inverse, the speed factor and the resistance table; it changes nothing else and does not reset the state |
| Sensors.Configure | src/sensors.h:99-111 | the calibration check, corrected: calibrated exactly when the first table entry differs from the marker converted the same way |
| Sensors.BlankTableCalibratedAsWritten | src/sensors.h:99-111 | as written, the raw fix16 slot is compared with the float marker, so a blank EEPROM whose converted marker is not one of the seven raw values that round to 123456792 is reported calibrated; the corrected check reports it uncalibrated |
| Sensors.SaturatedMarkersMissTheCheck | src/sensors.h:99-111 | the marker is far beyond the fix16 range, and neither saturated conversion result passes the check as written |
| Sensors.FetchAdcData | src/sensors.h:199-237 | `fetch_adc_data` never produces a negative current, and the knob is the 15/16 smoother applied to the filtered knob reading cut to 16 bits and scaled by 16 |
| Sensors.KnobStaysNormalised | src/sensors.h:202-214 | with 12-bit samples the smoothed knob stays within [0, 4095 * 16] |
| Sensors.Observe | src/sensors.h:71-77 | the up flag is set exactly when the previous voltage was 0 and the new one is positive, the down flag exactly when the previous was positive and the new one is 0; never both |
| Sensors.Finish | src/sensors.h:318-335 | at an up crossing the speed is zero for noise, otherwise the estimate clamped at zero; the sums and the head are reset |
| Sensors.SpeedTick | src/sensors.h:280-336 | `speed_tick`, guarded: zero speed while uncalibrated; the speed changes only at an up crossing and is never negative; positive samples are stored while there is room; negative ticks replay the sample of the same tick of the positive half-wave, negated |
| Sensors.Tick | src/sensors.h:68-82 | `tick` derives both flags from the previous and the new voltage, runs the speed step, remembers the voltage and keeps the sensor valid |
| Sensors.AsWrittenAgrees | src/sensors.h:297-305 | whenever the access of a tick lies inside the buffer, the unguarded code and the guarded one agree |
| Sensors.AsWrittenOverruns | src/sensors.h:297-305 | unguarded, a positive sample with the buffer full or a replay at the buffer end accesses `voltage_buffer[357]` |
| Sensors.PositiveStretch | src/sensors.h:297-301 | inside a positive half-wave each tick stores one sample, and while they fit the unguarded code runs as the guarded one |
| Sensors.ZeroStretch | src/sensors.h:302-305 | inside a negative half-wave each tick replays one sample, and while they fit the unguarded code runs as the guarded one |
| Sensors.LongPositiveHalfWaveOverruns | src/sensors.h:297-335 | a positive half-wave of more than 358 ticks makes the unguarded code write past the end of the buffer |
| Sensors.LongNegativeHalfWaveOverruns | src/sensors.h:289-305 | a negative half-wave of more than 357 ticks makes the unguarded code read past the end of the buffer |
| SpeedController.CorrectionTable | src/speed_controller.h:112-128 | the built table has 18 entries: 0.0, the 16 calibrated points in order, then 1.0 |
| SpeedController.DefaultPoints | src/speed_controller.h:118-126 | there is one default for each of the 16 calibrated points |
| SpeedController.DefaultTableIsIdentity | src/speed_controller.h:118-128 | with every point missing from the EEPROM, entry k of the table is the nearest fix16 of k / 17 |
| SpeedController.Configure | src/speed_controller.h:79-129 | `configure` caches the knob scale as (max - min) / (1 - dead zone), builds the correction table and keeps the controller state |
| SpeedController.CompensateWith | src/speed_controller.h:173-187 | `apply_rpm_voltage_compensation` returns 0 at or below 0.0 and 1.0 at or above 1.0, under either bracket choice |
| SpeedController.Compensate | src/speed_controller.h:173-187 | the corrected compensation, reading entries `range_idx` and `range_idx + 1`, returns 0 at or below 0.0 and 1.0 at or above 1.0 |
| SpeedController.CompensationBetween | src/speed_controller.h:179-186 | inside (0, 1) the corrected result lies between the two entries of the bracket holding the input, up to rounding |
| SpeedController.IdentityCompensationExact | src/speed_controller.h:170-187 | with the identity table the corrected compensation returns its input, within two raw units |
| SpeedController.AsWrittenCompensationLags | src/speed_controller.h:179-186 | as written, the identity table returns the input less one bracket (about 1/17): 0.5 comes back as about 0.441 |
| SpeedController.AsWrittenIndexValid | src/speed_controller.h:179-183 | as written, the read before the table's start happens exactly for inputs in (0, 1/17) |
| SpeedController.InterpolateIdentity | src/speed_controller.h:185-186 | interpolating between identity entries k and k + 1 at a scale gives (k + scale) / 17, up to rounding |
| SpeedController.SpeedPidTick | src/speed_controller.h:190-205 | `speed_pid_tick` clamps both the integral and the output to the speed limits; an integral step that stays inside them is kept unclamped |
| SpeedController.Tick | src/speed_controller.h:36-76 | `tick` counts with the 446 divider and does nothing else off the working call; on it the knob is normalised and the power is the compensated PID output; with the limiter stub at 1.0 and limits inside [0, 1] the limiter never takes over and the output stays within the limits |
| RegulatorCommon.DividerStep | src/regulator_adrc.h:44-52 | a call of the divider works exactly when the counter is zero after restarting at the divisor; a working call leaves the counter at 1, a skipping one adds 1 |
| RegulatorCommon.DividerPeriod | src/regulator_adrc.h:44-52 | from a counter in [1, divisor] the calls skip until the counter reaches the divisor, then exactly one works and the counter is 1 again: one working call in every `divisor` |
| RegulatorCommon.NormalizeKnob | src/regulator_adrc.h:142-150 | a knob below the dead zone normalises to 0 |
| RegulatorCommon.NormalizedKnobAboveMinLimit | src/regulator_adrc.h:142-150 | above the dead zone, with a non-negative scale, the normalised knob is at least the minimal speed limit |
| RegulatorAdrc.UpdateObservers | src/regulator_adrc.h:100-105 | `adrc_update_observers_parameters` sets L1 to twice Kobs * Kp and L2 to its square, through fix16 products, and changes nothing else |
| RegulatorAdrc.ObserverGainsNonNegative | src/regulator_adrc.h:100-105 | non-negative coefficients of moderate size give non-negative observer gains |
| RegulatorAdrc.ResetState | src/regulator_adrc.h:107-116 | `reset_state` zeroes both observers and the output and sets the divider to 1; the configuration, the normalised knob and the power are kept |
| RegulatorAdrc.Configure | src/regulator_adrc.h:61-96 | `configure` caches the knob scale, fixes 1/b0 at 0.2, derives the observer gains from the new coefficients and resets the state |
| RegulatorAdrc.AdrcTick | src/regulator_adrc.h:152-198 | `speed_adrc_tick` clamps the speed estimate and the output to the speed limits; an output inside them is kept with the integrated disturbance estimate; a clamped output back-calculates the estimate so that u0 - correction equals the limit divided by 1/b0 (anti-windup) |
| RegulatorAdrc.Tick | src/regulator_adrc.h:39-58 | `tick` counts with the 17 divider and does nothing else off the working call; on it the knob is normalised and the power is the ADRC output, within the speed limits |
| RegulatorAdrc.Skipping | src/regulator_adrc.h:44-50 | while the counter is below the divisor, calls only count |
| RegulatorAdrc.ResetSkipsCalls | src/regulator_adrc.h:113-115 | after `reset_state` the next 16 calls change only the counter, and the 17th runs the law, so the meter can resync |
| KnobDial.Tick | src/calibrator/calibrator_wait_knob_dial.h:29-78 | one call returns true exactly when the third pulse of the right length has just ended, and the next call then starts from the top; a rest that is too short or a pulse or gap of the wrong length restarts from the wait for the rest; a held knob only counts |
| KnobDial.Trailing | src/calibrator/calibrator_wait_knob_dial.h:40-72 | the trailing run length never exceeds the history |
| KnobDial.TrailingIsRun | src/calibrator/calibrator_wait_knob_dial.h:40-72 | the trailing run is a maximal run: its positions are all on one side and the one before it is not |
| KnobDial.TrackZero | src/calibrator/calibrator_wait_knob_dial.h:37-48 | a call in the wait for the rest keeps what that point knows about the history and never returns true |
| KnobDial.TrackUp | src/calibrator/calibrator_wait_knob_dial.h:50-64 | a call in the measure of a pulse keeps what the resume points know, and returns true only with the complete gesture |
| KnobDial.TrackDown | src/calibrator/calibrator_wait_knob_dial.h:66-75 | a call in the measure of a gap keeps what the resume points know and never returns true |
| KnobDial.TickTracks | src/calibrator/calibrator_wait_knob_dial.h:29-78 | every call keeps the invariant over the knob history, and a true result comes with the gesture at its end |
| KnobDial.ReplayTracks | src/calibrator/calibrator_wait_knob_dial.h:29-78 | the state after any history from power-up satisfies that invariant |
| KnobDial.DetectedOnlyAfterGesture | src/calibrator/calibrator_wait_knob_dial.h:29-78 | soundness: true is returned only when the history ends with a rest of at least 0.2 s and three pulses with two gaps between them, each from 0.2 s to 1 s |
| KnobDial.ReplayAppend | src/calibrator/calibrator_wait_knob_dial.h:29-30 | replaying one more position is one more call |
| KnobDial.Holding | src/calibrator/calibrator_wait_knob_dial.h:40-72 | while the knob stays on the side being measured, calls only add to the tick count |
| KnobDial.Entered | src/calibrator/calibrator_wait_knob_dial.h:40-72 | a run entered with its first position and then held ends at that measure point with one tick fewer than its length |
| KnobDial.GestureDetected | src/calibrator/calibrator_wait_knob_dial.h:29-78 | completeness: from the wait for the rest, a long enough rest and three pulses and two gaps of the right lengths make the low position after the third pulse return true |
| KnobDial.RestartsAfterSuccess | src/calibrator/calibrator_wait_knob_dial.h:62-64 | the call after a true goes back to waiting for the rest position |
| CalibratorSequence.Tick | src/calibrator/calibrator.h:21-36 | `tick` calls the stages in their fixed order from the current one, each only after the one before returned true on this tick; it stops in the first stage that has not finished, or goes back to the gesture wait after PID; it returns false exactly when it is waiting for the gesture |
| CalibratorSequence.ResumeCalls | src/calibrator/calibrator.h:30-35 | resuming at a stage makes the same calls in the same order, with the same result, from that stage on |
| CalibratorSequence.WaitsForGesture | src/calibrator/calibrator.h:21-30 | before the gesture the call returns false and only the gesture detector moves |
| CalibratorSequence.StartsOnlyAfterGesture | src/calibrator/calibrator.h:30 | the static stage is entered only on a tick whose knob history ends with the complete gesture |
| CalibratorSequence.TickKeepsValid | src/calibrator/calibrator.h:30-35 | outside the gesture wait the detector rests at its top after its last true, and every call keeps it so |
| CalibratorSequence.FinishRestarts | src/calibrator/calibrator.h:33-35 | when PID completes, the call returns false and the next call waits for a new gesture with the detector started over |
| CalibratorSwitch.Successor | src/calibrator.h:35-50 | the state a stage's success leads to is the next one on the cycle WAIT, STATIC, SPEED, PID, WAIT |
| CalibratorSwitch.SetState | src/calibrator.h:68-71 | `set_state` sets the state and clears the tick counter |
| CalibratorSwitch.Tick | src/calibrator.h:29-55 | `tick` returns false exactly while waiting for the gesture and the detector has not fired; an unfinished stage changes nothing; a finished one moves to its successor through `set_state` |
| CalibratorSwitch.RunFollowsCycle | src/calibrator.h:29-55 | over any run the state moves along the cycle by the number of finished stages, and nothing else moves it |
| CalibratorNoise.Finish | src/calibrator/calibrator_noise.h:36-46 | after the loop a zero counter is a division by zero; otherwise the offset is the unsigned quotient of the current sum by the counter, the power threshold is 4 times the sum floored at 0, and the i² threshold is twice the i² sum, each at its C width |
| CalibratorNoise.Wait | src/calibrator/calibrator_noise.h:20-28 | the wait for the up crossing always yields; once the crossing is seen the sums are cleared and the loop is entered |
| CalibratorNoise.Tick | src/calibrator/calibrator_noise.h:15-47 | `tick` writes only 0 to the setpoint (on its first call); recording starts from cleared sums on the up-crossing tick; every later call adds its sample; the down-crossing call adds its own and then stores the values |
| CalibratorNoise.RecordsSums | src/calibrator/calibrator_noise.h:30-33 | the wrapped accumulators hold the sums of the samples wrapped at the C widths: `uint16_t` counter, `int64_t` sums, `uint32_t` current |
| CalibratorNoise.RecordingRecords | src/calibrator/calibrator_noise.h:27-34 | calls between the two crossings each record their sample and stay in the loop |
| CalibratorNoise.Measurement | src/calibrator/calibrator_noise.h:15-47 | a whole half-wave stores values computed from the wrapped sums of every sample after the up crossing up to the down crossing; it divides by zero when their number is a multiple of 65536 |
| CalibratorNoise.OffsetIsMeanCurrent | src/calibrator/calibrator_noise.h:30-37 | with fewer than 65536 samples and a current sum that fits, the stored offset is the integer mean of the sampled currents |
| CalibratorStatic.Record | src/calibrator/calibrator_static.h:47-90 | a recorded sample lands at the buffer index, which then advances by one |
| CalibratorStatic.RecordPositive | src/calibrator/calibrator_static.h:84-93 | a pass of the positive-wave loop never finishes the stage: it restarts on a full buffer and yields otherwise |
| CalibratorStatic.RecordNegative | src/calibrator/calibrator_static.h:104-111 | in the negative half-wave the voltage slot gets the negated sample recorded `zero_cross_down_offset` places back, and the current slot gets this tick's current |
| CalibratorStatic.Extend | src/calibrator/calibrator_static.h:132-141 | a stable checkpoint's average fills the next slot of the table; after the slot before the last, the last slot repeats it, because the checkpoint at 1.0 is not measured |
| CalibratorStatic.Start | src/calibrator/calibrator_static.h:26-37 | the reset, the 2 s wait and the wait for a positive half-wave keep every call's promise (see `Tick`) |
| CalibratorStatic.Noise | src/calibrator/calibrator_static.h:39-52 | the noise recording keeps every call's promise |
| CalibratorStatic.Checkpoint | src/calibrator/calibrator_static.h:54-156 | the loop over checkpoints and the loop until one is stable keep every call's promise |
| CalibratorStatic.PositiveWave | src/calibrator/calibrator_static.h:71-95 | the pause, the wait for an up crossing and the positive recording keep every call's promise |
| CalibratorStatic.NegativeWave | src/calibrator/calibrator_static.h:97-128 | the negative recording, the demagnetisation and the push into the stability filter keep every call's promise |
| CalibratorStatic.Tick | src/calibrator/calibrator_static.h:23-157 | corrected, a call never writes out of bounds; it stops at a valid resume point with the setpoint at the checkpoint's value only during the positive recording and the demagnetisation; it returns true only with the whole table, the last slot a copy of the one before; short of a restart it never rewrites a slot |
| CalibratorStatic.Run | src/calibrator/calibrator_static.h:23-157 | over any run the state stays valid, and the corrected code never writes out of bounds |
| CalibratorStatic.NoiseFillsBuffer | src/calibrator/calibrator_static.h:43-50 | a positive half-wave longer than the buffer makes the noise recording as written write past its end; the corrected code restarts instead |
| CalibratorStatic.AsWrittenNoiseOverruns | src/calibrator/calibrator_static.h:35-50 | an up crossing followed by 365 ticks without a crossing overruns the noise buffers as written |
| CalibratorStatic.PauseEnds | src/calibrator/calibrator_static.h:73-90 | once the count is past the pause, the next call starts waiting for the positive half-wave, and on an up crossing starts recording it with the triac open at the checkpoint's setpoint |
| CalibratorStatic.AsWrittenPauseNeverWaits | src/calibrator/calibrator_static.h:33-73 | as written, the 2 s wait and every pause count with the same `ticks_cnt`, never reset, so every pause ends on the tick after it is reached |
| CalibratorStatic.AsWrittenSkipsPause | src/calibrator/calibrator_static.h:66-90 | as written, a rejected measurement is followed on the same tick by the next positive recording, with the triac open and no pause |
| CalibratorStatic.AsWrittenRestartSkipsWait | src/calibrator/calibrator_static.h:33-86 | as written, after a restart past the 2 s wait, the wait is skipped too |
| CalibratorStatic.CorrectedPauses | src/calibrator/calibrator_static.h:66-73 | corrected, a rejected measurement is followed by the pause, counted from its first tick, with the triac closed |
| CalibratorStatic.CorrectedPauseLasts | src/calibrator/calibrator_static.h:71-73 | corrected, the pause holds the triac closed for every tick it has left |
| CalibratorStatic.CorrectedRestartWaits | src/calibrator/calibrator_static.h:30-33 | corrected, a restart clears the table and waits the full 2 s again |
| HalfCut.Begin | src/calibrator/calibrator_pid.h:270-277 | a search starts at iteration 0 with the given attempt value and step |
| HalfCut.HalfMagnitude | src/calibrator/calibrator_pid.h:259 | halving a `fix16_t` step with C division keeps the floor of half its magnitude |
| HalfCut.Iterate | src/calibrator/calibrator_pid.h:242-261 | one iteration keeps the first iteration's measurement as the reference; the attempt moves by the whole step, up exactly when the rule says so (amplitude within the margin times the reference, or relative overshoot above the limit); the step's magnitude halves |
| HalfCut.RunStep | src/calibrator/calibrator_pid.h:182-262 | running one more iteration after a run is the same as running the longer run |
| HalfCut.RunShape | src/calibrator/calibrator_pid.h:253-261 | after n iterations the step is the initial one divided by 2^n, and the attempt has moved by less than twice the initial step, less twice the current step |
| HalfCut.RunReference | src/calibrator/calibrator_pid.h:246 | the reference is the first iteration's measurement and is kept after it |
| HalfCut.CompleteShape | src/calibrator/calibrator_pid.h:182-262 | a complete search runs seven iterations; its last step is the initial one divided by 128; its result lies strictly within twice the initial step of the start once that step is at least 2^-9 |
| HalfCut.FirstAmplitudeStepsUp | src/calibrator/calibrator_pid.h:246-257 | with a margin of at least 1.0, the first amplitude iteration compares a non-negative amplitude with a multiple of itself and steps up |
| HalfCut.FirstOvershootStepsDown | src/calibrator/calibrator_pid.h:346-359 | the first overshoot iteration compares the overshoot with itself, which leaves no relative overshoot, so with a non-negative limit it steps down |
| HalfCut.FirstUpWithin | src/calibrator/calibrator_pid.h:246-261 | an amplitude search with a positive first step moves up by it first, and the six halved steps after it cannot undo that: every later attempt stays within half the step of start + step |
| HalfCut.Windows | src/calibrator/calibrator_pid.h:218-228 | one median is taken for every complete window of 12 speed samples |
| HalfCut.WindowAt | src/calibrator/calibrator_pid.h:220-227 | window k is the median filter's result over samples 12k to 12k + 11, pushed into the reset filter |
| HalfCut.WindowsAreMedians | src/calibrator/calibrator_pid.h:220-227 | each window's value is a median of its twelve samples |
| HalfCut.Highest | src/calibrator/calibrator_pid.h:206-232 | the running maximum starts at 0 and is an upper bound of every window, equal to one of them unless it stayed 0 |
| HalfCut.Lowest | src/calibrator/calibrator_pid.h:207-236 | the running minimum starts at `fix16_maximum` and is a lower bound of every window, equal to one of them unless it stayed at the maximum |
| HalfCut.AmplitudeSign | src/calibrator/calibrator_pid.h:206-242 | for speeds in [0, `fix16_maximum`] the amplitude is negative exactly when no window of twelve samples completed, and is then `-fix16_maximum` |
| HalfCut.WindowsWithin | src/calibrator/calibrator_pid.h:220-227 | every window median of speeds in [0, hi] lies in [0, hi] |
| HalfCut.AmplitudeBound | src/calibrator/calibrator_pid.h:206-242 | with at least one complete window of speeds in [0, hi], the amplitude lies in [0, hi] |
| StartStop.LowpassBetween | src/calibrator/calibrator_pid.h:53-108 | the low-pass step stays within two raw units of the range of its two inputs |
| StartStop.BeginRecord | src/calibrator/calibrator_pid.h:88-128 | a recording loop starts with no ticks, the cyclic counter at 0 and no stored samples |
| StartStop.Record | src/calibrator/calibrator_pid.h:93-116 | every tick is counted; a sample is stored only on an up crossing; with room left and the cyclic counter at 0 exactly one is stored; the cyclic counter stays in [0, 9] and the record within 60 samples |
| StartStop.Crossings | src/calibrator/calibrator_pid.h:97 | the crossings of a run are no more than its ticks |
| StartStop.Records | src/calibrator/calibrator_pid.h:93-116 | the recorder after any run keeps the counter and length bounds |
| StartStop.RecordFollows | src/calibrator/calibrator_pid.h:97-115 | one tick keeps the recorder in step with the crossings seen: one sample per ten crossings, rounded up, at most 60; sample k is the filter's value at crossing 10k |
| StartStop.RecordsFollow | src/calibrator/calibrator_pid.h:93-118 | a whole recording loop keeps one filtered sample per ten crossings, at most 60, and counts every tick |
| StartStop.Crossing | src/calibrator/calibrator_pid.h:476-504 | the search loop finds the first sample strictly beyond the threshold (above for a rise, below for a fall), or reports that none is |
| StartStop.RiseCrossesInside | src/calibrator/calibrator_pid.h:464-483 | a record that rises by at least 14 raw units crosses the threshold strictly after its first sample |
| StartStop.FallCrossesInside | src/calibrator/calibrator_pid.h:485-504 | a record that falls by at least 14 raw units crosses the threshold strictly after its first sample |
| StartStop.ThresholdNear | src/calibrator/calibrator_pid.h:466-472 | the threshold lies within two raw units of 85% of the last sample plus 15% of the first |
| StartStop.NoCrossingNoTime | src/calibrator/calibrator_pid.h:474-515 | without a crossing in either record, the start/stop time is 0 |
| Probes.BeginAmplitude | src/calibrator/calibrator_pid.h:206-210 | the amplitude loop starts with no samples and an empty median filter |
| Probes.BeginOvershoot | src/calibrator/calibrator_pid.h:318-319 | the overshoot loop starts with no samples |
| Probes.Sample | src/calibrator/calibrator_pid.h:218-239 | a crossing adds one sample to either probe and keeps its kind |
| Probes.Samples | src/calibrator/calibrator_pid.h:212-240 | a run of crossings adds one sample each |
| Probes.Pending | src/calibrator/calibrator_pid.h:220-228 | fewer than twelve samples wait after the last complete window |
| Probes.WindowsGrow | src/calibrator/calibrator_pid.h:220-228 | one more sample extends the pending samples, or completes them into a window whose median is appended |
| Probes.AmplitudeStep | src/calibrator/calibrator_pid.h:218-239 | one crossing keeps the running probe equal to its definition over all samples so far |
| Probes.ExtremesGrow | src/calibrator/calibrator_pid.h:229-236 | the running extremes move to a new median exactly when it is beyond them |
| Probes.AmplitudeRun | src/calibrator/calibrator_pid.h:206-242 | the incremental loop computes the amplitude: the highest minus the lowest median of the complete windows |
| Probes.Peak | src/calibrator/calibrator_pid.h:319-341 | the peak starts at 0, bounds every filtered value and equals 0 or one of them |
| Probes.OvershootRun | src/calibrator/calibrator_pid.h:318-342 | the incremental loop computes the peak of the low-pass trajectory seeded by the first sample |
| SearchCalibrator.Initial | src/calibrator/calibrator_pid.h:398-454 | the member initialisers start the coroutine at its top with no results |
| SearchCalibrator.BeginProbe | src/calibrator/calibrator_pid.h:206-210 | an amplitude rule measures with the amplitude probe, an overshoot rule with the overshoot probe, both from no samples |
| SearchCalibrator.Stores | src/calibrator/calibrator_pid.h:371-378 | the final writes store each search's result under its key, in the order of the searches |
| SearchCalibrator.EnterSteady | src/calibrator/calibrator_pid.h:67-80 | the wait at low speed (setpoint 0.35) keeps every call's promise (see `Tick`) |
| SearchCalibrator.EnterRise | src/calibrator/calibrator_pid.h:82-116 | the rise recording at setpoint 0.7 keeps every call's promise |
| SearchCalibrator.EndRise | src/calibrator/calibrator_pid.h:118 | ending the rise keeps its record and every call's promise |
| SearchCalibrator.EnterFall | src/calibrator/calibrator_pid.h:120-153 | the fall recording at setpoint 0.35 keeps every call's promise |
| SearchCalibrator.EndFall | src/calibrator/calibrator_pid.h:457-516 | the start/stop time is computed from both records; an empty record is the only way a call can fail |
| SearchCalibrator.EnterFactor | src/calibrator/calibrator_adrc.h:180-201 | the speed factor is reset to 1.0 and the wait at setpoint 0.8 keeps every call's promise |
| SearchCalibrator.EndFactor | src/calibrator/calibrator_adrc.h:203-212 | the stable average divided by 0.8 is written as the speed factor and the meter reconfigured, with no gain written |
| SearchCalibrator.EnterSearch | src/calibrator/calibrator_pid.h:164-182 | the next search starts from its plan's first attempt and step; after the last one every result is written, in order, followed by `regulator.configure()` and `meter.reset_state()`, and the call returns true |
| SearchCalibrator.EnterSettle | src/calibrator/calibrator_pid.h:287-306 | each iteration first lets the motor settle under the regulator with the safe gains |
| SearchCalibrator.EnterMeasure | src/calibrator/calibrator_pid.h:201-240 | the measurement runs for `fix16_to_int(t * 50)` crossings with the candidate gain |
| SearchCalibrator.EndMeasure | src/calibrator/calibrator_pid.h:242-264 | the iteration's half-cut step is taken on the measured value; after the seventh, the result is the scaled final attempt |
| SearchCalibrator.Tick | src/calibrator/calibrator_pid.h:64-387 | every call keeps the invariant between calls; a yield happens away from the top with the drive of the point it waits at and writes no gain; the final return comes only with every search complete, each result its scaled final attempt, and the gains are written only then, in order, before the reconfiguration |
| CalibratorPid.PFirstStepUp | src/calibrator/calibrator_pid.h:242-257 | the first P iteration compares the amplitude with 1.1 times itself and raises P from 1.0 to 5.0 |
| CalibratorPid.PAttemptsWithin | src/calibrator/calibrator_pid.h:182-262 | every P attempt from the first iteration on lies within [1.0625, 8.9375] |
| CalibratorPid.PGainWithin | src/calibrator/calibrator_pid.h:264 | the calibrated P, the final attempt times 0.75, lies between about 0.797 and 6.703 |
| CalibratorPid.PScaled | src/calibrator/calibrator_pid.h:264 | scaling an attempt in [1.0625, 8.9375] by 0.75 gives a value in that range times 0.75, within one unit |
| CalibratorPid.IFirstStepDown | src/calibrator/calibrator_pid.h:344-361 | the first I iteration measures the overshoot against itself and always halves the integral time |
| CalibratorPid.IAttemptsPositive | src/calibrator/calibrator_pid.h:270-363 | with a start/stop time of at least 2^-8 s every I attempt stays within [2, 2t - 2], so the integral time the measure loop divides by is never zero |
| CalibratorPid.StepAtLeastOne | src/calibrator/calibrator_pid.h:361 | a step of at least 2^-9 halved up to seven times stays at least one raw unit |
| CalibratorPid.IMeasureDrive | src/calibrator/calibrator_pid.h:312-324 | while I is measured, the regulator targets 0.8 with the calibrated P and the attempt as integral time, which is positive for a long enough start/stop time |
| CalibratorPid.PidDone | src/calibrator/calibrator_pid.h:365-386 | the final call writes P and then I, each the scaled final attempt of its search, then reconfigures the regulator and resets the meter |
| CalibratorAdrc.FirstStepUp | src/calibrator/calibrator_adrc.h:300-313 | every ADRC search compares its first amplitude with 3.0 times itself, so its first iteration steps up |
| CalibratorAdrc.KpAttemptsWithin | src/calibrator/calibrator_adrc.h:218-318 | every Kp attempt from the first iteration on lies strictly above the minimal Kp and at most twice the Kp step above it, which puts it within [118786, 2699308] (about 1.81 to 41.19) |
| CalibratorAdrc.KpSearchConstants | src/calibrator/calibrator_adrc.h:218-318 | the minimal Kp `fix16_div(0.3, b0_inv)` is 98306 or 98307 and the Kp step `fix16_div(4.0, b0_inv)` is 1310740 or 1310741, by the rounding law of `fix16_div` |
| CalibratorAdrc.KobserversWithin | src/calibrator/calibrator_adrc.h:320-422 | every Kobservers attempt lies within [1.0625, 8.9375], and the calibrated value within about [0.6375, 5.3625] |
| CalibratorAdrc.KobserversScaled | src/calibrator/calibrator_adrc.h:422 | scaling an attempt in [1.0625, 8.9375] by 0.6 gives a value in that range times 0.6, within one unit |
| CalibratorAdrc.PCorrWithin | src/calibrator/calibrator_adrc.h:424-525 | the correction search starts at 0 but its first step always goes up to 5.0; every attempt lies within [0.078125, 9.921875], so the calibrated value is positive |
| CalibratorAdrc.PCorrScaled | src/calibrator/calibrator_adrc.h:525 | scaling an attempt in [0.078125, 9.921875] by 0.6 gives a positive value in that range times 0.6, within one unit |
| CalibratorAdrc.PCorrMeasureDrive | src/calibrator/calibrator_adrc.h:441-480 | while the correction is measured, the regulator runs with the calibrated Kp and Kobservers and the attempt as correction coefficient |
| CalibratorAdrc.AdrcDone | src/calibrator/calibrator_adrc.h:525-550 | the final call writes Kp, Kobservers and the correction, each the scaled final attempt of its search, then reconfigures the regulator and resets the meter |
| CalibratorSpeed.PresetsShape | src/calibrator/calibrator_speed.h:66-87 | the eighteen presets rise strictly and only the last reaches 1.0, so the setpoint loop runs over all of them |
| CalibratorSpeed.FindDown | src/calibrator/calibrator_speed.h:155-174 | a downward search returns the highest index below its start that passes the test, or -1 when none does |
| CalibratorSpeed.Normalized | src/calibrator/calibrator_speed.h:145-150 | every normalised speed is at most 1.0, and equals the average over the scale factor wherever that ratio does not exceed 1.0 |
| CalibratorSpeed.Normalize | src/calibrator/calibrator_speed.h:145-150 | the in-place normalisation loop computes the normalised speeds |
| CalibratorSpeed.LastLinear | src/calibrator/calibrator_speed.h:154-162 | `last_linear_point` is an index of the data: when some speed is at most 0.4 it is the last such point (every later speed is above 0.4), and 0 when no point qualifies |
| CalibratorSpeed.FirstLinear | src/calibrator/calibrator_speed.h:166-174 | `first_linear_point` lies between 0 and one past `last_linear_point` |
| CalibratorSpeed.FindLinearRange | src/calibrator/calibrator_speed.h:152-174 | the two search loops, each stopping at its first match, find the range the functional definitions describe |
| CalibratorSpeed.LinearRange | src/calibrator/calibrator_speed.h:152-174 | every point of the range is at least 0.17 and the point before it is below 0.17; every later point is above 0.4 when some point is at most 0.4; the range is empty exactly when its last point is below 0.17 |
| CalibratorSpeed.CutLeft | src/calibrator/calibrator_speed.h:176-181 | the cut moves the points from `first_linear_point` on to the front and leaves the tail of the array unchanged |
| CalibratorSpeed.Approximate | src/calibrator/calibrator_speed.h:186-276 | the seven points run from speed 0 to 1.0 with the line's setpoints at speeds 0 and 0.5 and the last three measured setpoints; points 2 and 3 split the setpoints from point 1 to point 4 into equal thirds; point 5's speed is clamped between the chord and the half-slope limit |
| CalibratorSpeed.BracketExists | src/calibrator/calibrator_speed.h:281-290 | for every table slot the search over points 5 down to 0 finds a bracket whose lower speed is below the slot's speed and whose upper speed is at or above it |
| CalibratorSpeed.Interpolated | src/calibrator/calibrator_speed.h:293 | an interpolation at a fraction in [0, 1] lies between its two ends |
| CalibratorSpeed.EntryBetween | src/calibrator/calibrator_speed.h:283-296 | each table entry lies between the setpoints of its bracket |
| CalibratorSpeed.Table | src/calibrator/calibrator_speed.h:281-300 | the table loop writes sixteen entries, from the last slot down to slot 0 |
| CalibratorSpeed.TableWritesEachSlotOnce | src/calibrator/calibrator_speed.h:281-300 | every slot of the table is written exactly once |
| CalibratorSpeed.ReverseTable | src/calibrator/calibrator_speed.h:281-300 | the nested loops write the table the functional definition describes; the inner loop always finds a bracket |
| CalibratorSpeed.Floats | src/calibrator/calibrator_speed.h:45 | the stored setpoints keep the length and the strict order of the presets |
| CalibratorSpeed.NormalizedLast | src/calibrator/calibrator_speed.h:132-149 | the last average is the scale factor, so its normalised speed is exactly 1.0 |
| CalibratorSpeed.Writes | src/calibrator/calibrator_speed.h:134-304 | `process_data` writes the scale factor, then sixteen table entries from the last slot down, then reloads the regulator and meter configuration |
| CalibratorSpeed.Process | src/calibrator/calibrator_speed.h:130-305 | `process_data` fails exactly when the scale factor is zero or fewer than three points survive the cut; otherwise it makes the nineteen writes from an anchored approximation |
| CalibratorSpeed.CutAndWrite | src/calibrator/calibrator_speed.h:176-300 | the cut, approximation and table give the nineteen writes from an anchored approximation |
| CalibratorSpeed.EnoughPoints | src/calibrator/calibrator_speed.h:164-211 | when the two presets before the last reach at least 17% of the top speed, at least three points survive the cut |
| CalibratorSpeed.TooFewPoints | src/calibrator/calibrator_speed.h:164-206 | a run that stays below 17% of the top speed until the last preset leaves one point after the cut |
| CalibratorSpeed.EmptyLinearFit | src/calibrator/calibrator_speed.h:164-192 | the linear fit can be handed no point at all, when the last point at most 0.4 is itself below 0.17 |
| CalibratorSpeed.EnterSettle | src/calibrator/calibrator_speed.h:27-37 | each preset is driven and the tracker reset, and the invariant between calls holds after the call |
| CalibratorSpeed.EndSettle | src/calibrator/calibrator_speed.h:43-48 | the average and setpoint are recorded and the loop goes on below 1.0, keeping the invariant between calls |
| CalibratorSpeed.Finish | src/calibrator/calibrator_speed.h:50-56 | after the last preset the processing writes come first, then the motor is switched off |
| CalibratorSpeed.Tick | src/calibrator/calibrator_speed.h:20-59 | every call keeps the invariant between calls; a yield drives the current preset, or 0 during the pause, and only the first pause yield carries the processing writes |
| CalibratorSpeed.PauseLasts | src/calibrator/calibrator_speed.h:53-58 | the pause yields 0 for one second of ticks and then returns true |
| CalibratorSpeed.PresetBound | src/calibrator/calibrator_speed.h:27-48 | the preset index stays below 18 while settling and the data is processed with all eighteen averages |

## Left out

- Hardware plumbing is not part of this model: `src/app.cpp`, the HAL files, and the ADC/DMA loading of samples. Only the constants `APP_TICK_FREQUENCY` (17857) and `ADC_FETCH_PER_TICK` (8) are used. Samples arrive as step inputs.
- The `YIELD` machinery (`src/yield.h`) becomes explicit resume points, as described above.
- libfixmath (`fix16_mul`, `fix16_div`, `fix16_sinusize`, `fix16_from_float`) is abstract and bound only by `Fix16.Lawful`. The model claims no exact rounding or saturation behaviour. `fix16_clamp` is written out as min/max.
- Floating-point arithmetic becomes parameters or reals. This covers:
  - `polyfit` and the spline of the speed calibrator (`CalibratorSpeed.Fits`);
  - `calculate_r` and `process_thresholds` of the static calibrator;
  - the float conversion of the start/stop time in `src/calibrator/calibrator_pid.h` (lines 480 and 501);
  - the float-to-fix16 scaling in every `configure`, including the load of `cfg_shunt_resistance_inv`.
  The speed calibrator's `process_data` runs on exact reals. Rounding of single-precision floats is not modelled.
- `read_float` and `write_float` of the EEPROM emulator are left out. They reinterpret the 32 bits of a float as a `uint32_t` and call `read_u32`/`write_u32`, which are modelled, and bit reinterpretation is not.
- Four symbols the calibrators use are not part of this model and are abstract:
  - the PID `Regulator` of `regulator.h`, with a generic state and tick;
  - the four-parameter stability tracker with `is_stable_or_exceeded`, as the pushed values since its reset plus `settled`/`average` functions;
  - `meter.cfg_min_p_sum_2e64`;
  - the `etl` cyclic value and queue.
- The output queue of `Io` is not modelled.
- TruncatedMean.TruncatedMean: models the `int` products of the second pass and of the window bound as two's-complement wrap-around. In C this signed overflow is undefined behaviour. `TruncatedMean.WideOutlierKept` shows that 16-bit samples reach it; the range lemmas assume 12-bit samples, which the firmware's ADC delivers and which do not wrap.
- Median.Result: adds the two middle `fix16_t` values on unbounded `int` before halving. In C that sum overflows, which is undefined behaviour, once it leaves the 32-bit range. The firmware feeds speeds of at most 1.0, far below that range.
- StabilityFilter.AverageMatchesHistory: adds the three `fix16_t` values on unbounded `int` before dividing. The C sum overflows only for values near the ends of the 32-bit range. The firmware pushes measured motor resistances, which stay far from those ends.
- StabilityFilter.IsStableMatchesHistory: computes the spread `max - min` and the magnitudes `-max` and `-diff` on unbounded `int`. In C these overflow only for values near the ends of the 32-bit range, which the pushed resistances do not reach.
- Meter.ResetState: says nothing about the `io.out.clear()` call, because the queue is not modelled.
- The configuration address conflicts between `src/config_map.h` and `src/app.h` are not modelled, nor the ten initialisers `src/sensors.h` gives its seven-entry array. Table lengths and addresses are constants or parameters of the model.
- Several counters are modelled as unbounded `int`s, because overflow would take a very long run:
  - the knob dial's `ticks_cnt` (more than 2^31 ticks);
  - the calibrators' attempt values, which grow by fix16 additions;
  - the product `t * 50` in the start/stop-time search.
- The ADRC calibrator's unused `ADRC_OBSERVERS_START_SETPOINT` is not modelled.
- EepromEmu.WriteU32: leaves out the case where a bank move meets 127 other live addresses plus the new one. The source then writes past the end of the bank. The model returns the `Overflowed` outcome, writes nothing, and WriteU32Spec excludes that case.
- CalibratorSpeed.Process: returns `None` in two cases where the source leaves the model's arithmetic:
  - a zero scale factor, where the float divisions give infinities;
  - fewer than three points surviving the cut, where the source reads before its arrays (`CalibratorSpeed.TooFewPoints` shows such a run).
- CalibratorSpeed.Process: claims nothing about the fit when the linear range is empty. `CalibratorSpeed.EmptyLinearFit` shows a run where the first linear point is one past the last, so `polyfit` gets zero points. Its normal equations are then singular, and the table would be written from NaN coefficients. The fits are parameters, so the model passes the empty range on and does not model NaN.

## Findings

| source | as written | input that shows it | evidently intended | confidence | as-written member | corrected member |
|---|---|---|---|---|---|---|
| src/meter.h:197 | once the stored samples are replayed, the fallback reads `voltage_buffer[voltage_buffer_head--]`, one slot past the last sample written; with a full buffer that index is 372, and with an empty buffer the head wraps to 2^32 - 1 | a positive half-wave of 372 ticks, the down-crossing tick and 371 more negative ticks; the next negative tick reads index 372 | the buffer overflow check keeps every access inside the buffer and falls back to the last stored sample | not executed | Meter.AsWrittenOverrunsBuffer | Meter.SpeedTick |
| src/sensors.h:111 | the raw fix16 slot 0 of the table is compared with the float marker 123456789.0. Only the seven raw values that round to 123456792 compare equal, and the marker itself is far outside the fix16 range (it would be 123456789 * 65536 raw) | an EEPROM with no resistance table, where `fix16_from_float` saturates the marker to INT32_MAX or INT32_MIN | the check reports a blank table as uncalibrated, comparing against the marker converted the same way as the stored slot | not executed | Sensors.BlankTableCalibratedAsWritten | Sensors.Configure |
| src/sensors.h:299,304 | positive samples are written and negative ticks read at unguarded indices into a 357-slot buffer | a positive half-wave longer than 358 ticks, or a negative one longer than 357 ticks | the buffer comment's assumption that a half-wave fits the buffer is enforced by a bounds check | not executed | Sensors.LongPositiveHalfWaveOverruns | Sensors.SpeedTick |
| src/speed_controller.h:182-183 | the bracket of a speed in [k/17, (k+1)/17) is read from entries k-1 and k, one entry too low, and entry -1 for speeds below 1/17 | the default identity table with speed 0.5, which comes back as about 0.441 | entries k and k+1 bracket the speed, so the identity table returns its input | not executed | SpeedController.AsWrittenCompensationLags | SpeedController.IdentityCompensationExact |
| src/calibrator/calibrator_static.h:46-49 | the noise recording writes `voltage_buffer[buffer_idx]` with no bounds check until the down crossing | an up crossing followed by 365 ticks without a crossing | the recording stops or restarts at the buffer end, as the positive-wave recording does | not executed | CalibratorStatic.AsWrittenNoiseOverruns | CalibratorStatic.NoiseFillsBuffer |
| src/calibrator/calibrator_static.h:33,73 | the 2 s wait and the 0.5 s pause share `ticks_cnt`, which is never reset, so after the first wait every pause ends at once, and a restart skips the 2 s wait | a checkpoint whose measurement is rejected: the next positive recording starts on the same tick, with the triac open | each pause counts from zero and holds the triac closed for its full length | not executed | CalibratorStatic.AsWrittenSkipsPause | CalibratorStatic.CorrectedPauses |

=== FILE: calibrator_adrc.dfy ===
/** `CalibratorADRC`: the shared calibration coroutine with the speed
    factor step and three amplitude searches. Kp starts at 0.3 / b0_inv
    with a step of 4.0 / b0_inv. Then Kobservers, from 1.0 with a step of
    4.0, under the calibrated Kp. Then the proportional correction
    coefficient, from 0 with a step of 5.0, under both. Each result is the
    final attempt scaled by 0.6. */
module CalibratorAdrc {
  import opened Fix16
  import HalfCut
  import Probes
  import RegulatorAdrc
  import opened SearchCalibrator

  /** `MIN_ADRC_KPdivB0` = 0.3, `MIN_ADRC_KOBSERVERS` = 1.0 and
      `MIN_ADRC_P_CORR_COEFF` = 0. */
  const MIN_KP_B0: int := 19661
  const MIN_KOBSERVERS: int := 65536
  const MIN_P_CORR: int := 0

  /** `INIT_KP_ITERATION_STEP` = `INIT_OBSERVERS_ITERATION_STEP` = 4.0 and
      `INIT_P_CORR_COEFF_ITERATION_STEP` = 5.0. */
  const KP_STEP: int := 262144
  const KOBSERVERS_STEP: int := 262144
  const P_CORR_STEP: int := 327680

  /** `ADRC_SAFETY_SCALE` = `ADRC_P_CORR_COEFF_SAFETY_SCALE` = 0.6. */
  const SAFETY_SCALE: int := 39322

  /** The regulator target of all three searches, 0.5. */
  const SETPOINT: int := 32768

  /** `MAX_AMPLITUDE` = `MAX_P_CORR_COEFF_AMPLITUDE` = 3.0. */
  const MAX_AMPLITUDE: int := 196608

  /** The Kp search, with Kobservers at 1.0 and no proportional correction;
      it settles with the minimal Kp. */
  function KpSearch(lib: Lib): SearchPlan {
    var minKp := lib.div(MIN_KP_B0, RegulatorAdrc.B0_INV);
    SearchPlan(
      AdrcKpKey,
      HalfCut.AmplitudeWithin(MAX_AMPLITUDE),
      t => minKp,
      t => lib.div(KP_STEP, RegulatorAdrc.B0_INV),
      (t, rs) => Regulated(SETPOINT, Adrc(minKp, MIN_KOBSERVERS, MIN_P_CORR)),
      (t, rs, a) => Regulated(SETPOINT, Adrc(a, MIN_KOBSERVERS, MIN_P_CORR)),
      a => lib.mul(a, SAFETY_SCALE))
  }

  /** The result of search `k`, or 0 before that search has completed. */
  function Earlier(rs: seq<int>, k: nat): int {
    if k < |rs| then rs[k] else 0
  }

  /** The Kobservers search under the calibrated Kp; it settles with the
      minimal Kobservers. */
  function KobserversSearch(lib: Lib): SearchPlan {
    SearchPlan(
      AdrcKobserversKey,
      HalfCut.AmplitudeWithin(MAX_AMPLITUDE),
      t => MIN_KOBSERVERS,
      t => KOBSERVERS_STEP,
      (t, rs) => Regulated(SETPOINT, Adrc(Earlier(rs, 0), MIN_KOBSERVERS, MIN_P_CORR)),
      (t, rs, a) => Regulated(SETPOINT, Adrc(Earlier(rs, 0), a, MIN_P_CORR)),
      a => lib.mul(a, SAFETY_SCALE))
  }

  /** The correction search under the calibrated Kp and Kobservers; it
      settles without correction. */
  function PCorrSearch(lib: Lib): SearchPlan {
    SearchPlan(
      AdrcPCorrKey,
      HalfCut.AmplitudeWithin(MAX_AMPLITUDE),
      t => MIN_P_CORR,
      t => P_CORR_STEP,
      (t, rs) => Regulated(SETPOINT, Adrc(Earlier(rs, 0), Earlier(rs, 1), MIN_P_CORR)),
      (t, rs, a) => Regulated(SETPOINT, Adrc(Earlier(rs, 0), Earlier(rs, 1), a)),
      a => lib.mul(a, SAFETY_SCALE))
  }

  /** The speed factor step, then Kp, Kobservers and the correction. */
  function AdrcPlan(lib: Lib): Plan {
    Plan(true, [KpSearch(lib), KobserversSearch(lib), PCorrSearch(lib)])
  }

  // ---------------------------------------------------------------------------
  // The searches.

  /** Every search compares its first amplitude with 3.0 times itself, so
      whatever its start and step, for a run of at least twelve speeds in
      [0, 2^13] (in fix16) its first iteration steps up. */
  lemma FirstStepUp(lib: Lib, start: int, step: int, speeds: seq<int>)
    requires Lawful(lib) && |speeds| >= HalfCut.WINDOW
    requires forall i :: 0 <= i < |speeds| ==> 0 <= speeds[i] <= 0x2000_0000
    ensures var amplitude := Probes.Value(Probes.Samples(lib, Probes.BeginAmplitude(), speeds));
      HalfCut.Iterate(lib, HalfCut.AmplitudeWithin(MAX_AMPLITUDE), HalfCut.Begin(start, step), amplitude).attempt
        == start + Abs(step)
  {
    Probes.AmplitudeRun(lib, speeds);
    HalfCut.AmplitudeBound(speeds, 0x2000_0000);
    if step != 0 {
      HalfCut.FirstAmplitudeStepsUp(lib, 196608, HalfCut.Begin(start, step), HalfCut.Amplitude(speeds));
    }
  }

  /** `fix16_div` rounds to within one raw unit, so the minimal Kp
      `fix16_div(0.3, b0_inv)` is 98306 or 98307 (about 1.5) and the Kp
      step `fix16_div(4.0, b0_inv)` is 1310740 or 1310741 (about 20.0). */
  lemma KpSearchConstants(lib: Lib)
    requires Lawful(lib)
    ensures 98306 <= lib.div(MIN_KP_B0, RegulatorAdrc.B0_INV) <= 98307
    ensures 1310740 <= lib.div(KP_STEP, RegulatorAdrc.B0_INV) <= 1310741
  {
    DivClose(lib, MIN_KP_B0, RegulatorAdrc.B0_INV);
    DivClose(lib, KP_STEP, RegulatorAdrc.B0_INV);
  }

  /** Every Kp attempt from the first iteration on lies above the minimal
      Kp, and at most twice the step above it; in numbers, within
      [118786, 2699308], about [1.81, 41.19]. */
  lemma KpAttemptsWithin(lib: Lib, t: int, ms: seq<int>)
    requires Lawful(lib) && 1 <= |ms| <= HalfCut.ITERATIONS
    requires 0 <= ms[0] <= 0x2000_0000
    ensures var sp := KpSearch(lib);
      var step := sp.step(t);
      var a := HalfCut.Run(lib, sp.rule, HalfCut.Begin(sp.start(t), step), ms).attempt;
      && sp.start(t) < a <= sp.start(t) + 2 * step
      && 118786 <= a <= 2699308
  {
    var sp := KpSearch(lib);
    var step := sp.step(t);
    KpSearchConstants(lib);
    assert sp.rule == HalfCut.AmplitudeWithin(196608);
    HalfCut.FirstUpWithin(lib, 196608, sp.start(t), step, ms);
    HalfCut.HalfStepBounds(step);
    if step == 1310740 {
      assert step / 2 / 64 == 10240;
    } else {
      assert step / 2 / 64 == 10240;
    }
  }

  /** Every Kobservers attempt from the first iteration on lies within
      [1.0625, 8.9375], so the calibrated value lies within about
      [0.6375, 5.3625]. */
  lemma KobserversWithin(e: Env, t: int, ms: seq<int>)
    requires Lawful(e.lib) && |ms| == HalfCut.ITERATIONS
    requires 0 <= ms[0] <= 0x2000_0000
    ensures var sp := KobserversSearch(e.lib);
      69632 <= HalfCut.Complete(e.lib, sp.rule, sp.start(t), sp.step(t), ms).attempt <= 585728
    ensures 41778 < Result(e, KobserversSearch(e.lib), t, ms) < 351442
  {
    var sp := KobserversSearch(e.lib);
    HalfCut.FirstUpWithin(e.lib, 196608, 65536, 262144, ms);
    var a := HalfCut.Complete(e.lib, sp.rule, sp.start(t), sp.step(t), ms).attempt;
    assert a == HalfCut.Run(e.lib, sp.rule, HalfCut.Begin(65536, 262144), ms).attempt;
    KobserversScaled(e.lib, a);
  }

  lemma KobserversScaled(lib: Lib, a: int)
    requires Lawful(lib) && 69632 <= a <= 585728
    ensures 41778 < lib.mul(a, SAFETY_SCALE) < 351442
  {
    assert 65536 * 41779 <= a * 39322 <= 65536 * 351441;
    MulClose(lib, a, 39322, 41779, 351441);
  }

  /** The correction search starts at 0 but its first step always goes up
      to 5.0, and the six steps after it stay below 5.0 together: every
      attempt from the first iteration on is positive, within
      [0.078125, 9.921875], and the calibrated value is positive. */
  lemma PCorrWithin(e: Env, t: int, ms: seq<int>)
    requires Lawful(e.lib) && |ms| == HalfCut.ITERATIONS
    requires 0 <= ms[0] <= 0x2000_0000
    ensures var sp := PCorrSearch(e.lib);
      5120 <= HalfCut.Complete(e.lib, sp.rule, sp.start(t), sp.step(t), ms).attempt <= 650240
    ensures 3071 < Result(e, PCorrSearch(e.lib), t, ms) < 390149
  {
    var sp := PCorrSearch(e.lib);
    HalfCut.FirstUpWithin(e.lib, 196608, 0, 327680, ms);
    var a := HalfCut.Complete(e.lib, sp.rule, sp.start(t), sp.step(t), ms).attempt;
    assert a == HalfCut.Run(e.lib, sp.rule, HalfCut.Begin(0, 327680), ms).attempt;
    PCorrScaled(e.lib, a);
  }

  lemma PCorrScaled(lib: Lib, a: int)
    requires Lawful(lib) && 5120 <= a <= 650240
    ensures 3071 < lib.mul(a, SAFETY_SCALE) < 390149
  {
    assert 65536 * 3072 <= a * 39322 <= 65536 * 390148;
    MulClose(lib, a, 39322, 3072, 390148);
  }

  // ---------------------------------------------------------------------------
  // The calibrator.

  /** While the correction search measures, the regulator runs with the
      calibrated Kp and Kobservers, the scaled results of the two searches
      before it, and the current attempt as correction coefficient. */
  lemma PCorrMeasureDrive(e: Env, c: Calibrator)
    requires Valid(e, c) && e.plan == AdrcPlan(e.lib) && c.at == Measure && c.search == 2
    ensures |c.trials| == 2 && |c.trials[0]| == |c.trials[1]| == HalfCut.ITERATIONS
    ensures DriveAt(e, c) ==
      Regulated(SETPOINT, Adrc(Result(e, KpSearch(e.lib), c.time, c.trials[0]),
                               Result(e, KobserversSearch(e.lib), c.time, c.trials[1]), c.s.attempt))
  {
    assert e.plan.searches[0] == KpSearch(e.lib) && e.plan.searches[1] == KobserversSearch(e.lib);
  }

  /** The final call writes Kp, Kobservers and the correction coefficient,
      each the scaled final attempt of its search, and then reconfigures
      the regulator and the meter. */
  lemma AdrcDone(e: Env, c: Calibrator, x: Input)
    requires Valid(e, c) && e.plan == AdrcPlan(e.lib)
    requires Tick(e, c, x).Some? && Tick(e, c, x).value.1.Done?
    ensures var (d, out) := Tick(e, c, x).value;
      var fx := out.effects;
      && |d.trials| == 3 && (forall k :: 0 <= k < 3 ==> |d.trials[k]| == HalfCut.ITERATIONS)
      && |fx| >= 5
      && fx[|fx| - 5..] == [
           Store(AdrcKpKey, Result(e, KpSearch(e.lib), d.time, d.trials[0])),
           Store(AdrcKobserversKey, Result(e, KobserversSearch(e.lib), d.time, d.trials[1])),
           Store(AdrcPCorrKey, Result(e, PCorrSearch(e.lib), d.time, d.trials[2])),
           ConfigureRegulator, ResetMeter]
  {
    var (d, out) := Tick(e, c, x).value;
    DoneFinished(e, Tick(e, c, x));
    AdrcStores(e, d, out.effects);
  }

  lemma AdrcStores(e: Env, d: Calibrator, fx: seq<Effect>)
    requires e.plan == AdrcPlan(e.lib) && Finished(e, d, fx)
    ensures && |d.trials| == 3 && (forall k :: 0 <= k < 3 ==> |d.trials[k]| == HalfCut.ITERATIONS)
      && |fx| >= 5
      && fx[|fx| - 5..] == [
           Store(AdrcKpKey, Result(e, KpSearch(e.lib), d.time, d.trials[0])),
           Store(AdrcKobserversKey, Result(e, KobserversSearch(e.lib), d.time, d.trials[1])),
           Store(AdrcPCorrKey, Result(e, PCorrSearch(e.lib), d.time, d.trials[2])),
           ConfigureRegulator, ResetMeter]
  {
    var ss := e.plan.searches;
    assert ss[0] == KpSearch(e.lib) && ss[1] == KobserversSearch(e.lib) && ss[2] == PCorrSearch(e.lib);
    var st := Stores(ss, d.results);
    assert fx[|fx| - 5..] == st + [ConfigureRegulator, ResetMeter];
  }
}

=== FILE: calibrator_noise.dfy ===
/** `CalibratorNoise`: with the triac closed, integrate voltage times current,
    current squared and current over one positive half-wave; store the mean
    current as the op-amp offset and multiples of the power and i² sums as
    the noise thresholds. The coroutine is modelled by its resume point and
    its accumulators, each wrapped at its C width. */
module CalibratorNoise {
  import opened Fix16

  const UINT16_LIMIT: int := 0x1_0000
  const UINT64_LIMIT: int := 0x1_0000_0000_0000_0000
  const INT64_MAX: int := 0x7FFF_FFFF_FFFF_FFFF

  /** Wrap-around of `uint16_t` (`acc_counter`). */
  function U16(x: int): (r: int)
    ensures 0 <= r < UINT16_LIMIT
    ensures 0 <= x < UINT16_LIMIT ==> r == x
  {
    x % UINT16_LIMIT
  }

  /** Wrap-around of `int64_t` (the power and i² sums). */
  function I64(x: int): (r: int)
    ensures -INT64_MAX - 1 <= r <= INT64_MAX
    ensures -INT64_MAX - 1 <= x <= INT64_MAX ==> r == x
  {
    var u := x % UINT64_LIMIT;
    if u > INT64_MAX then u - UINT64_LIMIT else u
  }

  lemma U16Add(x: int, y: int)
    ensures U16(U16(x) + y) == U16(x + y)
  {
    var q := x / UINT16_LIMIT;
    assert x == q * UINT16_LIMIT + U16(x);
    assert U16(x) + y == (x + y) - q * UINT16_LIMIT;
  }

  lemma I64Add(x: int, y: int)
    ensures I64(I64(x) + y) == I64(x + y)
  {
    var q := x / UINT64_LIMIT;
    var u := x % UINT64_LIMIT;
    assert x == q * UINT64_LIMIT + u;
    if u > INT64_MAX {
      assert I64(x) + y == (x + y) - (q + 1) * UINT64_LIMIT;
    } else {
      assert I64(x) + y == (x + y) - q * UINT64_LIMIT;
    }
  }

  /** Where the next call resumes: the top (the call sets the setpoint to 0),
      the wait for `zero_cross_up`, or the recording loop after its YIELD. */
  datatype Point = Top | WaitUp | Record

  /** `acc_counter`, `acc_p_sum_2e64`, `acc_i2_sum_2e64` and `acc_i_sum`. */
  datatype Noise = Noise(at: Point, counter: int, pSum: int, i2Sum: int, iSum: int)

  datatype Input = Input(voltage: int, current: int, zeroCrossUp: bool, zeroCrossDown: bool)

  /** The stored values: `io.cfg_current_offset`, `meter.cfg_min_p_sum_2e64`
      and `meter.cfg_min_i2_sum_2e64`. */
  datatype Thresholds = Thresholds(currentOffset: int, minPSum: int, minI2Sum: int)

  /** A call yields with the next state and the value of `io.setpoint`
      after it, returns true with the stored values (the setpoint is not
      written then), or divides by a zero counter. */
  datatype Call =
    | Yielded(next: Noise, setpoint: int)
    | Finished(result: Thresholds)
    | DivisionByZero

  /** One pass of the loop body: the sample is added to every sum. */
  function Accumulate(n: Noise, x: Input): (r: Noise)
    ensures r.at == n.at
  {
    n.(pSum := I64(n.pSum + Power(x)),
       i2Sum := I64(n.i2Sum + Square(x)),
       iSum := U32(n.iSum + x.current),
       counter := U16(n.counter + 1))
  }

  /** Unsigned division of a `uint32_t` value by a positive counter. */
  function UDiv(a: int, b: int): (q: int)
    requires 0 <= a < UINT32_LIMIT && 0 < b
    ensures 0 <= q <= a
  {
    DivBound(a, b);
    a / b
  }

  lemma DivBound(a: int, b: int)
    requires 0 <= a && 0 < b
    ensures 0 <= a / b <= a
  {
    DivRemainder(a, b);
    MulAtLeast(a / b, b);
  }

  lemma MulAtLeast(q: int, b: int)
    requires 0 <= q && 1 <= b
    ensures q <= q * b
  {
    assert q * b == q * (b - 1) + q;
  }

  /** After the loop: the offset is the unsigned quotient of the current sum
      by the counter, converted to `fix16_t`; the power sum is floored at 0
      and multiplied by 4, the i² sum by 2. */
  function Finish(n: Noise): (r: Call)
    requires 0 <= n.counter
    ensures r.DivisionByZero? <==> n.counter == 0
    ensures r.Finished? ==>
      r.result.currentOffset == ToSigned(UDiv(U32(n.iSum), n.counter)) &&
      r.result.minPSum == I64(4 * Max(n.pSum, 0)) &&
      r.result.minI2Sum == I64(2 * n.i2Sum)
  {
    if n.counter == 0 then DivisionByZero
    else
      var p := if n.pSum < 0 then 0 else n.pSum;
      Finished(Thresholds(ToSigned(UDiv(U32(n.iSum), n.counter)), I64(p * 4), I64(n.i2Sum * 2)))
  }

  /** The wait for `zero_cross_up`; once seen, the accumulators are cleared
      and the loop is entered, which yields at once because the two
      zero-cross flags exclude each other. */
  function Wait(n: Noise, x: Input, setpoint: int): (r: Call)
    requires !(x.zeroCrossUp && x.zeroCrossDown)
    ensures r.Yielded?
  {
    if !x.zeroCrossUp then Yielded(n.(at := WaitUp), setpoint)
    else Yielded(Noise(Record, 0, 0, 0, 0), setpoint)
  }

  /** `tick(io_data)`, with `setpoint` the value of `io.setpoint` before the
      call. The zero-cross flags come from the I/O layer, which never sets
      both on one tick. */
  function Tick(n: Noise, x: Input, setpoint: int): (r: Call)
    requires !(x.zeroCrossUp && x.zeroCrossDown)
    // the stage holds the triac closed: it writes only 0 to the setpoint
    ensures r.Yielded? ==> r.setpoint == (if n.at == Top then 0 else setpoint)
    ensures r.Yielded? ==> r.next.at != Top
    // recording starts from cleared sums on the zero_cross_up tick
    ensures n.at != Record && x.zeroCrossUp ==> r.Yielded? && r.next == Noise(Record, 0, 0, 0, 0)
    ensures n.at != Record && !x.zeroCrossUp ==> r.Yielded? && r.next.at == WaitUp && r.next.counter == n.counter
    // a recording call adds its sample, and the zero_cross_down call ends it
    ensures n.at == Record && !x.zeroCrossDown ==> r == Yielded(Accumulate(n, x), setpoint)
    ensures n.at == Record && x.zeroCrossDown ==> r == Finish(Accumulate(n, x))
  {
    match n.at
    case Top => Wait(n, x, 0)
    case WaitUp => Wait(n, x, setpoint)
    case Record =>
      var n1 := Accumulate(n, x);
      if !x.zeroCrossDown then Yielded(n1, setpoint) else Finish(n1)
  }

  // ---------------------------------------------------------------------------
  // The measurement against the samples of the half-wave.

  function Power(x: Input): int {
    x.voltage * x.current
  }

  function Square(x: Input): int {
    x.current * x.current
  }

  function SumCurrent(xs: seq<Input>): int
    decreases |xs|
  {
    if |xs| == 0 then 0 else SumCurrent(xs[..|xs| - 1]) + xs[|xs| - 1].current
  }

  function SumSquare(xs: seq<Input>): int
    decreases |xs|
  {
    if |xs| == 0 then 0 else SumSquare(xs[..|xs| - 1]) + Square(xs[|xs| - 1])
  }

  function SumPower(xs: seq<Input>): int
    decreases |xs|
  {
    if |xs| == 0 then 0 else SumPower(xs[..|xs| - 1]) + Power(xs[|xs| - 1])
  }

  /** The accumulators after the loop body ran once for every sample of
      `xs`. */
  function Records(n: Noise, xs: seq<Input>): Noise
    decreases |xs|
  {
    if |xs| == 0 then n else Accumulate(Records(n, xs[..|xs| - 1]), xs[|xs| - 1])
  }

  /** Every accumulator holds a value of its C type. */
  predicate Wrapped(n: Noise) {
    0 <= n.counter < UINT16_LIMIT && 0 <= n.iSum < UINT32_LIMIT &&
    -INT64_MAX - 1 <= n.pSum <= INT64_MAX && -INT64_MAX - 1 <= n.i2Sum <= INT64_MAX
  }

  /** The wrapped accumulators hold the wrapped sums of the samples. */
  lemma {:induction false} RecordsSums(n: Noise, xs: seq<Input>)
    requires Wrapped(n)
    ensures Records(n, xs) == n.(counter := U16(n.counter + |xs|),
                                 pSum := I64(n.pSum + SumPower(xs)),
                                 i2Sum := I64(n.i2Sum + SumSquare(xs)),
                                 iSum := U32(n.iSum + SumCurrent(xs)))
    decreases |xs|
  {
    RecordsKeep(n, xs);
    RecordsCounter(n, xs);
    RecordsPower(n, xs);
    RecordsSquare(n, xs);
    RecordsCurrent(n, xs);
  }

  /** Recording changes the four accumulators only. */
  lemma {:induction false} RecordsKeep(n: Noise, xs: seq<Input>)
    ensures var m := Records(n, xs);
      m == n.(counter := m.counter, pSum := m.pSum, i2Sum := m.i2Sum, iSum := m.iSum)
    decreases |xs|
  {
    if |xs| > 0 {
      RecordsKeep(n, xs[..|xs| - 1]);
    }
  }

  lemma {:induction false} RecordsCounter(n: Noise, xs: seq<Input>)
    requires 0 <= n.counter < UINT16_LIMIT
    ensures Records(n, xs).counter == U16(n.counter + |xs|)
    decreases |xs|
  {
    if |xs| > 0 {
      var xs1 := xs[..|xs| - 1];
      RecordsCounter(n, xs1);
      U16Add(n.counter + |xs1|, 1);
    }
  }

  lemma {:induction false} RecordsPower(n: Noise, xs: seq<Input>)
    requires -INT64_MAX - 1 <= n.pSum <= INT64_MAX
    ensures Records(n, xs).pSum == I64(n.pSum + SumPower(xs))
    decreases |xs|
  {
    if |xs| > 0 {
      var xs1 := xs[..|xs| - 1];
      RecordsPower(n, xs1);
      I64Add(n.pSum + SumPower(xs1), Power(xs[|xs| - 1]));
    }
  }

  lemma {:induction false} RecordsSquare(n: Noise, xs: seq<Input>)
    requires -INT64_MAX - 1 <= n.i2Sum <= INT64_MAX
    ensures Records(n, xs).i2Sum == I64(n.i2Sum + SumSquare(xs))
    decreases |xs|
  {
    if |xs| > 0 {
      var xs1 := xs[..|xs| - 1];
      RecordsSquare(n, xs1);
      I64Add(n.i2Sum + SumSquare(xs1), Square(xs[|xs| - 1]));
    }
  }

  lemma {:induction false} RecordsCurrent(n: Noise, xs: seq<Input>)
    requires 0 <= n.iSum < UINT32_LIMIT
    ensures Records(n, xs).iSum == U32(n.iSum + SumCurrent(xs))
    decreases |xs|
  {
    if |xs| > 0 {
      var xs1 := xs[..|xs| - 1];
      RecordsCurrent(n, xs1);
      U32Add(n.iSum + SumCurrent(xs1), xs[|xs| - 1].current);
    }
  }

  /** The calls between the `zero_cross_up` tick and the `zero_cross_down`
      tick: every one of them records its sample. */
  function Recording(n: Noise, xs: seq<Input>): Noise
    requires forall i :: 0 <= i < |xs| ==> !xs[i].zeroCrossDown && !xs[i].zeroCrossUp
    decreases |xs|
  {
    if |xs| == 0 then n
    else Tick(Recording(n, xs[..|xs| - 1]), xs[|xs| - 1], 0).next
  }

  lemma {:induction false} RecordingRecords(n: Noise, xs: seq<Input>)
    requires n.at == Record
    requires forall i :: 0 <= i < |xs| ==> !xs[i].zeroCrossDown && !xs[i].zeroCrossUp
    ensures Recording(n, xs) == Records(n, xs) && Recording(n, xs).at == Record
    decreases |xs|
  {
    if |xs| > 0 {
      RecordingRecords(n, xs[..|xs| - 1]);
    }
  }

  /** A whole measurement: the `zero_cross_up` call clears the sums, every
      later call up to and including the `zero_cross_down` call adds its
      sample, and the last call stores the thresholds computed from the
      wrapped sums of those samples (or divides by zero when their number is
      a multiple of 65536). */
  lemma {:induction false} Measurement(n: Noise, up: Input, xs: seq<Input>, last: Input, setpoint: int)
    requires n.at != Record && up.zeroCrossUp && !up.zeroCrossDown
    requires forall i :: 0 <= i < |xs| ==> !xs[i].zeroCrossDown && !xs[i].zeroCrossUp
    requires last.zeroCrossDown && !last.zeroCrossUp
    ensures var all := xs + [last];
      var r := Tick(Recording(Tick(n, up, setpoint).next, xs), last, 0);
      (U16(|all|) == 0 ==> r.DivisionByZero?) &&
      (U16(|all|) != 0 ==>
         (r.Finished? &&
          r.result.currentOffset == ToSigned(UDiv(U32(SumCurrent(all)), U16(|all|))) &&
          r.result.minPSum == I64(4 * Max(I64(SumPower(all)), 0)) &&
          r.result.minI2Sum == I64(2 * I64(SumSquare(all)))))
  {
    var all := xs + [last];
    var n0 := Noise(Record, 0, 0, 0, 0);
    assert Tick(n, up, setpoint).next == n0;
    RecordingRecords(n0, xs);
    var n1 := Recording(n0, xs);
    assert n1 == Records(n0, xs);
    assert all[..|all| - 1] == xs;
    var n2 := Records(n0, all);
    assert n2 == Accumulate(n1, last);
    RecordsSums(n0, all);
    assert n2.counter == U16(|all|) && n2.iSum == U32(SumCurrent(all));
    assert n2.pSum == I64(SumPower(all)) && n2.i2Sum == I64(SumSquare(all));
  }

  /** With non-negative currents (the I/O layer clamps them at 0), fewer
      than 65536 samples and a current sum that fits `fix16_t`, the counter
      is at least 1 at the division and the offset is the integer mean of
      the sampled currents. */
  lemma {:induction false} OffsetIsMeanCurrent(n: Noise, up: Input, xs: seq<Input>, last: Input, setpoint: int)
    requires n.at != Record && up.zeroCrossUp && !up.zeroCrossDown
    requires forall i :: 0 <= i < |xs| ==> !xs[i].zeroCrossDown && !xs[i].zeroCrossUp
    requires last.zeroCrossDown && !last.zeroCrossUp
    requires |xs| + 1 < UINT16_LIMIT && 0 <= SumCurrent(xs + [last]) <= INT32_MAX
    ensures var r := Tick(Recording(Tick(n, up, setpoint).next, xs), last, 0);
      r.Finished? && r.result.currentOffset == SumCurrent(xs + [last]) / (|xs| + 1)
  {
    Measurement(n, up, xs, last, setpoint);
    var k := |xs| + 1;
    var sum := SumCurrent(xs + [last]);
    assert U16(k) == k && U32(sum) == sum;
  }
}

=== FILE: calibrator_pid.dfy ===
/** `CalibratorPID`: the shared calibration coroutine with two searches.
    The first picks `PID_P` from the speed oscillation amplitude, starting
    at 1.0 with a step of 4.0. The second picks `PID_I` from the overshoot
    of a step response, starting at the motor start/stop time with a step
    of minus half of it. The P result is scaled by 0.75 and the I result
    divided by 0.75. */
module CalibratorPid {
  import opened Fix16
  import HalfCut
  import Probes
  import opened SearchCalibrator

  /** `MIN_P` = 1.0 and `INIT_P_ITERATION_STEP` = 4.0. */
  const MIN_P: int := 65536
  const P_STEP: int := 262144

  /** `PID_SAFETY_SCALE` = 0.75. */
  const SAFETY_SCALE: int := 49152

  /** `PID_P_SETPOINT` = `PID_I_START_SETPOINT` = 0.3 and
      `PID_I_OVERSHOOT_SETPOINT` = 0.8. */
  const P_SETPOINT: int := 19661
  const I_START_SETPOINT: int := 19661
  const I_OVERSHOOT_SETPOINT: int := 52429

  /** `MAX_AMPLITUDE` = 1.1 and `MAX_OVERSHOOT` = 0.15. */
  const MAX_AMPLITUDE: int := 72090
  const MAX_OVERSHOOT: int := 9830

  /** `F16(1.0 / APP_PID_FREQUENCY)` with the regulator at 40 Hz. */
  const PERIOD: int := 1638

  /** The P search. `cfg_pid_i_inv` = 1/40 divided by the start/stop time
      is set once before it and stays in force in both loops; the settle
      loop runs with P = 1.0, the measure loop with the attempt. */
  function PSearch(lib: Lib): SearchPlan {
    SearchPlan(
      PidPKey,
      HalfCut.AmplitudeWithin(MAX_AMPLITUDE),
      t => MIN_P,
      t => P_STEP,
      (t, rs) => Regulated(P_SETPOINT, Pid(MIN_P, lib.div(PERIOD, t))),
      (t, rs, a) => Regulated(P_SETPOINT, Pid(a, lib.div(PERIOD, t))),
      a => lib.mul(a, SAFETY_SCALE))
  }

  /** The I search. It settles at 0.3 with P = 1.0 and the integral time at
      half the start/stop time, then measures the step to 0.8 with the
      calibrated P and the attempt as integral time. */
  function ISearch(lib: Lib): SearchPlan {
    SearchPlan(
      PidIKey,
      HalfCut.OvershootAbove(MAX_OVERSHOOT),
      t => t,
      t => -CDiv(t, 2),
      (t, rs) => Regulated(I_START_SETPOINT, Pid(MIN_P, lib.div(PERIOD, CDiv(t, 2)))),
      (t, rs, a) => Regulated(I_OVERSHOOT_SETPOINT, Pid(if |rs| > 0 then rs[0] else 0, lib.div(PERIOD, a))),
      a => lib.div(a, SAFETY_SCALE))
  }

  /** No speed factor step; P, then I. */
  function PidPlan(lib: Lib): Plan {
    Plan(false, [PSearch(lib), ISearch(lib)])
  }

  // ---------------------------------------------------------------------------
  // The P search.

  /** The first P iteration compares the amplitude with 1.1 times itself,
      so for any run of at least twelve speeds in [0, 2^14] (in fix16) it
      raises P from 1.0 to 5.0. */
  lemma PFirstStepUp(lib: Lib, speeds: seq<int>)
    requires Lawful(lib) && |speeds| >= HalfCut.WINDOW
    requires forall i :: 0 <= i < |speeds| ==> 0 <= speeds[i] <= 0x4000_0000
    ensures var amplitude := Probes.Value(Probes.Samples(lib, Probes.BeginAmplitude(), speeds));
      HalfCut.Iterate(lib, PSearch(lib).rule, HalfCut.Begin(MIN_P, P_STEP), amplitude).attempt == 327680
  {
    Probes.AmplitudeRun(lib, speeds);
    HalfCut.AmplitudeBound(speeds, 0x4000_0000);
    var amplitude := HalfCut.Amplitude(speeds);
    HalfCut.FirstAmplitudeStepsUp(lib, 72090, HalfCut.Begin(65536, 262144), amplitude);
  }

  /** Once the first step has gone up, the remaining six steps (2.0 down to
      0.0625) cannot bring P back below 1.0625 nor above 8.9375: every
      attempt of the P search, and its final one, lies in that range. */
  lemma PAttemptsWithin(lib: Lib, t: int, ms: seq<int>)
    requires Lawful(lib) && 1 <= |ms| <= HalfCut.ITERATIONS
    requires 0 <= ms[0] <= 0x4000_0000
    ensures var sp := PSearch(lib);
      69632 <= HalfCut.Run(lib, sp.rule, HalfCut.Begin(sp.start(t), sp.step(t)), ms).attempt <= 585728
  {
    var sp := PSearch(lib);
    assert sp.rule == HalfCut.AmplitudeWithin(72090) && sp.start(t) == 65536 && sp.step(t) == 262144;
    HalfCut.FirstUpWithin(lib, 72090, 65536, 262144, ms);
    assert 262144 / 2 == 131072 && 131072 / 64 == 2048;
  }

  /** The calibrated P is the final attempt times 0.75, within one unit in
      the last place: between about 0.797 and 6.703. */
  lemma PGainWithin(e: Env, t: int, ms: seq<int>)
    requires Lawful(e.lib) && |ms| == HalfCut.ITERATIONS
    requires 0 <= ms[0] <= 0x4000_0000
    ensures 52223 < Result(e, PSearch(e.lib), t, ms) < 439297
  {
    var sp := PSearch(e.lib);
    PAttemptsWithin(e.lib, t, ms);
    var a := HalfCut.Complete(e.lib, sp.rule, sp.start(t), sp.step(t), ms).attempt;
    assert a == HalfCut.Run(e.lib, sp.rule, HalfCut.Begin(sp.start(t), sp.step(t)), ms).attempt;
    PScaled(e.lib, a);
  }

  lemma PScaled(lib: Lib, a: int)
    requires Lawful(lib) && 69632 <= a <= 585728
    ensures 52223 < lib.mul(a, SAFETY_SCALE) < 439297
  {
    assert 65536 * 52224 <= a * 49152 <= 65536 * 439296;
    MulClose(lib, a, 49152, 52224, 439296);
  }

  // ---------------------------------------------------------------------------
  // The I search.

  /** The first I iteration's overshoot is measured against itself, so it
      always halves the integral time: from `t` to `t - |t| / 2`. */
  lemma IFirstStepDown(lib: Lib, t: int, overshoot: int)
    requires Lawful(lib)
    ensures var sp := ISearch(lib);
      HalfCut.Iterate(lib, sp.rule, HalfCut.Begin(sp.start(t), sp.step(t)), overshoot).attempt == t - Abs(t) / 2
  {
    var s := HalfCut.Begin(t, -CDiv(t, 2));
    HalfCut.HalfMagnitude(t);
    assert Abs(s.step) == Abs(t) / 2;
    if s.step != 0 {
      HalfCut.FirstOvershootStepsDown(lib, 9830, s, overshoot);
    }
  }

  /** With a start/stop time of at least 2^-8 s, every attempt of the I
      search stays within `[2, 2t - 2]`, so the integral time the measure
      loop divides by is never zero. */
  lemma IAttemptsPositive(lib: Lib, t: int, ms: seq<int>)
    requires 256 <= t && |ms| <= HalfCut.ITERATIONS
    ensures var sp := ISearch(lib);
      var a := HalfCut.Run(lib, sp.rule, HalfCut.Begin(sp.start(t), sp.step(t)), ms).attempt;
      2 <= a <= 2 * t - 2
  {
    var sp := ISearch(lib);
    var s := HalfCut.Begin(t, -CDiv(t, 2));
    HalfCut.HalfMagnitude(t);
    assert Abs(s.step) == t / 2 >= 128;
    HalfCut.RunShape(lib, sp.rule, s, ms);
    StepAtLeastOne(t / 2, |ms|);
  }

  lemma StepAtLeastOne(step: int, k: int)
    requires 0 <= k <= 7 && 128 <= step
    ensures step / Pow2(k) >= 1
  {
    if k == 7 {
      assert Pow2(7) == 128;
    } else {
      HalfCut.StepFloor(step, k, 2);
    }
  }

  // ---------------------------------------------------------------------------
  // The calibrator.

  /** While the I search measures, the regulator runs with the calibrated
      P (the P search's scaled result) and the current attempt as integral
      time, which is positive once the start/stop time is at least 2^-8 s. */
  lemma IMeasureDrive(e: Env, c: Calibrator)
    requires Valid(e, c) && e.plan == PidPlan(e.lib) && c.at == Measure && c.search == 1
    ensures |c.trials| >= 1 && |c.trials[0]| == HalfCut.ITERATIONS
    ensures DriveAt(e, c) ==
      Regulated(I_OVERSHOOT_SETPOINT, Pid(Result(e, PSearch(e.lib), c.time, c.trials[0]), e.lib.div(PERIOD, c.s.attempt)))
    ensures c.time >= 256 ==> c.s.attempt >= 2
  {
    assert e.plan.searches[0] == PSearch(e.lib) && e.plan.searches[1] == ISearch(e.lib);
    if c.time >= 256 {
      IAttemptsPositive(e.lib, c.time, c.measured);
    }
  }

  /** The final call writes P and then I, each the scaled final attempt of
      its search, and then reconfigures the regulator and the meter. */
  lemma PidDone(e: Env, c: Calibrator, x: Input)
    requires Valid(e, c) && e.plan == PidPlan(e.lib)
    requires Tick(e, c, x).Some? && Tick(e, c, x).value.1.Done?
    ensures var (d, out) := Tick(e, c, x).value;
      var fx := out.effects;
      && |d.trials| == 2 && |d.trials[0]| == |d.trials[1]| == HalfCut.ITERATIONS
      && |fx| >= 4
      && fx[|fx| - 4..] == [
           Store(PidPKey, Result(e, PSearch(e.lib), d.time, d.trials[0])),
           Store(PidIKey, Result(e, ISearch(e.lib), d.time, d.trials[1])),
           ConfigureRegulator, ResetMeter]
  {
    var (d, out) := Tick(e, c, x).value;
    DoneFinished(e, Tick(e, c, x));
    PidStores(e, d, out.effects);
  }

  lemma PidStores(e: Env, d: Calibrator, fx: seq<Effect>)
    requires e.plan == PidPlan(e.lib) && Finished(e, d, fx)
    ensures && |d.trials| == 2 && |d.trials[0]| == |d.trials[1]| == HalfCut.ITERATIONS
      && |fx| >= 4
      && fx[|fx| - 4..] == [
           Store(PidPKey, Result(e, PSearch(e.lib), d.time, d.trials[0])),
           Store(PidIKey, Result(e, ISearch(e.lib), d.time, d.trials[1])),
           ConfigureRegulator, ResetMeter]
  {
    assert e.plan.searches[0] == PSearch(e.lib) && e.plan.searches[1] == ISearch(e.lib);
    var st := Stores(e.plan.searches, d.results);
    assert fx[|fx| - 4..] == st + [ConfigureRegulator, ResetMeter];
  }
}

=== FILE: calibrator_sequence.dfy ===
/** The newer firmware's `Calibrator`: a coroutine that waits for the knob
    gesture and then runs the static, speed and PID stages one after the
    other. Each YIELD_UNTIL calls its stage's `tick` until it returns true,
    and the next stage's `tick` is called on the same tick. The gesture
    detector is the modelled `KnobDial`; the other stages are represented by
    what their `tick` returns on this tick (their own state changes only
    when they are called, which is what the model records). */
module CalibratorSequence {
  import KnobDial

  datatype Stage = WaitKnobDial | Static | Speed | Pid

  function Index(s: Stage): (i: nat)
    ensures i < 4
  {
    match s
    case WaitKnobDial => 0
    case Static => 1
    case Speed => 2
    case Pid => 3
  }

  function Next(s: Stage): (n: Stage)
    requires s != Pid
    ensures Index(n) == Index(s) + 1
  {
    match s
    case WaitKnobDial => Static
    case Static => Speed
    case Speed => Pid
  }

  /** What `calibrate_static.tick`, `calibrate_speed.tick` and
      `calibrate_pid.tick` return if they are called on this tick. */
  datatype Finishes = Finishes(staticDone: bool, speedDone: bool, pidDone: bool)

  /** The coroutine's resume point (the stage whose YIELD_UNTIL it waits
      in) and the gesture detector. */
  datatype Sequencer = Sequencer(at: Stage, dial: KnobDial.Detector)

  const INITIAL: Sequencer := Sequencer(WaitKnobDial, KnobDial.INITIAL)

  /** A call: the next state, the result, and the stages whose `tick` was
      called, in call order. */
  datatype Step = Step(next: Sequencer, result: bool, called: seq<Stage>)

  /** The value the stage's `tick` returns on this tick. */
  function Returns(dial: KnobDial.Detector, knob: int, f: Finishes, s: Stage): bool {
    match s
    case WaitKnobDial => KnobDial.Tick(dial, knob).1
    case Static => f.staticDone
    case Speed => f.speedDone
    case Pid => f.pidDone
  }

  /** From the stage `at` on: call it; if it has not finished, YIELD with
      false while waiting for the gesture and true afterwards; if it has,
      go on to the next stage, and after PID `return false`, which sends the
      next call back to the top. */
  function Resume(at: Stage, dial: KnobDial.Detector, knob: int, f: Finishes): (r: Step)
    decreases 3 - Index(at)
  {
    var dial' := if at == WaitKnobDial then KnobDial.Tick(dial, knob).0 else dial;
    if !Returns(dial, knob, f, at) then Step(Sequencer(at, dial'), at != WaitKnobDial, [at])
    else if at == Pid then Step(Sequencer(WaitKnobDial, dial'), false, [Pid])
    else
      var r := Resume(Next(at), dial', knob, f);
      r.(called := [at] + r.called)
  }

  /** `tick(io_data)`. The stages are called in their fixed order starting
      with the current one, each after the previous one returned true on
      this very tick; the call returns false exactly when the coroutine is
      (again) waiting for the gesture; it stays in the last stage called
      unless that was PID finishing. */
  function Tick(s: Sequencer, knob: int, f: Finishes): (r: Step)
    ensures 1 <= |r.called| && r.called[0] == s.at
    ensures forall i :: 0 <= i < |r.called| ==> Index(r.called[i]) == Index(s.at) + i
    ensures forall i :: 0 <= i < |r.called| - 1 ==> Returns(s.dial, knob, f, r.called[i])
    ensures var last := r.called[|r.called| - 1];
      if Returns(s.dial, knob, f, last) then last == Pid && r.next.at == WaitKnobDial
      else r.next.at == last
    ensures r.result <==> r.next.at != WaitKnobDial
    ensures r.next.dial == if s.at == WaitKnobDial then KnobDial.Tick(s.dial, knob).0 else s.dial
  {
    ResumeCalls(s.at, s.dial, knob, f);
    Resume(s.at, s.dial, knob, f)
  }

  lemma {:induction false} ResumeCalls(at: Stage, dial: KnobDial.Detector, knob: int, f: Finishes)
    ensures var r := Resume(at, dial, knob, f);
      1 <= |r.called| && r.called[0] == at &&
      (forall i :: 0 <= i < |r.called| ==> Index(r.called[i]) == Index(at) + i) &&
      (forall i :: 0 <= i < |r.called| - 1 ==> Returns(dial, knob, f, r.called[i])) &&
      (var last := r.called[|r.called| - 1];
       if Returns(dial, knob, f, last) then last == Pid && r.next.at == WaitKnobDial
       else r.next.at == last) &&
      (r.result <==> r.next.at != WaitKnobDial) &&
      r.next.dial == if at == WaitKnobDial then KnobDial.Tick(dial, knob).0 else dial
    decreases 3 - Index(at)
  {
    var dial' := if at == WaitKnobDial then KnobDial.Tick(dial, knob).0 else dial;
    if Returns(dial, knob, f, at) && at != Pid {
      ResumeCalls(Next(at), dial', knob, f);
      var r := Resume(Next(at), dial', knob, f);
      assert Returns(dial', knob, f, Next(at)) == Returns(dial, knob, f, Next(at));
      forall i | 0 <= i < |r.called| ensures Returns(dial', knob, f, r.called[i]) == Returns(dial, knob, f, r.called[i]) {
        assert r.called[i] != WaitKnobDial;
      }
    }
  }

  /** While the gesture has not been seen, the calibrator stays out of the
      way: the call returns false and only the detector moves. */
  lemma WaitsForGesture(s: Sequencer, knob: int, f: Finishes)
    requires s.at == WaitKnobDial && !KnobDial.Tick(s.dial, knob).1
    ensures Tick(s, knob, f) == Step(Sequencer(WaitKnobDial, KnobDial.Tick(s.dial, knob).0), false, [WaitKnobDial])
  {
  }

  /** Calibration starts only on a tick that completes the gesture: if the
      detector has seen the knob history `h` and the call leaves the wait,
      then `h` and this tick's knob end with the gesture. */
  lemma StartsOnlyAfterGesture(s: Sequencer, h: seq<int>, knob: int, f: Finishes)
    requires s.at == WaitKnobDial && s.dial == KnobDial.Replay(h)
    requires |Tick(s, knob, f).called| > 1
    ensures KnobDial.Dialled(h + [knob])
  {
    var h' := h + [knob];
    assert h'[..|h'| - 1] == h;
    assert KnobDial.Output(h');
    KnobDial.DetectedOnlyAfterGesture(h');
  }

  /** Outside the wait the detector rests at its top: its last call
      returned true, and it is not called again until the wait. */
  predicate Valid(s: Sequencer) {
    s.at != WaitKnobDial ==> s.dial.at == KnobDial.Top
  }

  lemma TickKeepsValid(s: Sequencer, knob: int, f: Finishes)
    requires Valid(s)
    ensures Valid(Tick(s, knob, f).next)
  {
  }

  /** On the tick the PID stage completes, the call returns false and the
      next call waits for a new gesture, with the detector started over
      from the top. */
  lemma FinishRestarts(s: Sequencer, knob: int, f: Finishes)
    requires Valid(s) && s.at == Pid && f.pidDone
    ensures Tick(s, knob, f) == Step(Sequencer(WaitKnobDial, s.dial), false, [Pid])
    ensures s.dial.at == KnobDial.Top
  {
  }
}

=== FILE: calibrator_speed.dfy ===
/** `CalibratorSpeed`: the newer firmware's speed-scale calibration, a
    `tick(io_data)` coroutine driven by the calibration sequence. It
    steps the triac setpoint through eighteen presets, waits at each for a
    stable speed and records the average. The last preset is 1.0, and its
    average becomes the speed scale factor. `process_data` normalises the
    averages by that factor and cuts off the points below the linear
    low-speed range. It builds seven approximation points and from them the
    reverse interpolation table (speed to setpoint): sixteen entries, at
    speeds k/17 for k = 1..16. A one second pause with the motor
    off ends the stage.

    The floats of `process_data` are modelled as reals. The least-squares
    fits (`polyfit`) and the spline evaluation are parameters. The tracker
    is abstract as in the other calibrators. */
module CalibratorSpeed {
  import opened Fix16
  import opened Wrappers

  /** `setpoints_preset`: 0.046875 to 0.328125 in steps of 1/64 and then
      1/32, then 0.65, 0.75 and 1.0. */
  const PRESETS: seq<int> := [
    3072, 4096, 5120, 6144, 7168, 8192, 9216, 10240, 11264, 12288,
    13312, 15360, 17408, 19456, 21504, 42598, 49152, 65536]

  /** `1 * APP_TICK_FREQUENCY`: the pause after processing, in ticks. */
  const PAUSE: int := 17857

  /** `CFG_RPM_INTERP_TABLE_LENGTH`. */
  const TABLE_LENGTH: int := 16

  /** The linear range's bounds on the normalised speed: 0.4 and 0.17. */
  const LINEAR_TOP: real := 0.4
  const LINEAR_BOTTOM: real := 0.17

  predicate Increasing(s: seq<int>) {
    forall i, j :: 0 <= i < j < |s| ==> s[i] < s[j]
  }

  /** The presets rise strictly, and only the last one reaches 1.0. */
  lemma PresetsShape()
    ensures |PRESETS| == 18 && Increasing(PRESETS) && PRESETS[17] == ONE
    ensures forall i :: 0 <= i < 17 ==> PRESETS[i] < ONE
  {
    assert forall i :: 0 <= i < 17 ==> PRESETS[i] < PRESETS[i + 1];
    forall i, j | 0 <= i < j < 18 ensures PRESETS[i] < PRESETS[j] {
      var k := i;
      while k < j
        invariant i <= k <= j && PRESETS[i] <= PRESETS[k]
        invariant k > i ==> PRESETS[i] < PRESETS[k]
      {
        k := k + 1;
      }
    }
  }

  // ---------------------------------------------------------------------------
  // Searching down an array, as both linear-range loops and the table's
  // bracket loop do.

  /** The two tests the loops apply to a value. */
  datatype Test = AtMost(bound: real) | Below(bound: real)

  predicate Holds(t: Test, x: real) {
    match t
    case AtMost(b) => x <= b
    case Below(b) => x < b
  }

  /** The highest index below `n` whose value passes `t`, or -1. */
  function FindDown(s: seq<real>, n: int, t: Test): (r: int)
    requires 0 <= n <= |s|
    ensures -1 <= r < n
    ensures r >= 0 ==> Holds(t, s[r])
    ensures forall j :: r < j < n ==> !Holds(t, s[j])
    decreases n
  {
    if n == 0 then -1 else if Holds(t, s[n - 1]) then n - 1 else FindDown(s, n - 1, t)
  }

  // ---------------------------------------------------------------------------
  // process_data, step by step.

  /** Division by the scale factor, the quotient of the two averages as
      exact reals. */
  function Ratio(x: int, scale: int): real
    requires scale != 0
  {
    (x as real) / (scale as real)
  }

  /** The normalised speeds: each average divided by the scale factor and
      clamped to at most 1.0. */
  function Normalized(rpms: seq<int>, scale: int): (rs: seq<real>)
    requires scale != 0
    ensures |rs| == |rpms|
    ensures forall i :: 0 <= i < |rs| ==> rs[i] <= 1.0
    ensures forall i :: 0 <= i < |rs| ==> Ratio(rpms[i], scale) <= 1.0 ==> rs[i] == Ratio(rpms[i], scale)
  {
    seq(|rpms|, i requires 0 <= i < |rpms| => if Ratio(rpms[i], scale) > 1.0 then 1.0 else Ratio(rpms[i], scale))
  }

  /** The normalisation loop, in place over the array of averages. */
  method Normalize(rpms: seq<int>, scale: int) returns (rs: seq<real>)
    requires scale != 0
    ensures rs == Normalized(rpms, scale)
  {
    rs := seq(|rpms|, i requires 0 <= i < |rpms| => rpms[i] as real);
    var i := 0;
    while i < |rpms|
      invariant 0 <= i <= |rpms| && |rs| == |rpms|
      invariant forall j :: 0 <= j < i ==> rs[j] == Normalized(rpms, scale)[j]
      invariant forall j :: i <= j < |rpms| ==> rs[j] == rpms[j] as real
    {
      var v := rs[i] / (scale as real);
      if v > 1.0 {
        v := 1.0;
      }
      rs := rs[i := v];
      i := i + 1;
    }
  }

  /** `last_linear_point`: the last point with speed at most 0.4, or 0. */
  function LastLinear(rs: seq<real>): (last: int)
    ensures |rs| > 0 ==> 0 <= last < |rs|
    ensures |rs| == 0 ==> last == 0
    ensures (exists j :: 0 <= j < |rs| && rs[j] <= LINEAR_TOP) ==>
      rs[last] <= LINEAR_TOP && forall k :: last < k < |rs| ==> rs[k] > LINEAR_TOP
    ensures !(exists j :: 0 <= j < |rs| && rs[j] <= LINEAR_TOP) ==> last == 0
  {
    var j := FindDown(rs, |rs|, AtMost(LINEAR_TOP));
    if j >= 0 then j else 0
  }

  /** `first_linear_point`: one past the last point up to `last` with speed
      below 0.17, or 0 when there is none. */
  function FirstLinear(rs: seq<real>, last: int): (first: int)
    requires 0 <= last < |rs|
    ensures 0 <= first <= last + 1
  {
    FindDown(rs, last + 1, Below(LINEAR_BOTTOM)) + 1
  }

  /** The two loops that find the linear range, each searching down from
      its start and stopping at the first match. */
  method FindLinearRange(rs: seq<real>) returns (first: int, last: int)
    requires |rs| > 0
    ensures last == LastLinear(rs) && first == FirstLinear(rs, last)
  {
    last := 0;
    var i := |rs| - 1;
    while i >= 0
      invariant -1 <= i < |rs|
      invariant FindDown(rs, |rs|, AtMost(LINEAR_TOP)) == FindDown(rs, i + 1, AtMost(LINEAR_TOP))
      invariant last == 0
    {
      if rs[i] <= LINEAR_TOP {
        last := i;
        break;
      }
      i := i - 1;
    }
    first := 0;
    i := last;
    while i >= 0
      invariant -1 <= i <= last
      invariant FindDown(rs, last + 1, Below(LINEAR_BOTTOM)) == FindDown(rs, i + 1, Below(LINEAR_BOTTOM))
      invariant first == 0
    {
      if rs[i] < LINEAR_BOTTOM {
        first := i + 1;
        break;
      }
      i := i - 1;
    }
  }

  /** The range found: every point in it is at least 0.17, the point just
      below it (if any) is under 0.17, and, when some point is at most 0.4,
      every point after the range is above 0.4. The range is empty exactly
      when the last point at most 0.4 is itself under 0.17. */
  lemma LinearRange(rs: seq<real>)
    requires |rs| > 0
    ensures var last := LastLinear(rs); var first := FirstLinear(rs, last);
      && (forall j :: first <= j <= last ==> rs[j] >= LINEAR_BOTTOM)
      && (first > 0 ==> rs[first - 1] < LINEAR_BOTTOM)
      && ((exists j :: 0 <= j < |rs| && rs[j] <= LINEAR_TOP) ==> forall j :: last < j < |rs| ==> rs[j] > LINEAR_TOP)
      && (first == last + 1 <==> rs[last] < LINEAR_BOTTOM)
  {
    var j := FindDown(rs, |rs|, AtMost(LINEAR_TOP));
    if exists k :: 0 <= k < |rs| && rs[k] <= LINEAR_TOP {
      var k :| 0 <= k < |rs| && rs[k] <= LINEAR_TOP;
      assert j >= k;
    }
  }

  /** The cut loop, in place over a fixed-length array: the points from
      `first` on move to the front, and the tail keeps its old values. */
  method CutLeft<T>(a: seq<T>, first: int) returns (r: seq<T>)
    requires 0 <= first <= |a|
    ensures |r| == |a|
    ensures r[..|a| - first] == a[first..]
    ensures r[|a| - first..] == a[|a| - first..]
  {
    r := a;
    var i := 0;
    while i < |a| - first
      invariant 0 <= i <= |a| - first && |r| == |a|
      invariant forall j :: 0 <= j < i ==> r[j] == a[j + first]
      invariant forall j :: i <= j < |a| ==> r[j] == a[j]
    {
      r := r[i := r[i + first]];
      i := i + 1;
    }
  }

  // ---------------------------------------------------------------------------
  // The approximation points and the reverse table.

  /** The seven approximation points: `rpms_approx` and `setpoints_approx`. */
  datatype Approximation = Approximation(rpms: seq<real>, setpoints: seq<real>)

  /** Seven points, the first at speed 0 and the last at speed 1.0. */
  predicate Anchored(a: Approximation) {
    |a.rpms| == 7 && |a.setpoints| == 7 && a.rpms[0] == 0.0 && a.rpms[6] == 1.0
  }

  /** The floating point steps that are not part of this model: the setpoints
      where the least-squares line through the given points reaches speed 0
      and 0.5 (`polyfit` of order 1, then solved), and the cubic through
      four points evaluated at a setpoint (`polyfit` of order 3, then
      `polynomial`). */
  datatype Fits = Fits(
    zeroAndHalf: (seq<real>, seq<real>) -> (real, real),
    spline: (seq<real>, seq<real>, real) -> real)

  /** The slope of the chord through the last point and the one two before. */
  function Chord(sp: seq<real>, rs: seq<real>): real
    requires |sp| == |rs| >= 3 && sp[|sp| - 1] > sp[|sp| - 3]
  {
    var n := |rs|;
    (rs[n - 1] - rs[n - 3]) / (sp[n - 1] - sp[n - 3])
  }

  /** The approximation points from the cut arrays (`sp`, `rs`, the first
      `fit` of which lie in the linear range). Points 0 and 1 come from
      the line at speeds 0 and 0.5, and points 4 to 6 are the last three
      measured. The middle of those is moved up to the chord through the
      outer two, then down to where the last segment keeps half the chord's
      slope. Points 2 and 3 divide the setpoints between 1 and 4 into
      thirds, with speeds from the cubic through points 0, 1, 4 and a helper
      point 1/16 further along the chord. */
  function Approximate(f: Fits, sp: seq<real>, rs: seq<real>, fit: nat): (a: Approximation)
    requires |sp| == |rs| >= 3 && fit <= |rs| && sp[|sp| - 1] > sp[|sp| - 3] && rs[|rs| - 1] == 1.0
    ensures Anchored(a)
    ensures a.rpms[1] == 0.5 && a.setpoints[1] == f.zeroAndHalf(sp[..fit], rs[..fit]).1
    ensures a.setpoints[0] == f.zeroAndHalf(sp[..fit], rs[..fit]).0
    ensures a.setpoints[4..] == sp[|sp| - 3..] && a.rpms[4] == rs[|rs| - 3]
    ensures a.setpoints[3] - a.setpoints[2] == a.setpoints[2] - a.setpoints[1]
    ensures 3.0 * (a.setpoints[2] - a.setpoints[1]) == a.setpoints[4] - a.setpoints[1]
    ensures a.rpms[5] <= 1.0 - 0.5 * Chord(sp, rs) * (sp[|sp| - 1] - sp[|sp| - 2])
    ensures var low := rs[|rs| - 3] + Chord(sp, rs) * (sp[|sp| - 2] - sp[|sp| - 3]);
      var high := 1.0 - 0.5 * Chord(sp, rs) * (sp[|sp| - 1] - sp[|sp| - 2]);
      low <= high ==> low <= a.rpms[5]
  {
    var n := |rs|;
    var (s0, s1) := f.zeroAndHalf(sp[..fit], rs[..fit]);
    var scale := Chord(sp, rs);
    var low := rs[n - 3] + scale * (sp[n - 2] - sp[n - 3]);
    var high := rs[n - 1] - 0.5 * scale * (sp[n - 1] - sp[n - 2]);
    var raised := if rs[n - 2] < low then low else rs[n - 2];
    var mid := if raised > high then high else raised;
    var xs := [s0, s1, sp[n - 3], sp[n - 3] + 1.0 / 16.0];
    var ys := [0.0, 0.5, rs[n - 3], rs[n - 3] + scale * (1.0 / 16.0)];
    var step := (sp[n - 3] - s1) / 3.0;
    var s2 := s1 + step;
    var s3 := s2 + step;
    Approximation([0.0, 0.5, f.spline(xs, ys, s2), f.spline(xs, ys, s3), rs[n - 3], mid, rs[n - 1]],
                  [s0, s1, s2, s3, sp[n - 3], sp[n - 2], sp[n - 1]])
  }

  /** The speed of table slot `i`: (i + 1) / 17. */
  function SlotSpeed(i: int): real {
    (i + 1) as real / (TABLE_LENGTH + 1) as real
  }

  /** The bracket of a slot's speed: the highest of points 0 to 5 below it.
      Point 0 is at speed 0, below every slot, so there always is one, and
      the point after it is at or above the speed (point 6 is at 1.0). */
  lemma BracketExists(a: Approximation, i: int)
    requires Anchored(a) && 0 <= i < TABLE_LENGTH
    ensures var j := FindDown(a.rpms, 6, Below(SlotSpeed(i)));
      0 <= j < 6 && a.rpms[j] < SlotSpeed(i) <= a.rpms[j + 1]
  {
    var j := FindDown(a.rpms, 6, Below(SlotSpeed(i)));
    assert Holds(Below(SlotSpeed(i)), a.rpms[0]);
    if j < 5 {
      assert !Holds(Below(SlotSpeed(i)), a.rpms[j + 1]);
    }
  }

  /** The point `sc` of the way from `lo` to `hi`. */
  function Lerp(lo: real, hi: real, sc: real): real {
    lo * (1.0 - sc) + hi * sc
  }

  /** A slot's setpoint: the linear interpolation within its bracket. */
  function Entry(a: Approximation, i: int): real
    requires Anchored(a) && 0 <= i < TABLE_LENGTH
  {
    BracketExists(a, i);
    var rpm := SlotSpeed(i);
    var j := FindDown(a.rpms, 6, Below(rpm));
    Lerp(a.setpoints[j], a.setpoints[j + 1], (rpm - a.rpms[j]) / (a.rpms[j + 1] - a.rpms[j]))
  }

  lemma UnitFraction(x: real, d: real)
    requires 0.0 < x <= d
    ensures 0.0 < x / d <= 1.0
  {
    var q := x / d;
    assert q * d == x;
  }

  /** An interpolation at a fraction in [0, 1] lies between its ends,
      whichever way they are ordered. */
  lemma Interpolated(lo: real, hi: real, sc: real)
    requires 0.0 <= sc <= 1.0
    ensures lo <= hi ==> lo <= Lerp(lo, hi, sc) <= hi
    ensures hi <= lo ==> hi <= Lerp(lo, hi, sc) <= lo
  {
    var w := hi - lo;
    assert Lerp(lo, hi, sc) == lo + w * sc;
    assert w * (1.0 - sc) == w - w * sc;
    if lo <= hi {
      MulNonneg(w, sc);
      MulNonneg(w, 1.0 - sc);
    } else {
      MulNonneg(-w, sc);
      MulNonneg(-w, 1.0 - sc);
    }
  }

  lemma MulNonneg(a: real, b: real)
    requires 0.0 <= a && 0.0 <= b
    ensures 0.0 <= a * b
  {
  }

  /** Each entry lies between the setpoints of its bracket. */
  lemma EntryBetween(a: Approximation, i: int)
    requires Anchored(a) && 0 <= i < TABLE_LENGTH
    ensures var j := FindDown(a.rpms, 6, Below(SlotSpeed(i)));
      0 <= j < 6 &&
      (a.setpoints[j] <= a.setpoints[j + 1] ==> a.setpoints[j] <= Entry(a, i) <= a.setpoints[j + 1]) &&
      (a.setpoints[j + 1] <= a.setpoints[j] ==> a.setpoints[j + 1] <= Entry(a, i) <= a.setpoints[j])
  {
    BracketExists(a, i);
    var rpm := SlotSpeed(i);
    var j := FindDown(a.rpms, 6, Below(rpm));
    var sc := (rpm - a.rpms[j]) / (a.rpms[j + 1] - a.rpms[j]);
    UnitFraction(rpm - a.rpms[j], a.rpms[j + 1] - a.rpms[j]);
    Interpolated(a.setpoints[j], a.setpoints[j + 1], sc);
  }

  /** What the stage does outside its own state: the speed factor reset to
      1.0 in RAM, the EEPROM writes of the factor and the reverse table, and
      the reloads of the regulator and meter configuration. */
  datatype Effect =
    | ResetSpeedFactor
    | StoreSpeedFactor(factor: int)
    | StoreTableEntry(index: int, value: real)
    | ConfigureRegulator
    | ConfigureMeter

  /** The table writes in the loop's order, from the last slot down. */
  function Table(a: Approximation): (fx: seq<Effect>)
    requires Anchored(a)
    ensures |fx| == TABLE_LENGTH
    ensures forall k :: 0 <= k < TABLE_LENGTH ==> fx[k].StoreTableEntry? && fx[k].index == TABLE_LENGTH - 1 - k
  {
    seq(TABLE_LENGTH, k requires 0 <= k < TABLE_LENGTH => StoreTableEntry(TABLE_LENGTH - 1 - k, Entry(a, TABLE_LENGTH - 1 - k)))
  }

  /** Every slot is written exactly once. */
  lemma TableWritesEachSlotOnce(a: Approximation, i: int)
    requires Anchored(a) && 0 <= i < TABLE_LENGTH
    ensures exists k :: 0 <= k < TABLE_LENGTH && Table(a)[k].index == i
    ensures forall k, l :: 0 <= k < l < TABLE_LENGTH ==> Table(a)[k].index != Table(a)[l].index
  {
    assert Table(a)[TABLE_LENGTH - 1 - i].index == i;
  }

  /** The nested table loops: for each slot from the last down, search the
      points from 5 down and interpolate in the first bracket found. The
      source's `idx >= 0` bound never ends the inner loop, since point 0 is
      below every slot speed. */
  method ReverseTable(a: Approximation) returns (fx: seq<Effect>)
    requires Anchored(a)
    ensures fx == Table(a)
  {
    fx := [];
    var i := TABLE_LENGTH - 1;
    while i >= 0
      invariant -1 <= i < TABLE_LENGTH
      invariant fx == Table(a)[..TABLE_LENGTH - 1 - i]
    {
      var rpm := (i + 1) as real / (TABLE_LENGTH + 1) as real;
      var idx := 5;
      BracketExists(a, i);
      while true
        invariant 0 <= idx <= 5
        invariant FindDown(a.rpms, 6, Below(rpm)) == FindDown(a.rpms, idx + 1, Below(rpm))
        decreases idx
      {
        if a.rpms[idx] < rpm {
          assert FindDown(a.rpms, 6, Below(rpm)) == idx;
          var sc := (rpm - a.rpms[idx]) / (a.rpms[idx + 1] - a.rpms[idx]);
          var result := Lerp(a.setpoints[idx], a.setpoints[idx + 1], sc);
          assert result == Entry(a, i);
          fx := fx + [StoreTableEntry(i, result)];
          break;
        }
        idx := idx - 1;
      }
      assert Table(a)[..TABLE_LENGTH - i] == Table(a)[..TABLE_LENGTH - 1 - i] + [Table(a)[TABLE_LENGTH - 1 - i]];
      i := i - 1;
    }
  }

  // ---------------------------------------------------------------------------
  // process_data as a whole.

  /** `fix16_to_float` of the raw setpoints. */
  function Floats(s: seq<int>): (r: seq<real>)
    ensures |r| == |s|
    ensures Increasing(s) ==> forall i, j :: 0 <= i < j < |r| ==> r[i] < r[j]
  {
    seq(|s|, i requires 0 <= i < |s| => s[i] as real / 65536.0)
  }

  /** The number of points left after the cut. */
  function Remaining(rpms: seq<int>, scale: int): int
    requires |rpms| > 0 && scale != 0
  {
    var rs := Normalized(rpms, scale);
    |rs| - FirstLinear(rs, LastLinear(rs))
  }

  /** The last average is the scale factor, so its normalised speed is 1.0. */
  lemma NormalizedLast(rpms: seq<int>, scale: int)
    requires |rpms| > 0 && scale != 0 && rpms[|rpms| - 1] == scale
    ensures Normalized(rpms, scale)[|rpms| - 1] == 1.0
  {
    DivSelf(scale as real);
  }

  lemma DivSelf(r: real)
    requires r != 0.0
    ensures r / r == 1.0
  {
  }

  /** Nineteen writes: the scale factor, one table entry for each slot from
      the last down, then the reload. */
  predicate Shaped(scale: int, fx: seq<Effect>) {
    && |fx| == TABLE_LENGTH + 3
    && fx[0] == StoreSpeedFactor(scale)
    && (forall k :: 1 <= k <= TABLE_LENGTH ==> fx[k].StoreTableEntry? && fx[k].index == TABLE_LENGTH - k)
    && fx[TABLE_LENGTH + 1..] == [ConfigureRegulator, ConfigureMeter]
  }

  /** The writes of `process_data`: the scale factor, the table from the
      last slot down, and the reload of regulator and meter configuration. */
  function Writes(scale: int, a: Approximation): (fx: seq<Effect>)
    requires Anchored(a)
    ensures Shaped(scale, fx)
  {
    var t := Table(a);
    var fx := [StoreSpeedFactor(scale)] + t + [ConfigureRegulator, ConfigureMeter];
    assert forall k :: 1 <= k <= TABLE_LENGTH ==> fx[k] == t[k - 1];
    fx
  }

  /** The whole of `process_data`, given the measured setpoints and averages
      and the tracker's average at the last preset. It fails (`None`) where
      the source leaves the model's arithmetic: on a zero scale factor (the
      float divisions give infinities), and when fewer than three points
      survive the cut (it reads before the arrays). */
  function Process(f: Fits, setpoints: seq<int>, rpms: seq<int>, scale: int): (r: Option<seq<Effect>>)
    requires |setpoints| == |rpms| > 0 && Increasing(setpoints) && rpms[|rpms| - 1] == scale
    ensures r.None? <==> scale == 0 || Remaining(rpms, scale) < 3
    ensures r.Some? ==> Shaped(scale, r.value) && exists a :: Anchored(a) && r.value == Writes(scale, a)
  {
    if scale == 0 then None
    else
      var rs := Normalized(rpms, scale);
      var last := LastLinear(rs);
      var first := FirstLinear(rs, last);
      if |rs| - first < 3 then None
      else
        NormalizedLast(rpms, scale);
        Some(CutAndWrite(f, Floats(setpoints), rs, first, last, scale))
  }

  /** The cut at `first`, the approximation with the linear fit over points
      `first` to `last`, and the writes. */
  function CutAndWrite(f: Fits, sp: seq<real>, rs: seq<real>, first: int, last: int, scale: int): (fx: seq<Effect>)
    requires |sp| == |rs| && 0 <= first <= last + 1 <= |rs| && |rs| - first >= 3
    requires forall i, j :: 0 <= i < j < |sp| ==> sp[i] < sp[j]
    requires rs[|rs| - 1] == 1.0
    ensures Shaped(scale, fx) && exists a :: Anchored(a) && fx == Writes(scale, a)
  {
    var n := |rs|;
    assert sp[n - 1] > sp[n - 3];
    var a := Approximate(f, sp[first..], rs[first..], last - first + 1);
    Writes(scale, a)
  }

  /** A ratio of at least `q`. */
  lemma RatioAtLeast(x: int, scale: int, q: real)
    requires 0 < scale && (x as real) >= q * (scale as real)
    ensures Ratio(x, scale) >= q
  {
    var r := Ratio(x, scale);
    assert r * (scale as real) == x as real;
    if r < q {
      assert r * (scale as real) < q * (scale as real);
    }
  }

  /** Enough points survive the cut when the speeds at the two presets
      before the last are at least 17% of the last one: the points in the
      cut all lie below. */
  lemma EnoughPoints(rpms: seq<int>, scale: int)
    requires |rpms| >= 3 && 0 < scale && rpms[|rpms| - 1] == scale
    requires 100 * rpms[|rpms| - 3] >= 17 * scale && 100 * rpms[|rpms| - 2] >= 17 * scale
    ensures Remaining(rpms, scale) >= 3
  {
    var rs := Normalized(rpms, scale);
    var n := |rs|;
    var last := LastLinear(rs);
    var j := FindDown(rs, last + 1, Below(LINEAR_BOTTOM));
    forall k | n - 3 <= k < n ensures rs[k] >= LINEAR_BOTTOM {
      if k < n - 1 {
        RatioAtLeast(rpms[k], scale, 0.17);
      } else {
        NormalizedLast(rpms, scale);
      }
    }
    assert j < n - 3;
  }

  /** A run whose speed stays under 17% of the last one up to the
      second-to-last preset leaves a single point: `Process` fails there,
      where the source reads `rpms[-2]`. */
  lemma TooFewPoints()
    ensures Remaining(seq(18, i => if i < 17 then 1 else 10), 10) == 1
  {
    var rpms := seq(18, i => if i < 17 then 1 else 10);
    var rs := Normalized(rpms, 10);
    assert rs[17] == 1.0 && rs[16] == 0.1;
    assert LastLinear(rs) == 16;
    assert FindDown(rs, 17, Below(LINEAR_BOTTOM)) == 16;
  }

  /** The linear fit can be handed no point at all: here the last point at
      most 0.4 is itself below 0.17. */
  lemma EmptyLinearFit()
    ensures var rs := Normalized([1, 10, 10, 10], 10);
      FirstLinear(rs, LastLinear(rs)) == LastLinear(rs) + 1 && Remaining([1, 10, 10, 10], 10) == 3
  {
    var rs := Normalized([1, 10, 10, 10], 10);
    assert rs[0] == 0.1 && rs[1] == 1.0 && rs[2] == 1.0 && rs[3] == 1.0;
    assert FindDown(rs, 4, AtMost(LINEAR_TOP)) == 0;
  }

  // ---------------------------------------------------------------------------
  // The coroutine.

  /** The start (also after the final return), waiting for a stable speed
      at a preset, and the pause at the end. */
  datatype Point = Top | Settle | Pause

  /** The preset index, the tracker's values since its reset, the setpoints
      and averages recorded so far (`setpoints`, `rpms`) and `ticks_cnt`. */
  datatype Calibrator = Calibrator(at: Point, idx: nat, pushed: seq<int>, setpoints: seq<int>, rpms: seq<int>, ticks: int)

  datatype Env = Env(settled: seq<int> -> bool, average: seq<int> -> int, fits: Fits)

  datatype Input = Input(zeroCrossUp: bool, speed: int)

  /** A call yields false with `io.setpoint`, or returns true. */
  datatype Out = Yield(setpoint: int, effects: seq<Effect>) | Done(effects: seq<Effect>)

  /** The invariant between calls: at a preset, one average recorded for each
      earlier preset; during the pause, all eighteen. */
  ghost predicate Valid(c: Calibrator) {
    match c.at
    case Top => true
    case Settle => c.idx < |PRESETS| && |c.rpms| == c.idx && c.setpoints == PRESETS[..c.idx]
    case Pause => 1 <= c.ticks <= PAUSE && |c.rpms| == |PRESETS| && c.setpoints == PRESETS
  }

  /** A yield at a preset drives that preset and writes at most the reset of
      the scale factor; the first yield of the pause drives 0 and comes
      after the processing (the scale factor is the last average, then the
      sixteen table slots from the last down, then the reload). Later pause
      yields and the return cause nothing. */
  ghost predicate Reported(c: Calibrator, out: Out) {
    match out
    case Yield(sp, fx) =>
      && c.at != Top
      && (c.at == Settle ==> c.idx < |PRESETS| && sp == PRESETS[c.idx] && (fx == [] || fx == [ResetSpeedFactor]))
      && (c.at == Pause ==>
            && sp == 0
            && (c.ticks > 1 ==> fx == [])
            && (c.ticks == 1 ==>
                  && |fx| >= TABLE_LENGTH + 3 && |c.rpms| > 0
                  && Shaped(c.rpms[|c.rpms| - 1], fx[|fx| - TABLE_LENGTH - 3..])))
    case Done(fx) => c.at == Top && fx == []
  }

  ghost predicate Outcome(r: Option<(Calibrator, Out)>) {
    r.Some? ==> Valid(r.value.0) && Reported(r.value.0, r.value.1)
  }

  /** The loop body's start: `setpoint = setpoints_preset[setpoint_idx]`,
      `io.setpoint = setpoint`, tracker reset. */
  function EnterSettle(e: Env, c: Calibrator, fx: seq<Effect>): (r: Option<(Calibrator, Out)>)
    requires c.idx < |PRESETS| && |c.rpms| == c.idx && c.setpoints == PRESETS[..c.idx]
    requires fx == [] || fx == [ResetSpeedFactor]
    ensures Outcome(r)
    decreases |PRESETS| - c.idx, 1
  {
    var c := c.(at := Settle, pushed := []);
    if e.settled([]) then EndSettle(e, c, fx) else Some((c, Yield(PRESETS[c.idx], fx)))
  }

  /** The average and setpoint are recorded, and the loop goes on while the
      preset was below 1.0. */
  function EndSettle(e: Env, c: Calibrator, fx: seq<Effect>): (r: Option<(Calibrator, Out)>)
    requires c.idx < |PRESETS| && |c.rpms| == c.idx && c.setpoints == PRESETS[..c.idx]
    requires fx == [] || fx == [ResetSpeedFactor]
    ensures Outcome(r)
    decreases |PRESETS| - c.idx, 0
  {
    PresetsShape();
    var setpoint := PRESETS[c.idx];
    assert PRESETS[..c.idx] + [setpoint] == PRESETS[..c.idx + 1];
    var c := c.(rpms := c.rpms + [e.average(c.pushed)], setpoints := c.setpoints + [setpoint], idx := c.idx + 1);
    if setpoint < ONE then EnterSettle(e, c, fx)
    else
      assert c.idx == |PRESETS|;
      Finish(e, c, fx)
  }

  /** After the last preset: `process_data`, then the pause begins with
      `io.setpoint = 0`, `ticks_cnt = 0`, and the first check of
      `ticks_cnt++ < APP_TICK_FREQUENCY` passes. */
  function Finish(e: Env, c: Calibrator, fx: seq<Effect>): (r: Option<(Calibrator, Out)>)
    requires |c.rpms| == |PRESETS| && c.setpoints == PRESETS && c.rpms[|c.rpms| - 1] == e.average(c.pushed)
    requires fx == [] || fx == [ResetSpeedFactor]
    ensures Outcome(r)
  {
    PresetsShape();
    match Process(e.fits, c.setpoints, c.rpms, e.average(c.pushed))
    case None => None
    case Some(gx) =>
      var fx := fx + gx;
      assert fx[|fx| - TABLE_LENGTH - 3..] == gx;
      var d := c.(at := Pause, ticks := 1);
      assert Valid(d);
      Some((d, Yield(0, fx)))
  }

  /** One `tick(io_data)`. */
  function Tick(e: Env, c: Calibrator, x: Input): (r: Option<(Calibrator, Out)>)
    requires Valid(c)
    ensures Outcome(r)
  {
    match c.at
    case Top =>
      EnterSettle(e, c.(idx := 0, setpoints := [], rpms := []), [ResetSpeedFactor])
    case Settle =>
      var c := if x.zeroCrossUp then c.(pushed := c.pushed + [x.speed]) else c;
      if e.settled(c.pushed) then EndSettle(e, c, []) else Some((c, Yield(PRESETS[c.idx], [])))
    case Pause =>
      if c.ticks < PAUSE then Some((c.(ticks := c.ticks + 1), Yield(0, [])))
      else Some((c.(at := Top, ticks := c.ticks + 1), Done([])))
  }

  /** `n` calls with no zero crossing, stopping at a failure or a return. */
  function Calls(e: Env, c: Calibrator, n: nat): Option<(Calibrator, Out)>
    requires Valid(c)
    decreases n
  {
    var r := Tick(e, c, Input(false, 0));
    if n <= 1 || r.None? || r.value.1.Done? then r else Calls(e, r.value.0, n - 1)
  }

  /** The pause lasts one second: from its first yield, the next
      `PAUSE - 1` calls yield 0 as well and the one after returns true, so
      the motor stays off for exactly `PAUSE` ticks. */
  lemma {:induction false} PauseLasts(e: Env, c: Calibrator, n: nat)
    requires c.at == Pause && 1 <= c.ticks && 1 <= n && c.ticks + n <= PAUSE + 1
    ensures Valid(c) ==> Calls(e, c, n).Some?
    ensures Valid(c) ==> var (d, out) := Calls(e, c, n).value;
      if c.ticks + n <= PAUSE then d.at == Pause && d.ticks == c.ticks + n && out == Yield(0, [])
      else d.at == Top && out == Done([])
    decreases n
  {
    if Valid(c) && n > 1 {
      var d := Tick(e, c, Input(false, 0)).value.0;
      PauseLasts(e, d, n - 1);
    }
  }

  /** The setpoint loop stops at the preset 1.0: the index stays below 18 at
      every preset and reaches 18 exactly when the data is processed. */
  lemma PresetBound(e: Env, c: Calibrator, x: Input)
    requires Valid(c) && Tick(e, c, x).Some?
    ensures var d := Tick(e, c, x).value.0;
      (d.at == Settle ==> d.idx < 18 && d.setpoints == PRESETS[..d.idx]) &&
      (d.at == Pause ==> |d.rpms| == 18 && d.setpoints == PRESETS)
  {
  }
}

=== FILE: calibrator_static.dfy ===
/** `CalibratorStatic`: with the motor at rest, record the noise of one
    positive half-wave, then measure the motor's resistance at each
    checkpoint setpoint until a stability filter accepts three consecutive
    results, and store the table. Every measurement opens the triac at the
    checkpoint's setpoint for one positive half-wave, emulates the voltage
    of the following negative half-wave by mirroring the recorded one, and
    then demagnetises the core on the next negative half-wave.

    The coroutine is modelled by its resume point and its members. The
    fixed `r_interp_result` array is the sequence of the slots written so
    far (its index is the sequence's length). The float computations
    (`process_thresholds`, `calculate_r`) are left out; `calculate_r`
    becomes the parameter `measure`. Two defects of the code as written are
    selected by `Variant`: the noise recording writes the buffers without a
    bounds check, and `ticks_cnt` is never reset between the waits that
    count with it. */
module CalibratorStatic {
  import opened Fix16
  import opened Wrappers
  import StabilityFilter

  /** calibrator_rl_buffer_length: APP_TICK_FREQUENCY / 49. */
  const BUFFER_LENGTH: int := 364

  /** CFG_R_INTERP_TABLE_LENGTH. */
  const TABLE_LENGTH: int := 7

  /** 2 * APP_TICK_FREQUENCY: the wait for the motor to stop. */
  const INITIAL_WAIT: int := 35714

  /** APP_TICK_FREQUENCY / 2: the pause before each measurement. */
  const PAUSE: int := 8928

  /** The template argument of `r_stability_filter`: F16(5). */
  const PRECISION: int := 327680

  /** `AsWritten` follows the code; `Corrected` adds the bounds check the
      TODO asks for (restarting like the positive-wave recording does) and
      restarts the tick counter before each of its waits. */
  datatype Variant = AsWritten | Corrected

  /** Resume points (after a YIELD) and the points between them. */
  datatype Point =
    | Top | InitialWait | WaitUp | NoiseCheck | NoiseRecord | MeasureCheck | StableCheck
    | Pause | WaitMeasureUp | Positive | Negative | WaitDown | Demagnetize

  /** The points a call can stop at. */
  predicate Resumable(at: Point) {
    at != NoiseCheck && at != MeasureCheck && at != StableCheck
  }

  /** The points inside the measurement of one checkpoint. */
  predicate Measuring(at: Point) {
    at == StableCheck || at == Pause || at == WaitMeasureUp || at == Positive ||
    at == Negative || at == WaitDown || at == Demagnetize
  }

  datatype Input = Input(voltage: int, current: int, zeroCrossUp: bool, zeroCrossDown: bool)

  /** `ticks` is `ticks_cnt`, `results` the slots of `r_interp_result`
      written since the top, `bufferIdx` and `offset` are `buffer_idx` and
      `zero_cross_down_offset`, `voltages` and `currents` the two sample
      buffers, `setpoint` is `io.setpoint`. */
  datatype Calibrator = Calibrator(at: Point, ticks: int, results: seq<int>, bufferIdx: int, offset: int,
                                   filter: StabilityFilter.Filter, voltages: seq<int>, currents: seq<int>,
                                   setpoint: int)

  /** What the stage reads and does not own: libfixmath, the checkpoint
      setpoints `meter.cfg_r_table_setpoints`, and `calculate_r` applied to
      the buffers and the number of samples. */
  datatype Env = Env(lib: Lib, setpoints: seq<int>, measure: (seq<int>, seq<int>, int) -> int)

  /** The shape every state keeps: the buffers and the filter have their
      sizes, the filter is the one built for `PRECISION`, the index stays within the buffers, the table never stops at
      the slot whose checkpoint is skipped and its last slot repeats the one
      before, and a measurement runs only for a checkpoint that is measured.
      A measurement's recording starts at the buffer's first slot. The
      mirrored read during the negative half-wave finds a sample already
      written: the offset is at least 1 and at most the index. */
  predicate Shaped(c: Calibrator) {
    |c.voltages| == BUFFER_LENGTH && |c.currents| == BUFFER_LENGTH &&
    StabilityFilter.Valid(c.filter) && c.filter.edgeMultiplier == StabilityFilter.EdgeMultiplier(PRECISION) &&
    0 <= c.bufferIdx <= BUFFER_LENGTH &&
    |c.results| <= TABLE_LENGTH && |c.results| != TABLE_LENGTH - 1 &&
    (|c.results| == TABLE_LENGTH ==> c.results[TABLE_LENGTH - 1] == c.results[TABLE_LENGTH - 2]) &&
    (Measuring(c.at) ==> |c.results| < TABLE_LENGTH - 1) &&
    (c.at == Pause || c.at == WaitMeasureUp ==> c.bufferIdx == 0) &&
    (c.at == Positive ==> 1 <= c.bufferIdx) &&
    (c.at == Negative ==> 1 <= c.offset <= c.bufferIdx)
  }

  /** The setpoint is the checkpoint's value exactly while the positive
      half-wave is recorded and while the core is demagnetised, and 0 at
      every other point after the top. */
  predicate Valid(e: Env, c: Calibrator) {
    |e.setpoints| == TABLE_LENGTH && Shaped(c) &&
    (c.at != Top ==>
       c.setpoint == if c.at == Positive || c.at == Demagnetize then e.setpoints[|c.results|] else 0)
  }

  /** A measure that decreases along every transition taken inside one
      call. Only the demagnetisation's end (on a `zero_cross_up`) leads back
      to the stability check, and from there the next measurement stops
      before its negative half-wave, because the flags exclude each other. */
  function Rank(at: Point, up: bool): nat {
    match at
    case Top => 14
    case InitialWait => 13
    case WaitUp => 12
    case NoiseRecord => 12
    case NoiseCheck => 11
    case MeasureCheck => 10
    case Demagnetize => if up then 9 else 0
    case StableCheck => 8
    case Pause => 7
    case WaitMeasureUp => 6
    case Positive => 5
    case Negative => 4
    case WaitDown => 3
  }

  /** Store one sample at the buffer index and advance it. */
  function Record(c: Calibrator, x: Input): (r: Calibrator)
    requires |c.voltages| == BUFFER_LENGTH && |c.currents| == BUFFER_LENGTH && 0 <= c.bufferIdx < BUFFER_LENGTH
    ensures r.bufferIdx == c.bufferIdx + 1 && |r.voltages| == BUFFER_LENGTH && |r.currents| == BUFFER_LENGTH
    ensures r.voltages[c.bufferIdx] == x.voltage && r.currents[c.bufferIdx] == x.current
    ensures r == c.(voltages := r.voltages, currents := r.currents, bufferIdx := r.bufferIdx)
  {
    c.(voltages := c.voltages[c.bufferIdx := x.voltage],
       currents := c.currents[c.bufferIdx := x.current],
       bufferIdx := c.bufferIdx + 1)
  }

  /** One pass of the positive-wave loop body: restart (return false
      without YIELD) when the buffer is full, otherwise record and YIELD. */
  function RecordPositive(c: Calibrator, x: Input): (r: Option<(Calibrator, bool)>)
    requires |c.voltages| == BUFFER_LENGTH && |c.currents| == BUFFER_LENGTH && 0 <= c.bufferIdx
    ensures r.Some? && !r.value.1
  {
    if c.bufferIdx >= BUFFER_LENGTH then Some((c.(at := Top), false))
    else Some((Record(c, x).(at := Positive), false))
  }

  /** One pass of the negative-wave loop body: the voltage is the negated
      sample of the positive half-wave `offset` places back. */
  function RecordNegative(c: Calibrator, x: Input): (r: Calibrator)
    requires |c.voltages| == BUFFER_LENGTH && |c.currents| == BUFFER_LENGTH
    requires 0 <= c.bufferIdx < BUFFER_LENGTH && 0 <= c.offset <= c.bufferIdx
    ensures r.bufferIdx == c.bufferIdx + 1 && r.at == c.at
    ensures r.voltages == c.voltages[c.bufferIdx := -c.voltages[c.bufferIdx - c.offset]]
    ensures r.currents == c.currents[c.bufferIdx := x.current]
  {
    c.(voltages := c.voltages[c.bufferIdx := -c.voltages[c.bufferIdx - c.offset]],
       currents := c.currents[c.bufferIdx := x.current],
       bufferIdx := c.bufferIdx + 1)
  }

  /** The table after a stable checkpoint: its average fills the next slot,
      and once the slot before the last is filled the last slot repeats it
      (the checkpoint at setpoint 1.0 is not measured). */
  function Extend(results: seq<int>, average: int): (r: seq<int>)
    requires |results| < TABLE_LENGTH - 1
    ensures |r| == if |results| == TABLE_LENGTH - 2 then TABLE_LENGTH else |results| + 1
    ensures r[..|results|] == results && r[|results|] == average
    ensures |r| == TABLE_LENGTH ==> r[TABLE_LENGTH - 1] == r[TABLE_LENGTH - 2]
  {
    var r := results + [average];
    if |r| == TABLE_LENGTH - 1 then r + [r[TABLE_LENGTH - 2]] else r
  }

  /** Past the 2 s wait, the tick counter is above its bound. */
  predicate Waited(c: Calibrator) {
    c.at != Top && c.at != InitialWait ==> c.ticks > INITIAL_WAIT
  }

  /** What every call promises: the corrected code never writes out of
      bounds; the state it stops in is valid and a resume point; it returns
      true only at the top with the whole table filled; short of a restart
      it never rewrites a slot of the table; and the code as written only
      ever counts its ticks up, so once past the 2 s wait it stays above
      that wait's bound. */
  predicate Outcome(v: Variant, e: Env, c: Calibrator, r: Option<(Calibrator, bool)>) {
    (v == Corrected ==> r.Some?) &&
    (r.Some? ==> Valid(e, r.value.0) && Resumable(r.value.0.at)) &&
    (r.Some? && r.value.1 ==> r.value.0.at == Top && |r.value.0.results| == TABLE_LENGTH) &&
    (r.Some? && c.at != Top && r.value.0.at != Top ==> c.results <= r.value.0.results) &&
    (v == AsWritten && r.Some? ==> r.value.0.ticks >= c.ticks) &&
    (v == AsWritten && r.Some? && Waited(c) ==> Waited(r.value.0))
  }

  /** Run the code from the point `c.at` with this tick's input until the
      next YIELD (`Some((state, false))`), the `return false` that restarts
      the stage (`Some((state at Top, false))`), or the `return true` after
      the table is stored. `None` is a buffer write out of bounds. The
      points are grouped by the part of the code they are in. */
  function Resume(v: Variant, e: Env, c: Calibrator, x: Input): (r: Option<(Calibrator, bool)>)
    requires Valid(e, c) && !(x.zeroCrossUp && x.zeroCrossDown)
    ensures Outcome(v, e, c, r)
    decreases if c.at == Top then 1 else 0, TABLE_LENGTH - |c.results|, Rank(c.at, x.zeroCrossUp), 1
  {
    match c.at
    case Top => Start(v, e, c, x)
    case InitialWait => Start(v, e, c, x)
    case WaitUp => Start(v, e, c, x)
    case NoiseCheck => Noise(v, e, c, x)
    case NoiseRecord => Noise(v, e, c, x)
    case MeasureCheck => Checkpoint(v, e, c, x)
    case StableCheck => Checkpoint(v, e, c, x)
    case Pause => PositiveWave(v, e, c, x)
    case WaitMeasureUp => PositiveWave(v, e, c, x)
    case Positive => PositiveWave(v, e, c, x)
    case Negative => NegativeWave(v, e, c, x)
    case WaitDown => NegativeWave(v, e, c, x)
    case Demagnetize => NegativeWave(v, e, c, x)
  }

  /** The reset and the 2 s wait, then the wait for a positive half-wave. */
  function Start(v: Variant, e: Env, c: Calibrator, x: Input): (r: Option<(Calibrator, bool)>)
    requires Valid(e, c) && !(x.zeroCrossUp && x.zeroCrossDown)
    requires c.at == Top || c.at == InitialWait || c.at == WaitUp
    ensures Outcome(v, e, c, r)
    decreases if c.at == Top then 1 else 0, TABLE_LENGTH - |c.results|, Rank(c.at, x.zeroCrossUp), 0
  {
    match c.at
    case Top =>
      var ticks := if v == Corrected then 0 else c.ticks;
      Resume(v, e, c.(setpoint := 0, results := [], ticks := ticks, at := InitialWait), x)
    case InitialWait =>
      if c.ticks < INITIAL_WAIT then Some((c.(ticks := c.ticks + 1), false))
      else Resume(v, e, c.(ticks := c.ticks + 1, at := WaitUp), x)
    case WaitUp =>
      if !x.zeroCrossUp then Some((c, false))
      else Resume(v, e, c.(bufferIdx := 0, at := NoiseCheck), x)
  }

  /** The noise recording over one positive half-wave. */
  function Noise(v: Variant, e: Env, c: Calibrator, x: Input): (r: Option<(Calibrator, bool)>)
    requires Valid(e, c) && !(x.zeroCrossUp && x.zeroCrossDown)
    requires c.at == NoiseCheck || c.at == NoiseRecord
    ensures Outcome(v, e, c, r)
    decreases 0, TABLE_LENGTH - |c.results|, Rank(c.at, x.zeroCrossUp), 0
  {
    match c.at
    case NoiseCheck =>
      // the loop ends on zero_cross_down; `process_thresholds` follows
      if !x.zeroCrossDown then Some((c.(at := NoiseRecord), false))
      else Resume(v, e, c.(at := MeasureCheck), x)
    case NoiseRecord =>
      if c.bufferIdx >= BUFFER_LENGTH then
        (if v == AsWritten then None else Some((c.(at := Top), false)))
      else Resume(v, e, Record(c, x).(at := NoiseCheck), x)
  }

  /** The loop over the checkpoints and the loop until one is stable. */
  function Checkpoint(v: Variant, e: Env, c: Calibrator, x: Input): (r: Option<(Calibrator, bool)>)
    requires Valid(e, c) && !(x.zeroCrossUp && x.zeroCrossDown)
    requires c.at == MeasureCheck || c.at == StableCheck
    ensures Outcome(v, e, c, r)
    decreases 0, TABLE_LENGTH - |c.results|, Rank(c.at, x.zeroCrossUp), 0
  {
    match c.at
    case MeasureCheck =>
      if |c.results| < TABLE_LENGTH then
        Resume(v, e, c.(filter := StabilityFilter.Reset(c.filter), at := StableCheck), x)
      // the table is written to the EEPROM and the meter reconfigured
      else Some((c.(at := Top), true))
    case StableCheck =>
      if !StabilityFilter.IsStable(e.lib, c.filter) then
        var ticks := if v == Corrected then 0 else c.ticks;
        Resume(v, e, c.(bufferIdx := 0, offset := 0, setpoint := 0, ticks := ticks, at := Pause), x)
      else
        Resume(v, e, c.(results := Extend(c.results, StabilityFilter.Average(c.filter)), at := MeasureCheck), x)
  }

  /** The 0.5 s pause, the wait for a positive half-wave and its recording
      with the triac open at the checkpoint's setpoint. */
  function PositiveWave(v: Variant, e: Env, c: Calibrator, x: Input): (r: Option<(Calibrator, bool)>)
    requires Valid(e, c) && !(x.zeroCrossUp && x.zeroCrossDown)
    requires c.at == Pause || c.at == WaitMeasureUp || c.at == Positive
    ensures Outcome(v, e, c, r)
    decreases 0, TABLE_LENGTH - |c.results|, Rank(c.at, x.zeroCrossUp), 0
  {
    match c.at
    case Pause =>
      if c.ticks < PAUSE then Some((c.(ticks := c.ticks + 1), false))
      else Resume(v, e, c.(ticks := c.ticks + 1, at := WaitMeasureUp), x)
    case WaitMeasureUp =>
      // on zero_cross_up the loop condition `!zero_cross_down` holds, so
      // the first pass of the positive-wave loop runs on this tick
      if !x.zeroCrossUp then Some((c, false))
      else RecordPositive(c.(setpoint := e.setpoints[|c.results|]), x)
    case Positive =>
      if !x.zeroCrossDown then RecordPositive(c, x)
      else Resume(v, e, c.(offset := c.bufferIdx, setpoint := 0, at := Negative), x)
  }

  /** The negative half-wave's recording with the mirrored voltage, the
      demagnetisation on the next negative half-wave, and the result pushed
      into the stability filter. */
  function NegativeWave(v: Variant, e: Env, c: Calibrator, x: Input): (r: Option<(Calibrator, bool)>)
    requires Valid(e, c) && !(x.zeroCrossUp && x.zeroCrossDown)
    requires c.at == Negative || c.at == WaitDown || c.at == Demagnetize
    ensures Outcome(v, e, c, r)
    decreases 0, TABLE_LENGTH - |c.results|, Rank(c.at, x.zeroCrossUp), 0
  {
    match c.at
    case Negative =>
      if !x.zeroCrossUp && c.bufferIdx < BUFFER_LENGTH then Some((RecordNegative(c, x), false))
      else Resume(v, e, c.(at := WaitDown), x)
    case WaitDown =>
      if !x.zeroCrossDown then Some((c, false))
      else Resume(v, e, c.(setpoint := e.setpoints[|c.results|], at := Demagnetize), x)
    case Demagnetize =>
      if !x.zeroCrossUp then Some((c, false))
      else
        var r := e.measure(c.voltages, c.currents, c.bufferIdx);
        Resume(v, e, c.(setpoint := 0, filter := StabilityFilter.Push(c.filter, r), at := StableCheck), x)
  }

  /** The I/O layer never sets both zero-cross flags on one tick. */
  predicate Exclusive(x: Input) {
    !(x.zeroCrossUp && x.zeroCrossDown)
  }

  /** `tick(io_data)`. Its result is `true` only with the whole table, the
      last slot a copy of the one before. */
  function Tick(v: Variant, e: Env, c: Calibrator, x: Input): (r: Option<(Calibrator, bool)>)
    requires Valid(e, c) && Resumable(c.at) && Exclusive(x)
    ensures Outcome(v, e, c, r)
    ensures r.Some? && r.value.1 ==> r.value.0.results[TABLE_LENGTH - 1] == r.value.0.results[TABLE_LENGTH - 2]
  {
    Resume(v, e, c, x)
  }

  /** A run of calls, one per tick; `None` once a write went out of
      bounds. */
  function Run(v: Variant, e: Env, c: Calibrator, xs: seq<Input>): (r: Option<Calibrator>)
    requires Valid(e, c) && Resumable(c.at)
    requires forall i :: 0 <= i < |xs| ==> Exclusive(xs[i])
    ensures v == Corrected ==> r.Some?
    ensures r.Some? ==> Valid(e, r.value) && Resumable(r.value.at)
    ensures v == AsWritten && r.Some? && Waited(c) ==> Waited(r.value)
    decreases |xs|
  {
    if |xs| == 0 then Some(c)
    else
      match Tick(v, e, c, xs[0])
      case None => None
      case Some((next, _)) => Run(v, e, next, xs[1..])
  }

  /** The noise recording stores one sample per tick of the positive
      half-wave. If the half-wave does not end before the buffer is full,
      the code as written writes past the buffers' end on the next tick,
      and the corrected code restarts the stage instead. */
  lemma {:induction false} NoiseFillsBuffer(e: Env, c: Calibrator, xs: seq<Input>)
    requires Valid(e, c) && c.at == NoiseRecord && c.bufferIdx + |xs| == BUFFER_LENGTH + 1
    requires forall i :: 0 <= i < |xs| ==> !xs[i].zeroCrossUp && !xs[i].zeroCrossDown
    ensures Run(AsWritten, e, c, xs) == None
    ensures Run(Corrected, e, c, xs).value.at == Top
    decreases |xs|
  {
    var x := xs[0];
    if c.bufferIdx < BUFFER_LENGTH {
      var check := Record(c, x).(at := NoiseCheck);
      var next := Record(c, x).(at := NoiseRecord);
      assert Tick(AsWritten, e, c, x) == Noise(AsWritten, e, c, x) == Noise(AsWritten, e, check, x) == Some((next, false));
      assert Tick(Corrected, e, c, x) == Noise(Corrected, e, c, x) == Noise(Corrected, e, check, x) == Some((next, false));
      NoiseFillsBuffer(e, next, xs[1..]);
    } else {
      assert Tick(AsWritten, e, c, x) == Noise(AsWritten, e, c, x) == None;
      var top := c.(at := Top);
      assert Tick(Corrected, e, c, x) == Noise(Corrected, e, c, x) == Some((top, false));
      assert Run(Corrected, e, top, xs[1..]) == Some(top);
    }
  }

  /** A zero-cross up followed by more ticks without a zero cross than the
      buffer holds: the noise recording of the code as written overruns its
      buffers; the corrected code is back at its top. */
  lemma {:induction false} AsWrittenNoiseOverruns(e: Env, c: Calibrator, x: Input, quiet: seq<Input>)
    requires Valid(e, c) && c.at == WaitUp && x.zeroCrossUp && !x.zeroCrossDown
    requires |quiet| == BUFFER_LENGTH + 1
    requires forall i :: 0 <= i < |quiet| ==> !quiet[i].zeroCrossUp && !quiet[i].zeroCrossDown
    ensures Run(AsWritten, e, c, [x] + quiet) == None
    ensures Run(Corrected, e, c, [x] + quiet).value.at == Top
  {
    var check := c.(bufferIdx := 0, at := NoiseCheck);
    var next := c.(bufferIdx := 0, at := NoiseRecord);
    assert Tick(AsWritten, e, c, x) == Start(AsWritten, e, c, x) == Noise(AsWritten, e, check, x) == Some((next, false));
    assert Tick(Corrected, e, c, x) == Start(Corrected, e, c, x) == Noise(Corrected, e, check, x) == Some((next, false));
    assert ([x] + quiet)[1..] == quiet;
    NoiseFillsBuffer(e, next, quiet);
  }

  /** Leaving the pause once the count is past it: on this tick the wait
      for the positive half-wave starts, and on a zero-cross up its
      recording too. */
  lemma PauseEnds(v: Variant, e: Env, c: Calibrator, x: Input)
    requires Valid(e, c) && c.at == Pause && c.ticks >= PAUSE && Exclusive(x)
    ensures var r := Tick(v, e, c, x);
      r.Some? && !r.value.1 &&
      (x.zeroCrossUp ==>
         r.value.0.at == Positive && r.value.0.bufferIdx == 1 && r.value.0.setpoint == e.setpoints[|c.results|]) &&
      (!x.zeroCrossUp ==> r.value.0.at == WaitMeasureUp)
  {
    assert Tick(v, e, c, x) == PositiveWave(v, e, c, x);
    PauseOver(v, e, c, x);
  }

  lemma PauseOver(v: Variant, e: Env, c: Calibrator, x: Input)
    requires Valid(e, c) && c.at == Pause && c.ticks >= PAUSE && Exclusive(x)
    ensures var r := PositiveWave(v, e, c, x);
      r.Some? && !r.value.1 &&
      (x.zeroCrossUp ==>
         r.value.0.at == Positive && r.value.0.bufferIdx == 1 && r.value.0.setpoint == e.setpoints[|c.results|]) &&
      (!x.zeroCrossUp ==> r.value.0.at == WaitMeasureUp)
  {
    var wait := c.(ticks := c.ticks + 1, at := WaitMeasureUp);
    assert PositiveWave(v, e, c, x) == PositiveWave(v, e, wait, x);
    MeasureUpStarts(v, e, wait, x);
  }

  /** Waiting for the positive half-wave: a zero-cross up starts its
      recording at the checkpoint's setpoint. */
  lemma MeasureUpStarts(v: Variant, e: Env, c: Calibrator, x: Input)
    requires Valid(e, c) && c.at == WaitMeasureUp && Exclusive(x)
    ensures var r := PositiveWave(v, e, c, x);
      r.Some? && !r.value.1 &&
      (x.zeroCrossUp ==>
         r.value.0.at == Positive && r.value.0.bufferIdx == 1 && r.value.0.setpoint == e.setpoints[|c.results|]) &&
      (!x.zeroCrossUp ==> r.value.0.at == WaitMeasureUp)
  {
  }

  /** The code as written counts the 2 s wait and every 0.5 s pause with
      the same `ticks_cnt`, which it never resets: from the top, every state
      a run reaches at the pause leaves it on the next tick. */
  lemma {:induction false} AsWrittenPauseNeverWaits(e: Env, c: Calibrator, xs: seq<Input>, p: Calibrator, x: Input)
    requires Valid(e, c) && c.at == Top && Exclusive(x)
    requires forall i :: 0 <= i < |xs| ==> Exclusive(xs[i])
    requires Run(AsWritten, e, c, xs) == Some(p) && p.at == Pause
    ensures Tick(AsWritten, e, p, x).Some? && Tick(AsWritten, e, p, x).value.0.at != Pause
  {
    assert Waited(p);
    PauseEnds(AsWritten, e, p, x);
  }

  /** So a measurement that the stability filter rejects is followed on the
      same tick by the next one: no pause, and the positive half-wave that
      starts here is recorded with the triac open again. */
  lemma AsWrittenSkipsPause(e: Env, c: Calibrator, x: Input)
    requires Valid(e, c) && c.at == Demagnetize && x.zeroCrossUp && !x.zeroCrossDown
    requires c.ticks >= PAUSE
    requires !StabilityFilter.IsStable(e.lib, StabilityFilter.Push(c.filter, e.measure(c.voltages, c.currents, c.bufferIdx)))
    ensures var r := Tick(AsWritten, e, c, x);
      r.Some? && r.value.0.at == Positive && r.value.0.setpoint == e.setpoints[|c.results|]
  {
    var pushed := StabilityFilter.Push(c.filter, e.measure(c.voltages, c.currents, c.bufferIdx));
    var check := c.(setpoint := 0, filter := pushed, at := StableCheck);
    var pause := check.(bufferIdx := 0, offset := 0, setpoint := 0, at := Pause);
    assert Tick(AsWritten, e, c, x) == NegativeWave(AsWritten, e, c, x) == Checkpoint(AsWritten, e, check, x)
      == Resume(AsWritten, e, pause, x);
    PauseEnds(AsWritten, e, pause, x);
  }

  /** And after a restart past the 2 s wait, the wait is skipped too. */
  lemma AsWrittenRestartSkipsWait(e: Env, c: Calibrator, x: Input, y: Input)
    requires Valid(e, c) && Resumable(c.at) && c.at != Top && c.at != InitialWait && Waited(c)
    requires Exclusive(x) && Exclusive(y)
    requires Tick(AsWritten, e, c, x).Some? && Tick(AsWritten, e, c, x).value.0.at == Top
    ensures var t := Tick(AsWritten, e, c, x).value.0;
      Tick(AsWritten, e, t, y).Some? && Tick(AsWritten, e, t, y).value.0.at != InitialWait
  {
    var t := Tick(AsWritten, e, c, x).value.0;
    assert t.ticks > INITIAL_WAIT;
    TopPastWaitSkips(e, t, y);
  }

  lemma TopPastWaitSkips(e: Env, t: Calibrator, y: Input)
    requires Valid(e, t) && t.at == Top && t.ticks > INITIAL_WAIT && Exclusive(y)
    ensures Tick(AsWritten, e, t, y).Some? && Tick(AsWritten, e, t, y).value.0.at != InitialWait
  {
    var reset := t.(setpoint := 0, results := [], at := InitialWait);
    assert Start(AsWritten, e, t, y) == Start(AsWritten, e, reset, y);
    WaitPassed(e, reset, y);
  }

  /** Past the 2 s bound the wait ends at once and the next state is the
      wait for, or the recording of, a positive half-wave. */
  lemma WaitPassed(e: Env, c: Calibrator, y: Input)
    requires Valid(e, c) && c.at == InitialWait && c.ticks >= INITIAL_WAIT && Exclusive(y)
    ensures Start(AsWritten, e, c, y).Some? && Start(AsWritten, e, c, y).value.0.at != InitialWait
  {
    var up := c.(ticks := c.ticks + 1, at := WaitUp);
    assert Start(AsWritten, e, c, y) == Start(AsWritten, e, up, y);
    WaitUpStays(e, up, y);
  }

  lemma WaitUpStays(e: Env, c: Calibrator, y: Input)
    requires Valid(e, c) && c.at == WaitUp && Exclusive(y)
    ensures Start(AsWritten, e, c, y).Some? && Start(AsWritten, e, c, y).value.0.at != InitialWait
  {
    if y.zeroCrossUp {
      var check := c.(bufferIdx := 0, at := NoiseCheck);
      assert Start(AsWritten, e, c, y) == Noise(AsWritten, e, check, y) == Some((check.(at := NoiseRecord), false));
    }
  }

  /** The corrected code restarts the count before the pause: a measurement
      that the stability filter rejects is followed by the pause, counted
      from its first tick. */
  lemma CorrectedPauses(e: Env, c: Calibrator, x: Input)
    requires Valid(e, c) && c.at == Demagnetize && x.zeroCrossUp && !x.zeroCrossDown
    requires !StabilityFilter.IsStable(e.lib, StabilityFilter.Push(c.filter, e.measure(c.voltages, c.currents, c.bufferIdx)))
    ensures var r := Tick(Corrected, e, c, x);
      r.Some? && !r.value.1 && r.value.0.at == Pause && r.value.0.ticks == 1 && r.value.0.setpoint == 0
  {
    var pushed := StabilityFilter.Push(c.filter, e.measure(c.voltages, c.currents, c.bufferIdx));
    var check := c.(setpoint := 0, filter := pushed, at := StableCheck);
    var pause := check.(bufferIdx := 0, offset := 0, setpoint := 0, ticks := 0, at := Pause);
    assert Tick(Corrected, e, c, x) == NegativeWave(Corrected, e, c, x) == Checkpoint(Corrected, e, check, x)
      == PositiveWave(Corrected, e, pause, x) == Some((pause.(ticks := 1), false));
  }

  /** The pause holds the triac closed for every tick it has left. */
  lemma {:induction false} CorrectedPauseLasts(e: Env, c: Calibrator, xs: seq<Input>)
    requires Valid(e, c) && c.at == Pause && c.ticks + |xs| <= PAUSE
    requires forall i :: 0 <= i < |xs| ==> Exclusive(xs[i])
    ensures var r := Run(Corrected, e, c, xs);
      r.value.at == Pause && r.value.ticks == c.ticks + |xs| && r.value.setpoint == 0
    decreases |xs|
  {
    if |xs| > 0 {
      var next := c.(ticks := c.ticks + 1);
      assert Tick(Corrected, e, c, xs[0]) == PositiveWave(Corrected, e, c, xs[0]) == Some((next, false));
      CorrectedPauseLasts(e, next, xs[1..]);
    }
  }

  /** And a restart waits the full 2 s again. */
  lemma CorrectedRestartWaits(e: Env, c: Calibrator, x: Input)
    requires Valid(e, c) && c.at == Top && Exclusive(x)
    ensures Tick(Corrected, e, c, x) == Some((c.(setpoint := 0, results := [], ticks := 1, at := InitialWait), false))
  {
    var reset := c.(setpoint := 0, results := [], ticks := 0, at := InitialWait);
    assert Tick(Corrected, e, c, x) == Start(Corrected, e, c, x) == Start(Corrected, e, reset, x);
  }
}

=== FILE: calibrator_switch.dfy ===
/** The older firmware's `Calibrator`: a `switch` over an explicit state.
    Each call runs the `tick` of the current state's stage only; when that
    returns true the state moves on, so the next stage starts on the next
    call. The stages' results are inputs. */
module CalibratorSwitch {
  datatype State = WaitStartCondition | CalibrateStatic | CalibrateSpeed | CalibratePid

  /** `ticks` is `ticks_cnt`, which only `set_state` touches. */
  datatype Calibrator = Calibrator(state: State, ticks: int)

  /** The member initialisers. */
  const INITIAL: Calibrator := Calibrator(WaitStartCondition, 0)

  function Index(s: State): (i: nat)
    ensures i < 4
  {
    match s
    case WaitStartCondition => 0
    case CalibrateStatic => 1
    case CalibrateSpeed => 2
    case CalibratePid => 3
  }

  /** The state the stage's success leads to: STATIC, SPEED, PID, then
      back to waiting. */
  function Successor(s: State): (n: State)
    ensures Index(n) == (Index(s) + 1) % 4
  {
    match s
    case WaitStartCondition => CalibrateStatic
    case CalibrateStatic => CalibrateSpeed
    case CalibrateSpeed => CalibratePid
    case CalibratePid => WaitStartCondition
  }

  /** `set_state`. */
  function SetState(c: Calibrator, st: State): (r: Calibrator)
    ensures r.state == st && r.ticks == 0
  {
    Calibrator(st, 0)
  }

  /** `tick()`, with `done` the result of the current state's stage `tick`.
      The call returns false only while waiting for the start gesture; a
      stage that has not finished changes nothing; one that has finished
      moves the state to its successor through `set_state`. */
  function Tick(c: Calibrator, done: bool): (r: (Calibrator, bool))
    ensures !r.1 <==> c.state == WaitStartCondition && !done
    ensures !done ==> r.0 == c
    ensures done ==> r.0 == SetState(c, Successor(c.state))
  {
    match c.state
    case WaitStartCondition => if done then (SetState(c, CalibrateStatic), true) else (c, false)
    case CalibrateStatic => (if done then SetState(c, CalibrateSpeed) else c, true)
    case CalibrateSpeed => (if done then SetState(c, CalibratePid) else c, true)
    case CalibratePid => (if done then SetState(c, WaitStartCondition) else c, true)
  }

  /** A run of calls, each with the result of the stage it calls. */
  function Run(c: Calibrator, dones: seq<bool>): Calibrator
    decreases |dones|
  {
    if |dones| == 0 then c else Run(Tick(c, dones[0]).0, dones[1..])
  }

  function CountTrue(s: seq<bool>): (n: nat)
    ensures n <= |s|
    decreases |s|
  {
    if |s| == 0 then 0 else (if s[0] then 1 else 0) + CountTrue(s[1..])
  }

  /** The states are visited strictly in the order WAIT, STATIC, SPEED, PID,
      WAIT, ...: after a run the state is as many steps along that cycle as
      there were finished stages, and nothing else moves it. */
  lemma {:induction false} RunFollowsCycle(c: Calibrator, dones: seq<bool>)
    ensures Index(Run(c, dones).state) == (Index(c.state) + CountTrue(dones)) % 4
    ensures CountTrue(dones) == 0 ==> Run(c, dones) == c
    decreases |dones|
  {
    if |dones| > 0 {
      RunFollowsCycle(Tick(c, dones[0]).0, dones[1..]);
    }
  }
}

=== FILE: eeprom_emu.dfy ===
/** The EEPROM emulator: 32-bit variables kept as an append-only log of
    8-byte records in one of two flash banks. When the current bank is full
    the newest committed record of every address is moved to the other bank.

    The emulator is generic in its flash driver, as the template is: a
    driver is three operations on a flash state `F`, and the proofs use only
    the laws of `Lawful`, which the test driver of module FlashDriver meets. */
module EepromEmu {
  import opened Wrappers

  /** FLASH_DRIVER::BankSize (the test driver's EEPROM_EMU_BANK_SIZE). */
  const BANK_SIZE: int := 1024

  const EMPTY: int := 0xFFFF
  const RECORD_SIZE: int := 8
  const BANK_HEADER_SIZE: int := 8
  const COMMIT_MARK: int := 0x55AA
  const BANK_MARK: int := 0x77EE
  const BANK_DIRTY_MARK: int := 0x5555
  /** The template's default VERSION. */
  const DEFAULT_VERSION: int := 0xCC33

  predicate IsU16(x: int) {
    0 <= x < 0x1_0000
  }

  predicate IsU32(x: int) {
    0 <= x < 0x1_0000_0000
  }

  predicate IsBank(bank: int) {
    bank == 0 || bank == 1
  }

  /** A 16-bit word that lies inside one bank. */
  predicate IsWordOffset(addr: int) {
    0 <= addr <= BANK_SIZE - 2
  }

  // ---------------------------------------------------------------- driver

  /** `erase(bank)`, `read_u16(bank, addr)` and `write_u16(bank, addr, data)`. */
  datatype Driver<!F> = Driver(erase: (F, int) -> F, read: (F, int, int) -> int, write: (F, int, int, int) -> F)

  /** What the emulator needs of a driver: reads give 16-bit words, a
      written word reads back and no other word changes, an erased bank
      reads EMPTY and the other bank does not change. */
  ghost predicate Lawful<F(!new)>(d: Driver<F>) {
    (forall f, bank, addr :: IsU16(d.read(f, bank, addr))) &&
    (forall f, bank, addr, data {:trigger d.read(d.write(f, bank, addr, data), bank, addr)} ::
       IsBank(bank) && IsWordOffset(addr) && IsU16(data) ==>
       d.read(d.write(f, bank, addr, data), bank, addr) == data) &&
    (forall f, bank, addr, data, bank', addr' {:trigger d.read(d.write(f, bank, addr, data), bank', addr')} ::
       IsBank(bank) && IsWordOffset(addr) && IsU16(data) && IsBank(bank') && IsWordOffset(addr') &&
       (bank' != bank || addr' + 2 <= addr || addr + 2 <= addr') ==>
       d.read(d.write(f, bank, addr, data), bank', addr') == d.read(f, bank', addr')) &&
    (forall f, bank, addr {:trigger d.read(d.erase(f, bank), bank, addr)} ::
       IsBank(bank) && IsWordOffset(addr) ==> d.read(d.erase(f, bank), bank, addr) == EMPTY) &&
    (forall f, bank, bank', addr {:trigger d.read(d.erase(f, bank), bank', addr)} ::
       IsBank(bank) && IsBank(bank') && bank' != bank && IsWordOffset(addr) ==>
       d.read(d.erase(f, bank), bank', addr) == d.read(f, bank', addr))
  }

  // ---------------------------------------------------------------- records

  /** One record slot: commit mark, 16-bit address, low and high halves. */
  datatype Rec = Rec(mark: int, addr: int, lo: int, hi: int)

  /** The offset of a record slot inside a bank. */
  predicate IsRecordStart(ofs: int) {
    BANK_HEADER_SIZE <= ofs <= BANK_SIZE - RECORD_SIZE && ofs % RECORD_SIZE == 0
  }

  /** A record boundary: the end of the log, or a scan position. */
  predicate IsRecordEnd(ofs: int) {
    BANK_HEADER_SIZE <= ofs <= BANK_SIZE && ofs % RECORD_SIZE == 0
  }

  /** Two record boundaries a slot apart or more. */
  lemma SlotFits(a: int, b: int)
    requires a % RECORD_SIZE == 0 && b % RECORD_SIZE == 0 && a < b
    ensures a + RECORD_SIZE <= b
  {
  }

  /** The boundary `n` slots after a boundary, and the one slot after it. */
  lemma RecordEndAfter(dst: int, n: int)
    requires IsRecordEnd(dst) && 0 <= n && dst + 8 * n <= BANK_SIZE
    ensures IsRecordEnd(dst + 8 * n)
    ensures n > 0 ==> IsRecordEnd(dst + RECORD_SIZE) && dst + 8 * n == dst + RECORD_SIZE + 8 * (n - 1)
  {
    assert (dst + 8 * n) % 8 == dst % 8;
  }

  function RecordAt<F>(d: Driver<F>, f: F, bank: int, ofs: int): Rec {
    Rec(d.read(f, bank, ofs), d.read(f, bank, ofs + 2), d.read(f, bank, ofs + 4), d.read(f, bank, ofs + 6))
  }

  /** The record slots in [lo, hi), oldest first. */
  function Records<F>(d: Driver<F>, f: F, bank: int, lo: int, hi: int): (r: seq<Rec>)
    requires IsRecordEnd(lo) && IsRecordEnd(hi) && lo <= hi
    ensures |r| == (hi - lo) / RECORD_SIZE
    decreases hi - lo
  {
    if lo == hi then [] else [RecordAt(d, f, bank, lo)] + Records(d, f, bank, lo + RECORD_SIZE, hi)
  }

  /** The 32-bit value `(hi << 16) + lo` a record holds. */
  function Value(r: Rec): int {
    r.hi * 0x1_0000 + r.lo
  }

  /** A committed record for `addr`. Stored addresses are 16-bit, so an
      address of 2^16 or more matches none. */
  predicate Matches(r: Rec, addr: int) {
    r.mark == COMMIT_MARK && r.addr == addr
  }

  /** The reference meaning of a log: the value of its newest committed
      record for `addr`, if there is one. */
  function Lookup(s: seq<Rec>, addr: int): Option<int> {
    if |s| == 0 then None
    else if Matches(s[|s| - 1], addr) then Some(Value(s[|s| - 1]))
    else Lookup(s[..|s| - 1], addr)
  }

  /** The newest-first lookup in plain words: nothing is found exactly when
      no committed record has the address, and otherwise the value found is
      that of a committed record with no later committed record for it. */
  lemma {:induction false} LookupSpec(s: seq<Rec>, addr: int)
    ensures Lookup(s, addr).None? <==> forall j :: 0 <= j < |s| ==> !Matches(s[j], addr)
    ensures Lookup(s, addr).Some? ==>
      (exists k :: 0 <= k < |s| && Matches(s[k], addr) && Lookup(s, addr).value == Value(s[k]) &&
                   (forall j :: k < j < |s| ==> !Matches(s[j], addr)))
  {
    if |s| > 0 && !Matches(s[|s| - 1], addr) {
      var t := s[..|s| - 1];
      LookupSpec(t, addr);
      assert forall j :: 0 <= j < |t| ==> t[j] == s[j];
    }
  }

  /** What a read with default `dflt` answers for a log. */
  function Stored(s: seq<Rec>, addr: int, dflt: int): int {
    match Lookup(s, addr)
    case None => dflt
    case Some(v) => v
  }

  lemma {:induction false} LookupPrepend(x: Rec, t: seq<Rec>, addr: int)
    ensures Lookup([x] + t, addr) ==
      (if Lookup(t, addr).Some? then Lookup(t, addr)
       else if Matches(x, addr) then Some(Value(x)) else None)
    decreases |t|
  {
    var s := [x] + t;
    if |t| == 0 {
      assert s == [x];
      assert s[..0] == [];
    } else {
      assert s[..|s| - 1] == [x] + t[..|t| - 1];
      assert s[|s| - 1] == t[|t| - 1];
      LookupPrepend(x, t[..|t| - 1], addr);
    }
  }

  lemma {:induction false} RecordsSnoc<F>(d: Driver<F>, f: F, bank: int, lo: int, hi: int)
    requires IsRecordEnd(lo) && IsRecordEnd(hi) && lo < hi
    ensures Records(d, f, bank, lo, hi) == Records(d, f, bank, lo, hi - RECORD_SIZE) + [RecordAt(d, f, bank, hi - RECORD_SIZE)]
    decreases hi - lo
  {
    SlotFits(lo, hi);
    if lo + RECORD_SIZE < hi {
      RecordsSnoc(d, f, bank, lo + RECORD_SIZE, hi);
    }
  }

  /** The words of a bank in [lo, hi) read the same in two flash states. */
  ghost predicate SameWords<F>(d: Driver<F>, f: F, g: F, bank: int, lo: int, hi: int) {
    forall a :: lo <= a && a + 2 <= hi ==> d.read(f, bank, a) == d.read(g, bank, a)
  }

  lemma {:induction false} RecordsFrame<F>(d: Driver<F>, f: F, g: F, bank: int, lo: int, hi: int)
    requires IsRecordEnd(lo) && IsRecordEnd(hi) && lo <= hi
    requires SameWords(d, f, g, bank, lo, hi)
    ensures Records(d, f, bank, lo, hi) == Records(d, g, bank, lo, hi)
    decreases hi - lo
  {
    if lo < hi {
      SlotFits(lo, hi);
      assert RecordAt(d, f, bank, lo) == RecordAt(d, g, bank, lo);
      RecordsFrame(d, f, g, bank, lo + RECORD_SIZE, hi);
    }
  }

  /** A word written outside [lo, hi) of a bank leaves its records alone. */
  lemma WriteKeepsRecords<F(!new)>(d: Driver<F>, f: F, bank: int, addr: int, data: int, bank': int, lo: int, hi: int)
    requires Lawful(d) && IsBank(bank) && IsWordOffset(addr) && IsU16(data) && IsBank(bank')
    requires IsRecordEnd(lo) && IsRecordEnd(hi) && lo <= hi
    requires bank' != bank || hi <= addr || addr + 2 <= lo
    ensures Records(d, d.write(f, bank, addr, data), bank', lo, hi) == Records(d, f, bank', lo, hi)
  {
    var g := d.write(f, bank, addr, data);
    assert SameWords(d, g, f, bank', lo, hi) by {
      forall a | lo <= a && a + 2 <= hi
        ensures d.read(g, bank', a) == d.read(f, bank', a)
      {
        assert IsWordOffset(a);
      }
    }
    RecordsFrame(d, g, f, bank', lo, hi);
  }

  /** Erasing one bank leaves the records of the other alone. */
  lemma EraseKeepsRecords<F(!new)>(d: Driver<F>, f: F, bank: int, bank': int, lo: int, hi: int)
    requires Lawful(d) && IsBank(bank) && IsBank(bank') && bank' != bank
    requires IsRecordEnd(lo) && IsRecordEnd(hi) && lo <= hi
    ensures Records(d, d.erase(f, bank), bank', lo, hi) == Records(d, f, bank', lo, hi)
  {
    var g := d.erase(f, bank);
    assert SameWords(d, g, f, bank', lo, hi) by {
      forall a | lo <= a && a + 2 <= hi
        ensures d.read(g, bank', a) == d.read(f, bank', a)
      {
        assert IsWordOffset(a);
      }
    }
    RecordsFrame(d, g, f, bank', lo, hi);
  }

  // ---------------------------------------------------------------- reading

  /** The reverse scan of `read_u32`, from `ofs` down to the bank header. */
  function ScanBack<F>(d: Driver<F>, f: F, bank: int, ofs: int, addr: int, dflt: int): int
    requires IsRecordEnd(ofs)
    decreases ofs
  {
    if ofs <= BANK_HEADER_SIZE then dflt
    else
      var o := ofs - RECORD_SIZE;
      if d.read(f, bank, o) != COMMIT_MARK then ScanBack(d, f, bank, o, addr, dflt)
      else if d.read(f, bank, o + 2) != addr then ScanBack(d, f, bank, o, addr, dflt)
      else d.read(f, bank, o + 6) * 0x1_0000 + d.read(f, bank, o + 4)
  }

  /** The reverse scan answers what the log means. */
  lemma {:induction false} ScanMatchesLog<F>(d: Driver<F>, f: F, bank: int, ofs: int, addr: int, dflt: int)
    requires IsRecordEnd(ofs)
    ensures ScanBack(d, f, bank, ofs, addr, dflt) == Stored(Records(d, f, bank, BANK_HEADER_SIZE, ofs), addr, dflt)
    decreases ofs
  {
    if ofs > BANK_HEADER_SIZE {
      var o := ofs - RECORD_SIZE;
      RecordsSnoc(d, f, bank, BANK_HEADER_SIZE, ofs);
      var s := Records(d, f, bank, BANK_HEADER_SIZE, ofs);
      assert s[..|s| - 1] == Records(d, f, bank, BANK_HEADER_SIZE, o);
      ScanMatchesLog(d, f, bank, o, addr, dflt);
    }
  }

  // ---------------------------------------------------------------- writing

  /** Four word writes in the order the emulator uses: address, low half,
      high half, and the commit mark last. */
  function WriteRecord<F>(d: Driver<F>, f: F, bank: int, ofs: int, addr: int, lo: int, hi: int): F {
    var f1 := d.write(f, bank, ofs + 2, addr);
    var f2 := d.write(f1, bank, ofs + 4, lo);
    var f3 := d.write(f2, bank, ofs + 6, hi);
    d.write(f3, bank, ofs, COMMIT_MARK)
  }

  /** The slot written holds a committed record of the three words given,
      and no word outside the slot changes. */
  lemma WrittenRecord<F(!new)>(d: Driver<F>, f: F, bank: int, ofs: int, addr: int, lo: int, hi: int)
    requires Lawful(d) && IsBank(bank) && IsRecordStart(ofs) && IsU16(addr) && IsU16(lo) && IsU16(hi)
    ensures RecordAt(d, WriteRecord(d, f, bank, ofs, addr, lo, hi), bank, ofs) == Rec(COMMIT_MARK, addr, lo, hi)
    ensures forall bank', a :: IsBank(bank') && IsWordOffset(a) && (bank' != bank || a + 2 <= ofs || ofs + RECORD_SIZE <= a)
              ==> d.read(WriteRecord(d, f, bank, ofs, addr, lo, hi), bank', a) == d.read(f, bank', a)
  {
    var f1 := d.write(f, bank, ofs + 2, addr);
    var f2 := d.write(f1, bank, ofs + 4, lo);
    var f3 := d.write(f2, bank, ofs + 6, hi);
    var g := d.write(f3, bank, ofs, COMMIT_MARK);
    assert d.read(f3, bank, ofs + 2) == addr by {
      assert d.read(f2, bank, ofs + 2) == d.read(f1, bank, ofs + 2);
    }
    assert d.read(f3, bank, ofs + 4) == lo;
    assert d.read(g, bank, ofs + 2) == addr;
    assert d.read(g, bank, ofs + 4) == lo;
    assert d.read(g, bank, ofs + 6) == hi;
  }

  /** A record written outside [lo, hi) of a bank leaves its records alone. */
  lemma WriteRecordKeepsRecords<F(!new)>(d: Driver<F>, f: F, bank: int, ofs: int, addr: int, lo: int, hi: int,
                                         bank': int, from: int, to: int)
    requires Lawful(d) && IsBank(bank) && IsRecordStart(ofs) && IsU16(addr) && IsU16(lo) && IsU16(hi) && IsBank(bank')
    requires IsRecordEnd(from) && IsRecordEnd(to) && from <= to
    requires bank' != bank || to <= ofs || ofs + RECORD_SIZE <= from
    ensures Records(d, WriteRecord(d, f, bank, ofs, addr, lo, hi), bank', from, to) == Records(d, f, bank', from, to)
  {
    var g := WriteRecord(d, f, bank, ofs, addr, lo, hi);
    WrittenRecord(d, f, bank, ofs, addr, lo, hi);
    assert SameWords(d, g, f, bank', from, to) by {
      forall a | from <= a && a + 2 <= to
        ensures d.read(g, bank', a) == d.read(f, bank', a)
      {
        assert IsWordOffset(a);
      }
    }
    RecordsFrame(d, g, f, bank', from, to);
  }

  // ---------------------------------------------------------------- banks

  /** The scan of `is_clear` from word offset `i` on. */
  function ClearFrom<F>(d: Driver<F>, f: F, bank: int, i: int): bool
    requires 0 <= i <= BANK_SIZE && i % 2 == 0
    decreases BANK_SIZE - i
  {
    if i >= BANK_SIZE then true
    else d.read(f, bank, i) == EMPTY && ClearFrom(d, f, bank, i + 2)
  }

  predicate IsClear<F>(d: Driver<F>, f: F, bank: int) {
    ClearFrom(d, f, bank, 0)
  }

  /** Every word of the bank at an even offset from `lo` on reads EMPTY. */
  ghost predicate ErasedFrom<F>(d: Driver<F>, f: F, bank: int, lo: int) {
    forall a :: lo <= a < BANK_SIZE && a % 2 == 0 ==> d.read(f, bank, a) == EMPTY
  }

  ghost predicate IsErased<F>(d: Driver<F>, f: F, bank: int) {
    ErasedFrom(d, f, bank, 0)
  }

  lemma {:induction false} ClearFromSpec<F>(d: Driver<F>, f: F, bank: int, i: int)
    requires 0 <= i <= BANK_SIZE && i % 2 == 0
    ensures ClearFrom(d, f, bank, i) <==>
      forall a :: i <= a < BANK_SIZE && a % 2 == 0 ==> d.read(f, bank, a) == EMPTY
    decreases BANK_SIZE - i
  {
    if i < BANK_SIZE {
      ClearFromSpec(d, f, bank, i + 2);
    }
  }

  /** `is_clear` holds exactly when every word of the bank reads EMPTY. */
  lemma ClearSpec<F>(d: Driver<F>, f: F, bank: int)
    ensures IsClear(d, f, bank) <==> IsErased(d, f, bank)
  {
    ClearFromSpec(d, f, bank, 0);
  }

  /** `if (!is_clear(bank)) erase(bank)`. */
  function EraseIfDirty<F>(d: Driver<F>, f: F, bank: int): F {
    if !IsClear(d, f, bank) then d.erase(f, bank) else f
  }

  /** Either way the bank ends erased and the other bank is untouched. */
  lemma EraseIfDirtySpec<F(!new)>(d: Driver<F>, f: F, bank: int)
    requires Lawful(d) && IsBank(bank)
    ensures IsErased(d, EraseIfDirty(d, f, bank), bank)
    ensures forall a :: IsWordOffset(a) ==> d.read(EraseIfDirty(d, f, bank), 1 - bank, a) == d.read(f, 1 - bank, a)
  {
    ClearSpec(d, f, bank);
    if !IsClear(d, f, bank) {
      forall a | 0 <= a < BANK_SIZE && a % 2 == 0
        ensures d.read(d.erase(f, bank), bank, a) == EMPTY
      {
        assert IsWordOffset(a);
      }
    }
  }

  /** The marker of the current bank: BANK_MARK, EMPTY, VERSION, EMPTY. */
  predicate IsActive<F>(d: Driver<F>, f: F, bank: int, version: int) {
    d.read(f, bank, 0) == BANK_MARK && d.read(f, bank, 2) == EMPTY &&
    d.read(f, bank, 4) == version && d.read(f, bank, 6) == EMPTY
  }

  /** All four words of the record slot still erased. */
  predicate IsFreeSlot<F>(d: Driver<F>, f: F, bank: int, ofs: int) {
    d.read(f, bank, ofs) == EMPTY && d.read(f, bank, ofs + 2) == EMPTY &&
    d.read(f, bank, ofs + 4) == EMPTY && d.read(f, bank, ofs + 6) == EMPTY
  }

  /** The loop of `find_write_offset` from `ofs`: the first free slot, or
      the bank size when there is none. */
  function FindFrom<F>(d: Driver<F>, f: F, bank: int, ofs: int): (r: int)
    requires IsRecordEnd(ofs)
    ensures IsRecordEnd(r) && ofs <= r
    decreases BANK_SIZE - ofs
  {
    if ofs > BANK_SIZE - RECORD_SIZE then ofs
    else if IsFreeSlot(d, f, bank, ofs) then ofs
    else FindFrom(d, f, bank, ofs + RECORD_SIZE)
  }

  function FindWriteOffset<F>(d: Driver<F>, f: F, bank: int): (r: int)
    ensures IsRecordEnd(r)
  {
    FindFrom(d, f, bank, BANK_HEADER_SIZE)
  }

  /** `find_write_offset` gives the first free slot of the bank, or the bank
      size when every slot is used. */
  lemma {:induction false} FindFromSpec<F>(d: Driver<F>, f: F, bank: int, ofs: int)
    requires IsRecordEnd(ofs)
    ensures var r := FindFrom(d, f, bank, ofs);
      (r < BANK_SIZE ==> IsFreeSlot(d, f, bank, r)) &&
      (forall o :: ofs <= o < r && IsRecordStart(o) ==> !IsFreeSlot(d, f, bank, o))
    decreases BANK_SIZE - ofs
  {
    if ofs <= BANK_SIZE - RECORD_SIZE && !IsFreeSlot(d, f, bank, ofs) {
      FindFromSpec(d, f, bank, ofs + RECORD_SIZE);
      forall o | ofs <= o < ofs + RECORD_SIZE && IsRecordStart(o)
        ensures o == ofs
      {
        if o != ofs {
          SlotFits(ofs, o);
        }
      }
    }
  }

  // ---------------------------------------------------------------- bank move

  /** The inner loop of `move_bank`: a committed record for `addr` among
      the later records `s`. */
  function FresherIn(s: seq<Rec>, addr: int): bool {
    |s| > 0 && (Matches(s[0], addr) || FresherIn(s[1..], addr))
  }

  lemma {:induction false} FresherInSpec(s: seq<Rec>, addr: int)
    ensures FresherIn(s, addr) <==> Lookup(s, addr).Some?
  {
    if |s| > 0 {
      FresherInSpec(s[1..], addr);
      assert s == [s[0]] + s[1..];
      LookupPrepend(s[0], s[1..], addr);
    }
  }

  /** The copy loop of `move_bank` over the records below the write
      offset: the records it copies to the other bank, oldest first. It
      skips uncommitted records, the ignored address and every record with a
      fresher committed copy. */
  function Survivors(s: seq<Rec>, ignore: int): (r: seq<Rec>)
    ensures |r| <= |s|
    ensures forall k :: 0 <= k < |r| ==> r[k].mark == COMMIT_MARK && r[k].addr != ignore
  {
    if |s| == 0 then []
    else
      var rest := Survivors(s[1..], ignore);
      if s[0].mark != COMMIT_MARK then rest
      else if s[0].addr == ignore then rest
      else if FresherIn(s[1..], s[0].addr) then rest
      else [s[0]] + rest
  }

  /** What the moved records mean is what the log meant, except that the
      ignored address is gone. */
  lemma {:induction false} SurvivorsLookup(s: seq<Rec>, ignore: int, addr: int)
    ensures Lookup(Survivors(s, ignore), addr) == if addr == ignore then None else Lookup(s, addr)
  {
    if |s| > 0 {
      var x, t := s[0], s[1..];
      SurvivorsLookup(t, ignore, addr);
      assert s == [x] + t;
      LookupPrepend(x, t, addr);
      FresherInSpec(t, x.addr);
      if x.mark == COMMIT_MARK && x.addr != ignore && !FresherIn(t, x.addr) {
        assert Survivors(s, ignore) == [x] + Survivors(t, ignore);
        LookupPrepend(x, Survivors(t, ignore), addr);
        if addr == ignore {
          assert !Matches(x, addr);
        }
      } else {
        assert Survivors(s, ignore) == Survivors(t, ignore);
        if addr != ignore && Lookup(t, addr).None? {
          assert !Matches(x, addr);
        }
      }
    }
  }

  /** Every record holds 16-bit address and value halves. */
  predicate AllWords(s: seq<Rec>) {
    forall k :: 0 <= k < |s| ==> IsU16(s[k].addr) && IsU16(s[k].lo) && IsU16(s[k].hi)
  }

  /** Every survivor holds 16-bit words, as everything read from flash does. */
  lemma {:induction false} SurvivorsAreWords(s: seq<Rec>, ignore: int)
    requires AllWords(s)
    ensures AllWords(Survivors(s, ignore))
  {
    if |s| > 0 {
      var t := s[1..];
      assert forall k :: 0 <= k < |t| ==> t[k] == s[k + 1];
      SurvivorsAreWords(t, ignore);
      var rest := Survivors(t, ignore);
      var r := Survivors(s, ignore);
      if r != rest {
        assert r == [s[0]] + rest;
        forall k | 0 <= k < |r|
          ensures IsU16(r[k].addr) && IsU16(r[k].lo) && IsU16(r[k].hi)
        {
          if k > 0 {
            assert r[k] == rest[k - 1];
            assert IsU16(rest[k - 1].addr);
          } else {
            assert r[k] == s[0];
            assert IsU16(s[0].addr);
          }
        }
      }
    }
  }

  /** The writes of the copy loop: the records one after another from `dst`. */
  function WriteRecords<F>(d: Driver<F>, f: F, bank: int, dst: int, recs: seq<Rec>): F
    decreases |recs|
  {
    if |recs| == 0 then f
    else WriteRecords(d, WriteRecord(d, f, bank, dst, recs[0].addr, recs[0].lo, recs[0].hi), bank, dst + RECORD_SIZE, recs[1..])
  }

  /** Committed records written from `dst` read back as the same log, and
      nothing outside their slots changes. */
  lemma WriteRecordsEffect<F(!new)>(d: Driver<F>, f: F, bank: int, dst: int, recs: seq<Rec>)
    requires Lawful(d) && IsBank(bank) && IsRecordEnd(dst) && dst + 8 * |recs| <= BANK_SIZE
    requires (forall k :: 0 <= k < |recs| ==> recs[k].mark == COMMIT_MARK) && AllWords(recs)
    ensures Records(d, WriteRecords(d, f, bank, dst, recs), bank, BANK_HEADER_SIZE, dst + 8 * |recs|)
            == Records(d, f, bank, BANK_HEADER_SIZE, dst) + recs
    ensures forall bank', a :: IsBank(bank') && IsWordOffset(a) && (bank' != bank || a + 2 <= dst || dst + 8 * |recs| <= a)
              ==> d.read(WriteRecords(d, f, bank, dst, recs), bank', a) == d.read(f, bank', a)
  {
    RecordEndAfter(dst, |recs|);
    WriteRecordsLog(d, f, bank, dst, recs, dst + 8 * |recs|);
    forall bank', a | IsBank(bank') && IsWordOffset(a) && (bank' != bank || a + 2 <= dst || dst + 8 * |recs| <= a)
      ensures d.read(WriteRecords(d, f, bank, dst, recs), bank', a) == d.read(f, bank', a)
    {
      WriteRecordsFrame(d, f, bank, dst, recs, bank', a);
    }
  }

  lemma {:induction false} WriteRecordsLog<F(!new)>(d: Driver<F>, f: F, bank: int, dst: int, recs: seq<Rec>, end: int)
    requires Lawful(d) && IsBank(bank) && IsRecordEnd(dst) && IsRecordEnd(end) && end == dst + 8 * |recs|
    requires (forall k :: 0 <= k < |recs| ==> recs[k].mark == COMMIT_MARK) && AllWords(recs)
    ensures Records(d, WriteRecords(d, f, bank, dst, recs), bank, BANK_HEADER_SIZE, end)
            == Records(d, f, bank, BANK_HEADER_SIZE, dst) + recs
    decreases |recs|
  {
    if |recs| > 0 {
      var x := recs[0];
      var rest := recs[1..];
      RecordEndAfter(dst, |recs|);
      assert AllWords(rest) by {
        forall k | 0 <= k < |rest| ensures IsU16(rest[k].addr) && IsU16(rest[k].lo) && IsU16(rest[k].hi) {
          assert rest[k] == recs[k + 1];
        }
      }
      var g := WriteRecord(d, f, bank, dst, x.addr, x.lo, x.hi);
      var A := Records(d, f, bank, BANK_HEADER_SIZE, dst);
      OneRecordLog(d, f, bank, dst, x);
      WriteRecordsLog(d, g, bank, dst + RECORD_SIZE, rest, end);
      var h := WriteRecords(d, g, bank, dst + RECORD_SIZE, rest);
      assert WriteRecords(d, f, bank, dst, recs) == h;
      ConsThenRest(A, recs);
      assert Records(d, h, bank, BANK_HEADER_SIZE, end) == (A + [x]) + rest;
    } else {
      assert end == dst && WriteRecords(d, f, bank, dst, recs) == f;
      assert Records(d, f, bank, BANK_HEADER_SIZE, dst) + recs == Records(d, f, bank, BANK_HEADER_SIZE, dst);
    }
  }

  /** One committed record written at the end of a log extends it by that record. */
  lemma OneRecordLog<F(!new)>(d: Driver<F>, f: F, bank: int, dst: int, x: Rec)
    requires Lawful(d) && IsBank(bank) && IsRecordEnd(dst) && dst + RECORD_SIZE <= BANK_SIZE
    requires x.mark == COMMIT_MARK && IsU16(x.addr) && IsU16(x.lo) && IsU16(x.hi)
    ensures IsRecordEnd(dst + RECORD_SIZE)
    ensures Records(d, WriteRecord(d, f, bank, dst, x.addr, x.lo, x.hi), bank, BANK_HEADER_SIZE, dst + RECORD_SIZE)
            == Records(d, f, bank, BANK_HEADER_SIZE, dst) + [x]
  {
    var g := WriteRecord(d, f, bank, dst, x.addr, x.lo, x.hi);
    WrittenRecord(d, f, bank, dst, x.addr, x.lo, x.hi);
    WriteRecordKeepsRecords(d, f, bank, dst, x.addr, x.lo, x.hi, bank, BANK_HEADER_SIZE, dst);
    RecordsSnoc(d, g, bank, BANK_HEADER_SIZE, dst + RECORD_SIZE);
    assert RecordAt(d, g, bank, dst) == Rec(COMMIT_MARK, x.addr, x.lo, x.hi) == x;
    assert Records(d, g, bank, BANK_HEADER_SIZE, dst) == Records(d, f, bank, BANK_HEADER_SIZE, dst);
  }

  lemma ConsThenRest(a: seq<Rec>, s: seq<Rec>)
    requires |s| > 0
    ensures (a + [s[0]]) + s[1..] == a + s
  {
    assert s == [s[0]] + s[1..];
  }

  lemma {:induction false} WriteRecordsFrame<F(!new)>(d: Driver<F>, f: F, bank: int, dst: int, recs: seq<Rec>, bank': int, a: int)
    requires Lawful(d) && IsBank(bank) && IsRecordEnd(dst) && dst + 8 * |recs| <= BANK_SIZE && AllWords(recs)
    requires IsBank(bank') && IsWordOffset(a) && (bank' != bank || a + 2 <= dst || dst + 8 * |recs| <= a)
    ensures d.read(WriteRecords(d, f, bank, dst, recs), bank', a) == d.read(f, bank', a)
    decreases |recs|
  {
    if |recs| > 0 {
      var x := recs[0];
      var rest := recs[1..];
      assert IsU16(x.addr) && IsU16(x.lo) && IsU16(x.hi);
      assert AllWords(rest) by {
        forall k | 0 <= k < |rest| ensures IsU16(rest[k].addr) && IsU16(rest[k].lo) && IsU16(rest[k].hi) {
          assert rest[k] == recs[k + 1];
        }
      }
      SlotFits(dst, BANK_SIZE);
      var g := WriteRecord(d, f, bank, dst, x.addr, x.lo, x.hi);
      WrittenRecord(d, f, bank, dst, x.addr, x.lo, x.hi);
      WriteRecordsFrame(d, g, bank, dst + RECORD_SIZE, rest, bank', a);
      assert WriteRecords(d, f, bank, dst, recs) == WriteRecords(d, g, bank, dst + RECORD_SIZE, rest);
    }
  }

  /** The records of a bank read from flash hold 16-bit words. */
  lemma {:induction false} RecordsAreWords<F(!new)>(d: Driver<F>, f: F, bank: int, lo: int, hi: int)
    requires Lawful(d) && IsRecordEnd(lo) && IsRecordEnd(hi) && lo <= hi
    ensures AllWords(Records(d, f, bank, lo, hi))
    decreases hi - lo
  {
    if lo < hi {
      SlotFits(lo, hi);
      RecordsAreWords(d, f, bank, lo + RECORD_SIZE, hi);
      var s := Records(d, f, bank, lo, hi);
      var t := Records(d, f, bank, lo + RECORD_SIZE, hi);
      assert s == [RecordAt(d, f, bank, lo)] + t;
      forall k | 0 <= k < |s|
        ensures IsU16(s[k].addr) && IsU16(s[k].lo) && IsU16(s[k].hi)
      {
        if k > 0 {
          assert s[k] == t[k - 1];
        }
      }
    }
  }

  /** The words of a bank read the same in two flash states. */
  ghost predicate SameBank<F>(d: Driver<F>, f: F, g: F, bank: int) {
    forall a :: IsWordOffset(a) ==> d.read(f, bank, a) == d.read(g, bank, a)
  }

  /** A bank whose words read the same has the same records, marker and
      erased tail. */
  lemma SameBankKeeps<F>(d: Driver<F>, f: F, g: F, bank: int, next: int, version: int)
    requires SameBank(d, f, g, bank) && IsRecordEnd(next)
    ensures Records(d, f, bank, BANK_HEADER_SIZE, next) == Records(d, g, bank, BANK_HEADER_SIZE, next)
    ensures IsActive(d, f, bank, version) == IsActive(d, g, bank, version)
    ensures ErasedFrom(d, f, bank, next) == ErasedFrom(d, g, bank, next)
  {
    assert SameWords(d, f, g, bank, BANK_HEADER_SIZE, next) by {
      forall a | BANK_HEADER_SIZE <= a && a + 2 <= next
        ensures d.read(f, bank, a) == d.read(g, bank, a)
      {
        assert IsWordOffset(a);
      }
    }
    RecordsFrame(d, f, g, bank, BANK_HEADER_SIZE, next);
    assert IsWordOffset(0) && IsWordOffset(2) && IsWordOffset(4) && IsWordOffset(6);
    forall a | next <= a < BANK_SIZE && a % 2 == 0
      ensures d.read(f, bank, a) == d.read(g, bank, a)
    {
      assert IsWordOffset(a);
    }
  }

  // ---------------------------------------------------------------- emulator

  /** The emulator object: the flash it owns, the template's VERSION, and
      what `init` sets up, the current bank and `next_write_offset`. Before
      the first access `initialized` is false and the other two fields are
      not used. */
  datatype Emu<F> = Emu(flash: F, version: int, initialized: bool, bank: int, next: int)

  /** What every operation assumes of the object's own fields. */
  predicate WF<F>(e: Emu<F>) {
    e.initialized ==> IsBank(e.bank) && IsRecordEnd(e.next)
  }

  /** The result of `write_u32`: the value was already stored, a record
      was appended, or the bank moved to was full as well. */
  datatype Outcome = Skipped | Appended | Overflowed

  /** `init`: the first active bank in the order 0, 1; when neither bank
      is active, bank 0 is erased if needed and marked active. The write
      offset is the first free record slot. */
  function Init<F>(d: Driver<F>, f: F, version: int): (e: Emu<F>)
    ensures WF(e) && e.initialized && e.version == version
  {
    if IsActive(d, f, 0, version) then Emu(f, version, true, 0, FindWriteOffset(d, f, 0))
    else if IsActive(d, f, 1, version) then Emu(f, version, true, 1, FindWriteOffset(d, f, 1))
    else
      var g := d.write(d.write(EraseIfDirty(d, f, 0), 0, 0, BANK_MARK), 0, 4, version);
      Emu(g, version, true, 0, FindWriteOffset(d, g, 0))
  }

  /** `if (!initialized) init()`. */
  function Ready<F>(d: Driver<F>, e: Emu<F>): (r: Emu<F>)
    requires WF(e)
    ensures WF(r) && r.initialized && r.version == e.version
  {
    if e.initialized then e else Init(d, e.flash, e.version)
  }

  /** The log of the current bank: the record slots below the write offset. */
  function View<F>(d: Driver<F>, e: Emu<F>): seq<Rec>
    requires IsRecordEnd(e.next)
  {
    Records(d, e.flash, e.bank, BANK_HEADER_SIZE, e.next)
  }

  /** `read_u32(addr, dflt)`: the object after the implicit `init`, and the
      value of the reverse scan. */
  function ReadU32<F>(d: Driver<F>, e: Emu<F>, addr: int, dflt: int): (r: (Emu<F>, int))
    requires WF(e)
    ensures WF(r.0) && r.0.initialized
  {
    var e1 := Ready(d, e);
    (e1, ScanBack(d, e1.flash, e1.bank, e1.next, addr, dflt))
  }

  /** The copy phase and bank switch of `move_bank(from, 1 - from, ignore)`
      with the log of `from` ending at `next`: the flash afterwards and the
      new write offset.

      The copy loop reads only bank `from` and writes only the other bank,
      which a lawful driver keeps apart, so the records are taken as read
      before the first copy. */
  function MoveBank<F>(d: Driver<F>, f: F, from: int, next: int, ignore: int, version: int): (r: (F, int))
    requires IsBank(from) && IsRecordEnd(next)
    ensures IsRecordEnd(r.1) && r.1 <= next
  {
    var to := 1 - from;
    var f1 := EraseIfDirty(d, f, to);
    var recs := Survivors(Records(d, f1, from, BANK_HEADER_SIZE, next), ignore);
    var f2 := WriteRecords(d, f1, to, BANK_HEADER_SIZE, recs);
    var f3 := d.write(d.write(f2, to, 0, BANK_MARK), to, 4, version);
    var f4 := d.erase(d.write(d.write(f3, from, 2, BANK_DIRTY_MARK), from, 6, BANK_DIRTY_MARK), from);
    (f4, BANK_HEADER_SIZE + 8 * |recs|)
  }

  /** The emulator after `move_bank(bank, bank ^ 1, ignore)`. */
  function Move<F>(d: Driver<F>, e: Emu<F>, ignore: int): (r: Emu<F>)
    requires WF(e) && e.initialized
    ensures WF(r) && r.initialized && r.bank == 1 - e.bank && r.next <= e.next
  {
    var m := MoveBank(d, e.flash, e.bank, e.next, ignore, e.version);
    Emu(m.0, e.version, true, 1 - e.bank, m.1)
  }

  /** The tail of `write_u32`: the record at the write offset, then the
      offset one slot further. */
  function Append<F>(d: Driver<F>, e: Emu<F>, addr: int, lo: int, hi: int): (r: Emu<F>)
    requires WF(e) && e.initialized && e.next < BANK_SIZE
    ensures WF(r) && r.initialized && r.bank == e.bank && r.next == e.next + RECORD_SIZE
  {
    SlotFits(e.next, BANK_SIZE);
    e.(flash := WriteRecord(d, e.flash, e.bank, e.next, addr, lo, hi), next := e.next + RECORD_SIZE)
  }

  /** `write_u32(addr, val)`. The record stores the low 16 bits of the
      address, while the check against the stored value compares the full
      address. */
  function WriteU32<F>(d: Driver<F>, e: Emu<F>, addr: int, val: int): (r: (Emu<F>, Outcome))
    requires WF(e) && IsU32(addr) && IsU32(val)
    ensures WF(r.0) && r.0.initialized
  {
    var e1 := Ready(d, e);
    var previous := ScanBack(d, e1.flash, e1.bank, e1.next, addr, (val + 1) % 0x1_0000_0000);
    if previous == val then (e1, Skipped)
    else
      var e2 := if e1.next + RECORD_SIZE > BANK_SIZE then Move(d, e1, addr % 0x1_0000) else e1;
      if e2.next + RECORD_SIZE > BANK_SIZE then (e2, Overflowed)
      else (Append(d, e2, addr % 0x1_0000, val % 0x1_0000, val / 0x1_0000), Appended)
  }

  // ---------------------------------------------------------------- invariant

  /** Every record of the log is committed. */
  predicate Committed(s: seq<Rec>) {
    forall k :: 0 <= k < |s| ==> s[k].mark == COMMIT_MARK
  }

  /** What the emulator keeps true from a blank flash on: the current bank
      is active, bank 0 is not when the current bank is 1 (so a new `init`
      picks the current bank again), every slot below the write offset
      holds a committed record and every word from the write offset on is
      still erased. */
  ghost predicate Consistent<F>(d: Driver<F>, e: Emu<F>) {
    e.initialized && IsU16(e.version) && IsBank(e.bank) && IsRecordEnd(e.next) &&
    IsActive(d, e.flash, e.bank, e.version) &&
    (e.bank == 1 ==> !IsActive(d, e.flash, 0, e.version)) &&
    Committed(View(d, e)) && ErasedFrom(d, e.flash, e.bank, e.next)
  }

  /** On a blank flash `init` prepares bank 0 with an empty log. */
  lemma InitFresh<F(!new)>(d: Driver<F>, f: F, version: int)
    requires Lawful(d) && IsU16(version) && IsErased(d, f, 0) && IsErased(d, f, 1)
    ensures var e := Init(d, f, version);
      Consistent(d, e) && e.bank == 0 && View(d, e) == []
  {
    ClearSpec(d, f, 0);
    assert IsWordOffset(0) && IsWordOffset(2) && IsWordOffset(4) && IsWordOffset(6);
    assert !IsActive(d, f, 0, version) && !IsActive(d, f, 1, version);
    var g := d.write(d.write(f, 0, 0, BANK_MARK), 0, 4, version);
    forall a | 0 <= a < BANK_SIZE && a % 2 == 0 && a != 0 && a != 4
      ensures d.read(g, 0, a) == EMPTY
    {
      assert IsWordOffset(a);
    }
    assert IsFreeSlot(d, g, 0, BANK_HEADER_SIZE);
  }

  /** When neither bank is active for this version, because the flash is
      blank or was written under another version, `init` starts over on
      bank 0 with an empty log. */
  lemma InitMismatch<F(!new)>(d: Driver<F>, f: F, version: int)
    requires Lawful(d) && IsU16(version) && !IsActive(d, f, 0, version) && !IsActive(d, f, 1, version)
    ensures var e := Init(d, f, version);
      Consistent(d, e) && e.bank == 0 && View(d, e) == []
  {
    EraseIfDirtySpec(d, f, 0);
    assert IsWordOffset(0) && IsWordOffset(2) && IsWordOffset(4) && IsWordOffset(6);
    var g := d.write(d.write(EraseIfDirty(d, f, 0), 0, 0, BANK_MARK), 0, 4, version);
    forall a | 0 <= a < BANK_SIZE && a % 2 == 0 && a != 0 && a != 4
      ensures d.read(g, 0, a) == EMPTY
    {
      assert IsWordOffset(a);
    }
    assert IsFreeSlot(d, g, 0, BANK_HEADER_SIZE);
  }

  /** The first free slot from `ofs` is `next` when the slots in between
      are committed and everything from `next` on is erased. */
  lemma {:induction false} FindFromCommitted<F>(d: Driver<F>, f: F, bank: int, ofs: int, next: int)
    requires IsRecordEnd(ofs) && IsRecordEnd(next) && ofs <= next
    requires Committed(Records(d, f, bank, ofs, next)) && ErasedFrom(d, f, bank, next)
    ensures FindFrom(d, f, bank, ofs) == next
    decreases next - ofs
  {
    if ofs < next {
      SlotFits(ofs, next);
      var s := Records(d, f, bank, ofs, next);
      var rest := Records(d, f, bank, ofs + RECORD_SIZE, next);
      assert s == [RecordAt(d, f, bank, ofs)] + rest;
      assert s[0].mark == COMMIT_MARK;
      assert !IsFreeSlot(d, f, bank, ofs);
      assert Committed(rest) by {
        assert forall k :: 0 <= k < |rest| ==> rest[k] == s[k + 1];
      }
      FindFromCommitted(d, f, bank, ofs + RECORD_SIZE, next);
    } else if ofs <= BANK_SIZE - RECORD_SIZE {
      ErasedSlotFree(d, f, bank, ofs);
    }
  }

  lemma ErasedSlotFree<F>(d: Driver<F>, f: F, bank: int, ofs: int)
    requires IsRecordEnd(ofs) && ofs + RECORD_SIZE <= BANK_SIZE && ErasedFrom(d, f, bank, ofs)
    ensures IsFreeSlot(d, f, bank, ofs)
  {
    assert (ofs + 2) % 2 == 0 && (ofs + 4) % 2 == 0 && (ofs + 6) % 2 == 0 && ofs % 2 == 0;
  }

  /** Restarting on the flash of a consistent emulator finds the same bank
      and write offset again. */
  lemma ReInit<F>(d: Driver<F>, e: Emu<F>)
    requires Consistent(d, e)
    ensures Init(d, e.flash, e.version) == e
  {
    FindFromCommitted(d, e.flash, e.bank, BANK_HEADER_SIZE, e.next);
  }

  /** `read_u32` answers what the current log means. */
  lemma ReadU32Spec<F>(d: Driver<F>, e: Emu<F>, addr: int, dflt: int)
    requires WF(e)
    ensures var r := ReadU32(d, e, addr, dflt);
      r.0 == Ready(d, e) && r.1 == Stored(View(d, r.0), addr, dflt)
  {
    var e1 := Ready(d, e);
    ScanMatchesLog(d, e1.flash, e1.bank, e1.next, addr, dflt);
  }

  /** Stored addresses are 16-bit words, so a wider address always reads
      the default. */
  lemma WideAddressReadsDefault<F(!new)>(d: Driver<F>, e: Emu<F>, addr: int, dflt: int)
    requires Lawful(d) && WF(e) && !IsU16(addr)
    ensures ReadU32(d, e, addr, dflt).1 == dflt
  {
    var e1 := Ready(d, e);
    ReadU32Spec(d, e, addr, dflt);
    RecordsAreWords(d, e1.flash, e1.bank, BANK_HEADER_SIZE, e1.next);
    LookupSpec(View(d, e1), addr);
  }

  lemma LookupAppend(s: seq<Rec>, x: Rec, addr: int)
    ensures Lookup(s + [x], addr) == if Matches(x, addr) then Some(Value(x)) else Lookup(s, addr)
  {
    assert (s + [x])[..|s|] == s;
  }

  lemma CommittedSnoc(s: seq<Rec>, x: Rec)
    requires Committed(s) && x.mark == COMMIT_MARK
    ensures Committed(s + [x])
  {
    forall k | 0 <= k < |s| + 1
      ensures (s + [x])[k].mark == COMMIT_MARK
    {
      if k < |s| {
        assert (s + [x])[k] == s[k];
      }
    }
  }

  /** Appending keeps the invariant and adds the record to the log. */
  lemma AppendSpec<F(!new)>(d: Driver<F>, e: Emu<F>, addr: int, lo: int, hi: int)
    requires Lawful(d) && Consistent(d, e) && e.next < BANK_SIZE && IsU16(addr) && IsU16(lo) && IsU16(hi)
    ensures var e' := Append(d, e, addr, lo, hi);
      Consistent(d, e') && View(d, e') == View(d, e) + [Rec(COMMIT_MARK, addr, lo, hi)]
  {
    SlotFits(e.next, BANK_SIZE);
    var e' := Append(d, e, addr, lo, hi);
    var f, g := e.flash, e'.flash;
    var x := Rec(COMMIT_MARK, addr, lo, hi);
    OneRecordLog(d, f, e.bank, e.next, x);
    assert View(d, e') == View(d, e) + [x];
    CommittedSnoc(View(d, e), x);
    WrittenRecord(d, f, e.bank, e.next, addr, lo, hi);
    assert IsWordOffset(0) && IsWordOffset(2) && IsWordOffset(4) && IsWordOffset(6);
    assert IsActive(d, g, e.bank, e.version);
    assert e.bank == 1 ==> !IsActive(d, g, 0, e.version);
    assert ErasedFrom(d, g, e.bank, e'.next) by {
      forall a | e'.next <= a < BANK_SIZE && a % 2 == 0
        ensures d.read(g, e.bank, a) == EMPTY
      {
        assert IsWordOffset(a);
      }
    }
  }

  /** Copying records into an erased bank: they read back as its log, the
      rest of the bank stays erased and the other bank is untouched. */
  lemma CopyRecords<F(!new)>(d: Driver<F>, f: F, to: int, recs: seq<Rec>)
    requires Lawful(d) && IsBank(to) && IsErased(d, f, to) && Committed(recs) && AllWords(recs)
    requires BANK_HEADER_SIZE + 8 * |recs| <= BANK_SIZE
    ensures var n, g := BANK_HEADER_SIZE + 8 * |recs|, WriteRecords(d, f, to, BANK_HEADER_SIZE, recs);
      Records(d, g, to, BANK_HEADER_SIZE, n) == recs && ErasedFrom(d, g, to, n) &&
      d.read(g, to, 2) == EMPTY && d.read(g, to, 6) == EMPTY && SameBank(d, g, f, 1 - to)
  {
    var n, g := BANK_HEADER_SIZE + 8 * |recs|, WriteRecords(d, f, to, BANK_HEADER_SIZE, recs);
    WriteRecordsEffect(d, f, to, BANK_HEADER_SIZE, recs);
    assert Records(d, f, to, BANK_HEADER_SIZE, BANK_HEADER_SIZE) == [];
    assert IsWordOffset(2) && IsWordOffset(6);
    forall a | n <= a < BANK_SIZE && a % 2 == 0
      ensures d.read(g, to, a) == EMPTY
    {
      assert IsWordOffset(a);
    }
  }

  /** Writing BANK_MARK and VERSION into a bank whose words 2 and 6 are
      erased makes it active and changes nothing else that is used. */
  lemma MarkActive<F(!new)>(d: Driver<F>, f: F, to: int, version: int, n: int)
    requires Lawful(d) && IsBank(to) && IsU16(version) && IsRecordEnd(n)
    requires ErasedFrom(d, f, to, n) && d.read(f, to, 2) == EMPTY && d.read(f, to, 6) == EMPTY
    ensures var g := d.write(d.write(f, to, 0, BANK_MARK), to, 4, version);
      IsActive(d, g, to, version) && ErasedFrom(d, g, to, n) &&
      Records(d, g, to, BANK_HEADER_SIZE, n) == Records(d, f, to, BANK_HEADER_SIZE, n) &&
      SameBank(d, g, f, 1 - to)
  {
    var g1 := d.write(f, to, 0, BANK_MARK);
    var g := d.write(g1, to, 4, version);
    assert IsWordOffset(0) && IsWordOffset(2) && IsWordOffset(4) && IsWordOffset(6);
    WriteKeepsRecords(d, f, to, 0, BANK_MARK, to, BANK_HEADER_SIZE, n);
    WriteKeepsRecords(d, g1, to, 4, version, to, BANK_HEADER_SIZE, n);
    forall a | n <= a < BANK_SIZE && a % 2 == 0
      ensures d.read(g, to, a) == EMPTY
    {
      assert IsWordOffset(a);
    }
    forall a | IsWordOffset(a)
      ensures d.read(g, 1 - to, a) == d.read(f, 1 - to, a)
    {
    }
  }

  /** Dirtying the header of the old bank and erasing it leaves the other
      bank alone and the old bank inactive. */
  lemma RetireBank<F(!new)>(d: Driver<F>, f: F, from: int)
    requires Lawful(d) && IsBank(from)
    ensures var g := d.erase(d.write(d.write(f, from, 2, BANK_DIRTY_MARK), from, 6, BANK_DIRTY_MARK), from);
      SameBank(d, g, f, 1 - from) && d.read(g, from, 0) == EMPTY
  {
    var g1 := d.write(f, from, 2, BANK_DIRTY_MARK);
    var g2 := d.write(g1, from, 6, BANK_DIRTY_MARK);
    var g := d.erase(g2, from);
    assert IsWordOffset(0) && IsWordOffset(2) && IsWordOffset(6);
    forall a | IsWordOffset(a)
      ensures d.read(g, 1 - from, a) == d.read(f, 1 - from, a)
    {
      assert d.read(g, 1 - from, a) == d.read(g2, 1 - from, a);
      assert d.read(g2, 1 - from, a) == d.read(g1, 1 - from, a);
    }
  }

  /** A bank move keeps the invariant; the new log is the survivors of the
      old one, so every address but the ignored one keeps its value. */
  lemma MoveSpec<F(!new)>(d: Driver<F>, e: Emu<F>, ignore: int)
    requires Lawful(d) && Consistent(d, e)
    ensures var e' := Move(d, e, ignore);
      Consistent(d, e') && View(d, e') == Survivors(View(d, e), ignore)
  {
    var from, to := e.bank, 1 - e.bank;
    var recs := Survivors(View(d, e), ignore);
    var n := BANK_HEADER_SIZE + 8 * |recs|;
    var f1 := EraseIfDirty(d, e.flash, to);
    var f2 := WriteRecords(d, f1, to, BANK_HEADER_SIZE, recs);
    CopyPhase(d, e, ignore);
    SwitchBanks(d, f2, from, e.version, n);
    var e' := Move(d, e, ignore);
    assert e'.flash == d.erase(d.write(d.write(d.write(d.write(f2, to, 0, BANK_MARK), to, 4, e.version),
                                                   from, 2, BANK_DIRTY_MARK), from, 6, BANK_DIRTY_MARK), from);
    assert e'.bank == to && e'.next == n && e'.version == e.version;
    assert View(d, e') == recs;
  }

  /** The copy phase of a move: the other bank, erased first, holds exactly
      the survivors of the log, is erased after them and its header words 2
      and 6 are still erased. */
  lemma CopyPhase<F(!new)>(d: Driver<F>, e: Emu<F>, ignore: int)
    requires Lawful(d) && Consistent(d, e)
    ensures var to, recs := 1 - e.bank, Survivors(View(d, e), ignore);
      var n, f1 := BANK_HEADER_SIZE + 8 * |recs|, EraseIfDirty(d, e.flash, to);
      var f2 := WriteRecords(d, f1, to, BANK_HEADER_SIZE, recs);
      && IsRecordEnd(n) && n <= e.next
      && Records(d, f1, e.bank, BANK_HEADER_SIZE, e.next) == View(d, e)
      && Records(d, f2, to, BANK_HEADER_SIZE, n) == recs && Committed(recs)
      && ErasedFrom(d, f2, to, n) && d.read(f2, to, 2) == EMPTY && d.read(f2, to, 6) == EMPTY
  {
    var to := 1 - e.bank;
    var f1 := EraseIfDirty(d, e.flash, to);
    var recs := Survivors(View(d, e), ignore);
    EraseTarget(d, e);
    RecordsAreWords(d, e.flash, e.bank, BANK_HEADER_SIZE, e.next);
    SurvivorsAreWords(View(d, e), ignore);
    assert |View(d, e)| == (e.next - BANK_HEADER_SIZE) / RECORD_SIZE;
    RecordEndAfter(BANK_HEADER_SIZE, |recs|);
    CopyRecords(d, f1, to, recs);
  }

  /** Erasing the other bank before a move leaves the current log alone. */
  lemma EraseTarget<F(!new)>(d: Driver<F>, e: Emu<F>)
    requires Lawful(d) && Consistent(d, e)
    ensures var f1 := EraseIfDirty(d, e.flash, 1 - e.bank);
      IsErased(d, f1, 1 - e.bank) && Records(d, f1, e.bank, BANK_HEADER_SIZE, e.next) == View(d, e)
  {
    var from, to, f := e.bank, 1 - e.bank, e.flash;
    var f1 := EraseIfDirty(d, f, to);
    EraseIfDirtySpec(d, f, to);
    assert SameBank(d, f1, f, from);
    SameBankKeeps(d, f1, f, from, e.next, e.version);
  }

  /** The bank switch of a move: marking the copy active and retiring the
      old bank leave the copy's records and erased tail alone, and the old
      bank inactive. */
  lemma SwitchBanks<F(!new)>(d: Driver<F>, f2: F, from: int, version: int, n: int)
    requires Lawful(d) && IsBank(from) && IsU16(version) && IsRecordEnd(n)
    requires ErasedFrom(d, f2, 1 - from, n) && d.read(f2, 1 - from, 2) == EMPTY && d.read(f2, 1 - from, 6) == EMPTY
    ensures var to := 1 - from;
      var f3 := d.write(d.write(f2, to, 0, BANK_MARK), to, 4, version);
      var f4 := d.erase(d.write(d.write(f3, from, 2, BANK_DIRTY_MARK), from, 6, BANK_DIRTY_MARK), from);
      && IsActive(d, f4, to, version) && !IsActive(d, f4, from, version) && ErasedFrom(d, f4, to, n)
      && Records(d, f4, to, BANK_HEADER_SIZE, n) == Records(d, f2, to, BANK_HEADER_SIZE, n)
  {
    var to := 1 - from;
    var f3 := d.write(d.write(f2, to, 0, BANK_MARK), to, 4, version);
    MarkActive(d, f2, to, version, n);
    var f4 := d.erase(d.write(d.write(f3, from, 2, BANK_DIRTY_MARK), from, 6, BANK_DIRTY_MARK), from);
    RetireBank(d, f3, from);
    SameBankKeeps(d, f4, f3, to, n, version);
  }

  /** The value `write_u32` compares with: the stored value, or a default
      that differs from `val`. Present exactly when the full address is
      stored, so a wider address is never skipped. */
  lemma PreviousSpec<F(!new)>(d: Driver<F>, e: Emu<F>, addr: int, val: int)
    requires Lawful(d) && Consistent(d, e) && IsU32(addr) && IsU32(val)
    ensures (ScanBack(d, e.flash, e.bank, e.next, addr, (val + 1) % 0x1_0000_0000) == val)
            <==> Lookup(View(d, e), addr) == Some(val)
    ensures Lookup(View(d, e), addr).Some? ==> addr == addr % 0x1_0000
  {
    var dflt := (val + 1) % 0x1_0000_0000;
    ScanMatchesLog(d, e.flash, e.bank, e.next, addr, dflt);
    RecordsAreWords(d, e.flash, e.bank, BANK_HEADER_SIZE, e.next);
    StoredOtherDefault(View(d, e), addr, val);
    FoundIsWord(View(d, e), addr);
  }

  /** With a default other than `val`, the stored value is `val` exactly
      when the log holds `val` for the address. */
  lemma StoredOtherDefault(s: seq<Rec>, addr: int, val: int)
    requires IsU32(val)
    ensures Stored(s, addr, (val + 1) % 0x1_0000_0000) == val <==> Lookup(s, addr) == Some(val)
  {
    assert (val + 1) % 0x1_0000_0000 != val;
  }

  /** Only a 16-bit address can be found in a log of 16-bit words. */
  lemma FoundIsWord(s: seq<Rec>, addr: int)
    requires AllWords(s)
    ensures Lookup(s, addr).Some? ==> addr == addr % 0x1_0000
  {
    LookupSpec(s, addr);
    if Lookup(s, addr).Some? {
      var k :| 0 <= k < |s| && Matches(s[k], addr);
      assert IsU16(s[k].addr);
    }
  }

  /** `write_u32` skips exactly when the address already holds the value,
      and then only the implicit `init` happens. It overflows only when the
      bank was full and is still full after the move, that is when 127 other
      addresses are live. */
  lemma WriteU32Outcome<F(!new)>(d: Driver<F>, e: Emu<F>, addr: int, val: int)
    requires Lawful(d) && WF(e) && Consistent(d, Ready(d, e)) && IsU32(addr) && IsU32(val)
    ensures var r := WriteU32(d, e, addr, val);
      (r.1 == Skipped <==> Lookup(View(d, Ready(d, e)), addr) == Some(val)) &&
      (r.1 == Skipped ==> r.0 == Ready(d, e)) &&
      (r.1 == Overflowed ==> Ready(d, e).next == BANK_SIZE && r.0.next == BANK_SIZE)
  {
    var e1 := Ready(d, e);
    PreviousSpec(d, e1, addr, val);
    var r := WriteU32(d, e, addr, val);
    if r.1 == Overflowed {
      var e2 := if e1.next + RECORD_SIZE > BANK_SIZE then Move(d, e1, addr % 0x1_0000) else e1;
      assert r.0 == e2 && e2.next + RECORD_SIZE > BANK_SIZE;
      FullBank(e2.next);
      assert e1.next + RECORD_SIZE > BANK_SIZE;
      FullBank(e1.next);
    }
  }

  /** A record boundary with no room for one more slot is the bank end. */
  lemma FullBank(n: int)
    requires IsRecordEnd(n) && n + RECORD_SIZE > BANK_SIZE
    ensures n == BANK_SIZE
  {
  }

  /** Unless it overflows, `write_u32` keeps the invariant and afterwards the
      log maps the stored address (the low 16 bits of `addr`) to `val` and
      every other address to what it held. */
  lemma WriteU32Spec<F(!new)>(d: Driver<F>, e: Emu<F>, addr: int, val: int)
    requires Lawful(d) && WF(e) && Consistent(d, Ready(d, e)) && IsU32(addr) && IsU32(val)
    requires WriteU32(d, e, addr, val).1 != Overflowed
    ensures var e0, e' := Ready(d, e), WriteU32(d, e, addr, val).0;
      Consistent(d, e') &&
      forall a :: Lookup(View(d, e'), a) == if a == addr % 0x1_0000 then Some(val) else Lookup(View(d, e0), a)
  {
    var e1 := Ready(d, e);
    var key := addr % 0x1_0000;
    var r := WriteU32(d, e, addr, val);
    PreviousSpec(d, e1, addr, val);
    if r.1 == Skipped {
      assert r.0 == e1 && addr == key;
    } else {
      var e2 := if e1.next + RECORD_SIZE > BANK_SIZE then Move(d, e1, key) else e1;
      assert Consistent(d, e2) && forall a :: a != key ==> Lookup(View(d, e2), a) == Lookup(View(d, e1), a) by {
        if e1.next + RECORD_SIZE > BANK_SIZE {
          MoveSpec(d, e1, key);
          forall a | a != key ensures Lookup(View(d, e2), a) == Lookup(View(d, e1), a) {
            SurvivorsLookup(View(d, e1), key, a);
          }
        }
      }
      var x := Rec(COMMIT_MARK, key, val % 0x1_0000, val / 0x1_0000);
      assert Value(x) == val;
      assert r.0 == Append(d, e2, key, val % 0x1_0000, val / 0x1_0000);
      AppendSpec(d, e2, key, val % 0x1_0000, val / 0x1_0000);
      forall a ensures Lookup(View(d, r.0), a) == if a == key then Some(val) else Lookup(View(d, e1), a) {
        LookupAppend(View(d, e2), x, a);
      }
    }
  }

  /** After a write that did not overflow, reading the stored address gives
      the value written, and every other address reads as before. */
  lemma ReadAfterWrite<F(!new)>(d: Driver<F>, e: Emu<F>, addr: int, val: int, other: int, dflt: int)
    requires Lawful(d) && WF(e) && Consistent(d, Ready(d, e)) && IsU32(addr) && IsU32(val)
    requires WriteU32(d, e, addr, val).1 != Overflowed
    requires other != addr % 0x1_0000
    ensures var e' := WriteU32(d, e, addr, val).0;
      ReadU32(d, e', addr % 0x1_0000, dflt).1 == val &&
      ReadU32(d, e', other, dflt).1 == ReadU32(d, e, other, dflt).1
  {
    var e' := WriteU32(d, e, addr, val).0;
    WriteU32Spec(d, e, addr, val);
    ReadU32Spec(d, e', addr % 0x1_0000, dflt);
    ReadU32Spec(d, e', other, dflt);
    ReadU32Spec(d, e, other, dflt);
    assert Lookup(View(d, e'), addr % 0x1_0000) == Some(val);
    assert Lookup(View(d, e'), other) == Lookup(View(d, Ready(d, e)), other);
  }

  /** Records written under another version are invisible: on a flash
      where neither bank is active for this version every read gives its
      default, yet a write is appended to the fresh log and reads back. */
  lemma VersionMismatch<F(!new)>(d: Driver<F>, f: F, version: int, addr: int, val: int, dflt: int)
    requires Lawful(d) && IsU16(version) && !IsActive(d, f, 0, version) && !IsActive(d, f, 1, version)
    requires IsU32(addr) && IsU32(val)
    ensures var e := Emu(f, version, false, 0, 0);
      var w := WriteU32(d, e, addr, val);
      && ReadU32(d, e, addr, dflt).1 == dflt
      && w.1 == Appended
      && ReadU32(d, w.0, addr % 0x1_0000, dflt).1 == val
  {
    var e := Emu(f, version, false, 0, 0);
    var e1 := Ready(d, e);
    InitMismatch(d, f, version);
    ReadU32Spec(d, e, addr, dflt);
    EmptyLogStart(d, e1);
    PreviousSpec(d, e1, addr, val);
    ReadAfterWrite(d, e, addr, val, addr % 0x1_0000 + 1, dflt);
  }

  /** An empty log starts right after the bank header. */
  lemma EmptyLogStart<F>(d: Driver<F>, e: Emu<F>)
    requires IsRecordEnd(e.next) && View(d, e) == []
    ensures e.next == BANK_HEADER_SIZE
  {
  }
}

=== FILE: fix16.dfy ===
/** Fixed-point numbers as used by the firmware (libfixmath `fix16_t`: a signed
    32-bit integer holding value * 65536) and the C integer operators whose
    semantics differ from Dafny's. */
module Fix16 {

  /** `fix16_one`, the raw value of 1.0. */
  const ONE: int := 65536

  const INT32_MIN: int := -0x8000_0000
  const INT32_MAX: int := 0x7FFF_FFFF
  const UINT32_LIMIT: int := 0x1_0000_0000

  /** `fix16_maximum` and `fix16_minimum`. */
  const MAXIMUM: int := INT32_MAX
  const MINIMUM: int := INT32_MIN

  /** Products below this magnitude give a fix16 result that fits 32 bits. */
  const MUL_SAFE: int := 0x8000_0000_0000

  predicate IsInt32(x: int) {
    INT32_MIN <= x <= INT32_MAX
  }

  /** Wrap-around of `uint32_t` arithmetic. */
  function U32(x: int): (r: int)
    ensures 0 <= r < UINT32_LIMIT
    ensures 0 <= x < UINT32_LIMIT ==> r == x
  {
    x % UINT32_LIMIT
  }

  /** Wrapping twice is wrapping once. */
  lemma U32Add(x: int, y: int)
    ensures U32(U32(x) + y) == U32(x + y)
  {
    var q := x / UINT32_LIMIT;
    assert x == q * UINT32_LIMIT + U32(x);
    assert U32(x) + y == (x + y) - q * UINT32_LIMIT;
    ModShift(x + y, q);
  }

  lemma ModShift(z: int, q: int)
    ensures (z - q * UINT32_LIMIT) % UINT32_LIMIT == z % UINT32_LIMIT
  {
  }

  /** Conversion of a `uint32_t` value to `int` (two's complement). */
  function ToSigned(x: int): (r: int)
    requires 0 <= x < UINT32_LIMIT
    ensures IsInt32(r)
    ensures x <= INT32_MAX ==> r == x
  {
    if x > INT32_MAX then x - UINT32_LIMIT else x
  }

  /** Wrap-around of `int32_t` (`fix16_t`) arithmetic, as the compiled
      code behaves. */
  function I32(x: int): (r: int)
    ensures IsInt32(r)
    ensures IsInt32(x) ==> r == x
  {
    ToSigned(U32(x))
  }

  function Pow2(k: nat): (r: nat)
    ensures r >= 1
  {
    if k == 0 then 1 else 2 * Pow2(k - 1)
  }

  function Abs(x: int): (r: int)
    ensures r >= 0 && (r == x || r == -x)
  {
    if x < 0 then -x else x
  }

  function Min(a: int, b: int): (r: int)
    ensures r <= a && r <= b && (r == a || r == b)
  {
    if a < b then a else b
  }

  function Max(a: int, b: int): (r: int)
    ensures r >= a && r >= b && (r == a || r == b)
  {
    if a < b then b else a
  }

  /** C integer division, which truncates toward zero: the magnitude of the
      quotient is |a| / |b| rounded down, and its sign is the product of the
      signs. */
  function CDiv(a: int, b: int): (q: int)
    requires b != 0
    ensures a >= 0 ==> 0 <= a - q * b < Abs(b)
    ensures a < 0 ==> -Abs(b) < a - q * b <= 0
    ensures (a >= 0) == (b > 0) || a == 0 ==> q >= 0
  {
    var m := Abs(a) / Abs(b);
    DivRemainder(Abs(a), Abs(b));
    SignedRemainder(a, b, m);
    if (a >= 0) == (b > 0) then m else -m
  }

  lemma DivRemainder(a: int, d: int)
    requires 0 <= a && 0 < d
    ensures 0 <= a / d && 0 <= a - (a / d) * d < d
  {
  }

  lemma SignedRemainder(a: int, b: int, m: int)
    requires b != 0 && 0 <= Abs(a) - m * Abs(b) < Abs(b)
    ensures var q := if (a >= 0) == (b > 0) then m else -m;
      a - q * b == (if a >= 0 then Abs(a) - m * Abs(b) else -(Abs(a) - m * Abs(b)))
  {
    if b < 0 {
      assert m * Abs(b) == -(m * b);
      assert (-m) * b == -(m * b);
    }
  }

  /** `x >> k` on a signed value: the compiler used shifts arithmetically,
      which rounds toward minus infinity. */
  function Asr(x: int, k: nat): (r: int)
    ensures Pow2(k) * r <= x < Pow2(k) * (r + 1)
  {
    x / Pow2(k)
  }

  /** `fix16_clamp(x, lo, hi)`, defined in libfixmath as min(max(x, lo), hi). */
  function Clamp(x: int, lo: int, hi: int): (r: int)
    ensures r <= hi
    ensures lo <= hi ==> lo <= r
    ensures lo <= x <= hi ==> r == x
    ensures x < lo && lo <= hi ==> r == lo
    ensures hi < x ==> r == hi
  {
    Min(Max(x, lo), hi)
  }

  /** The libfixmath operations the firmware calls. Their code is not part of
      this model: `Lawful` collects the only facts the proofs rely on. */
  datatype Lib = Lib(
    mul: (int, int) -> int,     // fix16_mul
    div: (int, int) -> int,     // fix16_div
    toInt: int -> int,          // fix16_to_int
    sinusize: int -> int)       // fix16_sinusize (table lookup)

  ghost predicate Lawful(lib: Lib) {
    // fix16_mul is exact up to rounding when the product fits 32 bits
    (forall a: int, b: int ::
       -MUL_SAFE <= a * b < MUL_SAFE ==> a * b - ONE < ONE * lib.mul(a, b) < a * b + ONE) &&
    // fix16_div of zero is zero, or fix16_minimum when dividing by zero
    (forall b: int :: lib.div(0, b) <= 0) &&
    // fix16_div of a proper fraction lies in [0.0, 1.0]
    (forall a: int, b: int :: 0 <= a < b ==> 0 <= lib.div(a, b) <= ONE) &&
    // fix16_div by a positive divisor is exact up to rounding while the
    // quotient stays at most 2^14
    (forall a: int, b: int :: 0 <= a && 0 < b && a * ONE <= b * 0x4000_0000 ==>
       a * ONE - b < b * lib.div(a, b) < a * ONE + b) &&
    // fix16_sinusize maps into [0.0, 1.0)
    (forall x: int :: 0 <= lib.sinusize(x) < ONE)
  }

  lemma MulOne(lib: Lib, a: int)
    requires Lawful(lib) && IsInt32(a)
    ensures lib.mul(a, ONE) == a
  {
    assert a * ONE == a * 65536;
    assert -MUL_SAFE <= a * ONE < MUL_SAFE;
    assert a * ONE - ONE < ONE * lib.mul(a, ONE) < a * ONE + ONE;
  }

  lemma MulSign(lib: Lib, a: int, b: int)
    requires Lawful(lib) && -MUL_SAFE <= a * b < MUL_SAFE
    ensures a * b >= 0 ==> lib.mul(a, b) >= 0
    ensures a * b <= 0 ==> lib.mul(a, b) <= 0
  {
    assert a * b - ONE < ONE * lib.mul(a, b) < a * b + ONE;
  }

  /** fix16_div by a positive divisor lies within one raw step of the
      exact quotient while that quotient is at most 2^14. */
  lemma DivClose(lib: Lib, a: int, b: int)
    requires Lawful(lib) && 0 <= a && 0 < b && a * ONE <= b * 0x4000_0000
    ensures a * ONE - b < b * lib.div(a, b) < a * ONE + b
  {
  }

  /** fix16_mul never moves a product by a full unit: it lies within one raw
      step of the exact value. */
  lemma MulClose(lib: Lib, a: int, b: int, lo: int, hi: int)
    requires Lawful(lib) && -MUL_SAFE <= a * b < MUL_SAFE
    requires ONE * lo <= a * b <= ONE * hi
    ensures lo - 1 < lib.mul(a, b) < hi + 1
  {
    assert a * b - ONE < ONE * lib.mul(a, b) < a * b + ONE;
  }
}

=== FILE: flash_driver.dfy ===
/** The flash driver the EEPROM emulator is tested with: two banks of 1024
    bytes in RAM, erased to 0xFF, with little-endian 16-bit access. */
module FlashDriver {
  import opened EepromEmu

  newtype byte = b: int | 0 <= b < 256

  /** `memory[BankSize * 2]`. */
  type Memory = m: seq<byte> | |m| == 2 * BANK_SIZE witness seq(2 * BANK_SIZE, _ => 0xFF)

  /** The first byte of a bank. */
  function Base(bank: int): int {
    bank * 1024
  }

  /** The constructor: every byte 0xFF, so both banks read erased. */
  function New(): (m: Memory)
    ensures IsErased(TestDriver(), m, 0) && IsErased(TestDriver(), m, 1)
  {
    seq(2 * BANK_SIZE, _ => 0xFF)
  }

  /** `erase(bank)`: every byte of the bank back to 0xFF. */
  function Erase(m: Memory, bank: int): (r: Memory)
    ensures IsBank(bank) ==> forall i :: Base(bank) <= i < Base(bank) + BANK_SIZE ==> r[i] == 0xFF
    ensures forall i :: 0 <= i < 2 * BANK_SIZE && !(IsBank(bank) && Base(bank) <= i < Base(bank) + BANK_SIZE)
              ==> r[i] == m[i]
  {
    if IsBank(bank) then
      seq(2 * BANK_SIZE, i requires 0 <= i < 2 * BANK_SIZE =>
        if Base(bank) <= i < Base(bank) + BANK_SIZE then 0xFF else m[i])
    else m
  }

  /** `read_u16(bank, addr)`: low byte first. An access outside the banks
      reads as erased. */
  function Read(m: Memory, bank: int, addr: int): (w: int)
    ensures IsU16(w)
  {
    if IsBank(bank) && IsWordOffset(addr) then
      var ofs := Base(bank) + addr;
      m[ofs] as int + m[ofs + 1] as int * 256
    else EMPTY
  }

  /** `write_u16(bank, addr, data)`: the 16 bits of `data`, low byte, then
      high byte. An access outside the banks changes nothing. */
  function Write(m: Memory, bank: int, addr: int, data: int): (r: Memory)
    ensures forall i :: 0 <= i < 2 * BANK_SIZE && !(IsBank(bank) && IsWordOffset(addr) && Base(bank) + addr <= i <= Base(bank) + addr + 1)
              ==> r[i] == m[i]
  {
    if IsBank(bank) && IsWordOffset(addr) then
      var ofs := Base(bank) + addr;
      m[ofs := (data % 256) as byte][ofs + 1 := (data / 256 % 256) as byte]
    else m
  }

  function TestDriver(): Driver<Memory> {
    Driver((m, bank) => Erase(m, bank), (m, bank, addr) => Read(m, bank, addr),
           (m, bank, addr, data) => Write(m, bank, addr, data))
  }

  /** The test driver meets every law the emulator relies on. */
  lemma TestDriverLawful()
    ensures Lawful(TestDriver())
  {
    var d := TestDriver();
    forall m: Memory, bank, addr, data | IsBank(bank) && IsWordOffset(addr) && IsU16(data)
      ensures d.read(d.write(m, bank, addr, data), bank, addr) == data
    {
      var ofs := Base(bank) + addr;
      var r := Write(m, bank, addr, data);
      assert r[ofs] as int == data % 256 && r[ofs + 1] as int == data / 256;
    }
    forall m: Memory, bank, addr, data, bank', addr' |
      IsBank(bank) && IsWordOffset(addr) && IsU16(data) && IsBank(bank') && IsWordOffset(addr') &&
      (bank' != bank || addr' + 2 <= addr || addr + 2 <= addr')
      ensures d.read(d.write(m, bank, addr, data), bank', addr') == d.read(m, bank', addr')
    {
      var r := Write(m, bank, addr, data);
      var o := Base(bank') + addr';
      assert r[o] == m[o] && r[o + 1] == m[o + 1];
    }
    forall m: Memory, bank, addr | IsBank(bank) && IsWordOffset(addr)
      ensures d.read(d.erase(m, bank), bank, addr) == EMPTY
    {
      var r := Erase(m, bank);
      var o := Base(bank) + addr;
      assert r[o] == 0xFF && r[o + 1] == 0xFF;
    }
    forall m: Memory, bank, bank', addr | IsBank(bank) && IsBank(bank') && bank' != bank && IsWordOffset(addr)
      ensures d.read(d.erase(m, bank), bank', addr) == d.read(m, bank', addr)
    {
      var r := Erase(m, bank);
      var o := Base(bank') + addr;
      assert r[o] == m[o] && r[o + 1] == m[o + 1];
    }
  }

  /** A blank test flash gives a consistent emulator with an empty log, so
      every read answers its default. */
  lemma BlankFlashReadsDefault(version: int, addr: int, dflt: int)
    requires IsU16(version)
    ensures var e := Emu(New(), version, false, 0, 0);
      Consistent(TestDriver(), Ready(TestDriver(), e)) && ReadU32(TestDriver(), e, addr, dflt).1 == dflt
  {
    TestDriverLawful();
    var e := Emu(New(), version, false, 0, 0);
    InitFresh(TestDriver(), New(), version);
    ReadU32Spec(TestDriver(), e, addr, dflt);
  }
}

=== FILE: half_cut.dfy ===
/** The half-cut (bisection) search the PID and ADRC calibrators run for
    each regulator parameter, and the oscillation amplitude most of them
    measure. A search makes `ITERATIONS` attempts: each attempt's
    measurement decides whether the step points up or down, the attempt
    value moves by the step, and the step halves. The first iteration's
    measurement is kept as the reference for the later ones. */
module HalfCut {
  import opened Fix16
  import Median

  /** `max_iterations`: (10 - 1) / 2^7 < 0.1. */
  const ITERATIONS: int := 7

  /** The speed samples over which one median is taken. */
  const WINDOW: int := 12

  /** The capacity of `median_filter`. */
  const MEDIAN_SIZE: int := 32

  /** The decision after an attempt: the step points up when the
      oscillation amplitude stays within `margin` times the first one, or
      when the overshoot relative to the first one exceeds `limit`. */
  datatype Rule = AmplitudeWithin(margin: int) | OvershootAbove(limit: int)

  /** `iterations_count`, `iteration_step`, the attempt value, and the first
      iteration's measurement. */
  datatype Search = Search(iteration: nat, step: int, attempt: int, reference: int)

  /** The search before its first iteration. */
  function Begin(attempt: int, step: int): (s: Search)
    ensures s.iteration == 0 && s.step == step && s.attempt == attempt
  {
    Search(0, step, attempt, 0)
  }

  /** Whether the step of an attempt points up, given the reference and
      this attempt's measurement. */
  predicate Up(lib: Lib, rule: Rule, reference: int, measured: int) {
    match rule
    case AmplitudeWithin(margin) => measured <= lib.mul(reference, margin)
    case OvershootAbove(limit) => lib.div(measured - reference, reference) > limit
  }

  /** The halved step: C division of a `fix16_t` by 2 keeps the magnitude's
      floor half. */
  lemma HalfMagnitude(step: int)
    ensures Abs(CDiv(step, 2)) == Abs(step) / 2
  {
    var q := CDiv(step, 2);
    if step >= 0 {
      assert 0 <= step - 2 * q < 2;
    } else {
      assert -2 < step - 2 * q <= 0;
    }
  }

  /** One iteration: the reference is the first iteration's measurement;
      the step points up exactly when the rule says so, the attempt moves by
      the whole step, and the step's magnitude halves. */
  function Iterate(lib: Lib, rule: Rule, s: Search, measured: int): (r: Search)
    ensures r.iteration == s.iteration + 1
    ensures r.reference == if s.iteration == 0 then measured else s.reference
    ensures Abs(r.attempt - s.attempt) == Abs(s.step)
    ensures s.step != 0 ==> (r.attempt > s.attempt <==> Up(lib, rule, r.reference, measured))
    ensures Abs(r.step) == Abs(s.step) / 2
  {
    var reference := if s.iteration == 0 then measured else s.reference;
    var step := if Up(lib, rule, reference, measured) then Abs(s.step) else -Abs(s.step);
    HalfMagnitude(step);
    Search(s.iteration + 1, CDiv(step, 2), s.attempt + step, reference)
  }

  /** The iterations over the measurements of the attempts, in order. */
  function Run(lib: Lib, rule: Rule, s: Search, ms: seq<int>): Search
    decreases |ms|
  {
    if |ms| == 0 then s else Run(lib, rule, Iterate(lib, rule, s, ms[0]), ms[1..])
  }

  /** Running one more iteration after a run is running the longer one. */
  lemma {:induction false} RunStep(lib: Lib, rule: Rule, s: Search, ms: seq<int>, m: int)
    ensures Run(lib, rule, s, ms + [m]) == Iterate(lib, rule, Run(lib, rule, s, ms), m)
    decreases |ms|
  {
    if |ms| > 0 {
      RunStep(lib, rule, Iterate(lib, rule, s, ms[0]), ms[1..], m);
      assert (ms + [m])[1..] == ms[1..] + [m];
    } else {
      assert Run(lib, rule, Iterate(lib, rule, s, m), []) == Iterate(lib, rule, s, m);
      assert ([m])[1..] == [];
    }
  }

  /** The search after all its iterations. */
  function Complete(lib: Lib, rule: Rule, attempt: int, step: int, ms: seq<int>): Search
    requires |ms| == ITERATIONS
  {
    Run(lib, rule, Begin(attempt, step), ms)
  }

  /** The quotient is the one whose remainder lies in `[0, d)`. */
  lemma DivUnique(a: int, d: int, q: int)
    requires 0 <= a && 0 < d && 0 <= a - q * d < d
    ensures a / d == q
  {
    var p := a / d;
    assert 0 <= a - p * d < d;
    var e := p - q;
    assert e * d == (a - q * d) - (a - p * d) by {
      assert e * d == p * d - q * d;
    }
    if e > 0 {
      MulAtLeast(e, d);
    } else if e < 0 {
      MulAtLeast(-e, d);
    }
  }

  lemma MulAtLeast(k: int, d: int)
    requires 1 <= k && 1 <= d
    ensures k * d >= d
  {
    assert k * d == (k - 1) * d + d;
    assert (k - 1) * d >= 0;
  }

  /** Halving and then dividing by `d` is dividing by `2 * d`. */
  lemma HalveThenDivide(a: int, d: int)
    requires 0 <= a && 0 < d
    ensures (a / 2) / d == a / (2 * d)
  {
    var h := a / 2;
    var q := h / d;
    DivRemainder(a, 2);
    DivRemainder(h, d);
    assert a - q * (2 * d) == (a - 2 * h) + 2 * (h - q * d);
    DivUnique(a, 2 * d, q);
  }

  /** After `n` iterations: `n` more iterations are counted, the step's
      magnitude is the initial one divided by 2^n (rounded down), and the
      attempt has moved by no more than the steps taken, which together
      stay below twice the initial step: `|drift| + 2 |step| <= 2 |step0|`. */
  lemma {:induction false} RunShape(lib: Lib, rule: Rule, s: Search, ms: seq<int>)
    ensures var r := Run(lib, rule, s, ms);
      r.iteration == s.iteration + |ms| &&
      Abs(r.step) == Abs(s.step) / Pow2(|ms|) &&
      Abs(r.attempt - s.attempt) + 2 * Abs(r.step) <= 2 * Abs(s.step)
    decreases |ms|
  {
    if |ms| > 0 {
      var t := Iterate(lib, rule, s, ms[0]);
      RunShape(lib, rule, t, ms[1..]);
      HalveThenDivide(Abs(s.step), Pow2(|ms| - 1));
      assert Abs(t.step) * 2 <= Abs(s.step);
    }
  }

  /** The reference is taken on the first iteration and kept after it. */
  lemma {:induction false} RunReference(lib: Lib, rule: Rule, s: Search, ms: seq<int>)
    ensures Run(lib, rule, s, ms).reference ==
      if s.iteration == 0 && |ms| > 0 then ms[0] else s.reference
    decreases |ms|
  {
    if |ms| > 0 {
      var t := Iterate(lib, rule, s, ms[0]);
      RunReference(lib, rule, t, ms[1..]);
    }
  }

  /** A complete search: seven iterations, the final step is the initial
      one divided by 2^7, and the result lies strictly within twice the
      initial step of the start whenever that step is at least 2^7. */
  lemma CompleteShape(lib: Lib, rule: Rule, attempt: int, step: int, ms: seq<int>)
    requires |ms| == ITERATIONS
    ensures var r := Complete(lib, rule, attempt, step, ms);
      r.iteration == ITERATIONS && Abs(r.step) == Abs(step) / 128 &&
      Abs(r.attempt - attempt) <= 2 * Abs(step) - 2 * (Abs(step) / 128) &&
      (Abs(step) >= 128 ==> Abs(r.attempt - attempt) < 2 * Abs(step)) &&
      r.reference == ms[0]
  {
    RunShape(lib, rule, Begin(attempt, step), ms);
    RunReference(lib, rule, Begin(attempt, step), ms);
    assert Pow2(7) == 128;
    if Abs(step) >= 128 {
      DivRemainder(Abs(step), 128);
    }
  }

  /** With a margin of at least 1.0, the first iteration of an amplitude
      search steps up whenever its amplitude is not negative: the amplitude
      is compared with a multiple of itself. */
  lemma FirstAmplitudeStepsUp(lib: Lib, margin: int, s: Search, amplitude: int)
    requires Lawful(lib) && ONE <= margin && s.iteration == 0 && s.step != 0
    requires 0 <= amplitude && amplitude * margin < MUL_SAFE
    ensures Iterate(lib, AmplitudeWithin(margin), s, amplitude).attempt == s.attempt + Abs(s.step)
  {
    MarginProduct(amplitude, margin);
    MulClose(lib, amplitude, margin, amplitude, amplitude * margin);
  }

  lemma MarginProduct(amplitude: int, margin: int)
    requires ONE <= margin && 0 <= amplitude
    ensures ONE * amplitude <= amplitude * margin <= ONE * (amplitude * margin)
  {
    var p := amplitude * margin;
    assert p - 65536 * amplitude == amplitude * (margin - 65536);
  }

  /** The first iteration of an overshoot search compares the first
      overshoot with itself, which leaves no relative overshoot: with a
      non-negative limit its step points down. */
  lemma FirstOvershootStepsDown(lib: Lib, limit: int, s: Search, overshoot: int)
    requires Lawful(lib) && 0 <= limit && s.iteration == 0 && s.step != 0
    ensures Iterate(lib, OvershootAbove(limit), s, overshoot).attempt == s.attempt - Abs(s.step)
  {
    assert lib.div(overshoot - overshoot, overshoot) <= 0;
  }

  /** Halving `k <= 6` times leaves at least `floor`, when `floor * 64`
      does not exceed the initial magnitude. */
  lemma StepFloor(step: int, k: int, floor: int)
    requires 0 <= k <= 6 && 0 <= floor && floor * 64 <= step
    ensures step / Pow2(k) >= floor
  {
    assert Pow2(0) == 1 && Pow2(1) == 2 && Pow2(2) == 4 && Pow2(3) == 8;
    assert Pow2(4) == 16 && Pow2(5) == 32 && Pow2(6) == 64;
  }

  /** An amplitude search with a margin of at least 1.0 and a positive
      first step moves up by that step on its first iteration, and the six
      halved steps after it cannot undo it: every attempt from the first
      iteration on stays within `step` of `start + step`, less twice the
      last step. */
  lemma FirstUpWithin(lib: Lib, margin: int, start: int, step: int, ms: seq<int>)
    requires Lawful(lib) && ONE <= margin && 0 < step
    requires 1 <= |ms| <= ITERATIONS && 0 <= ms[0] && ms[0] * margin < MUL_SAFE
    ensures var a := Run(lib, AmplitudeWithin(margin), Begin(start, step), ms).attempt;
      var half := step / 2;
      start + step - 2 * half + 2 * (half / 64) <= a <= start + step + 2 * half - 2 * (half / 64)
  {
    var rule := AmplitudeWithin(margin);
    var s := Begin(start, step);
    FirstAmplitudeStepsUp(lib, margin, s, ms[0]);
    var s1 := Iterate(lib, rule, s, ms[0]);
    assert Run(lib, rule, s, ms) == Run(lib, rule, s1, ms[1..]);
    RunShape(lib, rule, s1, ms[1..]);
    var half := step / 2;
    StepFloor(half, |ms| - 1, half / 64);
  }

  /** The window of `FirstUpWithin` lies within `[0, 2 step]` of `start`,
      and strictly above it once the step is at least 2^-9. */
  lemma HalfStepBounds(step: int)
    requires 0 < step
    ensures var half := step / 2;
      0 <= step - 2 * half + 2 * (half / 64) && step + 2 * half - 2 * (half / 64) <= 2 * step
    ensures step >= 128 ==> 0 < step - 2 * (step / 2) + 2 * (step / 2 / 64)
  {
  }

  // ---------------------------------------------------------------------------
  // The oscillation amplitude.

  /** The medians of the complete windows of `WINDOW` speed samples: every
      twelfth sample the median filter's result is taken and the filter
      reset. */
  function Windows(speeds: seq<int>): (w: seq<int>)
    ensures |w| == |speeds| / WINDOW
    decreases |speeds|
  {
    if |speeds| < WINDOW then []
    else [WindowMedian(speeds[..WINDOW])] + Windows(speeds[WINDOW..])
  }

  /** The median filter's result after the window's samples were pushed
      into the reset filter. */
  function WindowMedian(chunk: seq<int>): int {
    Median.Result(Median.Fill(MEDIAN_SIZE, chunk))
  }

  /** The `k`-th window is taken over samples `12 k` to `12 k + 11`. */
  lemma {:induction false} WindowAt(speeds: seq<int>, k: int)
    requires 0 <= k < |speeds| / WINDOW
    ensures 12 * k + 12 <= |speeds|
    ensures Windows(speeds)[k] == WindowMedian(speeds[12 * k..12 * k + 12])
    decreases |speeds|
  {
    WindowIndex(|speeds|, k);
    var rest := speeds[12..];
    assert Windows(speeds) == [WindowMedian(speeds[..12])] + Windows(rest);
    if k == 0 {
      assert speeds[..12] == speeds[12 * k..12 * k + 12];
    } else {
      WindowAt(rest, k - 1);
      var j := 12 * (k - 1);
      assert Windows(speeds)[k] == Windows(rest)[k - 1];
      DropSlice(speeds, 12, j);
      assert 12 + j == 12 * k;
      assert rest[j..j + 12] == speeds[12 * k..12 * k + 12];
    }
  }

  lemma DropSlice(s: seq<int>, a: int, i: int)
    requires 0 <= a && 0 <= i && a + i + 12 <= |s|
    ensures s[a..][i..i + 12] == s[a + i..a + i + 12]
  {
  }

  lemma WindowIndex(n: int, k: int)
    requires 0 <= k < n / WINDOW
    ensures 12 * k + 12 <= n && (k > 0 ==> k - 1 < (n - 12) / WINDOW)
  {
    assert n == 12 * (n / 12) + n % 12;
  }

  /** Each window's value is the median of its twelve samples. */
  lemma WindowsAreMedians(speeds: seq<int>, k: int)
    requires 0 <= k < |speeds| / WINDOW
    ensures 12 * k + 12 <= |speeds|
    ensures Median.IsMedianOf(speeds[12 * k..12 * k + 12], Windows(speeds)[k])
  {
    WindowAt(speeds, k);
    var chunk := speeds[12 * k..12 * k + 12];
    Median.FillMedian(MEDIAN_SIZE, chunk);
    assert Median.Accepted(chunk, MEDIAN_SIZE) == chunk;
  }

  /** `measure_amplitude_max_speed`: it starts at 0 and rises to every
      larger window. */
  function Highest(w: seq<int>): (r: int)
    ensures r >= 0 && forall k :: 0 <= k < |w| ==> w[k] <= r
    ensures r == 0 || exists k :: 0 <= k < |w| && w[k] == r
    decreases |w|
  {
    if |w| == 0 then 0
    else
      var h := Highest(w[..|w| - 1]);
      var v := w[|w| - 1];
      if h < v then v else h
  }

  /** `measure_amplitude_min_speed`: it starts at `fix16_maximum` and falls
      to every smaller window. */
  function Lowest(w: seq<int>): (r: int)
    ensures r <= MAXIMUM && forall k :: 0 <= k < |w| ==> r <= w[k]
    ensures r == MAXIMUM || exists k :: 0 <= k < |w| && w[k] == r
    decreases |w|
  {
    if |w| == 0 then MAXIMUM
    else
      var l := Lowest(w[..|w| - 1]);
      var v := w[|w| - 1];
      if l > v then v else l
  }

  /** The amplitude of the speed samples of one attempt. */
  function Amplitude(speeds: seq<int>): int {
    var w := Windows(speeds);
    Highest(w) - Lowest(w)
  }

  /** A median of values within [lo, hi] lies within [lo, hi]. */
  lemma MedianWithin(s: seq<int>, r: int, lo: int, hi: int)
    requires 0 <= lo <= hi && |s| > 0 && forall i :: 0 <= i < |s| ==> lo <= s[i] <= hi
    requires Median.IsMedianOf(s, r)
    ensures lo <= r <= hi
  {
    if |s| % 2 == 0 {
      var a, b :| Median.IsMiddlePair(s, a, b) && r == CDiv(a + b, 2);
      assert a in s && b in s;
      assert 0 <= a + b - 2 * r < 2;
    }
  }

  /** For speeds within [0, fix16_maximum], the amplitude is negative
      exactly when not a single window of twelve samples completed, and
      otherwise it is the spread between the highest window (or 0) and the
      lowest window. */
  lemma AmplitudeSign(speeds: seq<int>)
    requires forall i :: 0 <= i < |speeds| ==> 0 <= speeds[i] <= MAXIMUM
    ensures Amplitude(speeds) < 0 <==> |speeds| < WINDOW
    ensures |speeds| < WINDOW ==> Amplitude(speeds) == -MAXIMUM
  {
    var w := Windows(speeds);
    if |speeds| >= WINDOW {
      WindowsAreMedians(speeds, 0);
      var chunk := speeds[0..12];
      assert forall i :: 0 <= i < |chunk| ==> 0 <= chunk[i] <= MAXIMUM by {
        forall i | 0 <= i < |chunk| ensures 0 <= chunk[i] <= MAXIMUM {
          assert chunk[i] == speeds[i];
        }
      }
      MedianWithin(chunk, w[0], 0, MAXIMUM);
      assert Lowest(w) <= w[0] <= Highest(w);
    }
  }
  /** Every window median of speeds within [0, hi] lies within [0, hi]. */
  lemma WindowsWithin(speeds: seq<int>, hi: int)
    requires 0 <= hi && forall i :: 0 <= i < |speeds| ==> 0 <= speeds[i] <= hi
    ensures forall k :: 0 <= k < |Windows(speeds)| ==> 0 <= Windows(speeds)[k] <= hi
  {
    var w := Windows(speeds);
    forall k | 0 <= k < |w|
      ensures 0 <= w[k] <= hi
    {
      WindowsAreMedians(speeds, k);
      var chunk := speeds[12 * k..12 * k + 12];
      forall i | 0 <= i < |chunk|
        ensures 0 <= chunk[i] <= hi
      {
        assert chunk[i] == speeds[12 * k + i];
      }
      MedianWithin(chunk, w[k], 0, hi);
    }
  }

  /** With at least one complete window of speeds within [0, hi], the
      amplitude lies within [0, hi]. */
  lemma AmplitudeBound(speeds: seq<int>, hi: int)
    requires 0 <= hi <= MAXIMUM && |speeds| >= WINDOW
    requires forall i :: 0 <= i < |speeds| ==> 0 <= speeds[i] <= hi
    ensures 0 <= Amplitude(speeds) <= hi
  {
    WindowsWithin(speeds, hi);
    var w := Windows(speeds);
    assert Lowest(w) <= w[0] <= Highest(w);
  }
}

=== FILE: half_wave.dfy ===
/** The triac over the ticks of one mains half-wave, for both firmware
    revisions: `Io` (newer) and `TriacDriver` (older). */
module HalfWaves {
  import opened Fix16
  import opened Io
  import TriacDriver

  datatype Revision = Newer | Older

  /** One tick without a zero cross. */
  function Step(rev: Revision, lib: Lib, p: Phase, ignition: bool, setpoint: int): Gate {
    match rev
    case Newer => PhaseTick(lib, p, ignition, setpoint, false, false)
    case Older => TriacDriver.Tick(lib, p, ignition, setpoint, false, false)
  }

  /** One tick on a zero cross. */
  function Cross(rev: Revision, lib: Lib, p: Phase, ignition: bool, setpoint: int, up: bool): Gate {
    match rev
    case Newer => PhaseTick(lib, p, ignition, setpoint, up, !up)
    case Older => TriacDriver.Tick(lib, p, ignition, setpoint, up, !up)
  }

  lemma StepInHalfWave(rev: Revision, lib: Lib, p: Phase, ignition: bool, setpoint: int)
    requires PhaseValid(p)
    ensures InHalfWave(p, Step(rev, lib, p, ignition, setpoint))
  {
  }

  /** A run of ticks without a zero cross, one setpoint per tick, counting
      the openings and closings of the triac. */
  datatype Wave = Wave(phase: Phase, ignition: bool, opens: nat, closes: nat)

  function HalfWave(rev: Revision, lib: Lib, p: Phase, ignition: bool, setpoints: seq<int>): Wave
    decreases |setpoints|
  {
    if |setpoints| == 0 then Wave(p, ignition, 0, 0)
    else
      var g := Step(rev, lib, p, ignition, setpoints[0]);
      var w := HalfWave(rev, lib, g.phase, g.ignition, setpoints[1..]);
      w.(opens := w.opens + B2I(g.turnedOn), closes := w.closes + B2I(g.turnedOff))
  }

  function B2I(b: bool): nat {
    if b then 1 else 0
  }

  /** Within a half-wave the triac opens at most once and closes at most
      once, and only after it opened; the counter counts the ticks and the
      period and start-up flags stay as they were. */
  lemma {:induction false} AtMostOncePerHalfWave(rev: Revision, lib: Lib, p: Phase, ignition: bool, setpoints: seq<int>)
    requires PhaseValid(p)
    ensures var w := HalfWave(rev, lib, p, ignition, setpoints);
      w.opens + B2I(p.openDone) <= 1 && w.closes + B2I(p.closeDone) <= 1 &&
      w.closes + B2I(p.closeDone) <= w.opens + B2I(p.openDone) &&
      PhaseValid(w.phase) && w.phase.counter == U32(p.counter + |setpoints|) && w.phase.period == p.period &&
      w.phase.oncePeriodCounted == p.oncePeriodCounted && w.phase.onceZeroCrossed == p.onceZeroCrossed
    decreases |setpoints|
  {
    if |setpoints| > 0 {
      var g := Step(rev, lib, p, ignition, setpoints[0]);
      StepInHalfWave(rev, lib, p, ignition, setpoints[0]);
      AtMostOncePerHalfWave(rev, lib, g.phase, g.ignition, setpoints[1..]);
      U32Add(p.counter + 1, |setpoints| - 1);
    }
  }

  /** The recorded half-period is the length of the positive half-wave: an
      up crossing, n ticks without a crossing and a down crossing record n
      in `Io` and n + 1 in `TriacDriver`, which counts the tick of the up
      crossing too, whatever the state before. */
  lemma PeriodIsHalfWaveLength(rev: Revision, lib: Lib, p: Phase, ignition: bool, s0: int, setpoints: seq<int>, s1: int)
    requires |setpoints| + 1 < UINT32_LIMIT
    ensures var g0 := Cross(rev, lib, p, ignition, s0, true);
      var w := HalfWave(rev, lib, g0.phase, g0.ignition, setpoints);
      var g1 := Cross(rev, lib, w.phase, w.ignition, s1, false);
      g1.phase.period == |setpoints| + (if rev == Older then 1 else 0) && g1.phase.oncePeriodCounted
  {
    var g0 := Cross(rev, lib, p, ignition, s0, true);
    AtMostOncePerHalfWave(rev, lib, g0.phase, g0.ignition, setpoints);
  }
}

=== FILE: io.dfy ===
/** The input stage of the newer firmware (`Io`): it filters one tick of ADC
    samples, derives the zero-cross flags, counts the phase of the mains
    half-wave and opens the triac once per half-wave at the phase the
    setpoint asks for. The HAL ignition pin is part of the state. */
module Io {
  import opened Fix16
  import TruncatedMean

  /** The last ticks of a half-wave in which the triac is never opened. */
  const TRIAC_ZERO_TAIL_LENGTH: int := 4

  /** `F16(1.2)`, the internal reference voltage. */
  const VREFIN: int := 78643

  /** One tick of processed input (`io_data_t`). */
  datatype IoData = IoData(voltage: int, current: int, knob: int, zeroCrossUp: bool, zeroCrossDown: bool)

  /** The triac state of `Io`: phase counter, the two once-per-half-wave
      flags, the measured positive half-period and the start-up flags. */
  datatype Phase = Phase(counter: int, openDone: bool, closeDone: bool, period: int,
                         onceZeroCrossed: bool, oncePeriodCounted: bool)

  /** `Io`: the setpoint (an input written by the regulator), the
      calibration parameters, the previous-tick values and the triac state,
      with the level of the ignition pin. */
  datatype Io = Io(setpoint: int, currentOffset: int, shuntInv: int,
                   prevVoltage: int, prevKnob: int, phase: Phase, ignition: bool)

  /** The triac update of one tick: the new state, the pin level, and
      whether the triac was opened or closed at the end of the half-wave. */
  datatype Gate = Gate(phase: Phase, ignition: bool, turnedOn: bool, turnedOff: bool)

  function Initial(): Io {
    Io(0, 0, 1, 0, 0, Phase(0, false, false, 0, false, false), false)
  }

  /** The additional mean smoother `(prev * 15 + new) >> 4`. */
  function SmoothKnob(prev: int, knobNew: int): int {
    Asr(prev * 15 + knobNew, 4)
  }

  /** For non-negative readings the smoothed knob lies between the previous
      value and the new reading. */
  lemma SmoothKnobBetween(prev: int, knobNew: int)
    requires 0 <= prev && 0 <= knobNew
    ensures Min(prev, knobNew) <= SmoothKnob(prev, knobNew) <= Max(prev, knobNew)
  {
    var m, M := Min(prev, knobNew), Max(prev, knobNew);
    assert 16 * m <= prev * 15 + knobNew <= 16 * M;
  }

  /** `count_phase`: a zero cross restarts the counter, and records the
      positive half-period once an earlier crossing has started a full
      half-period; every other tick counts one up. */
  function CountPhase(p: Phase, up: bool, down: bool): (q: Phase)
    ensures q.counter == (if up || down then 0 else U32(p.counter + 1))
    ensures q.period != p.period ==> down && (p.onceZeroCrossed || p.oncePeriodCounted) && q.period == p.counter
    ensures q.oncePeriodCounted <==> p.oncePeriodCounted || ((up || down) && p.onceZeroCrossed)
    ensures q.onceZeroCrossed <==> p.onceZeroCrossed || up || down
    ensures q.openDone == p.openDone && q.closeDone == p.closeDone
  {
    if up || down then
      var counted := p.onceZeroCrossed || p.oncePeriodCounted;
      p.(oncePeriodCounted := counted, onceZeroCrossed := true,
         period := if counted && down then p.counter else p.period, counter := 0)
    else p.(counter := U32(p.counter + 1))
  }

  /** The tick at which the triac may open: the setpoint linearised by
      `fix16_sinusize`, mirrored and scaled by the half-period. */
  function TicksThreshold(lib: Lib, setpoint: int, period: int): (r: int)
    ensures 0 <= r < UINT32_LIMIT
  {
    U32(lib.toInt(ToSigned(U32((ONE - lib.sinusize(setpoint)) * period))))
  }

  /** `triac_update` after `count_phase`. */
  function TriacUpdate(lib: Lib, p: Phase, ignition: bool, setpoint: int, crossing: bool): Gate {
    var p1 := if crossing then p.(openDone := false, closeDone := false) else p;
    var ign1 := if crossing then false else ignition;
    if !p1.oncePeriodCounted then Gate(p1, ign1, false, false)
    else
      var close := p1.openDone && !p1.closeDone && U32(p1.counter + TRIAC_ZERO_TAIL_LENGTH) >= p1.period;
      var p2 := if close then p1.(closeDone := true) else p1;
      var ign2 := if close then false else ign1;
      var open := !p2.openDone && p2.counter >= TicksThreshold(lib, setpoint, p2.period) &&
                  U32(p2.counter + TRIAC_ZERO_TAIL_LENGTH) < p2.period;
      Gate(if open then p2.(openDone := true) else p2, open || ign2, open, close)
  }

  /** The triac state `Io` keeps between ticks: the counter is a
      `uint32_t`, a half-wave closes only what it opened, and nothing opens
      before a period is known. */
  predicate PhaseValid(p: Phase) {
    0 <= p.counter < UINT32_LIMIT &&
    (p.closeDone ==> p.openDone) && (p.openDone ==> p.oncePeriodCounted)
  }

  /** The phase part of one tick: `count_phase`, then `triac_update`.
      The triac opens exactly when it has not opened in this half-wave, a
      period is known, the threshold is reached and more than the tail is
      left; it closes only when it is open and the tail is reached; a zero
      cross turns it off and clears both flags; and before a period is
      known the pin only goes off at a zero cross. */
  function PhaseTick(lib: Lib, p: Phase, ignition: bool, setpoint: int, up: bool, down: bool): (g: Gate)
    ensures var q := CountPhase(p, up, down);
      g.phase.counter == q.counter && g.phase.period == q.period &&
      g.phase.oncePeriodCounted == q.oncePeriodCounted && g.phase.onceZeroCrossed == q.onceZeroCrossed &&
      (g.turnedOn <==>
         (q.oncePeriodCounted && !(q.openDone && !(up || down)) &&
          q.counter >= TicksThreshold(lib, setpoint, q.period) &&
          U32(q.counter + TRIAC_ZERO_TAIL_LENGTH) < q.period)) &&
      (g.turnedOff <==>
         (!(up || down) && q.oncePeriodCounted && q.openDone && !q.closeDone &&
          U32(q.counter + TRIAC_ZERO_TAIL_LENGTH) >= q.period))
    ensures g.phase.openDone == (g.turnedOn || (p.openDone && !(up || down)))
    ensures g.phase.closeDone == (g.turnedOff || (p.closeDone && !(up || down)))
    ensures g.ignition == (g.turnedOn || (ignition && !(up || down) && !g.turnedOff))
    ensures PhaseValid(p) || up || down ==> PhaseValid(g.phase)
  {
    TriacUpdate(lib, CountPhase(p, up, down), ignition, setpoint, up || down)
  }

  /** `consume` on one tick of samples, returning the object afterwards and
      the data it queues. The four buffers are ADC_FETCH_PER_TICK samples of
      the voltage, current, knob and V_refint channels. The zero-cross up
      flag is set when the voltage leaves zero, the down flag when it
      returns to zero, and the phase advances on those flags. */
  function Consume(lib: Lib, io: Io, vBuf: seq<int>, cBuf: seq<int>, kBuf: seq<int>, rBuf: seq<int>): (r: (Io, IoData))
    requires TruncatedMean.IsBatch(vBuf) && TruncatedMean.IsBatch(cBuf)
    requires TruncatedMean.IsBatch(kBuf) && TruncatedMean.IsBatch(rBuf)
    ensures r.1.zeroCrossUp <==> io.prevVoltage == 0 && r.1.voltage > 0
    ensures r.1.zeroCrossDown <==> io.prevVoltage > 0 && r.1.voltage == 0
    ensures r.1.current >= 0
    ensures r.0.prevVoltage == r.1.voltage && r.0.prevKnob == r.1.knob
    ensures var g := PhaseTick(lib, io.phase, io.ignition, io.setpoint, r.1.zeroCrossUp, r.1.zeroCrossDown);
      r.0.phase == g.phase && r.0.ignition == g.ignition
    ensures r.0.setpoint == io.setpoint && r.0.currentOffset == io.currentOffset && r.0.shuntInv == io.shuntInv
  {
    var adcVoltage := TruncatedMean.TruncatedMean(vBuf, TruncatedMean.WINDOW_1_1) % 0x1_0000;
    var adcCurrent := TruncatedMean.TruncatedMean(cBuf, TruncatedMean.WINDOW_1_1) % 0x1_0000;
    var adcKnob := TruncatedMean.TruncatedMean(kBuf, TruncatedMean.WINDOW_1_1) % 0x1_0000;
    var adcVRefin := TruncatedMean.TruncatedMean(rBuf, TruncatedMean.WINDOW_1_1) % 0x1_0000;
    var knob := SmoothKnob(io.prevKnob, adcKnob * 16);
    var vRef := lib.div(VREFIN, adcVRefin * 16);
    var current := I32(lib.mul(lib.mul(adcCurrent * 16, io.shuntInv), vRef) - io.currentOffset);
    var voltage := I32(lib.mul(adcVoltage * 16, vRef) * 201);
    var up := io.prevVoltage == 0 && voltage > 0;
    var down := io.prevVoltage > 0 && voltage == 0;
    var g := PhaseTick(lib, io.phase, io.ignition, io.setpoint, up, down);
    (io.(prevVoltage := voltage, prevKnob := knob, phase := g.phase, ignition := g.ignition),
     IoData(voltage, if current < 0 then 0 else current, knob, up, down))
  }

  /** What one tick without a zero cross does to a valid triac state: the
      counter advances by one, the period and the start-up flags are kept,
      and each of the two flags is set at most once, closing only after
      opening. Both firmware revisions step this way (module HalfWaves). */
  predicate InHalfWave(p: Phase, g: Gate) {
    PhaseValid(g.phase) &&
    g.phase.counter == U32(p.counter + 1) && g.phase.period == p.period &&
    g.phase.oncePeriodCounted == p.oncePeriodCounted && g.phase.onceZeroCrossed == p.onceZeroCrossed &&
    g.phase.openDone == (p.openDone || g.turnedOn) && g.phase.closeDone == (p.closeDone || g.turnedOff) &&
    !(g.turnedOn && p.openDone) && !(g.turnedOff && p.closeDone) && (g.turnedOff ==> p.openDone)
  }
}

=== FILE: knob_dial.dfy ===
/** `CalibratorWaitKnobDial`: the gesture that starts calibration. The knob
    rests at zero for at least 0.2 s, then is dialled up and back down three
    times; every high pulse and every low gap between two pulses lasts from
    0.2 s to 1 s. The coroutine is modelled by its resume point and its two
    counters; one call of `Tick` runs from the resume point to the next
    YIELD or to the `return`. */
module KnobDial {
  /** KNOB_TRESHOLD: F16(0.05), rounded to the nearest fix16 value. */
  const KNOB_THRESHOLD: int := 3277

  /** knob_wait_min: (int)(APP_TICK_FREQUENCY * 0.2f) with 17857 ticks/s. */
  const WAIT_MIN: int := 3571

  /** knob_wait_max: (int)(APP_TICK_FREQUENCY * 1.0f). */
  const WAIT_MAX: int := 17857

  /** The number of dials of the gesture. */
  const DIALS: int := 3

  /** IS_KNOB_LOW; IS_KNOB_HIGH is its negation. */
  predicate Low(knob: int) {
    knob < KNOB_THRESHOLD
  }

  predicate InRange(t: int) {
    WAIT_MIN <= t <= WAIT_MAX
  }

  /** Where the next call resumes: `Top` when the coroutine has not yielded
      (first call, or after the `return true`), `Idle` after the YIELD that
      opens every attempt, `Zero` inside the wait for the knob at rest,
      `Up` inside the measure of a pulse, `Down` inside the measure of a gap. */
  datatype Point = Top | Idle | Zero | Up | Down

  /** `ticks` is `ticks_cnt`, `dials` is `dials_cnt`. */
  datatype Detector = Detector(at: Point, ticks: int, dials: int)

  const INITIAL: Detector := Detector(Top, 0, 0)

  /** One call of `tick(io_data)` with the knob position of this tick.
      Returns the next state and the call's result. */
  function Tick(d: Detector, knob: int): (r: (Detector, bool))
    // the only `true`: the third pulse of the right length has just ended,
    // and the `return` without YIELD sends the next call to the top
    ensures r.1 ==> d.at == Up && Low(knob) && InRange(d.ticks + 1) && d.dials + 1 >= DIALS && r.0.at == Top
    ensures d.at == Up && Low(knob) && InRange(d.ticks + 1) && d.dials + 1 >= DIALS ==> r.1
    // an interval of the wrong length restarts from the wait for the rest position
    ensures d.at == Zero && !Low(knob) && d.ticks + 1 < WAIT_MIN ==> r == (Detector(Idle, 0, d.dials), false)
    ensures d.at == Up && Low(knob) && !InRange(d.ticks + 1) ==> r == (Detector(Idle, 0, d.dials), false)
    ensures d.at == Down && !Low(knob) && !InRange(d.ticks + 1) ==> r == (Detector(Idle, 0, d.dials), false)
    // a held knob only counts
    ensures d.at == Zero && Low(knob) ==> r == (d.(ticks := d.ticks + 1), false)
    ensures d.at == Up && !Low(knob) ==> r == (d.(ticks := d.ticks + 1), false)
    ensures d.at == Down && Low(knob) ==> r == (d.(ticks := d.ticks + 1), false)
  {
    match d.at
    case Top =>
      // ticks_cnt = 0; YIELD
      (Detector(Idle, 0, d.dials), false)
    case Idle =>
      // the zero-wait loop: a high knob leaves it at once with 0 ticks
      if Low(knob) then (d.(at := Zero), false) else (Detector(Idle, 0, d.dials), false)
    case Zero =>
      var t := d.ticks + 1;
      if Low(knob) then (d.(ticks := t), false)
      else if t < WAIT_MIN then (Detector(Idle, 0, d.dials), false)
      // dials_cnt = 0; ticks_cnt = 0; the knob is high, so the pulse loop yields
      else (Detector(Up, 0, 0), false)
    case Up =>
      var t := d.ticks + 1;
      if !Low(knob) then (d.(ticks := t), false)
      else if !InRange(t) then (Detector(Idle, 0, d.dials), false)
      else if d.dials + 1 >= DIALS then (Detector(Top, t, d.dials + 1), true)
      // ticks_cnt = 0; the knob is low, so the gap loop yields
      else (Detector(Down, 0, d.dials + 1), false)
    case Down =>
      var t := d.ticks + 1;
      if Low(knob) then (d.(ticks := t), false)
      else if !InRange(t) then (Detector(Idle, 0, d.dials), false)
      // back to the top of the pulse loop: ticks_cnt = 0, the knob is high
      else (Detector(Up, 0, d.dials), false)
  }

  // ---------------------------------------------------------------------------
  // The detector against the history of knob positions.

  /** The detector after every call of `h`, from power-up. */
  function Replay(h: seq<int>): Detector
    decreases |h|
  {
    if |h| == 0 then INITIAL else Tick(Replay(h[..|h| - 1]), h[|h| - 1]).0
  }

  /** The result of the last call of `h`. */
  function Output(h: seq<int>): bool
    requires |h| > 0
  {
    Tick(Replay(h[..|h| - 1]), h[|h| - 1]).1
  }

  /** The length of the longest run of low (`low`) or high (`!low`) positions
      at the end of `h`. */
  function Trailing(h: seq<int>, low: bool): (n: nat)
    ensures n <= |h|
    decreases |h|
  {
    if |h| > 0 && Low(h[|h| - 1]) == low then Trailing(h[..|h| - 1], low) + 1 else 0
  }

  /** `Trailing` counts a run that cannot be extended: the last `n`
      positions are all on the side asked for, the one before is not. */
  lemma {:induction false} TrailingIsRun(h: seq<int>, low: bool)
    ensures var n := Trailing(h, low);
      (forall i :: |h| - n <= i < |h| ==> Low(h[i]) == low) &&
      (n < |h| ==> Low(h[|h| - n - 1]) != low)
    decreases |h|
  {
    if |h| > 0 && Low(h[|h| - 1]) == low {
      var h1 := h[..|h| - 1];
      TrailingIsRun(h1, low);
      assert forall i :: 0 <= i < |h1| ==> h1[i] == h[i];
    }
  }

  /** `h` ends with the knob at rest for at least WAIT_MIN ticks (k = 0),
      or with a gap of the right length after a pulse of the right length
      after `k - 1` such pulse-gap pairs after the rest. */
  predicate Ready(h: seq<int>, k: nat)
    decreases k
  {
    var g := Trailing(h, true);
    if k == 0 then g >= WAIT_MIN
    else
      InRange(g) &&
      var h1 := h[..|h| - g];
      var p := Trailing(h1, false);
      InRange(p) && Ready(h1[..|h1| - p], k - 1)
  }

  /** `h` ends with the complete gesture: the rest, then three pulses with
      two gaps between them, every pulse and gap of the right length, and
      the low position that ends the third pulse. */
  predicate Dialled(h: seq<int>) {
    |h| > 0 && Low(h[|h| - 1]) &&
    var h1 := h[..|h| - 1];
    var p := Trailing(h1, false);
    InRange(p) && Ready(h1[..|h1| - p], DIALS - 1)
  }

  /** What each resume point knows about the history behind it. */
  predicate Tracks(d: Detector, h: seq<int>) {
    match d.at
    case Top => true
    case Idle => d.ticks == 0
    case Zero => 0 <= d.ticks && d.ticks + 1 <= Trailing(h, true)
    case Up =>
      0 <= d.ticks && 0 <= d.dials < DIALS && Trailing(h, false) == d.ticks + 1 &&
      Ready(h[..|h| - (d.ticks + 1)], d.dials)
    case Down =>
      0 <= d.ticks && 1 <= d.dials < DIALS && Trailing(h, true) == d.ticks + 1 &&
      var h1 := h[..|h| - (d.ticks + 1)];
      var p := Trailing(h1, false);
      InRange(p) && Ready(h1[..|h1| - p], d.dials - 1)
  }

  lemma TrailingAppend(h: seq<int>, knob: int, low: bool)
    ensures Trailing(h + [knob], low) == if Low(knob) == low then Trailing(h, low) + 1 else 0
  {
    assert (h + [knob])[..|h|] == h;
  }

  lemma DropAppend(h: seq<int>, knob: int, n: nat)
    requires n <= |h|
    ensures (h + [knob])[..|h| + 1 - (n + 1)] == h[..|h| - n]
  {
  }

  lemma TrackZero(d: Detector, h: seq<int>, knob: int)
    requires d.at == Zero && Tracks(d, h)
    ensures Tracks(Tick(d, knob).0, h + [knob]) && !Tick(d, knob).1
  {
    var h' := h + [knob];
    TrailingAppend(h, knob, true);
    TrailingAppend(h, knob, false);
    if !Low(knob) && d.ticks + 1 >= WAIT_MIN {
      assert Tick(d, knob).0 == Detector(Up, 0, 0);
      assert h'[..|h'| - 1] == h;
      assert Ready(h, 0);
    }
  }

  lemma TrackUp(d: Detector, h: seq<int>, knob: int)
    requires d.at == Up && Tracks(d, h)
    ensures Tracks(Tick(d, knob).0, h + [knob])
    ensures Tick(d, knob).1 ==> Dialled(h + [knob])
  {
    if !Low(knob) {
      TrackUpHeld(d, h, knob);
    } else if InRange(d.ticks + 1) {
      TrackUpReleased(d, h, knob);
    }
  }

  lemma TrackUpHeld(d: Detector, h: seq<int>, knob: int)
    requires d.at == Up && Tracks(d, h) && !Low(knob)
    ensures Tracks(Tick(d, knob).0, h + [knob]) && !Tick(d, knob).1
  {
    var t := d.ticks + 1;
    TrailingAppend(h, knob, false);
    assert Tick(d, knob).0 == Detector(Up, t, d.dials);
    DropAppend(h, knob, t);
  }

  lemma TrackUpReleased(d: Detector, h: seq<int>, knob: int)
    requires d.at == Up && Tracks(d, h) && Low(knob) && InRange(d.ticks + 1)
    ensures Tracks(Tick(d, knob).0, h + [knob])
    ensures Tick(d, knob).1 ==> Dialled(h + [knob])
  {
    var h' := h + [knob];
    var t := d.ticks + 1;
    TrailingAppend(h, knob, true);
    assert h'[..|h'| - 1] == h;
    assert Trailing(h, false) == t;
    if d.dials + 1 >= DIALS {
      assert d.dials == DIALS - 1;
      assert Dialled(h');
    } else {
      assert Tick(d, knob).0 == Detector(Down, 0, d.dials + 1);
    }
  }

  lemma TrackDown(d: Detector, h: seq<int>, knob: int)
    requires d.at == Down && Tracks(d, h)
    ensures Tracks(Tick(d, knob).0, h + [knob]) && !Tick(d, knob).1
  {
    var h' := h + [knob];
    var t := d.ticks + 1;
    TrailingAppend(h, knob, true);
    TrailingAppend(h, knob, false);
    if Low(knob) {
      assert Tick(d, knob).0 == Detector(Down, t, d.dials);
      DropAppend(h, knob, t);
    } else if InRange(t) {
      assert Tick(d, knob).0 == Detector(Up, 0, d.dials);
      assert h'[..|h'| - 1] == h;
      assert Trailing(h, true) == t;
      assert Ready(h, d.dials);
    }
  }

  /** One call keeps the knowledge of the resume points, and a `true`
      result comes with the complete gesture at the end of the history. */
  lemma TickTracks(d: Detector, h: seq<int>, knob: int)
    requires Tracks(d, h)
    ensures Tracks(Tick(d, knob).0, h + [knob])
    ensures Tick(d, knob).1 ==> Dialled(h + [knob])
  {
    match d.at
    case Top =>
    case Idle => TrailingAppend(h, knob, true);
    case Zero => TrackZero(d, h, knob);
    case Up => TrackUp(d, h, knob);
    case Down => TrackDown(d, h, knob);
  }

  lemma {:induction false} ReplayTracks(h: seq<int>)
    ensures Tracks(Replay(h), h)
    decreases |h|
  {
    if |h| > 0 {
      ReplayTracks(h[..|h| - 1]);
      TickTracks(Replay(h[..|h| - 1]), h[..|h| - 1], h[|h| - 1]);
      assert h[..|h| - 1] + [h[|h| - 1]] == h;
    }
  }

  /** Soundness: `tick` returns true only when the knob history ends with
      the whole gesture. The rest before the first pulse has a lower bound
      only; pulses and gaps have both bounds. */
  lemma DetectedOnlyAfterGesture(h: seq<int>)
    requires |h| > 0 && Output(h)
    ensures Dialled(h)
  {
    ReplayTracks(h[..|h| - 1]);
    TickTracks(Replay(h[..|h| - 1]), h[..|h| - 1], h[|h| - 1]);
    assert h[..|h| - 1] + [h[|h| - 1]] == h;
  }

  // ---------------------------------------------------------------------------
  // Completeness: the gesture is detected once the detector waits for it.

  predicate AllLow(s: seq<int>) {
    forall i :: 0 <= i < |s| ==> Low(s[i])
  }

  predicate AllHigh(s: seq<int>) {
    forall i :: 0 <= i < |s| ==> !Low(s[i])
  }

  lemma ReplayAppend(h: seq<int>, knob: int)
    ensures Replay(h + [knob]) == Tick(Replay(h), knob).0
  {
    assert (h + [knob])[..|h|] == h;
  }

  /** While the knob stays on the side the resume point measures, the
      calls only count. */
  lemma {:induction false} Holding(h: seq<int>, s: seq<int>)
    requires Replay(h).at in {Zero, Down} ==> AllLow(s)
    requires Replay(h).at == Up ==> AllHigh(s)
    requires Replay(h).at in {Zero, Up, Down}
    ensures Replay(h + s) == Replay(h).(ticks := Replay(h).ticks + |s|)
    decreases |s|
  {
    if |s| > 0 {
      var s1 := s[..|s| - 1];
      assert Replay(h).at in {Zero, Down} ==> AllLow(s1);
      assert Replay(h).at == Up ==> AllHigh(s1);
      Holding(h, s1);
      var d := Replay(h + s1);
      assert d == Replay(h).(ticks := Replay(h).ticks + |s1|);
      var k := s[|s| - 1];
      assert d.at in {Zero, Down} ==> Low(k);
      assert d.at == Up ==> !Low(k);
      assert Tick(d, k).0 == d.(ticks := d.ticks + 1);
      assert h + s == (h + s1) + [k];
      ReplayAppend(h + s1, k);
    } else {
      assert h + s == h;
    }
  }

  /** A run of `s` entered with the first position of the run and then
      held: it ends at the resume point `at` with `|s| - 1` ticks. */
  lemma Entered(h: seq<int>, s: seq<int>, at: Point, dials: int)
    requires |s| > 0 && Tick(Replay(h), s[0]).0 == Detector(at, 0, dials)
    requires at in {Zero, Up, Down}
    requires at in {Zero, Down} ==> AllLow(s)
    requires at == Up ==> AllHigh(s)
    ensures Replay(h + s) == Detector(at, |s| - 1, dials)
  {
    ReplayAppend(h, s[0]);
    assert h + s == (h + [s[0]]) + s[1..];
    Holding(h + [s[0]], s[1..]);
  }

  /** Completeness: from the point that waits for the rest position, a rest
      of at least WAIT_MIN ticks and three pulses and two gaps of the right
      lengths make the low position that ends the third pulse return true. */
  lemma GestureDetected(h: seq<int>, rest: seq<int>, p1: seq<int>, g1: seq<int>,
                        p2: seq<int>, g2: seq<int>, p3: seq<int>, end: int)
    requires Replay(h).at == Idle
    requires AllLow(rest) && |rest| >= WAIT_MIN
    requires AllHigh(p1) && AllHigh(p2) && AllHigh(p3) && AllLow(g1) && AllLow(g2)
    requires InRange(|p1|) && InRange(|g1|) && InRange(|p2|) && InRange(|g2|) && InRange(|p3|)
    requires Low(end)
    ensures Output(h + rest + p1 + g1 + p2 + g2 + p3 + [end])
  {
    var d := Replay(h).dials;
    Entered(h, rest, Zero, d);
    var h1 := h + rest;
    Entered(h1, p1, Up, 0);
    var h2 := h1 + p1;
    Entered(h2, g1, Down, 1);
    var h3 := h2 + g1;
    Entered(h3, p2, Up, 1);
    var h4 := h3 + p2;
    Entered(h4, g2, Down, 2);
    var h5 := h4 + g2;
    Entered(h5, p3, Up, 2);
    var h6 := h5 + p3;
    assert (h6 + [end])[..|h6 + [end]| - 1] == h6;
  }

  /** The detector itself starts over after a success: the call after the
      `true` goes back to waiting for the rest position. */
  lemma RestartsAfterSuccess(d: Detector, knob: int, next: int)
    requires Tick(d, knob).1
    ensures Tick(Tick(d, knob).0, next) == (Detector(Idle, 0, Tick(d, knob).0.dials), false)
  {
  }
}

=== FILE: median.dfy ===
/** `MedianIteratorTemplate<T, SIZE>`: a running median over the first SIZE
    values added since the last reset. The values live in two unsorted halves:
    `lo` holds the smaller ones and remembers where its maximum is, `hi` holds
    the larger ones and remembers where its minimum is. Values added after
    SIZE are ignored. */
module Median {
  import opened Fix16

  datatype Median = Median(size: int, lo: seq<int>, hi: seq<int>, loMaxIdx: int, hiMinIdx: int)

  /** Length of each of the two heap arrays: SIZE / 2 + (SIZE & 1). */
  function Capacity(size: nat): nat {
    size / 2 + size % 2
  }

  function Count(m: Median): nat {
    |m.lo| + |m.hi|
  }

  /** The values the filter currently holds, in no particular order. */
  function Elements(m: Median): seq<int> {
    m.lo + m.hi
  }

  predicate IsMaxAt(s: seq<int>, k: int) {
    0 <= k < |s| && forall j :: 0 <= j < |s| ==> s[j] <= s[k]
  }

  predicate IsMinAt(s: seq<int>, k: int) {
    0 <= k < |s| && forall j :: 0 <= j < |s| ==> s[k] <= s[j]
  }

  /** The representation invariant the add/result code relies on. SIZE is
      at least 2: with 0 or 1 the label `case SIZE:` in `add` repeats the
      label 0 or 1, and the template does not compile. */
  predicate Valid(m: Median) {
    && m.size >= 2
    && Count(m) <= m.size
    && -1 <= |m.lo| - |m.hi| <= 1
    && (Count(m) == 1 ==> |m.lo| == 1)
    && (if |m.lo| == 0 then m.loMaxIdx == 0 else IsMaxAt(m.lo, m.loMaxIdx))
    && (if |m.hi| == 0 then m.hiMinIdx == 0 else IsMinAt(m.hi, m.hiMinIdx))
    // every low value is at most every high value
    && (|m.lo| > 0 && |m.hi| > 0 ==> m.lo[m.loMaxIdx] <= m.hi[m.hiMinIdx])
  }

  /** The constructor: an empty filter. */
  function New(size: int): (m: Median)
    requires size >= 2
    ensures Valid(m) && m.size == size && Elements(m) == []
  {
    Median(size, [], [], 0, 0)
  }

  /** `reset()`: forget every value; the capacity stays. */
  function Reset(m: Median): (r: Median)
    requires m.size >= 2
    ensures Valid(r) && r.size == m.size && Elements(r) == []
  {
    m.(lo := [], hi := [], loMaxIdx := 0, hiMinIdx := 0)
  }

  /** `get_heap_lo_max_idx()`: scans from the last slot down and moves only
      on a strictly greater value, so it finds the LAST index of the maximum. */
  function LastMaxIndex(s: seq<int>): (k: nat)
    requires |s| > 0
    ensures IsMaxAt(s, k)
    ensures forall j :: k < j < |s| ==> s[j] < s[k]
    decreases |s|
  {
    if |s| == 1 then 0
    else
      var k := LastMaxIndex(s[1..]) + 1;
      if s[0] > s[k] then 0 else k
  }

  /** `get_heap_hi_min_idx()`: the last index of the minimum. */
  function LastMinIndex(s: seq<int>): (k: nat)
    requires |s| > 0
    ensures IsMinAt(s, k)
    ensures forall j :: k < j < |s| ==> s[k] < s[j]
    decreases |s|
  {
    if |s| == 1 then 0
    else
      var k := LastMinIndex(s[1..]) + 1;
      if s[0] < s[k] then 0 else k
  }

  /** `add(val)`. */
  function Add(m: Median, v: int): (r: Median)
    requires Valid(m)
    ensures Valid(r) && r.size == m.size
    ensures Count(m) < m.size ==> multiset(Elements(r)) == multiset(Elements(m)) + multiset{v}
    ensures Count(m) < m.size ==> Count(r) == Count(m) + 1
    ensures Count(m) == m.size ==> r == m
  {
    var total := Count(m);
    if total == 0 then
      m.(lo := [v])
    else if total == 1 then
      if v < m.lo[0] then m.(lo := [v], hi := [m.lo[0]]) else m.(hi := [v])
    else if total == m.size then
      m
    else
      var loMax := m.lo[m.loMaxIdx];
      var hiMin := m.hi[m.hiMinIdx];
      if v < loMax then
        if |m.lo| > |m.hi| then AddLowMoveMax(m, v) else AddLowAppend(m, v)
      else if v >= hiMin then
        if |m.hi| > |m.lo| then AddHighMoveMin(m, v) else AddHighAppend(m, v)
      else
        AddBetween(m, v)
  }

  /** A value below the low maximum while `lo` is the bigger half: the maximum
      moves to `hi` and the value takes its slot. */
  function AddLowMoveMax(m: Median, v: int): (r: Median)
    requires Valid(m) && 2 <= Count(m) < m.size && |m.lo| > |m.hi|
    requires v < m.lo[m.loMaxIdx]
    ensures Valid(r) && r.size == m.size
    ensures multiset(Elements(r)) == multiset(Elements(m)) + multiset{v}
  {
    var loMax := m.lo[m.loMaxIdx];
    var lo' := m.lo[m.loMaxIdx := v];
    var r := m.(hi := m.hi + [loMax], hiMinIdx := |m.hi|, lo := lo', loMaxIdx := LastMaxIndex(lo'));
    assert forall i :: 0 <= i < |lo'| ==> lo'[i] <= loMax;
    assert m.lo == m.lo[..m.loMaxIdx] + [loMax] + m.lo[m.loMaxIdx + 1..];
    assert lo' == m.lo[..m.loMaxIdx] + [v] + m.lo[m.loMaxIdx + 1..];
    r
  }

  function AddLowAppend(m: Median, v: int): (r: Median)
    requires Valid(m) && 2 <= Count(m) < m.size && |m.lo| <= |m.hi|
    requires v < m.lo[m.loMaxIdx]
    ensures Valid(r) && r.size == m.size
    ensures multiset(Elements(r)) == multiset(Elements(m)) + multiset{v}
  {
    var r := m.(lo := m.lo + [v]);
    assert Elements(r) == m.lo + [v] + m.hi;
    r
  }

  /** The mirror image of `AddLowMoveMax`. */
  function AddHighMoveMin(m: Median, v: int): (r: Median)
    requires Valid(m) && 2 <= Count(m) < m.size && |m.hi| > |m.lo|
    requires m.lo[m.loMaxIdx] <= v && m.hi[m.hiMinIdx] <= v
    ensures Valid(r) && r.size == m.size
    ensures multiset(Elements(r)) == multiset(Elements(m)) + multiset{v}
  {
    var hiMin := m.hi[m.hiMinIdx];
    var hi' := m.hi[m.hiMinIdx := v];
    var r := m.(lo := m.lo + [hiMin], loMaxIdx := |m.lo|, hi := hi', hiMinIdx := LastMinIndex(hi'));
    assert forall i :: 0 <= i < |hi'| ==> hiMin <= hi'[i];
    assert m.hi == m.hi[..m.hiMinIdx] + [hiMin] + m.hi[m.hiMinIdx + 1..];
    assert hi' == m.hi[..m.hiMinIdx] + [v] + m.hi[m.hiMinIdx + 1..];
    r
  }

  function AddHighAppend(m: Median, v: int): (r: Median)
    requires Valid(m) && 2 <= Count(m) < m.size && |m.hi| <= |m.lo|
    requires m.hi[m.hiMinIdx] <= v
    ensures Valid(r) && r.size == m.size
    ensures multiset(Elements(r)) == multiset(Elements(m)) + multiset{v}
  {
    m.(hi := m.hi + [v])
  }

  /** A value between the two halves joins the smaller half, or `lo` on a tie,
      and becomes its extreme. */
  function AddBetween(m: Median, v: int): (r: Median)
    requires Valid(m) && 2 <= Count(m) < m.size
    requires m.lo[m.loMaxIdx] <= v < m.hi[m.hiMinIdx]
    ensures Valid(r) && r.size == m.size
    ensures multiset(Elements(r)) == multiset(Elements(m)) + multiset{v}
  {
    if |m.lo| > |m.hi| then
      m.(hi := m.hi + [v], hiMinIdx := |m.hi|)
    else
      var r := m.(lo := m.lo + [v], loMaxIdx := |m.lo|);
      assert Elements(r) == m.lo + [v] + m.hi;
      r
  }

  // ---------------------------------------------------------------------------
  // Reference definition of the median of a sequence, by counting.

  /** Number of elements of `s` strictly below `bound`. */
  function CountBelow(s: seq<int>, bound: int): nat {
    if |s| == 0 then 0 else (if s[0] < bound then 1 else 0) + CountBelow(s[1..], bound)
  }

  /** `v` is the k-th smallest element of `s`, counting from 0. */
  ghost predicate IsKth(s: seq<int>, k: int, v: int) {
    v in s && CountBelow(s, v) <= k < CountBelow(s, v + 1)
  }

  /** What `result()` promises: 0 with no data, the middle element of an odd
      number of values, and the C mean of the two middle elements otherwise. */
  ghost predicate IsMedianOf(s: seq<int>, r: int) {
    if |s| == 0 then r == 0
    else if |s| % 2 == 1 then IsKth(s, |s| / 2, r)
    else exists a, b :: IsMiddlePair(s, a, b) && r == CDiv(a + b, 2)
  }

  /** `a` and `b` are the two middle elements of an even-length `s`. */
  ghost predicate IsMiddlePair(s: seq<int>, a: int, b: int) {
    IsKth(s, |s| / 2 - 1, a) && IsKth(s, |s| / 2, b)
  }

  lemma {:induction false} CountBelowAppend(a: seq<int>, b: seq<int>, bound: int)
    ensures CountBelow(a + b, bound) == CountBelow(a, bound) + CountBelow(b, bound)
    decreases |a|
  {
    if |a| > 0 {
      assert (a + b)[0] == a[0];
      assert (a + b)[1..] == a[1..] + b;
      CountBelowAppend(a[1..], b, bound);
    } else {
      assert a + b == b;
    }
  }

  lemma {:induction false} CountBelowAll(s: seq<int>, bound: int)
    requires forall j :: 0 <= j < |s| ==> s[j] < bound
    ensures CountBelow(s, bound) == |s|
    decreases |s|
  {
    if |s| > 0 {
      CountBelowAll(s[1..], bound);
    }
  }

  lemma {:induction false} CountBelowNone(s: seq<int>, bound: int)
    requires forall j :: 0 <= j < |s| ==> bound <= s[j]
    ensures CountBelow(s, bound) == 0
    decreases |s|
  {
    if |s| > 0 {
      CountBelowNone(s[1..], bound);
    }
  }

  /** At most |s| - 1 elements are below a bound that some element reaches. */
  lemma {:induction false} CountBelowMiss(s: seq<int>, k: int, bound: int)
    requires 0 <= k < |s| && bound <= s[k]
    ensures CountBelow(s, bound) <= |s| - 1
    decreases |s|
  {
    if k == 0 {
      CountBelowAtMost(s[1..], bound);
    } else {
      CountBelowMiss(s[1..], k - 1, bound);
    }
  }

  lemma {:induction false} CountBelowAtMost(s: seq<int>, bound: int)
    ensures CountBelow(s, bound) <= |s|
    decreases |s|
  {
    if |s| > 0 {
      CountBelowAtMost(s[1..], bound);
    }
  }

  /** Counting ignores order: permuted sequences have the same counts. */
  lemma {:induction false} CountBelowPermutation(a: seq<int>, b: seq<int>, bound: int)
    requires multiset(a) == multiset(b)
    ensures CountBelow(a, bound) == CountBelow(b, bound)
    decreases |a|
  {
    if |a| == 0 {
      assert |b| == |multiset(b)| == 0;
    } else {
      var x := a[0];
      assert x in multiset(b);
      var j :| 0 <= j < |b| && b[j] == x;
      var rest := RemoveAt(b, j);
      RemoveAtMultiset(b, j);
      assert a == [x] + a[1..];
      assert multiset(a[1..]) == multiset(a) - multiset{x};
      CountBelowPermutation(a[1..], rest, bound);
      CountBelowRemoveAt(b, j, bound);
    }
  }

  function RemoveAt(s: seq<int>, j: nat): seq<int>
    requires j < |s|
  {
    s[..j] + s[j + 1..]
  }

  lemma RemoveAtMultiset(s: seq<int>, j: nat)
    requires j < |s|
    ensures multiset(RemoveAt(s, j)) == multiset(s) - multiset{s[j]}
  {
    assert s == s[..j] + [s[j]] + s[j + 1..];
  }

  lemma CountBelowRemoveAt(s: seq<int>, j: nat, bound: int)
    requires j < |s|
    ensures CountBelow(s, bound) == CountBelow(RemoveAt(s, j), bound) + (if s[j] < bound then 1 else 0)
  {
    var t := [s[j]] + s[j + 1..];
    assert s == s[..j] + t;
    CountBelowAppend(s[..j], t, bound);
    CountBelowAppend(s[..j], s[j + 1..], bound);
    assert t[1..] == s[j + 1..];
  }

  lemma IsKthPermutation(a: seq<int>, b: seq<int>, k: int, v: int)
    requires multiset(a) == multiset(b) && IsKth(a, k, v)
    ensures IsKth(b, k, v)
  {
    assert v in multiset(a);
    CountBelowPermutation(a, b, v);
    CountBelowPermutation(a, b, v + 1);
  }

  lemma IsMedianPermutation(a: seq<int>, b: seq<int>, r: int)
    requires multiset(a) == multiset(b) && IsMedianOf(a, r)
    ensures IsMedianOf(b, r)
  {
    assert |a| == |multiset(a)| == |multiset(b)| == |b|;
    if |a| > 0 && |a| % 2 == 1 {
      IsKthPermutation(a, b, |a| / 2, r);
    } else if |a| > 0 {
      var x, y :| IsMiddlePair(a, x, y) && r == CDiv(x + y, 2);
      IsKthPermutation(a, b, |a| / 2 - 1, x);
      IsKthPermutation(a, b, |a| / 2, y);
      assert IsMiddlePair(b, x, y);
    }
  }

  /** The maximum of `lo` is the (|lo| - 1)-th smallest element. */
  lemma LowMaxRank(m: Median)
    requires Valid(m) && |m.lo| > 0
    ensures IsKth(Elements(m), |m.lo| - 1, m.lo[m.loMaxIdx])
  {
    var v := m.lo[m.loMaxIdx];
    CountBelowAppend(m.lo, m.hi, v);
    CountBelowAppend(m.lo, m.hi, v + 1);
    CountBelowMiss(m.lo, m.loMaxIdx, v);
    CountBelowNone(m.hi, v);
    CountBelowAll(m.lo, v + 1);
    assert v == Elements(m)[m.loMaxIdx];
  }

  /** The minimum of `hi` is the |lo|-th smallest element. */
  lemma HighMinRank(m: Median)
    requires Valid(m) && |m.hi| > 0
    ensures IsKth(Elements(m), |m.lo|, m.hi[m.hiMinIdx])
  {
    var v := m.hi[m.hiMinIdx];
    CountBelowAppend(m.lo, m.hi, v);
    CountBelowAppend(m.lo, m.hi, v + 1);
    CountBelowAtMost(m.lo, v);
    CountBelowNone(m.hi, v);
    CountBelowAll(m.lo, v + 1);
    assert v == Elements(m)[|m.lo| + m.hiMinIdx];
    if m.hiMinIdx == 0 {
      assert CountBelow(m.hi, v + 1) >= 1;
    } else {
      CountBelowAppend(m.hi[..1], m.hi[1..], v + 1);
      assert m.hi == m.hi[..1] + m.hi[1..];
      CountBelowAtLeastOne(m.hi[1..], m.hiMinIdx - 1, v + 1);
    }
  }

  lemma {:induction false} CountBelowAtLeastOne(s: seq<int>, k: int, bound: int)
    requires 0 <= k < |s| && s[k] < bound
    ensures CountBelow(s, bound) >= 1
    decreases |s|
  {
    if k > 0 {
      CountBelowAtLeastOne(s[1..], k - 1, bound);
    }
  }

  /** `result()`: the median of the values held. */
  function Result(m: Median): (r: int)
    requires Valid(m)
    ensures IsMedianOf(Elements(m), r)
  {
    var total := Count(m);
    if total == 0 then 0
    else if total == 1 then
      LowMaxRank(m);
      m.lo[0]
    else if total == 2 then
      LowMaxRank(m);
      HighMinRank(m);
      assert IsMiddlePair(Elements(m), m.lo[0], m.hi[0]);
      CDiv(m.lo[0] + m.hi[0], 2)
    else if total % 2 == 1 then
      if |m.lo| > |m.hi| then
        LowMaxRank(m);
        m.lo[m.loMaxIdx]
      else
        HighMinRank(m);
        m.hi[m.hiMinIdx]
    else
      LowMaxRank(m);
      HighMinRank(m);
      assert IsMiddlePair(Elements(m), m.lo[m.loMaxIdx], m.hi[m.hiMinIdx]);
      CDiv(m.lo[m.loMaxIdx] + m.hi[m.hiMinIdx], 2)
  }

  // ---------------------------------------------------------------------------
  // Whole histories.

  /** The filter after reset and then `add` of every value of `h` in order. */
  function Fill(size: int, h: seq<int>): Median
    requires size >= 2
    decreases |h|
  {
    if |h| == 0 then New(size) else Add(Fill(size, h[..|h| - 1]), h[|h| - 1])
  }

  /** The values a filter of capacity `size` keeps out of the history `h`. */
  function Accepted(h: seq<int>, size: nat): (p: seq<int>)
    ensures |p| == Min(|h|, size) && p == h[..|p|]
  {
    if |h| <= size then h else h[..size]
  }

  /** One `add` keeps the held values equal to the accepted prefix. */
  lemma AddKeepsPrefix(m: Median, p: seq<int>, v: int)
    requires Valid(m) && multiset(Elements(m)) == multiset(Accepted(p, m.size))
    ensures multiset(Elements(Add(m, v))) == multiset(Accepted(p + [v], m.size))
  {
    var held := Accepted(p, m.size);
    assert Count(m) == |held| by {
      assert |multiset(Elements(m))| == |Elements(m)|;
      assert |multiset(held)| == |held|;
    }
    if |p| < m.size {
      assert Accepted(p + [v], m.size) == held + [v];
    } else {
      assert Accepted(p + [v], m.size) == held;
    }
  }

  /** The filter always holds exactly the first SIZE values added. */
  lemma {:induction false} FillHoldsPrefix(size: int, h: seq<int>)
    requires size >= 2
    ensures Valid(Fill(size, h)) && Fill(size, h).size == size
    ensures multiset(Elements(Fill(size, h))) == multiset(Accepted(h, size))
    decreases |h|
  {
    if |h| > 0 {
      var p := h[..|h| - 1];
      FillHoldsPrefix(size, p);
      assert h == p + [h[|h| - 1]];
      AddKeepsPrefix(Fill(size, p), p, h[|h| - 1]);
    }
  }

  /** The running median equals the median of the first SIZE values, whatever
      their order. */
  lemma FillMedian(size: int, h: seq<int>)
    requires size >= 2
    ensures IsMedianOf(Accepted(h, size), Result(Fill(size, h)))
  {
    FillHoldsPrefix(size, h);
    var m := Fill(size, h);
    IsMedianPermutation(Elements(m), Accepted(h, size), Result(m));
  }

  /** Neither half outgrows its array of SIZE / 2 + (SIZE & 1) slots. */
  lemma WithinCapacity(m: Median)
    requires Valid(m)
    ensures |m.lo| <= Capacity(m.size) && |m.hi| <= Capacity(m.size)
  {
  }
}

=== FILE: meter.dfy ===
/** The speed meter of the newer firmware (`Meter`). Over each mains period it
    sums the active power and the squared current; the positive half-wave of
    the voltage is stored and replayed, negated, as the "virtual" voltage of
    the negative half-wave, when the triac conducts but the voltage sensor
    reads zero. At the next up crossing the equivalent resistance of the
    back-EMF gives the speed. */
module Meter {
  import opened Fix16
  import opened Wrappers
  import Io
  import Resistance

  /** `voltage_buffer_length`: APP_TICK_FREQUENCY / 48. */
  const VOLTAGE_BUFFER_LENGTH: int := 372

  /** CFG_R_INTERP_TABLE_LENGTH */
  const R_TABLE_LENGTH: int := 7

  /** The configured values: `cfg_rekv_to_speed_factor`,
      `cfg_min_power_treshold`, the resistance table `cfg_r_table` and the
      inverse bracket widths `cfg_r_table_setpoints_inerp_inv`. */
  datatype Config = Config(rekvToSpeedFactor: int, minPowerThreshold: int, rTable: seq<int>, interpInv: seq<int>)

  datatype Meter = Meter(speed: int, calibrated: bool, config: Config, onceZeroCrossed: bool,
                         pSum: int, i2Sum: int, virtualVoltage: int,
                         buffer: seq<int>, head: int, tickCounter: int)

  /** The shape of every state, also of the code as written: the buffer
      array, the `uint32_t` head and tick counter and the `fix16_t` sums. */
  predicate Shaped(m: Meter) {
    |m.buffer| == VOLTAGE_BUFFER_LENGTH && 0 <= m.head < UINT32_LIMIT && 0 <= m.tickCounter < UINT32_LIMIT &&
    IsInt32(m.pSum) && IsInt32(m.i2Sum) &&
    |m.config.rTable| == R_TABLE_LENGTH && |m.config.interpInv| == R_TABLE_LENGTH
  }

  /** The invariant of the meter: the head never passes the end of the
      buffer and the speed is never negative. */
  predicate Valid(m: Meter) {
    Shaped(m) && m.head <= VOLTAGE_BUFFER_LENGTH && m.speed >= 0
  }

  /** `reset_state`. The clearing of the `Io` output queue is not part of
      this model. */
  function ResetState(m: Meter): (r: Meter)
    ensures Shaped(m) ==> Valid(r)
    ensures r.speed == 0 && !r.onceZeroCrossed && r.head == 0 && r.tickCounter == 0
    ensures r.pSum == 0 && r.i2Sum == 0
    ensures r.calibrated == m.calibrated && r.config == m.config && r.buffer == m.buffer
  {
    m.(onceZeroCrossed := false, speed := 0, pSum := 0, i2Sum := 0, head := 0, tickCounter := 0)
  }

  /** The inverse bracket widths: 1.0 for the first entry and for every
      bracket in which the table does not rise, 1 / width otherwise. */
  function InterpInv(lib: Lib, rTable: seq<int>): (inv: seq<int>)
    requires |rTable| == R_TABLE_LENGTH
    ensures |inv| == R_TABLE_LENGTH && inv[0] == ONE
    ensures forall i :: 1 <= i < R_TABLE_LENGTH && I32(rTable[i] - rTable[i - 1]) <= 0 ==> inv[i] == ONE
  {
    var sp := Resistance.METER_SETPOINTS;
    seq(R_TABLE_LENGTH, i requires 0 <= i < R_TABLE_LENGTH =>
      if i == 0 then ONE
      else if I32(rTable[i] - rTable[i - 1]) > 0 then lib.div(ONE, sp[i] - sp[i - 1])
      else ONE)
  }

  /** `configure`, with the values read from the emulated EEPROM as
      parameters: `rTable` holds the seven table entries, each read with
      the calibration marker as its default, and `markerRaw` is the marker
      converted the same way. The meter is calibrated exactly when the
      first entry is not the marker; the state is reset. */
  function Configure(lib: Lib, m: Meter, rekvToSpeedFactor: int, rTable: seq<int>, markerRaw: int): (r: Meter)
    requires Shaped(m) && |rTable| == R_TABLE_LENGTH
    ensures Valid(r)
    ensures r.calibrated <==> rTable[0] != markerRaw
    ensures r.config == Config(rekvToSpeedFactor, m.config.minPowerThreshold, rTable, InterpInv(lib, rTable))
    ensures r.speed == 0 && !r.onceZeroCrossed
  {
    ResetState(m.(config := Config(rekvToSpeedFactor, m.config.minPowerThreshold, rTable, InterpInv(lib, rTable)),
                  calibrated := rTable[0] != markerRaw))
  }

  /** An EEPROM without a resistance table leaves the meter uncalibrated,
      and every bracket of the table is flat. */
  lemma BlankTableUncalibrated(lib: Lib, m: Meter, rekvToSpeedFactor: int, markerRaw: int)
    requires Shaped(m) && IsInt32(markerRaw)
    ensures var r := Configure(lib, m, rekvToSpeedFactor, seq(R_TABLE_LENGTH, _ => markerRaw), markerRaw);
      !r.calibrated && forall i :: 0 <= i < R_TABLE_LENGTH ==> r.config.interpInv[i] == ONE
  {
    var t := seq(R_TABLE_LENGTH, _ => markerRaw);
    var inv := InterpInv(lib, t);
    forall i | 1 <= i < R_TABLE_LENGTH
      ensures inv[i] == ONE
    {
      assert I32(t[i] - t[i - 1]) == 0;
    }
  }

  /** `get_motor_resistance` with the configured table. */
  function MotorResistance(lib: Lib, c: Config, setpoint: int): int
    requires |c.rTable| == R_TABLE_LENGTH && |c.interpInv| == R_TABLE_LENGTH
  {
    Resistance.MotorResistance(lib, Resistance.ByInverse(c.interpInv), Resistance.METER_SETPOINTS, c.rTable, setpoint)
  }

  /** Where the table does not rise the inverse width is 1.0, so the
      interpolation scale is the raw distance from the bracket's start. */
  lemma FlatBracketScale(lib: Lib, c: Config, k: int, setpoint: int)
    requires Lawful(lib) && |c.interpInv| == R_TABLE_LENGTH && 0 <= k < R_TABLE_LENGTH - 1
    requires c.interpInv[k + 1] == ONE && IsInt32(setpoint - Resistance.METER_SETPOINTS[k])
    ensures Resistance.Scale(lib, Resistance.ByInverse(c.interpInv), Resistance.METER_SETPOINTS, k, setpoint) ==
            setpoint - Resistance.METER_SETPOINTS[k]
  {
    MulOne(lib, setpoint - Resistance.METER_SETPOINTS[k]);
  }

  /** Inside a rising bracket of width `w` below 1.0 the scale
      `fix16_mul(d, fix16_div(1.0, w))` of a distance `d` in [0, w) stays in
      [0.0, 1.0]: the rounded inverse is within one unit of 1/w, which the
      distance below `w` cannot push past 1.0. */
  lemma InverseScaleWithin(lib: Lib, w: int, d: int)
    requires Lawful(lib) && 4 <= w < ONE && 0 <= d < w
    ensures 0 <= lib.mul(d, lib.div(ONE, w)) <= ONE
  {
    var q := lib.div(ONE, w);
    assert ONE * ONE <= w * 0x4000_0000;
    DivClose(lib, ONE, w);
    InverseProduct(w, d, q);
    MulClose(lib, d, q, 0, ONE);
  }

  /** The distance times the rounded inverse stays below 1.0 squared. */
  lemma InverseProduct(w: int, d: int, q: int)
    requires 4 <= w < ONE && 0 <= d < w && ONE * ONE - w < w * q < ONE * ONE + w
    ensures 0 <= d * q < ONE * ONE
  {
    assert q > 0 by {
      if q <= 0 {
        Resistance.Scaled(q, q, 0, w);
      }
    }
    assert 0 <= d * q <= (w - 1) * q by {
      Resistance.Scaled(0, d, w - 1, q);
    }
    assert w * ((w - 1) * q) < w * (ONE * ONE) by {
      assert w * ((w - 1) * q) == (w - 1) * (w * q);
      Resistance.Scaled(w * q, w * q, ONE * ONE + w, w - 1);
      assert (w - 1) * (ONE * ONE + w) == w * (ONE * ONE) - ONE * ONE + w * w - w;
      assert w * w < ONE * ONE by {
        Resistance.Scaled(w, w, ONE, w);
        Resistance.Scaled(w, w, ONE, ONE);
      }
    }
    assert (w - 1) * q < ONE * ONE by {
      if (w - 1) * q >= ONE * ONE {
        Resistance.Scaled(ONE * ONE, (w - 1) * q, (w - 1) * q, w);
      }
    }
  }

  /** With the inverses `configure` computes, a setpoint inside the table's
      range gives a resistance between the two entries of its bracket, up
      to rounding: flat brackets scale by the raw distance, rising ones by
      the rounded inverse width. */
  lemma ResistanceBetween(lib: Lib, c: Config, setpoint: int, k: int)
    requires Lawful(lib) && |c.rTable| == R_TABLE_LENGTH && c.interpInv == InterpInv(lib, c.rTable)
    requires setpoint < ONE && Resistance.InBracket(Resistance.METER_SETPOINTS, k, setpoint)
    requires IsInt32(c.rTable[k]) && IsInt32(c.rTable[k + 1])
    ensures Min(c.rTable[k], c.rTable[k + 1]) - 2 < MotorResistance(lib, c, setpoint) < Max(c.rTable[k], c.rTable[k + 1]) + 2
  {
    var rule := Resistance.ByInverse(c.interpInv);
    Resistance.SetpointTablesIncrease();
    Resistance.MotorResistanceInBracket(lib, rule, Resistance.METER_SETPOINTS, c.rTable, setpoint, k);
    InterpInvAt(lib, c.rTable, k + 1);
    ScaleWithin(lib, c.interpInv, k, setpoint);
    Resistance.InterpolateBetween(lib, c.rTable[k], c.rTable[k + 1], Resistance.Scale(lib, rule, Resistance.METER_SETPOINTS, k, setpoint));
  }

  /** Each inverse past the first is 1.0 or the rounded inverse width. */
  lemma InterpInvAt(lib: Lib, rTable: seq<int>, i: int)
    requires |rTable| == R_TABLE_LENGTH && 1 <= i < R_TABLE_LENGTH
    ensures var sp := Resistance.METER_SETPOINTS;
      InterpInv(lib, rTable)[i] == ONE || InterpInv(lib, rTable)[i] == lib.div(ONE, sp[i] - sp[i - 1])
  {
  }

  /** Either kind of inverse keeps the scale of an in-bracket setpoint in
      [0.0, 1.0]. */
  lemma ScaleWithin(lib: Lib, inv: seq<int>, k: int, setpoint: int)
    requires Lawful(lib) && |inv| == R_TABLE_LENGTH && Resistance.InBracket(Resistance.METER_SETPOINTS, k, setpoint)
    requires var sp := Resistance.METER_SETPOINTS; inv[k + 1] == ONE || inv[k + 1] == lib.div(ONE, sp[k + 1] - sp[k])
    ensures 0 <= Resistance.Scale(lib, Resistance.ByInverse(inv), Resistance.METER_SETPOINTS, k, setpoint) <= ONE
  {
    var sp := Resistance.METER_SETPOINTS;
    var w, d := sp[k + 1] - sp[k], setpoint - sp[k];
    assert 4 <= w < ONE && 0 <= d < w by {
      assert k == 0 || k == 1 || k == 2 || k == 3 || k == 4 || k == 5;
    }
    if inv[k + 1] == ONE {
      MulOne(lib, d);
    } else {
      InverseScaleWithin(lib, w, d);
    }
  }

  /** How the negative branch behaves once every stored sample has been
      replayed: as written (`voltage_buffer[voltage_buffer_head--]`) or
      as corrected (the last stored sample, walking back). */
  datatype Fallback = AsWritten | Corrected

  /** A positive sample: stored while the buffer has room, and used as the
      virtual voltage. */
  function Store(m: Meter, v: int): (r: Meter)
    requires Shaped(m)
    ensures Shaped(r)
  {
    if m.head < VOLTAGE_BUFFER_LENGTH then m.(buffer := m.buffer[m.head := v], head := m.head + 1, virtualVoltage := v)
    else m.(virtualVoltage := v)
  }

  /** A non-positive sample: the stored samples replayed in order, negated;
      then the fallback. `None` is an access outside the buffer. */
  function Extrapolate(m: Meter, fb: Fallback): (r: Option<Meter>)
    requires Shaped(m)
    ensures r.Some? ==> Shaped(r.value)
  {
    if m.tickCounter < m.head then
      if m.tickCounter < VOLTAGE_BUFFER_LENGTH then
        Some(m.(virtualVoltage := -m.buffer[m.tickCounter], tickCounter := U32(m.tickCounter + 1)))
      else None
    else
      match fb
      case AsWritten =>
        if m.head < VOLTAGE_BUFFER_LENGTH then
          Some(m.(virtualVoltage := -m.buffer[m.head], head := U32(m.head - 1)))
        else None
      case Corrected =>
        if 0 < m.head <= VOLTAGE_BUFFER_LENGTH then
          Some(m.(virtualVoltage := -m.buffer[m.head - 1], head := m.head - 1))
        else Some(m.(virtualVoltage := 0))
  }

  /** The speed estimate of a finished period: the equivalent resistance
      `(P / I^2 << 8) - R(setpoint)` divided by `cfg_rekv_to_speed_factor`. */
  function Estimate(lib: Lib, m: Meter, setpoint: int): int
    requires Shaped(m)
  {
    var rEkv := I32(I32(lib.div(m.pSum, m.i2Sum) * 256) - I32(MotorResistance(lib, m.config, setpoint)));
    lib.div(rEkv, m.config.rekvToSpeedFactor)
  }

  /** The noise check of a finished period: too little power for the
      number of stored samples. */
  predicate Noisy(m: Meter) {
    m.pSum < Asr(m.config.minPowerThreshold * m.head, 10)
  }

  /** The end of a period (a zero cross up): the new speed, zero when the
      period was noise and never negative, and the sums and the head reset. */
  function Finish(lib: Lib, m: Meter, setpoint: int): (r: Meter)
    requires Shaped(m)
    ensures Shaped(r) && r.head == 0 && r.pSum == 0 && r.i2Sum == 0 && r.speed >= 0
    ensures Noisy(m) ==> r.speed == 0
    ensures !Noisy(m) ==> r.speed == Max(Estimate(lib, m, setpoint), 0)
    ensures r.buffer == m.buffer && r.tickCounter == m.tickCounter && r.config == m.config
  {
    var speed := Estimate(lib, m, setpoint);
    var speed1 := if Noisy(m) then 0 else speed;
    m.(speed := if speed1 < 0 then 0 else speed1, pSum := 0, i2Sum := 0, head := 0)
  }

  /** `speed_tick` with either fallback. `None` is an access outside the
      buffer. */
  function StepWith(lib: Lib, m: Meter, d: Io.IoData, setpoint: int, fb: Fallback): (r: Option<Meter>)
    requires Shaped(m)
    ensures r.Some? ==> Shaped(r.value)
  {
    if !m.calibrated then Some(m.(speed := 0))
    else if !m.onceZeroCrossed && !d.zeroCrossUp then Some(m.(speed := 0))
    else
      var m1 := m.(onceZeroCrossed := true, tickCounter := if d.zeroCrossDown then 0 else m.tickCounter);
      var sampled := if d.voltage > 0 then Some(Store(m1, d.voltage)) else Extrapolate(m1, fb);
      match sampled
      case None => None
      case Some(m2) =>
        var c := Asr(d.current, 2);
        var m3 := m2.(pSum := I32(m2.pSum + lib.mul(Asr(m2.virtualVoltage, 8), c)),
                      i2Sum := I32(m2.i2Sum + lib.mul(c, c)));
        Some(if d.zeroCrossUp then Finish(lib, m3, setpoint) else m3)
  }

  /** `speed_tick` (with the corrected fallback): the speed is zero until
      the table is calibrated and until the first up crossing, changes only
      at an up crossing, and is never negative; the buffer stores the
      positive half-wave and replays it, negated, in the negative one. */
  function SpeedTick(lib: Lib, m: Meter, d: Io.IoData, setpoint: int): (r: Meter)
    requires Valid(m)
    ensures Valid(r)
    ensures r.calibrated == m.calibrated && r.config == m.config
    ensures !m.calibrated ==> r.speed == 0
    ensures !m.onceZeroCrossed && !d.zeroCrossUp ==> r == m.(speed := 0)
    ensures r.speed != m.speed ==> r.speed == 0 || d.zeroCrossUp
    ensures r.onceZeroCrossed == (m.onceZeroCrossed || (m.calibrated && d.zeroCrossUp))
    ensures m.calibrated && d.zeroCrossUp ==> r.head == 0 && r.pSum == 0 && r.i2Sum == 0
    ensures m.calibrated && (m.onceZeroCrossed || d.zeroCrossUp) && d.voltage > 0 ==>
      r.virtualVoltage == d.voltage &&
      r.buffer == (if m.head < VOLTAGE_BUFFER_LENGTH then m.buffer[m.head := d.voltage] else m.buffer) &&
      (!d.zeroCrossUp ==> r.head == Min(m.head + 1, VOLTAGE_BUFFER_LENGTH))
    ensures m.calibrated && m.onceZeroCrossed && d.voltage <= 0 && !d.zeroCrossUp ==>
      var tc := if d.zeroCrossDown then 0 else m.tickCounter;
      r.buffer == m.buffer &&
      (tc < m.head ==> r.virtualVoltage == -m.buffer[tc] && r.tickCounter == tc + 1 && r.head == m.head) &&
      (tc >= m.head && m.head > 0 ==> r.virtualVoltage == -m.buffer[m.head - 1] && r.head == m.head - 1) &&
      (tc >= m.head && m.head == 0 ==> r.virtualVoltage == 0 && r.head == 0)
  {
    match StepWith(lib, m, d, setpoint, Corrected)
    case Some(r) => r
    case None => assert false; m
  }

  /** A sequence of ticks, each with the `Io` data and the triac setpoint. */
  datatype Sample = Sample(data: Io.IoData, setpoint: int)

  function Run(lib: Lib, m: Meter, ts: seq<Sample>): (r: Meter)
    requires Valid(m)
    ensures Valid(r)
    decreases |ts|
  {
    if |ts| == 0 then m else Run(lib, SpeedTick(lib, m, ts[0].data, ts[0].setpoint), ts[1..])
  }

  /** Until the first zero cross up the meter only holds the speed at
      zero: after `reset_state` nothing is measured before a full period. */
  lemma {:induction false} NoSpeedBeforeFirstCrossing(lib: Lib, m: Meter, ts: seq<Sample>)
    requires Valid(m) && !m.onceZeroCrossed
    requires forall i :: 0 <= i < |ts| ==> !ts[i].data.zeroCrossUp
    ensures Run(lib, m, ts) == if |ts| == 0 then m else m.(speed := 0)
    decreases |ts|
  {
    if |ts| > 0 {
      var m1 := SpeedTick(lib, m, ts[0].data, ts[0].setpoint);
      NoSpeedBeforeFirstCrossing(lib, m1, ts[1..]);
    }
  }

  /** Ticks of the positive half-wave fill the buffer, up to its end. */
  predicate PositiveHalfWave(ts: seq<Sample>) {
    forall i :: 0 <= i < |ts| ==>
      ts[i].data.voltage > 0 && !ts[i].data.zeroCrossUp && !ts[i].data.zeroCrossDown
  }

  /** Ticks of the negative half-wave after its first: voltage zero, no
      crossing. */
  predicate NegativeHalfWave(ts: seq<Sample>) {
    forall i :: 0 <= i < |ts| ==>
      ts[i].data.voltage <= 0 && !ts[i].data.zeroCrossUp && !ts[i].data.zeroCrossDown
  }

  lemma {:induction false} PositiveRunFills(lib: Lib, m: Meter, ts: seq<Sample>)
    requires Valid(m) && m.calibrated && m.onceZeroCrossed && PositiveHalfWave(ts)
    ensures var r := Run(lib, m, ts);
      r.head == Min(m.head + |ts|, VOLTAGE_BUFFER_LENGTH) && r.calibrated && r.onceZeroCrossed &&
      r.tickCounter == m.tickCounter
    decreases |ts|
  {
    if |ts| > 0 {
      var m1 := SpeedTick(lib, m, ts[0].data, ts[0].setpoint);
      assert m1.tickCounter == m.tickCounter;
      PositiveRunFills(lib, m1, ts[1..]);
    }
  }

  lemma {:induction false} NegativeRunReplays(lib: Lib, m: Meter, ts: seq<Sample>)
    requires Valid(m) && m.calibrated && m.onceZeroCrossed && NegativeHalfWave(ts)
    requires m.tickCounter + |ts| <= m.head
    ensures var r := Run(lib, m, ts);
      r.head == m.head && r.tickCounter == m.tickCounter + |ts| && r.calibrated && r.onceZeroCrossed
    decreases |ts|
  {
    if |ts| > 0 {
      var m1 := SpeedTick(lib, m, ts[0].data, ts[0].setpoint);
      NegativeRunReplays(lib, m1, ts[1..]);
    }
  }

  /** Where the fallback is not reached the code as written and the
      corrected meter agree. */
  lemma AsWrittenAgrees(lib: Lib, m: Meter, d: Io.IoData, setpoint: int)
    requires Valid(m)
    requires d.voltage <= 0 && m.calibrated && (m.onceZeroCrossed || d.zeroCrossUp) ==>
             (if d.zeroCrossDown then 0 else m.tickCounter) < m.head
    ensures StepWith(lib, m, d, setpoint, AsWritten) == Some(SpeedTick(lib, m, d, setpoint))
  {
  }

  /** The fallback as written: the first read past the replayed samples is
      the slot after the last stored sample, which this half-wave did not
      write; with a full buffer that slot is past the end of the array, and
      with an empty one the head wraps to 2^32 - 1. */
  lemma AsWrittenFallback(lib: Lib, m: Meter, d: Io.IoData, setpoint: int)
    requires Valid(m) && m.calibrated && m.onceZeroCrossed
    requires d.voltage <= 0 && !d.zeroCrossUp && !d.zeroCrossDown && m.tickCounter >= m.head
    ensures var r := StepWith(lib, m, d, setpoint, AsWritten);
      (m.head == VOLTAGE_BUFFER_LENGTH <==> r.None?) &&
      (r.Some? ==> r.value.virtualVoltage == -m.buffer[m.head] && r.value.head == U32(m.head - 1)) &&
      (m.head == 0 ==> r.Some? && r.value.head == UINT32_LIMIT - 1)
  {
  }

  /** The overrun is reachable: after an up crossing, a positive half-wave
      of 372 ticks or more, a down crossing and 371 further ticks of the
      negative half-wave, the next tick reads `voltage_buffer[372]` as
      written, while the corrected meter replays the last stored sample. */
  lemma AsWrittenOverrunsBuffer(lib: Lib, m: Meter, pos: seq<Sample>, down: Sample, neg: seq<Sample>, d: Io.IoData, setpoint: int)
    requires Valid(m) && m.calibrated && m.onceZeroCrossed && m.head == 0
    requires PositiveHalfWave(pos) && |pos| >= VOLTAGE_BUFFER_LENGTH
    requires down.data.voltage <= 0 && down.data.zeroCrossDown && !down.data.zeroCrossUp
    requires NegativeHalfWave(neg) && |neg| == VOLTAGE_BUFFER_LENGTH - 1
    requires d.voltage <= 0 && !d.zeroCrossUp && !d.zeroCrossDown
    ensures var last := Run(lib, m, pos + [down] + neg);
      last.head == VOLTAGE_BUFFER_LENGTH && last.tickCounter == VOLTAGE_BUFFER_LENGTH &&
      StepWith(lib, last, d, setpoint, AsWritten).None? &&
      SpeedTick(lib, last, d, setpoint).virtualVoltage == -last.buffer[VOLTAGE_BUFFER_LENGTH - 1]
  {
    PositiveRunFills(lib, m, pos);
    var m1 := Run(lib, m, pos);
    var m2 := SpeedTick(lib, m1, down.data, down.setpoint);
    assert m2.tickCounter == 1 && m2.head == VOLTAGE_BUFFER_LENGTH;
    NegativeRunReplays(lib, m2, neg);
    RunAppend(lib, m, pos, [down]);
    RunAppend(lib, m, pos + [down], neg);
    var last := Run(lib, m, pos + [down] + neg);
    AsWrittenFallback(lib, last, d, setpoint);
  }

  lemma {:induction false} RunAppend(lib: Lib, m: Meter, a: seq<Sample>, b: seq<Sample>)
    requires Valid(m)
    ensures Run(lib, m, a + b) == Run(lib, Run(lib, m, a), b)
    decreases |a|
  {
    if |a| > 0 {
      assert (a + b)[1..] == a[1..] + b;
      RunAppend(lib, SpeedTick(lib, m, a[0].data, a[0].setpoint), a[1..], b);
    } else {
      assert a + b == b;
    }
  }
}

=== FILE: probes.dfy ===
/** The two measurements a half-cut iteration takes while the regulator runs
    with the candidate value, one sample per positive zero crossing: the
    oscillation amplitude (highest minus lowest median of twelve samples)
    and the overshoot speed (the highest low-pass filtered speed). Each is
    computed incrementally, as the calibrators do; the lemmas relate the
    running values to their definitions over the whole sample run. */
module Probes {
  import opened Fix16
  import HalfCut
  import StartStop

  /** The amplitude loop's variables (`measure_amplitude_ticks`, the values
      added to `median_filter` since its last reset, of which `ticks_cnt`
      is the count, `measure_amplitude_max_speed` and `..._min_speed`), or
      the overshoot loop's (`measure_overshoot_ticks`, `filtered_speed`,
      `overshoot_speed`). */
  datatype Probe =
    | AmplitudeProbe(count: int, window: seq<int>, highest: int, lowest: int)
    | OvershootProbe(count: int, filtered: int, peak: int)

  /** The amplitude loop's start: the extremes begin at 0 and
      `fix16_maximum`, the median filter and its counter are reset. */
  function BeginAmplitude(): (p: Probe)
    ensures p.AmplitudeProbe? && p.count == 0 && p.window == []
  {
    AmplitudeProbe(0, [], 0, MAXIMUM)
  }

  /** The overshoot loop's start: `overshoot_speed` = 0. The filter's old
      value is never read: the first sample seeds it. */
  function BeginOvershoot(): (p: Probe)
    ensures p.OvershootProbe? && p.count == 0
  {
    OvershootProbe(0, 0, 0)
  }

  /** The loop body on a positive zero crossing. The amplitude probe adds
      the speed to the median filter, and once it holds twelve values takes
      their median into the extremes and resets the filter; the overshoot
      probe advances the low-pass filter and keeps its highest value. */
  function Sample(lib: Lib, p: Probe, speed: int): (r: Probe)
    ensures r.AmplitudeProbe? == p.AmplitudeProbe? && r.count == p.count + 1
  {
    match p
    case AmplitudeProbe(count, window, highest, lowest) =>
      var w := window + [speed];
      if |w| >= HalfCut.WINDOW then
        var f := HalfCut.WindowMedian(w);
        AmplitudeProbe(count + 1, [], if highest < f then f else highest, if lowest > f then f else lowest)
      else AmplitudeProbe(count + 1, w, highest, lowest)
    case OvershootProbe(count, filtered, peak) =>
      var f := StartStop.Lowpass(lib, if count + 1 == 1 then speed else filtered, speed);
      OvershootProbe(count + 1, f, if peak < f then f else peak)
  }

  /** The measured value: `amplitude` or `overshoot_speed`. */
  function Value(p: Probe): int {
    match p
    case AmplitudeProbe(_, _, highest, lowest) => highest - lowest
    case OvershootProbe(_, _, peak) => peak
  }

  /** The probe after the samples `s`, in order. */
  function Samples(lib: Lib, p: Probe, s: seq<int>): (r: Probe)
    ensures r.AmplitudeProbe? == p.AmplitudeProbe? && r.count == p.count + |s|
    decreases |s|
  {
    if |s| == 0 then p else Sample(lib, Samples(lib, p, s[..|s| - 1]), s[|s| - 1])
  }

  // ---------------------------------------------------------------------------
  // The amplitude.

  /** The samples after the last complete window of twelve. */
  function Pending(s: seq<int>): (r: seq<int>)
    ensures |r| < HalfCut.WINDOW
    decreases |s|
  {
    if |s| < HalfCut.WINDOW then s else Pending(s[HalfCut.WINDOW..])
  }

  /** Adding one sample either extends the pending samples, or completes
      them into a window whose median is appended to the windows. */
  lemma {:induction false} WindowsGrow(s: seq<int>, v: int)
    ensures var t, w := s + [v], Pending(s) + [v];
      if |w| == HalfCut.WINDOW then
        HalfCut.Windows(t) == HalfCut.Windows(s) + [HalfCut.WindowMedian(w)] && Pending(t) == []
      else HalfCut.Windows(t) == HalfCut.Windows(s) && Pending(t) == w
    decreases |s|
  {
    var t := s + [v];
    if |s| >= 12 {
      var rest := s[12..];
      WindowsGrow(rest, v);
      assert t[..12] == s[..12];
      assert t[12..] == rest + [v];
    } else if |t| == 12 {
      assert t[..12] == t;
      assert HalfCut.Windows(t[12..]) == [];
    }
  }

  /** The amplitude probe after the samples `s` holds the pending samples,
      and its extremes are those of the complete windows' medians. */
  ghost predicate AmplitudeFollows(p: Probe, s: seq<int>) {
    && p.AmplitudeProbe?
    && p.count == |s|
    && p.window == Pending(s)
    && p.highest == HalfCut.Highest(HalfCut.Windows(s))
    && p.lowest == HalfCut.Lowest(HalfCut.Windows(s))
  }

  lemma AmplitudeStep(lib: Lib, p: Probe, s: seq<int>, v: int)
    requires AmplitudeFollows(p, s)
    ensures AmplitudeFollows(Sample(lib, p, v), s + [v])
  {
    WindowsGrow(s, v);
    var w := Pending(s) + [v];
    if |w| == HalfCut.WINDOW {
      ExtremesGrow(HalfCut.Windows(s), HalfCut.WindowMedian(w));
    }
  }

  /** The running extremes of the window medians, one more median on. */
  lemma ExtremesGrow(ws: seq<int>, f: int)
    ensures HalfCut.Highest(ws + [f]) == if HalfCut.Highest(ws) < f then f else HalfCut.Highest(ws)
    ensures HalfCut.Lowest(ws + [f]) == if HalfCut.Lowest(ws) > f then f else HalfCut.Lowest(ws)
  {
    assert (ws + [f])[..|ws|] == ws;
  }

  /** The running extremes are the highest and lowest window medians, so
      the probe's value is `Amplitude` of all its samples. */
  lemma {:induction false} AmplitudeRun(lib: Lib, s: seq<int>)
    ensures AmplitudeFollows(Samples(lib, BeginAmplitude(), s), s)
    ensures Value(Samples(lib, BeginAmplitude(), s)) == HalfCut.Amplitude(s)
    decreases |s|
  {
    if |s| > 0 {
      var p, v := s[..|s| - 1], s[|s| - 1];
      var q := Samples(lib, BeginAmplitude(), p);
      AmplitudeRun(lib, p);
      AmplitudeStep(lib, q, p, v);
      assert p + [v] == s;
      assert Samples(lib, BeginAmplitude(), s) == Sample(lib, q, v);
    } else {
      assert HalfCut.Windows(s) == [];
    }
  }

  // ---------------------------------------------------------------------------
  // The overshoot.

  /** The filter's value after sample `k` of `s`. */
  function Trajectory(lib: Lib, s: seq<int>, k: int): int
    requires 0 <= k < |s|
  {
    StartStop.Filtered(lib, s[..k + 1])
  }

  /** The highest filtered speed over a run of samples, starting from 0:
      at least 0 and every value of the trajectory, and equal to 0 or one
      of them. */
  function Peak(lib: Lib, s: seq<int>): (r: int)
    ensures r >= 0
    ensures forall k :: 0 <= k < |s| ==> Trajectory(lib, s, k) <= r
    ensures r == 0 || exists k :: 0 <= k < |s| && Trajectory(lib, s, k) == r
    decreases |s|
  {
    if |s| == 0 then 0
    else
      var p := s[..|s| - 1];
      var r := Max(Peak(lib, p), StartStop.Filtered(lib, s));
      assert Trajectory(lib, s, |s| - 1) == StartStop.Filtered(lib, s) by {
        assert s[..|s|] == s;
      }
      assert forall k :: 0 <= k < |p| ==> Trajectory(lib, p, k) == Trajectory(lib, s, k) by {
        forall k | 0 <= k < |p| ensures Trajectory(lib, p, k) == Trajectory(lib, s, k) {
          assert p[..k + 1] == s[..k + 1];
        }
      }
      r
  }

  ghost predicate OvershootFollows(lib: Lib, p: Probe, s: seq<int>) {
    && p.OvershootProbe?
    && p.count == |s|
    && (|s| > 0 ==> p.filtered == StartStop.Filtered(lib, s))
    && p.peak == Peak(lib, s)
  }

  /** The running maximum is `Peak` of the samples so far, and the filter
      is the low-pass value over them, seeded by the first one. */
  lemma {:induction false} OvershootRun(lib: Lib, s: seq<int>)
    ensures OvershootFollows(lib, Samples(lib, BeginOvershoot(), s), s)
    ensures Value(Samples(lib, BeginOvershoot(), s)) == Peak(lib, s)
    decreases |s|
  {
    if |s| > 0 {
      var p := s[..|s| - 1];
      OvershootRun(lib, p);
      assert Samples(lib, BeginOvershoot(), s) == Sample(lib, Samples(lib, BeginOvershoot(), p), s[|s| - 1]);
    }
  }
}

=== FILE: regulator_adrc.dfy ===
/** The regulator of the newer firmware (`Regulator`): a first-order ADRC law
    with a speed observer and a disturbance observer, run on every 17th tick
    (1 kHz), with its output clamped to the configured speed range and the
    disturbance estimate back-calculated when the output saturates. */
module RegulatorAdrc {
  import opened Fix16
  import RegulatorCommon

  /** `freq_divisor`: APP_TICK_FREQUENCY / APP_ADRC_FREQUENCY = 17857 / 1000. */
  const FREQ_DIVISOR: int := 17

  /** `integr_coeff`: F16(1.0 / 1000). */
  const INTEGR_COEFF: int := 66

  /** `adrc_b0_inv`: F16(1.0 / ADRC_BO) with ADRC_BO = 5. */
  const B0_INV: int := 13107

  /** The configured values, already in fix16, and the derived observer
      gains L1 and L2. */
  datatype Config = Config(deadZone: int, maxLimit: int, minLimit: int, knobNormCoeff: int,
                           kp: int, kObservers: int, pCorrCoeff: int, b0Inv: int, l1: int, l2: int)

  datatype Regulator = Regulator(config: Config, knobNormalized: int, correction: int, speedEstimated: int,
                                 speedOut: int, counter: int, outPower: int)

  /** `adrc_update_observers_parameters`: L1 = 2 Kobs Kp and L2 = (Kobs Kp)^2,
      both through fix16 products. */
  function UpdateObservers(lib: Lib, c: Config): (r: Config)
    ensures r == c.(l1 := r.l1, l2 := r.l2)
    ensures var m := lib.mul(c.kObservers, c.kp); r.l1 == 2 * m && r.l2 == lib.mul(m, m)
  {
    var m := lib.mul(c.kObservers, c.kp);
    c.(l1 := 2 * m, l2 := lib.mul(m, m))
  }

  /** With non-negative coefficients of moderate size both gains are
      non-negative. */
  lemma ObserverGainsNonNegative(lib: Lib, c: Config)
    requires Lawful(lib) && 0 <= c.kObservers && 0 <= c.kp && c.kObservers * c.kp < ONE * 8_000_000
    ensures 0 <= UpdateObservers(lib, c).l1 && 0 <= UpdateObservers(lib, c).l2
  {
    var m := lib.mul(c.kObservers, c.kp);
    assert 0 <= c.kObservers * c.kp;
    MulSign(lib, c.kObservers, c.kp);
    MulClose(lib, c.kObservers, c.kp, 0, 8_000_000);
    assert 0 <= m * m <= 8_000_000 * 8_000_000 by { Square(m, 8_000_000); }
    MulSign(lib, m, m);
  }

  lemma Square(m: int, b: int)
    requires 0 <= m <= b
    ensures 0 <= m * m <= b * b
  {
    assert m * m <= m * b <= b * b;
  }

  /** `reset_state`: the observers and the output restart at zero and the
      divider at 1, so the next calls skip and let the meter resync. */
  function ResetState(r: Regulator): (q: Regulator)
    ensures q.speedEstimated == 0 && q.correction == 0 && q.speedOut == 0 && q.counter == 1
    ensures q.config == r.config && q.knobNormalized == r.knobNormalized && q.outPower == r.outPower
  {
    r.(speedEstimated := 0, correction := 0, speedOut := 0, counter := 1)
  }

  /** `configure`, with the values it reads and converts from the emulated
      EEPROM as parameters: the knob scale is cached, b0 is fixed at 5, the
      observer gains are derived, and the state is reset. */
  function Configure(lib: Lib, r: Regulator, deadZone: int, maxLimit: int, minLimit: int,
                     kp: int, kObservers: int, pCorrCoeff: int): (q: Regulator)
    ensures q.config.b0Inv == B0_INV && q.counter == 1
    ensures q.config.knobNormCoeff == lib.div(maxLimit - minLimit, ONE - deadZone)
    ensures q.config == UpdateObservers(lib, q.config)
    ensures q == ResetState(r).(config := q.config)
  {
    var c := Config(deadZone, maxLimit, minLimit, lib.div(maxLimit - minLimit, ONE - deadZone),
                    kp, kObservers, pCorrCoeff, B0_INV, 0, 0);
    ResetState(r.(config := UpdateObservers(lib, c)))
  }

  // ---------------------------------------------------------------------------
  // speed_adrc_tick

  /** `u0`, the proportional controller on the estimated speed. */
  function Control(lib: Lib, c: Config, est: int, knobNormalized: int): int {
    lib.mul(knobNormalized - est, c.kp)
  }

  /** The disturbance observer after integrating the speed error. */
  function ObservedCorrection(lib: Lib, c: Config, est: int, correction: int, speed: int): int {
    correction + lib.mul(lib.mul(speed - est, c.l2), INTEGR_COEFF)
  }

  /** The output before the clamp: `(u0 - correction - p_correction) / b0`. */
  function RawOutput(lib: Lib, c: Config, est: int, correction: int, knobNormalized: int, speed: int): int {
    var pCorrection := lib.mul(speed - est, c.pCorrCoeff);
    lib.mul(Control(lib, c, est, knobNormalized) - ObservedCorrection(lib, c, est, correction, speed) - pCorrection, c.b0Inv)
  }

  /** `speed_adrc_tick`: returns the new speed estimate, the new
      disturbance estimate and the output. The estimate is clamped to the
      speed limits; an output below the minimal limit is raised to it and
      one above the maximal limit lowered to it, and then the disturbance
      estimate is back-calculated so that `u0 - correction` is the limit
      times b0 (anti-windup). */
  function AdrcTick(lib: Lib, c: Config, est: int, correction: int, knobNormalized: int, speed: int): (r: (int, int, int))
    ensures c.minLimit <= c.maxLimit ==>
      c.minLimit <= r.0 <= c.maxLimit && c.minLimit <= r.2 <= c.maxLimit
    ensures r.2 <= c.maxLimit
    ensures var u0 := Control(lib, c, est, knobNormalized);
      var out := RawOutput(lib, c, est, correction, knobNormalized, speed);
      (c.minLimit <= out <= c.maxLimit ==>
         r.2 == out && r.1 == ObservedCorrection(lib, c, est, correction, speed)) &&
      (out < c.minLimit <= c.maxLimit ==> r.2 == c.minLimit && u0 - r.1 == lib.div(c.minLimit, c.b0Inv)) &&
      (out > c.maxLimit ==> r.2 == c.maxLimit && u0 - r.1 == lib.div(c.maxLimit, c.b0Inv))
  {
    var u0 := Control(lib, c, est, knobNormalized);
    var correction1 := ObservedCorrection(lib, c, est, correction, speed);
    var est1 := est + lib.mul(u0 + lib.mul(c.l1, speed - est), INTEGR_COEFF);
    var est2 := Clamp(est1, c.minLimit, c.maxLimit);
    var out := RawOutput(lib, c, est, correction, knobNormalized, speed);
    var (out1, correction2) :=
      if out < c.minLimit then (c.minLimit, u0 - lib.div(c.minLimit, c.b0Inv)) else (out, correction1);
    var (out2, correction3) :=
      if out1 > c.maxLimit then (c.maxLimit, u0 - lib.div(c.maxLimit, c.b0Inv)) else (out1, correction2);
    (est2, correction3, out2)
  }

  /** `tick(knob, speed)`: on the working call of the divider the knob is
      normalised, the ADRC law runs and `out_power` takes its output, which
      lies within the speed limits; every other call only counts. */
  function Tick(lib: Lib, r: Regulator, knob: int, speed: int): (q: Regulator)
    ensures q.config == r.config
    ensures q.counter == RegulatorCommon.DividerStep(FREQ_DIVISOR, r.counter).0
    ensures !RegulatorCommon.DividerStep(FREQ_DIVISOR, r.counter).1 ==> q == r.(counter := q.counter)
    ensures RegulatorCommon.DividerStep(FREQ_DIVISOR, r.counter).1 ==>
      q.outPower == q.speedOut &&
      q.knobNormalized == RegulatorCommon.NormalizeKnob(lib, r.config.deadZone, r.config.knobNormCoeff, r.config.minLimit, knob) &&
      (r.config.minLimit <= r.config.maxLimit ==>
         r.config.minLimit <= q.outPower <= r.config.maxLimit &&
         r.config.minLimit <= q.speedEstimated <= r.config.maxLimit)
  {
    var c := r.config;
    var (counter, works) := RegulatorCommon.DividerStep(FREQ_DIVISOR, r.counter);
    if !works then r.(counter := counter)
    else
      var kn := RegulatorCommon.NormalizeKnob(lib, c.deadZone, c.knobNormCoeff, c.minLimit, knob);
      var (est, correction, out) := AdrcTick(lib, c, r.speedEstimated, r.correction, kn, speed);
      r.(knobNormalized := kn, speedEstimated := est, correction := correction, speedOut := out,
         outPower := out, counter := counter)
  }

  /** A run of calls, each with the knob and the measured speed. */
  function Run(lib: Lib, r: Regulator, inputs: seq<(int, int)>): Regulator
    decreases |inputs|
  {
    if |inputs| == 0 then r else Run(lib, Tick(lib, r, inputs[0].0, inputs[0].1), inputs[1..])
  }

  /** While the counter has not reached the divisor the calls only count. */
  lemma {:induction false} Skipping(lib: Lib, r: Regulator, inputs: seq<(int, int)>)
    requires 1 <= r.counter && r.counter + |inputs| <= FREQ_DIVISOR
    ensures Run(lib, r, inputs) == r.(counter := r.counter + |inputs|)
    decreases |inputs|
  {
    if |inputs| > 0 {
      Skipping(lib, Tick(lib, r, inputs[0].0, inputs[0].1), inputs[1..]);
    }
  }

  /** After `reset_state` the next 16 calls change nothing but the counter,
      and the 17th runs the law. */
  lemma ResetSkipsCalls(lib: Lib, r: Regulator, inputs: seq<(int, int)>)
    requires |inputs| == FREQ_DIVISOR - 1
    ensures var q := Run(lib, ResetState(r), inputs);
      q == ResetState(r).(counter := FREQ_DIVISOR) &&
      RegulatorCommon.DividerStep(FREQ_DIVISOR, q.counter).1
  {
    Skipping(lib, ResetState(r), inputs);
  }
}

=== FILE: regulator_common.dfy ===
/** What the two regulators share: the tick divider that runs the control law
    on one call in every `divisor` calls, and the knob normalisation into the
    configured speed range (`SpeedController` of the older firmware and the
    ADRC `Regulator` of the newer one have the same code for both). */
module RegulatorCommon {
  import opened Fix16

  /** One call of the divider: the counter restarts once it reaches the
      divisor, and the call works exactly when the counter (after the
      restart) is zero. Returns the new counter and whether the call
      works. */
  function DividerStep(divisor: int, c: int): (r: (int, bool))
    requires divisor >= 1
    ensures r.1 <==> c <= 0 || c >= divisor
    ensures r.0 == (if r.1 then 1 else c + 1)
  {
    var c1 := if c >= divisor then 0 else c;
    if c1 > 0 then (c1 + 1, false) else (1, true)
  }

  /** The counter after `n` calls. */
  function DividerAfter(divisor: int, c: int, n: nat): int
    requires divisor >= 1
    decreases n
  {
    if n == 0 then c else DividerAfter(divisor, DividerStep(divisor, c).0, n - 1)
  }

  /** Started from a counter in [1, divisor], the calls skip until the
      counter reaches the divisor, the next one works and the counter is 1
      again: after a working call the next `divisor - 1` calls skip and the
      one after works, so exactly one call in every `divisor` does the
      work, and the `uint32_t` counter never leaves [1, divisor]. */
  lemma {:induction false} DividerPeriod(divisor: int, c: int)
    requires divisor >= 1 && 1 <= c <= divisor
    ensures forall i: nat :: i <= divisor - c ==>
      (DividerStep(divisor, DividerAfter(divisor, c, i)).1 <==> i == divisor - c)
    ensures DividerAfter(divisor, c, divisor - c + 1) == 1
    decreases divisor - c
  {
    if c < divisor {
      DividerPeriod(divisor, c + 1);
      forall i: nat | i <= divisor - c
        ensures DividerStep(divisor, DividerAfter(divisor, c, i)).1 <==> i == divisor - c
      {
        if i > 0 {
          assert DividerAfter(divisor, c, i) == DividerAfter(divisor, c + 1, i - 1);
        }
      }
      assert DividerAfter(divisor, c, divisor - c + 1) == DividerAfter(divisor, c + 1, divisor - c);
    }
  }

  /** `normalize_knob`: zero below the dead zone, otherwise the distance
      from the dead zone scaled into the range that starts at the minimal
      speed limit. */
  function NormalizeKnob(lib: Lib, deadZone: int, coeff: int, minLimit: int, knob: int): (r: int)
    ensures knob < deadZone ==> r == 0
  {
    if knob < deadZone then 0
    else lib.mul(knob - deadZone, coeff) + minLimit
  }

  /** Above the dead zone and with a non-negative scale the normalised knob
      never drops below the minimal limit. */
  lemma NormalizedKnobAboveMinLimit(lib: Lib, deadZone: int, coeff: int, minLimit: int, knob: int)
    requires Lawful(lib) && deadZone <= knob && 0 <= coeff
    requires (knob - deadZone) * coeff < MUL_SAFE
    ensures NormalizeKnob(lib, deadZone, coeff, minLimit, knob) >= minLimit
  {
    MulSign(lib, knob - deadZone, coeff);
  }
}

=== FILE: resistance.dfy ===
/** `get_motor_resistance`, shared by `Meter` (newer) and `Sensors` (older):
    the motor's active resistance depends on the triac setpoint and is
    interpolated linearly in a table calibrated at a few setpoints. */
module Resistance {
  import opened Fix16

  /** `cfg_r_table_setpoints` of `Meter`: F16 of 0.1, 0.15, 0.2, 0.3, 0.4,
      0.6 and 1.0, rounded half away from zero. */
  const METER_SETPOINTS: seq<int> := [6554, 9830, 13107, 19661, 26214, 39322, 65536]

  /** `cfg_r_table_setpoints` of `Sensors`: F16 of 1/10, 1/9, ... 1/1. */
  const SENSORS_SETPOINTS: seq<int> := [6554, 7282, 8192, 9362, 10923, 13107, 16384, 21845, 32768, 65536]

  predicate Increasing(s: seq<int>) {
    forall i, j :: 0 <= i < j < |s| ==> s[i] < s[j]
  }

  /** `sp` lies in the bracket that starts at entry `k`. */
  predicate InBracket(setpoints: seq<int>, k: int, sp: int) {
    0 <= k < |setpoints| - 1 && setpoints[k] <= sp < setpoints[k + 1]
  }

  /** The loop over the brackets: the first bracket at or after `i` that
      holds `sp`, or -1 when none does. */
  function FindBracket(setpoints: seq<int>, sp: int, i: nat): (k: int)
    ensures k == -1 || (i <= k && InBracket(setpoints, k, sp))
    ensures forall j :: i <= j < (if k == -1 then |setpoints| - 1 else k) ==> !InBracket(setpoints, j, sp)
    decreases |setpoints| - i
  {
    if i + 1 >= |setpoints| then -1
    else if setpoints[i] <= sp < setpoints[i + 1] then i
    else FindBracket(setpoints, sp, i + 1)
  }

  /** In increasing setpoints a value lies in at most one bracket. */
  lemma BracketUnique(setpoints: seq<int>, sp: int, k: int, j: int)
    requires Increasing(setpoints) && InBracket(setpoints, k, sp) && InBracket(setpoints, j, sp)
    ensures k == j
  {
  }

  /** Between the first and the last of increasing setpoints the loop
      always finds the bracket. */
  lemma {:induction false} BracketFound(setpoints: seq<int>, sp: int, i: nat)
    requires Increasing(setpoints) && i < |setpoints| && setpoints[i] <= sp < setpoints[|setpoints| - 1]
    ensures FindBracket(setpoints, sp, i) >= 0
    decreases |setpoints| - i
  {
    if !(setpoints[i] <= sp < setpoints[i + 1]) {
      BracketFound(setpoints, sp, i + 1);
    }
  }

  /** How the interpolation scale in [0.0, 1.0) inside bracket `k` is
      computed: `Meter` multiplies by a precomputed inverse width,
      `Sensors` divides by the width. */
  datatype Scaling = ByInverse(inv: seq<int>) | ByDivision

  predicate Fits(rule: Scaling, setpoints: seq<int>, table: seq<int>) {
    |setpoints| >= 1 && |table| == |setpoints| && (rule.ByInverse? ==> |rule.inv| == |setpoints|)
  }

  function Scale(lib: Lib, rule: Scaling, setpoints: seq<int>, k: int, sp: int): int
    requires 0 <= k < |setpoints| - 1 && (rule.ByInverse? ==> |rule.inv| == |setpoints|)
  {
    match rule
    case ByInverse(inv) => lib.mul(sp - setpoints[k], inv[k + 1])
    case ByDivision => lib.div(sp - setpoints[k], setpoints[k + 1] - setpoints[k])
  }

  /** `fix16_mul(range_start, fix16_one - scale) + fix16_mul(range_end, scale)`. */
  function Interpolate(lib: Lib, a: int, b: int, scale: int): int {
    lib.mul(a, ONE - scale) + lib.mul(b, scale)
  }

  /** With a scale in [0.0, 1.0] the interpolation stays between the two
      entries, up to the rounding of the two products; a zero scale gives
      the bracket's first entry exactly. */
  lemma InterpolateBetween(lib: Lib, a: int, b: int, scale: int)
    requires Lawful(lib) && IsInt32(a) && IsInt32(b) && 0 <= scale <= ONE
    ensures Min(a, b) - 2 < Interpolate(lib, a, b, scale) < Max(a, b) + 2
    ensures scale == 0 ==> Interpolate(lib, a, b, scale) == a
  {
    var u := ONE - scale;
    ProductBounds(a, u);
    ProductBounds(b, scale);
    assert a * u - ONE < ONE * lib.mul(a, u) < a * u + ONE;
    assert b * scale - ONE < ONE * lib.mul(b, scale) < b * scale + ONE;
    Mix(Min(a, b), a, b, Max(a, b), scale);
    RoundedSum(lib.mul(a, u), lib.mul(b, scale), a * u, b * scale, Min(a, b), Max(a, b));
    if scale == 0 {
      MulOne(lib, a);
    }
  }

  /** A mix of two values with weights summing to 1.0 lies between them. */
  lemma Mix(m: int, a: int, b: int, M: int, scale: int)
    requires m <= a <= M && m <= b <= M && 0 <= scale <= ONE
    ensures ONE * m <= a * (ONE - scale) + b * scale <= ONE * M
  {
    var u := ONE - scale;
    Scaled(m, a, M, u);
    Scaled(m, b, M, scale);
    assert m * u + m * scale == m * ONE;
    assert M * u + M * scale == M * ONE;
  }

  /** Two products each rounded to within one unit sum to within two. */
  lemma RoundedSum(p: int, q: int, P: int, Q: int, m: int, M: int)
    requires P - ONE < ONE * p < P + ONE && Q - ONE < ONE * q < Q + ONE
    requires ONE * m <= P + Q <= ONE * M
    ensures m - 2 < p + q < M + 2
  {
  }

  lemma ProductBounds(a: int, u: int)
    requires IsInt32(a) && 0 <= u <= ONE
    ensures -MUL_SAFE <= a * u < MUL_SAFE
  {
    if a >= 0 {
      assert a * u <= a * ONE;
    } else {
      assert a * u >= a * ONE;
    }
  }

  lemma Scaled(m: int, a: int, M: int, u: int)
    requires m <= a <= M && 0 <= u
    ensures m * u <= a * u <= M * u
  {
  }

  /** `get_motor_resistance(setpoint)`: the first entry below the first
      setpoint, the last entry from 1.0 on, the interpolation in the
      bracket holding the setpoint otherwise, and the first entry when no
      bracket holds it. */
  function MotorResistance(lib: Lib, rule: Scaling, setpoints: seq<int>, table: seq<int>, sp: int): (r: int)
    requires Fits(rule, setpoints, table)
    ensures sp < setpoints[0] ==> r == table[0]
    ensures setpoints[0] <= sp && sp >= ONE ==> r == table[|table| - 1]
  {
    if sp < setpoints[0] then table[0]
    else if sp >= ONE then table[|table| - 1]
    else
      var k := FindBracket(setpoints, sp, 0);
      if k == -1 then table[0]
      else Interpolate(lib, table[k], table[k + 1], Scale(lib, rule, setpoints, k, sp))
  }

  /** For increasing setpoints that end at 1.0, a setpoint in range is
      interpolated in the one bracket that holds it. */
  lemma MotorResistanceInBracket(lib: Lib, rule: Scaling, setpoints: seq<int>, table: seq<int>, sp: int, k: int)
    requires Fits(rule, setpoints, table) && Increasing(setpoints) && setpoints[|setpoints| - 1] == ONE
    requires sp < ONE && InBracket(setpoints, k, sp)
    ensures MotorResistance(lib, rule, setpoints, table, sp) ==
            Interpolate(lib, table[k], table[k + 1], Scale(lib, rule, setpoints, k, sp))
  {
    assert setpoints[0] <= setpoints[k];
    BracketFound(setpoints, sp, 0);
    var f := FindBracket(setpoints, sp, 0);
    BracketUnique(setpoints, sp, f, k);
  }

  /** The older rule divides by the bracket width, so the resistance lies
      between the two entries of the bracket, up to rounding. */
  lemma DividedResistanceBetween(lib: Lib, setpoints: seq<int>, table: seq<int>, sp: int, k: int)
    requires Lawful(lib) && Fits(ByDivision, setpoints, table) && Increasing(setpoints)
    requires setpoints[|setpoints| - 1] == ONE && sp < ONE && InBracket(setpoints, k, sp)
    requires IsInt32(table[k]) && IsInt32(table[k + 1])
    ensures var r := MotorResistance(lib, ByDivision, setpoints, table, sp);
      Min(table[k], table[k + 1]) - 2 < r < Max(table[k], table[k + 1]) + 2
  {
    MotorResistanceInBracket(lib, ByDivision, setpoints, table, sp, k);
    var scale := Scale(lib, ByDivision, setpoints, k, sp);
    assert 0 <= scale <= ONE;
    InterpolateBetween(lib, table[k], table[k + 1], scale);
  }

  lemma SetpointTablesIncrease()
    ensures Increasing(METER_SETPOINTS) && METER_SETPOINTS[|METER_SETPOINTS| - 1] == ONE
    ensures Increasing(SENSORS_SETPOINTS) && SENSORS_SETPOINTS[|SENSORS_SETPOINTS| - 1] == ONE
  {
  }
}

=== FILE: search_calibrator.dfy ===
/** The coroutine both regulator calibrators (`CalibratorPID::tick` and
    `CalibratorADRC::tick`) follow. It runs the motor at low speed until it
    is steady, then records the rise to high speed and the fall back, and
    takes the motor start/stop time from the records. The ADRC calibrator
    then measures the speed factor at setpoint 0.8. After that come the
    half-cut searches for the regulator gains. Each iteration first lets
    the motor settle under the regulator with safe gains, then measures
    with the candidate. Once every search has completed, the gains are
    stored and the regulator and meter reconfigured.

    One call of `Tick` runs from the point where the previous call yielded
    to the next YIELD, or to the final `return true`; after that the next
    call starts over from the top. The tracker of each waiting loop (the
    four-parameter `StabilityFilterTemplate`, whose code is not part of this
    model) is abstract: `settled` says whether it reports stable, or its
    timeout expired, after the values pushed since its reset, and `average`
    is its average. The regulator's own tick is not modelled: while the
    regulator drives the motor, a yield reports its target and
    configuration. */
module SearchCalibrator {
  import opened Fix16
  import opened Wrappers
  import HalfCut
  import StartStop
  import Probes

  /** `LOW_SPEED_SETPOINT` = 0.35, `HIGH_SPEED_SETPOINT` = 0.7 and
      `SPEED_FACTOR_SETPOINT` = 0.8. */
  const LOW_SPEED: int := 22938
  const HIGH_SPEED: int := 45875
  const FACTOR_SETPOINT: int := 52429

  /** The regulator gains a calibrator sets: `cfg_pid_p` and
      `cfg_pid_i_inv`, or `cfg_adrc_Kp`, `cfg_adrc_Kobservers` and
      `cfg_adrc_p_corr_coeff`. */
  datatype Setting = Pid(p: int, iInv: int) | Adrc(kp: int, kObservers: int, pCorr: int)

  /** What drives the triac on a yielding tick: a fixed `io.setpoint`, or
      the regulator's output while it runs toward `target` with `setting`. */
  datatype Drive = Direct(setpoint: int) | Regulated(target: int, setting: Setting)

  /** The persisted values (their EEPROM addresses differ between the two
      configuration headers, so they are named here). */
  datatype Key = SpeedFactorKey | PidPKey | PidIKey | AdrcKpKey | AdrcKobserversKey | AdrcPCorrKey

  /** Side effects on other components: `meter.cfg_rekv_to_speed_factor =
      fix16_one`, `eeprom_float_write`, `meter.configure()`,
      `regulator.configure()` and `meter.reset_state()`. */
  datatype Effect = ResetSpeedFactor | Store(key: Key, value: int) | ConfigureMeter | ConfigureRegulator | ResetMeter

  /** One half-cut search: where its result goes, its decision rule, its
      first attempt and step (from the start/stop time), the drive while
      settling and while measuring (from the start/stop time, the earlier
      searches' results and the attempt), and the safety scaling of the
      final attempt. */
  datatype SearchPlan = SearchPlan(
    key: Key,
    rule: HalfCut.Rule,
    start: int -> int,
    step: int -> int,
    settle: (int, seq<int>) -> Drive,
    measure: (int, seq<int>, int) -> Drive,
    finish: int -> int)

  /** A calibrator: whether it measures the speed factor, and its searches
      in order. */
  datatype Plan = Plan(factor: bool, searches: seq<SearchPlan>)

  /** `seconds(i, ticks, len)` is the float time conversion of
      `calculate_start_stop_time`. */
  datatype Env = Env(
    lib: Lib,
    plan: Plan,
    settled: seq<int> -> bool,
    average: seq<int> -> int,
    seconds: (int, int, int) -> int)

  /** Where the coroutine yielded: `Top` is the start (also after the final
      return). The others are the waiting loops: at low speed, during the
      rise and the fall, at the speed-factor setpoint, and the two loops of
      a search iteration. */
  datatype Point = Top | Steady | Rise | Fall | Factor | Settle | Measure

  /** The calibrator's variables: the tracker's values since its reset, the
      current and the finished rise record, `motor_start_stop_time`, the
      current search, its half-cut state and its measurements so far, the
      current measurement, and the results and measurements of the searches
      already completed. The last two and `measured` are the model's record
      of what the code keeps in `iterations_count` and the `*_calibrated_value`
      variables. */
  datatype Calibrator = Calibrator(
    at: Point,
    pushed: seq<int>,
    rec: StartStop.Recorder,
    rise: StartStop.Recorder,
    time: int,
    search: nat,
    s: HalfCut.Search,
    measured: seq<int>,
    probe: Probes.Probe,
    results: seq<int>,
    trials: seq<seq<int>>)

  /** The member initialisers. */
  function Initial(): (c: Calibrator)
    ensures c.at == Top && c.results == []
  {
    Calibrator(Top, [], StartStop.BeginRecord(), StartStop.BeginRecord(), 0, 0,
               HalfCut.Begin(0, 0), [], Probes.BeginAmplitude(), [], [])
  }

  /** `io_data.zero_cross_up` and `meter.speed` on this tick. */
  datatype Input = Input(zeroCrossUp: bool, speed: int)

  /** A call's outcome: it yielded false with the triac drive in force, or
      it returned true; with the effects it caused, in order. */
  datatype Out = Yield(drive: Drive, effects: seq<Effect>) | Done(effects: seq<Effect>)

  // ---------------------------------------------------------------------------
  // Invariants.

  /** A search's result is its final attempt, scaled. */
  function Result(e: Env, sp: SearchPlan, time: int, ms: seq<int>): int
    requires |ms| == HalfCut.ITERATIONS
  {
    sp.finish(HalfCut.Complete(e.lib, sp.rule, sp.start(time), sp.step(time), ms).attempt)
  }

  /** Each completed search ran its seven iterations, and its result is the
      scaled final attempt. */
  ghost predicate Completed(e: Env, c: Calibrator) {
    && |c.results| == |c.trials| <= |e.plan.searches|
    && forall k :: 0 <= k < |c.results| ==>
         |c.trials[k]| == HalfCut.ITERATIONS && c.results[k] == Result(e, e.plan.searches[k], c.time, c.trials[k])
  }

  /** The current search is the next one, mid-way: its state is the half-cut
      run over its measurements so far. */
  ghost predicate Searching(e: Env, c: Calibrator) {
    && c.search < |e.plan.searches|
    && |c.results| == c.search
    && |c.measured| == c.s.iteration < HalfCut.ITERATIONS
    && var sp := e.plan.searches[c.search];
       c.s == HalfCut.Run(e.lib, sp.rule, HalfCut.Begin(sp.start(c.time), sp.step(c.time)), c.measured)
  }

  /** The probe that suits a rule: the amplitude for an amplitude margin,
      the overshoot for an overshoot limit. */
  function BeginProbe(rule: HalfCut.Rule): (p: Probes.Probe)
    ensures p.count == 0 && (p.AmplitudeProbe? <==> rule.AmplitudeWithin?)
  {
    if rule.AmplitudeWithin? then Probes.BeginAmplitude() else Probes.BeginOvershoot()
  }

  ghost predicate Base(e: Env, c: Calibrator) {
    StartStop.RecorderValid(c.rec) && StartStop.RecorderValid(c.rise) && Completed(e, c)
  }

  /** The invariant between calls. */
  ghost predicate Valid(e: Env, c: Calibrator) {
    && Base(e, c)
    && (c.at in {Steady, Rise, Fall, Factor} ==> c.results == [])
    // nothing was recorded and nothing pushed before the first crossing
    && (c.at in {Rise, Fall} && c.rec.data == [] ==> c.rec.cyclic == 0 && c.pushed == [])
    // a rise record without samples ended on a tracker stable without values
    && (c.at == Fall && c.rise.data == [] ==> e.settled([]))
    && (c.at in {Settle, Measure} ==> Searching(e, c))
    && (c.at == Measure ==> c.probe.AmplitudeProbe? == e.plan.searches[c.search].rule.AmplitudeWithin?)
  }

  /** The drive in force while the coroutine waits at its point. */
  function DriveAt(e: Env, c: Calibrator): Drive {
    match c.at
    case Top => Direct(0)
    case Steady => Direct(LOW_SPEED)
    case Rise => Direct(HIGH_SPEED)
    case Fall => Direct(LOW_SPEED)
    case Factor => Direct(FACTOR_SETPOINT)
    case Settle =>
      if c.search < |e.plan.searches| then e.plan.searches[c.search].settle(c.time, c.results) else Direct(0)
    case Measure =>
      if c.search < |e.plan.searches| then e.plan.searches[c.search].measure(c.time, c.results, c.s.attempt)
      else Direct(0)
  }

  /** No regulator gain is written. */
  predicate NoGainStore(fx: seq<Effect>) {
    forall i :: 0 <= i < |fx| ==> fx[i].Store? ==> fx[i].key == SpeedFactorKey
  }

  /** The writes of the results, in the order of the searches. */
  function Stores(searches: seq<SearchPlan>, results: seq<int>): (fx: seq<Effect>)
    requires |searches| == |results|
    ensures |fx| == |results|
    ensures forall k :: 0 <= k < |fx| ==> fx[k] == Store(searches[k].key, results[k])
    decreases |results|
  {
    if |results| == 0 then []
    else Stores(searches[..|searches| - 1], results[..|results| - 1])
         + [Store(searches[|searches| - 1].key, results[|results| - 1])]
  }

  /** What a call reports. A yield happens away from the top, with the
      drive of the point it waits at, and writes no gain. The final return
      comes with every search completed, and the gains are written only then,
      in order, followed by the reconfiguration of regulator and meter. */
  ghost predicate Reported(e: Env, c: Calibrator, out: Out) {
    match out
    case Yield(d, fx) => c.at != Top && d == DriveAt(e, c) && NoGainStore(fx)
    case Done(fx) =>
      var n := |e.plan.searches|;
      && c.at == Top && |c.results| == n && |fx| >= n + 2
      && NoGainStore(fx[..|fx| - n - 2])
      && fx[|fx| - n - 2..] == Stores(e.plan.searches, c.results) + [ConfigureRegulator, ResetMeter]
  }

  /** The postcondition of every step. The call fails only where the code
      reads `start_data[start_len - 1]` of an empty record, which takes a
      tracker that is stable before any value was pushed. */
  ghost predicate Outcome(e: Env, r: Option<(Calibrator, Out)>) {
    && (r.None? ==> e.settled([]))
    && (r.Some? ==> Valid(e, r.value.0) && Reported(e, r.value.0, r.value.1))
  }

  /** A calibrator after its final call: every search completed, and the
      effects end with the gain writes and the reconfiguration. */
  ghost predicate Finished(e: Env, d: Calibrator, fx: seq<Effect>) {
    var n := |e.plan.searches|;
    && |d.results| == |d.trials| == n && |fx| >= n + 2
    && (forall k :: 0 <= k < n ==>
          |d.trials[k]| == HalfCut.ITERATIONS && d.results[k] == Result(e, e.plan.searches[k], d.time, d.trials[k]))
    && fx[|fx| - n - 2..] == Stores(e.plan.searches, d.results) + [ConfigureRegulator, ResetMeter]
  }

  lemma NoGainStoreAppend(fx: seq<Effect>, gx: seq<Effect>)
    requires NoGainStore(fx) && NoGainStore(gx)
    ensures NoGainStore(fx + gx)
  {
    forall i | 0 <= i < |fx + gx| && (fx + gx)[i].Store?
      ensures (fx + gx)[i].key == SpeedFactorKey
    {
      if i >= |fx| {
        assert (fx + gx)[i] == gx[i - |fx|];
      }
    }
  }

  // ---------------------------------------------------------------------------
  // The code between two yields. Each function runs one stretch of it,
  // given the effects of the call so far.

  /** Before the start time measure: `io.setpoint` = 0.35, tracker reset. */
  function EnterSteady(e: Env, c: Calibrator, fx: seq<Effect>): (r: Option<(Calibrator, Out)>)
    requires Base(e, c) && c.results == [] && NoGainStore(fx)
    ensures Outcome(e, r)
    decreases |e.plan.searches| + 1, 6, 0
  {
    var c := c.(at := Steady, pushed := []);
    if e.settled([]) then EnterRise(e, c, fx) else Some((c, Yield(Direct(LOW_SPEED), fx)))
  }

  /** The rise: `io.setpoint` = 0.7, tracker and recorder reset. */
  function EnterRise(e: Env, c: Calibrator, fx: seq<Effect>): (r: Option<(Calibrator, Out)>)
    requires Base(e, c) && c.results == [] && NoGainStore(fx)
    ensures Outcome(e, r)
    decreases |e.plan.searches| + 1, 5, 0
  {
    var c := c.(at := Rise, pushed := [], rec := StartStop.BeginRecord());
    if e.settled([]) then EndRise(e, c, fx) else Some((c, Yield(Direct(HIGH_SPEED), fx)))
  }

  /** `start_speed_data_len = speed_data_idx`; the record is kept. */
  function EndRise(e: Env, c: Calibrator, fx: seq<Effect>): (r: Option<(Calibrator, Out)>)
    requires Base(e, c) && c.results == [] && NoGainStore(fx)
    requires e.settled(c.pushed) && (c.rec.data == [] ==> c.pushed == [])
    ensures Outcome(e, r)
    decreases |e.plan.searches| + 1, 4, 0
  {
    EnterFall(e, c.(rise := c.rec), fx)
  }

  /** The fall: `io.setpoint` = 0.35, tracker and recorder reset. */
  function EnterFall(e: Env, c: Calibrator, fx: seq<Effect>): (r: Option<(Calibrator, Out)>)
    requires Base(e, c) && c.results == [] && NoGainStore(fx)
    requires c.rise.data == [] ==> e.settled([])
    ensures Outcome(e, r)
    decreases |e.plan.searches| + 1, 3, 0
  {
    var c := c.(at := Fall, pushed := [], rec := StartStop.BeginRecord());
    if e.settled([]) then EndFall(e, c, fx) else Some((c, Yield(Direct(LOW_SPEED), fx)))
  }

  /** `calculate_start_stop_time` over both records; an empty record makes
      it read out of bounds. */
  function EndFall(e: Env, c: Calibrator, fx: seq<Effect>): (r: Option<(Calibrator, Out)>)
    requires Base(e, c) && c.results == [] && NoGainStore(fx)
    requires e.settled(c.pushed) && (c.rec.data == [] ==> c.pushed == [])
    requires c.rise.data == [] ==> e.settled([])
    ensures Outcome(e, r)
    decreases |e.plan.searches| + 1, 2, 0
  {
    if c.rise.data == [] || c.rec.data == [] then None
    else
      var c := c.(time := StartStop.StartStopTime(e.lib, e.seconds, c.rise, c.rec), trials := []);
      if e.plan.factor then EnterFactor(e, c, fx) else EnterSearch(e, c, fx)
  }

  /** The speed factor: reset it to 1.0, `io.setpoint` = 0.8, tracker reset. */
  function EnterFactor(e: Env, c: Calibrator, fx: seq<Effect>): (r: Option<(Calibrator, Out)>)
    requires Base(e, c) && c.results == [] && NoGainStore(fx)
    ensures Outcome(e, r)
    decreases |e.plan.searches| + 1, 1, 0
  {
    var c := c.(at := Factor, pushed := []);
    var fx := fx + [ResetSpeedFactor];
    NoGainStoreAppend(fx[..|fx| - 1], [ResetSpeedFactor]);
    assert fx[..|fx| - 1] + [ResetSpeedFactor] == fx;
    if e.settled([]) then EndFactor(e, c, fx) else Some((c, Yield(Direct(FACTOR_SETPOINT), fx)))
  }

  /** The stable average at 0.8, divided by 0.8, is written as the speed
      factor, and the meter reconfigured. */
  function EndFactor(e: Env, c: Calibrator, fx: seq<Effect>): (r: Option<(Calibrator, Out)>)
    requires Base(e, c) && c.results == [] && NoGainStore(fx)
    ensures Outcome(e, r)
    decreases |e.plan.searches| + 1, 0, 0
  {
    var gx := [Store(SpeedFactorKey, e.lib.div(e.average(c.pushed), FACTOR_SETPOINT)), ConfigureMeter];
    NoGainStoreAppend(fx, gx);
    EnterSearch(e, c, fx + gx)
  }

  /** The next search, or, after the last one, the writes of every result,
      `regulator.configure()`, `meter.reset_state()` and `return true`. */
  function EnterSearch(e: Env, c: Calibrator, fx: seq<Effect>): (r: Option<(Calibrator, Out)>)
    requires Base(e, c) && NoGainStore(fx)
    ensures Outcome(e, r)
    decreases |e.plan.searches| - |c.results|, HalfCut.ITERATIONS + 1, 0
  {
    var n := |e.plan.searches|;
    var j := |c.results|;
    if j == n then
      var done := Stores(e.plan.searches, c.results) + [ConfigureRegulator, ResetMeter];
      var gx := fx + done;
      assert gx[..|gx| - n - 2] == fx && gx[|gx| - n - 2..] == done;
      Some((c.(at := Top), Done(gx)))
    else
      var sp := e.plan.searches[j];
      var c := c.(search := j, s := HalfCut.Begin(sp.start(c.time), sp.step(c.time)), measured := []);
      EnterSettle(e, c, fx)
  }

  /** An iteration's first loop: the tracker reset, the regulator with
      the safe gains. */
  function EnterSettle(e: Env, c: Calibrator, fx: seq<Effect>): (r: Option<(Calibrator, Out)>)
    requires Base(e, c) && Searching(e, c) && NoGainStore(fx)
    ensures Outcome(e, r)
    decreases |e.plan.searches| - |c.results|, HalfCut.ITERATIONS - c.s.iteration, 2
  {
    var c := c.(at := Settle, pushed := []);
    if e.settled([]) then EnterMeasure(e, c, fx) else Some((c, Yield(DriveAt(e, c), fx)))
  }

  /** The measurement loop: `measure_*_ticks_max` = `fix16_to_int(t * 50)`
      positive zero crossings with the candidate. */
  function Limit(e: Env, c: Calibrator): int {
    e.lib.toInt(c.time * 50)
  }

  /** An iteration's second loop: the regulator with the candidate, the
      probe reset. */
  function EnterMeasure(e: Env, c: Calibrator, fx: seq<Effect>): (r: Option<(Calibrator, Out)>)
    requires Base(e, c) && Searching(e, c) && NoGainStore(fx)
    ensures Outcome(e, r)
    decreases |e.plan.searches| - |c.results|, HalfCut.ITERATIONS - c.s.iteration, 1
  {
    var c := c.(at := Measure, probe := BeginProbe(e.plan.searches[c.search].rule));
    if c.probe.count >= Limit(e, c) then EndMeasure(e, c, fx) else Some((c, Yield(DriveAt(e, c), fx)))
  }

  /** The iteration's decision: the half-cut step on the measured value;
      after the seventh, the scaled result. */
  function EndMeasure(e: Env, c: Calibrator, fx: seq<Effect>): (r: Option<(Calibrator, Out)>)
    requires Base(e, c) && Searching(e, c) && NoGainStore(fx)
    ensures Outcome(e, r)
    decreases |e.plan.searches| - |c.results|, HalfCut.ITERATIONS - c.s.iteration, 0
  {
    var sp := e.plan.searches[c.search];
    var m := Probes.Value(c.probe);
    var s := HalfCut.Iterate(e.lib, sp.rule, c.s, m);
    var measured := c.measured + [m];
    HalfCut.RunStep(e.lib, sp.rule, HalfCut.Begin(sp.start(c.time), sp.step(c.time)), c.measured, m);
    if s.iteration < HalfCut.ITERATIONS then
      EnterSettle(e, c.(s := s, measured := measured), fx)
    else
      var c := c.(s := s, measured := measured,
                  results := c.results + [sp.finish(s.attempt)], trials := c.trials + [measured]);
      assert Base(e, c) by {
        forall k | 0 <= k < |c.results|
          ensures |c.trials[k]| == HalfCut.ITERATIONS && c.results[k] == Result(e, e.plan.searches[k], c.time, c.trials[k])
        {
        }
      }
      EnterSearch(e, c, fx)
  }

  // ---------------------------------------------------------------------------
  // The call.

  /** One `tick(io_data)`: the loop body after the YIELD the previous call
      stopped at, then on to the next YIELD or the final return. */
  function Tick(e: Env, c: Calibrator, x: Input): (r: Option<(Calibrator, Out)>)
    requires Valid(e, c)
    ensures Outcome(e, r)
  {
    var pushed := if x.zeroCrossUp then c.pushed + [x.speed] else c.pushed;
    match c.at
    case Top => EnterSteady(e, c.(results := [], trials := []), [])
    case Steady =>
      var c := c.(pushed := pushed);
      if e.settled(pushed) then EnterRise(e, c, []) else Some((c, Yield(DriveAt(e, c), [])))
    case Rise =>
      var c := c.(pushed := pushed, rec := StartStop.Record(e.lib, c.rec, x.zeroCrossUp, x.speed));
      if e.settled(pushed) then EndRise(e, c, []) else Some((c, Yield(DriveAt(e, c), [])))
    case Fall =>
      var c := c.(pushed := pushed, rec := StartStop.Record(e.lib, c.rec, x.zeroCrossUp, x.speed));
      if e.settled(pushed) then EndFall(e, c, []) else Some((c, Yield(DriveAt(e, c), [])))
    case Factor =>
      var c := c.(pushed := pushed);
      if e.settled(pushed) then EndFactor(e, c, []) else Some((c, Yield(DriveAt(e, c), [])))
    case Settle =>
      var c := c.(pushed := pushed);
      if e.settled(pushed) then EnterMeasure(e, c, []) else Some((c, Yield(DriveAt(e, c), [])))
    case Measure =>
      var c := if x.zeroCrossUp then c.(probe := Probes.Sample(e.lib, c.probe, x.speed)) else c;
      if c.probe.count >= Limit(e, c) then EndMeasure(e, c, []) else Some((c, Yield(DriveAt(e, c), [])))
  }

  /** A final call's outcome leaves the calibrator finished. */
  lemma DoneFinished(e: Env, r: Option<(Calibrator, Out)>)
    requires Outcome(e, r) && r.Some? && r.value.1.Done?
    ensures Finished(e, r.value.0, r.value.1.effects)
  {
    var d, out := r.value.0, r.value.1;
    assert Completed(e, d);
    assert Reported(e, d, out);
  }
}

=== FILE: sensors.dfy ===
/** The sensors of the older firmware (`Sensors`): the filtered ADC readings,
    the zero-cross flags and the back-EMF speed estimate. Unlike the newer
    `Meter` it has no start-up flag, divides by the bracket width when it
    interpolates the motor resistance, and does not guard its voltage
    buffer. */
module Sensors {
  import opened Fix16
  import opened Wrappers
  import TruncatedMean
  import Resistance
  import Io

  /** `voltage_buffer_length`: APP_TICK_FREQUENCY / 50, two half-waves of
      50 Hz mains. */
  const VOLTAGE_BUFFER_LENGTH: int := 357

  /** `R_CAL_CHECK_MARKER`, 123456789.0f, is the single-precision float
      123456792: between 2^26 and 2^27 floats are 8 apart. */
  const MARKER_FLOAT: int := 123456792

  /** The configured values: `cfg_shunt_resistance_inv`,
      `cfg_rekv_to_speed_factor`, `cfg_min_power_treshold`,
      `cfg_current_offset`, the setpoints of the resistance table and the
      table `cfg_r_table`. */
  datatype Config = Config(shuntInv: int, rekvToSpeedFactor: int, minPowerThreshold: int, currentOffset: int,
                           setpoints: seq<int>, rTable: seq<int>)

  datatype Sensors = Sensors(speed: int, voltage: int, current: int, knob: int,
                             zeroCrossUp: bool, zeroCrossDown: bool, calibrated: bool, config: Config,
                             prevVoltage: int, pSum: int, i2Sum: int, virtualVoltage: int,
                             buffer: seq<int>, head: int, tickCounter: int)

  /** One tick of filtered readings (`fetch_adc_data`). */
  datatype Reading = Reading(voltage: int, current: int, knob: int)

  /** The shape of every state, also of the code as written: the buffer
      array, the `uint32_t` head and tick counter, the `fix16_t` sums, and
      the flags as `tick` derives them. */
  predicate Shaped(s: Sensors) {
    |s.buffer| == VOLTAGE_BUFFER_LENGTH && 0 <= s.head < UINT32_LIMIT && 0 <= s.tickCounter < UINT32_LIMIT &&
    IsInt32(s.pSum) && IsInt32(s.i2Sum) &&
    Resistance.Fits(Resistance.ByDivision, s.config.setpoints, s.config.rTable) &&
    (s.zeroCrossUp ==> s.voltage > 0) && !(s.zeroCrossUp && s.zeroCrossDown)
  }

  /** The invariant of the corrected sensors: the head never passes the end
      of the buffer, and neither the speed nor the current is negative. */
  predicate Valid(s: Sensors) {
    Shaped(s) && s.head <= VOLTAGE_BUFFER_LENGTH && s.speed >= 0 && s.current >= 0
  }

  /** The object as constructed: every field zero (a global is
      zero-initialised) and the given configuration. */
  function Initial(c: Config): (s: Sensors)
    requires Resistance.Fits(Resistance.ByDivision, c.setpoints, c.rTable)
    ensures Valid(s) && !s.calibrated && s.speed == 0
  {
    Sensors(0, 0, 0, 0, false, false, false, c, 0, 0, 0, 0, seq(VOLTAGE_BUFFER_LENGTH, _ => 0), 0, 0)
  }

  // ---------------------------------------------------------------------------
  // configure

  /** The calibration check as written, `cfg_r_table[0] == R_CAL_CHECK_MARKER`:
      the raw fix16 slot is converted to float and compared with the
      marker, so only raw values that round to 123456792 compare equal
      (single precision rounds to nearest, ties to even). */
  predicate EqualsMarkerAsWritten(raw: int) {
    MARKER_FLOAT - 3 <= raw <= MARKER_FLOAT + 3
  }

  /** How `configure` decides `is_r_calibrated`. */
  datatype MarkerCheck = FloatCompare | RawCompare

  /** `configure`, with the values read from the emulated EEPROM as
      parameters: the shunt's inverse and the speed factor, and `rTable`,
      each entry read with the calibration marker as its default;
      `markerRaw` is the marker converted to fix16 the same way. The state
      is not reset. */
  function ConfigureWith(s: Sensors, shuntInv: int, rekvToSpeedFactor: int, rTable: seq<int>, markerRaw: int, check: MarkerCheck): (r: Sensors)
    requires Shaped(s) && |rTable| == |s.config.setpoints|
    ensures Shaped(r) && r.config.rTable == rTable
    ensures r.config.shuntInv == shuntInv && r.config.rekvToSpeedFactor == rekvToSpeedFactor
    ensures r.config.setpoints == s.config.setpoints
    ensures r.config.minPowerThreshold == s.config.minPowerThreshold
    ensures r.config.currentOffset == s.config.currentOffset
    ensures r == s.(config := r.config, calibrated := r.calibrated)
  {
    var calibrated := match check
      case FloatCompare => !EqualsMarkerAsWritten(rTable[0])
      case RawCompare => rTable[0] != markerRaw;
    s.(config := s.config.(shuntInv := shuntInv, rekvToSpeedFactor := rekvToSpeedFactor, rTable := rTable),
       calibrated := calibrated)
  }

  /** `configure` as corrected: calibrated exactly when the first entry is
      not the converted marker, as the newer `Meter` compares. */
  function Configure(s: Sensors, shuntInv: int, rekvToSpeedFactor: int, rTable: seq<int>, markerRaw: int): (r: Sensors)
    requires Shaped(s) && |rTable| == |s.config.setpoints|
    ensures Shaped(r) && (Valid(s) ==> Valid(r))
    ensures r.calibrated <==> rTable[0] != markerRaw
    ensures r.config.rTable == rTable && r.speed == s.speed
  {
    ConfigureWith(s, shuntInv, rekvToSpeedFactor, rTable, markerRaw, RawCompare)
  }

  /** The marker 123456789.0 is far outside the fix16 range (its fix16
      value would be 123456789 * 65536), so the slot of an EEPROM without a
      table holds whatever the conversion makes of it: for every such
      value outside the seven raw values that round to the marker (in
      particular the saturated 0x7FFFFFFF and 0x80000000), the check as
      written reports the blank table as calibrated. */
  lemma BlankTableCalibratedAsWritten(s: Sensors, shuntInv: int, rekvToSpeedFactor: int, markerRaw: int)
    requires Shaped(s) && |s.config.setpoints| >= 1
    requires !EqualsMarkerAsWritten(markerRaw)
    ensures var blank := seq(|s.config.setpoints|, _ => markerRaw);
      ConfigureWith(s, shuntInv, rekvToSpeedFactor, blank, markerRaw, FloatCompare).calibrated &&
      !Configure(s, shuntInv, rekvToSpeedFactor, blank, markerRaw).calibrated
  {
  }

  lemma SaturatedMarkersMissTheCheck()
    ensures !EqualsMarkerAsWritten(INT32_MAX) && !EqualsMarkerAsWritten(INT32_MIN)
    ensures 123456789 * ONE > INT32_MAX
  {
  }

  // ---------------------------------------------------------------------------
  // fetch_adc_data and tick

  /** `fetch_adc_data`: the four batches filtered by `truncated_mean` with
      window 1.1 and cut to `uint16_t`, the knob normalised and smoothed,
      the current scaled, offset-compensated and clamped at zero, and the
      voltage scaled by the divider ratio 201. */
  function FetchAdcData(lib: Lib, c: Config, prevKnob: int, vBuf: seq<int>, cBuf: seq<int>, kBuf: seq<int>, rBuf: seq<int>): (r: Reading)
    requires TruncatedMean.IsBatch(vBuf) && TruncatedMean.IsBatch(cBuf)
    requires TruncatedMean.IsBatch(kBuf) && TruncatedMean.IsBatch(rBuf)
    ensures r.current >= 0
    ensures r.knob == Io.SmoothKnob(prevKnob, (TruncatedMean.TruncatedMeanDiv(kBuf, TruncatedMean.WINDOW_1_1) % 0x1_0000) * 16)
  {
    var adcVoltage := TruncatedMean.TruncatedMeanDiv(vBuf, TruncatedMean.WINDOW_1_1) % 0x1_0000;
    var adcCurrent := TruncatedMean.TruncatedMeanDiv(cBuf, TruncatedMean.WINDOW_1_1) % 0x1_0000;
    var adcKnob := TruncatedMean.TruncatedMeanDiv(kBuf, TruncatedMean.WINDOW_1_1) % 0x1_0000;
    var adcVRefin := TruncatedMean.TruncatedMeanDiv(rBuf, TruncatedMean.WINDOW_1_1) % 0x1_0000;
    var knob := Io.SmoothKnob(prevKnob, adcKnob * 16);
    var vRef := lib.div(Io.VREFIN, adcVRefin * 16);
    var current := I32(lib.mul(lib.mul(adcCurrent * 16, c.shuntInv), vRef) - c.currentOffset);
    var voltage := I32(lib.mul(adcVoltage * 16, vRef) * 201);
    Reading(voltage, if current < 0 then 0 else current, knob)
  }

  /** With 12-bit samples the knob stays in [0, 4095 * 16]: each reading
      normalises into that range and the smoother stays between the
      previous value and the reading. */
  lemma KnobStaysNormalised(lib: Lib, c: Config, prevKnob: int, vBuf: seq<int>, cBuf: seq<int>, kBuf: seq<int>, rBuf: seq<int>)
    requires TruncatedMean.IsBatch(vBuf) && TruncatedMean.IsBatch(cBuf)
    requires TruncatedMean.IsBatch(kBuf) && TruncatedMean.IsBatch(rBuf)
    requires TruncatedMean.Is12BitSamples(kBuf) && 0 <= prevKnob <= 4095 * 16
    ensures 0 <= FetchAdcData(lib, c, prevKnob, vBuf, cBuf, kBuf, rBuf).knob <= 4095 * 16
  {
    var m := TruncatedMean.TruncatedMeanDiv(kBuf, TruncatedMean.WINDOW_1_1);
    TruncatedMean.TruncatedMeanDivBounded(kBuf, TruncatedMean.WINDOW_1_1, 0, 4095);
    assert m % 0x1_0000 == m;
    Io.SmoothKnobBetween(prevKnob, m * 16);
  }

  /** The first half of `tick`: the new readings, and the zero-cross flags
      from the previous and the new voltage. */
  function Observe(s: Sensors, d: Reading): (r: Sensors)
    ensures r.zeroCrossUp <==> s.prevVoltage == 0 && d.voltage > 0
    ensures r.zeroCrossDown <==> s.prevVoltage > 0 && d.voltage == 0
    ensures !(r.zeroCrossUp && r.zeroCrossDown)
    ensures r == s.(voltage := d.voltage, current := d.current, knob := d.knob,
                    zeroCrossUp := r.zeroCrossUp, zeroCrossDown := r.zeroCrossDown)
  {
    s.(voltage := d.voltage, current := d.current, knob := d.knob,
       zeroCrossUp := s.prevVoltage == 0 && d.voltage > 0,
       zeroCrossDown := s.prevVoltage > 0 && d.voltage == 0)
  }

  // ---------------------------------------------------------------------------
  // get_motor_resistance and speed_tick

  /** `get_motor_resistance` with the configured table. */
  function MotorResistance(lib: Lib, c: Config, setpoint: int): int
    requires Resistance.Fits(Resistance.ByDivision, c.setpoints, c.rTable)
  {
    Resistance.MotorResistance(lib, Resistance.ByDivision, c.setpoints, c.rTable, setpoint)
  }

  /** How the voltage buffer is accessed: as written (no bounds checks) or
      with both accesses guarded by the buffer length, as the newer `Meter`
      guards its writes. */
  datatype Guard = AsWritten | Corrected

  /** The buffer part of `speed_tick`: a positive sample is stored and used,
      a non-positive one replays the stored sample of the same tick in the
      positive half-wave, negated. `None` is an access outside the buffer. */
  function Sample(s: Sensors, g: Guard): (r: Option<Sensors>)
    requires Shaped(s)
    ensures r.Some? ==> Shaped(r.value)
  {
    var tc := if s.zeroCrossDown then 0 else s.tickCounter;
    if s.voltage > 0 then
      if s.head < VOLTAGE_BUFFER_LENGTH then
        Some(s.(buffer := s.buffer[s.head := s.voltage], head := s.head + 1, virtualVoltage := s.voltage, tickCounter := tc))
      else if g == AsWritten then None
      else Some(s.(virtualVoltage := s.voltage, tickCounter := tc))
    else
      if tc < VOLTAGE_BUFFER_LENGTH then
        Some(s.(virtualVoltage := -s.buffer[tc], tickCounter := tc + 1))
      else if g == AsWritten then None
      else Some(s.(virtualVoltage := 0, tickCounter := tc))
  }

  /** The speed estimate of a finished period: the equivalent resistance
      `P / (I^2 >> 4) - R(setpoint)` divided by `cfg_rekv_to_speed_factor`. */
  function Estimate(lib: Lib, s: Sensors, setpoint: int): int
    requires Shaped(s)
  {
    var rEkv := I32(lib.div(s.pSum, Asr(s.i2Sum, 4)) - I32(MotorResistance(lib, s.config, setpoint)));
    lib.div(rEkv, s.config.rekvToSpeedFactor)
  }

  /** The noise check: the mean power per stored sample (C division),
      times 16, below the threshold. */
  predicate Noisy(s: Sensors)
    requires s.head >= 1
  {
    I32(CDiv(s.pSum, s.head) * 16) < s.config.minPowerThreshold
  }

  /** The end of a period (a zero cross up): the new speed, zero for noise
      and never negative, and the sums and the head reset. The division by
      the head is safe: the tick of an up crossing has a positive voltage,
      so it stored a sample or found the buffer full. */
  function Finish(lib: Lib, s: Sensors, setpoint: int): (r: Sensors)
    requires Shaped(s) && s.head >= 1
    ensures Shaped(r) && r.head == 0 && r.pSum == 0 && r.i2Sum == 0 && r.speed >= 0
    ensures Noisy(s) ==> r.speed == 0
    ensures !Noisy(s) ==> r.speed == Max(Estimate(lib, s, setpoint), 0)
    ensures r.buffer == s.buffer && r.tickCounter == s.tickCounter && r.config == s.config
  {
    var speed := Estimate(lib, s, setpoint);
    var speed1 := if Noisy(s) then 0 else speed;
    s.(speed := if speed1 < 0 then 0 else speed1, pSum := 0, i2Sum := 0, head := 0)
  }

  /** `speed_tick` with either guard; `setpoint` is `in_triac_setpoint`,
      which the triac driver copies in every tick. */
  function SpeedStep(lib: Lib, s: Sensors, setpoint: int, g: Guard): (r: Option<Sensors>)
    requires Shaped(s)
    ensures r.Some? ==> Shaped(r.value)
  {
    if !s.calibrated then Some(s.(speed := 0))
    else
      match Sample(s, g)
      case None => None
      case Some(s1) =>
        var s2 := s1.(pSum := I32(s1.pSum + Asr(lib.mul(s1.virtualVoltage, s1.current), 4)),
                      i2Sum := I32(s1.i2Sum + lib.mul(s1.current, s1.current)));
        Some(if s.zeroCrossUp then Finish(lib, s2, setpoint) else s2)
  }

  /** `speed_tick` (guarded): zero speed while uncalibrated; the speed
      changes only at an up crossing and is never negative; the sums and
      the head are cleared at every up crossing; positive samples are
      stored while the buffer has room and replayed, negated, in the
      negative half-wave. */
  function SpeedTick(lib: Lib, s: Sensors, setpoint: int): (r: Sensors)
    requires Valid(s)
    ensures Valid(r)
    ensures r.calibrated == s.calibrated && r.config == s.config
    ensures !s.calibrated ==> r == s.(speed := 0)
    ensures r.speed != s.speed ==> r.speed == 0 || s.zeroCrossUp
    ensures s.calibrated && s.zeroCrossUp ==> r.head == 0 && r.pSum == 0 && r.i2Sum == 0
    ensures s.calibrated && s.voltage > 0 ==>
      r.virtualVoltage == s.voltage &&
      r.buffer == (if s.head < VOLTAGE_BUFFER_LENGTH then s.buffer[s.head := s.voltage] else s.buffer) &&
      (!s.zeroCrossUp ==> r.head == Min(s.head + 1, VOLTAGE_BUFFER_LENGTH) &&
                          r.tickCounter == (if s.zeroCrossDown then 0 else s.tickCounter))
    ensures s.calibrated && s.voltage <= 0 ==>
      var tc := if s.zeroCrossDown then 0 else s.tickCounter;
      r.buffer == s.buffer && r.head == s.head &&
      (tc < VOLTAGE_BUFFER_LENGTH ==> r.virtualVoltage == -s.buffer[tc] && r.tickCounter == tc + 1) &&
      (tc >= VOLTAGE_BUFFER_LENGTH ==> r.virtualVoltage == 0 && r.tickCounter == tc)
  {
    match SpeedStep(lib, s, setpoint, Corrected)
    case Some(r) => r
    case None => assert false; s
  }

  /** The code as written and the guarded one agree whenever the access of
      the tick lies inside the buffer. */
  lemma AsWrittenAgrees(lib: Lib, s: Sensors, setpoint: int)
    requires Valid(s)
    requires s.calibrated && s.voltage > 0 ==> s.head < VOLTAGE_BUFFER_LENGTH
    requires s.calibrated && s.voltage <= 0 ==> (if s.zeroCrossDown then 0 else s.tickCounter) < VOLTAGE_BUFFER_LENGTH
    ensures SpeedStep(lib, s, setpoint, AsWritten) == Some(SpeedTick(lib, s, setpoint))
  {
  }

  /** As written, a positive sample with the buffer full, or a replay with
      the tick counter at the end of the buffer, accesses
      `voltage_buffer[357]`. */
  lemma AsWrittenOverruns(lib: Lib, s: Sensors, setpoint: int)
    requires Valid(s) && s.calibrated
    requires (s.voltage > 0 && s.head == VOLTAGE_BUFFER_LENGTH) ||
             (s.voltage <= 0 && !s.zeroCrossDown && s.tickCounter == VOLTAGE_BUFFER_LENGTH)
    ensures SpeedStep(lib, s, setpoint, AsWritten).None?
  {
  }

  /** `tick`: read, derive the flags, update the speed, remember the
      voltage. */
  function TickWith(lib: Lib, s: Sensors, d: Reading, setpoint: int, g: Guard): (r: Option<Sensors>)
    requires Shaped(s)
    ensures r.Some? ==> Shaped(r.value)
  {
    match SpeedStep(lib, Observe(s, d), setpoint, g)
    case None => None
    case Some(s1) => Some(s1.(prevVoltage := d.voltage))
  }

  function Tick(lib: Lib, s: Sensors, d: Reading, setpoint: int): (r: Sensors)
    requires Valid(s) && d.current >= 0
    ensures Valid(r) && r.prevVoltage == d.voltage
    ensures r.zeroCrossUp <==> s.prevVoltage == 0 && d.voltage > 0
    ensures r.zeroCrossDown <==> s.prevVoltage > 0 && d.voltage == 0
    ensures r == SpeedTick(lib, Observe(s, d), setpoint).(prevVoltage := d.voltage)
  {
    var o := Observe(s, d);
    SpeedTick(lib, o, setpoint).(prevVoltage := d.voltage)
  }

  // ---------------------------------------------------------------------------
  // Runs of ticks

  /** One tick of a run: the reading and the triac setpoint. */
  datatype Input = Input(reading: Reading, setpoint: int)

  /** A run of ticks with either guard; once an access leaves the buffer the
      run is `None`. */
  function RunWith(lib: Lib, s: Sensors, ins: seq<Input>, g: Guard): (r: Option<Sensors>)
    requires Shaped(s)
    ensures r.Some? ==> Shaped(r.value)
    decreases |ins|
  {
    if |ins| == 0 then Some(s)
    else
      match TickWith(lib, s, ins[0].reading, ins[0].setpoint, g)
      case None => None
      case Some(s1) => RunWith(lib, s1, ins[1..], g)
  }

  predicate Positive(ins: seq<Input>) {
    forall i :: 0 <= i < |ins| ==> ins[i].reading.voltage > 0 && ins[i].reading.current >= 0
  }

  predicate Zero(ins: seq<Input>) {
    forall i :: 0 <= i < |ins| ==> ins[i].reading.voltage == 0 && ins[i].reading.current >= 0
  }

  /** Inside a positive half-wave each tick stores one sample; while they
      fit, the code as written runs as the guarded code does. */
  lemma {:induction false} PositiveStretch(lib: Lib, s: Sensors, ins: seq<Input>)
    requires Valid(s) && s.calibrated && s.prevVoltage > 0 && Positive(ins)
    requires s.head + |ins| <= VOLTAGE_BUFFER_LENGTH
    ensures var r := RunWith(lib, s, ins, AsWritten);
      r == RunWith(lib, s, ins, Corrected) && r.Some? && Valid(r.value) && r.value.calibrated &&
      r.value.head == s.head + |ins| && r.value.prevVoltage > 0 && r.value.tickCounter == s.tickCounter
    decreases |ins|
  {
    if |ins| > 0 {
      var o := Observe(s, ins[0].reading);
      AsWrittenAgrees(lib, o, ins[0].setpoint);
      var s1 := Tick(lib, s, ins[0].reading, ins[0].setpoint);
      PositiveStretch(lib, s1, ins[1..]);
    }
  }

  /** Inside a negative half-wave each tick replays one sample; while they
      fit, the code as written runs as the guarded code does. */
  lemma {:induction false} ZeroStretch(lib: Lib, s: Sensors, ins: seq<Input>)
    requires Valid(s) && s.calibrated && s.prevVoltage == 0 && Zero(ins)
    requires s.tickCounter + |ins| <= VOLTAGE_BUFFER_LENGTH
    ensures var r := RunWith(lib, s, ins, AsWritten);
      r == RunWith(lib, s, ins, Corrected) && r.Some? && Valid(r.value) && r.value.calibrated &&
      r.value.tickCounter == s.tickCounter + |ins| && r.value.prevVoltage == 0 && r.value.head == s.head
    decreases |ins|
  {
    if |ins| > 0 {
      var o := Observe(s, ins[0].reading);
      AsWrittenAgrees(lib, o, ins[0].setpoint);
      var s1 := Tick(lib, s, ins[0].reading, ins[0].setpoint);
      ZeroStretch(lib, s1, ins[1..]);
    }
  }

  /** A positive half-wave of more than 358 ticks (the tick of the up
      crossing, which clears the head after storing its sample, and 357
      more) makes the code as written write `voltage_buffer[357]`. */
  lemma LongPositiveHalfWaveOverruns(lib: Lib, s: Sensors, up: Input, ins: seq<Input>, next: Input)
    requires Valid(s) && s.calibrated && s.prevVoltage == 0 && s.head < VOLTAGE_BUFFER_LENGTH
    requires Positive([up] + ins + [next]) && |ins| == VOLTAGE_BUFFER_LENGTH
    ensures var s1 := TickWith(lib, s, up.reading, up.setpoint, AsWritten);
      s1.Some? && s1.value.head == 0 &&
      RunWith(lib, s1.value, ins, AsWritten).Some? &&
      TickWith(lib, RunWith(lib, s1.value, ins, AsWritten).value, next.reading, next.setpoint, AsWritten).None?
  {
    assert up == ([up] + ins + [next])[0];
    assert forall i :: 0 <= i < |ins| ==> ins[i] == ([up] + ins + [next])[i + 1];
    assert next == ([up] + ins + [next])[|ins| + 1];
    AsWrittenAgrees(lib, Observe(s, up.reading), up.setpoint);
    var s1 := Tick(lib, s, up.reading, up.setpoint);
    PositiveStretch(lib, s1, ins);
    var s2 := RunWith(lib, s1, ins, AsWritten).value;
    AsWrittenOverruns(lib, Observe(s2, next.reading), next.setpoint);
  }

  /** A negative half-wave of more than 357 ticks (the tick of the down
      crossing and 356 more) makes the code as written read
      `voltage_buffer[357]`. */
  lemma LongNegativeHalfWaveOverruns(lib: Lib, s: Sensors, down: Input, ins: seq<Input>, next: Input)
    requires Valid(s) && s.calibrated && s.prevVoltage > 0
    requires Zero([down] + ins + [next]) && |ins| == VOLTAGE_BUFFER_LENGTH - 1
    ensures var s1 := TickWith(lib, s, down.reading, down.setpoint, AsWritten);
      s1.Some? && s1.value.tickCounter == 1 &&
      RunWith(lib, s1.value, ins, AsWritten).Some? &&
      TickWith(lib, RunWith(lib, s1.value, ins, AsWritten).value, next.reading, next.setpoint, AsWritten).None?
  {
    assert down == ([down] + ins + [next])[0];
    assert forall i :: 0 <= i < |ins| ==> ins[i] == ([down] + ins + [next])[i + 1];
    assert next == ([down] + ins + [next])[|ins| + 1];
    AsWrittenAgrees(lib, Observe(s, down.reading), down.setpoint);
    var s1 := Tick(lib, s, down.reading, down.setpoint);
    ZeroStretch(lib, s1, ins);
    var s2 := RunWith(lib, s1, ins, AsWritten).value;
    AsWrittenOverruns(lib, Observe(s2, next.reading), next.setpoint);
  }
}

=== FILE: speed_controller.dfy ===
/** The speed regulator of the older firmware (`SpeedController`): every
    446th tick it normalises the knob, runs the speed PID, checks the
    current limiter and maps the PID output through the RPM/volts
    correction table to the triac power. */
module SpeedController {
  import opened Fix16
  import opened Wrappers
  import RegulatorCommon
  import Resistance

  /** `freq_divisor`: APP_TICK_FREQUENCY / APP_PID_FREQUENCY = 17857 / 40. */
  const FREQ_DIVISOR: int := 446

  /** CFG_RPM_INTERP_TABLE_LENGTH: the calibrated points of the table. */
  const RPM_TABLE_LENGTH: int := 16

  /** The full table: the calibrated points between 0.0 and 1.0. */
  const CORRECTION_TABLE_LENGTH: int := 18

  /** `limiter_pid_tick` is not implemented and returns `F16(1.0)`. */
  const LIMITER_OUT: int := ONE

  /** The configured values, already in fix16: the dead zone, the PID
      coefficients, the normalised speed limits, the cached knob scale and
      the correction table. */
  datatype Config = Config(deadZone: int, pidP: int, pidIInv: int, maxLimit: int, minLimit: int,
                           knobNormCoeff: int, correctionTable: seq<int>)

  datatype Controller = Controller(config: Config, knobNormalized: int, integral: int, pidOut: int,
                                   limiterActive: bool, counter: int, outPower: int)

  /** The table `configure` builds: 0.0, the calibrated points, 1.0. */
  function CorrectionTable(points: seq<int>): (t: seq<int>)
    requires |points| == RPM_TABLE_LENGTH
    ensures |t| == CORRECTION_TABLE_LENGTH && t[0] == 0 && t[CORRECTION_TABLE_LENGTH - 1] == ONE
    ensures forall i :: 0 <= i < RPM_TABLE_LENGTH ==> t[i + 1] == points[i]
  {
    [0] + points + [ONE]
  }

  /** The nearest fix16 of k / 17, k in [0, 17]. */
  function IdentityEntry(k: int): int {
    (2 * k * 65536 + 17) / 34
  }

  /** The default of a missing point `i`: `(i + 1) / (LENGTH + 1)`. */
  function DefaultPoints(): (p: seq<int>)
    ensures |p| == RPM_TABLE_LENGTH
  {
    seq(RPM_TABLE_LENGTH, i => IdentityEntry(i + 1))
  }

  /** Without calibration the table holds k / 17 at point k: the identity. */
  lemma DefaultTableIsIdentity()
    ensures var t := CorrectionTable(DefaultPoints());
      forall k :: 0 <= k < CORRECTION_TABLE_LENGTH ==> t[k] == IdentityEntry(k)
  {
    var t := CorrectionTable(DefaultPoints());
    assert IdentityEntry(0) == 0 && IdentityEntry(17) == ONE;
    forall k | 1 <= k < CORRECTION_TABLE_LENGTH - 1
      ensures t[k] == IdentityEntry(k)
    {
      assert t[k] == DefaultPoints()[k - 1];
    }
  }

  /** `configure`, with the values it reads and converts from the emulated
      EEPROM as parameters; the knob scale is cached. The controller state
      is kept. */
  function Configure(lib: Lib, s: Controller, deadZone: int, pidP: int, pidIInv: int,
                     maxLimit: int, minLimit: int, points: seq<int>): (r: Controller)
    requires |points| == RPM_TABLE_LENGTH
    ensures |r.config.correctionTable| == CORRECTION_TABLE_LENGTH
    ensures r.config.knobNormCoeff == lib.div(maxLimit - minLimit, ONE - deadZone)
    ensures r == s.(config := Config(deadZone, pidP, pidIInv, maxLimit, minLimit, r.config.knobNormCoeff,
                                     CorrectionTable(points)))
  {
    s.(config := Config(deadZone, pidP, pidIInv, maxLimit, minLimit,
                        lib.div(maxLimit - minLimit, ONE - deadZone), CorrectionTable(points)))
  }

  // ---------------------------------------------------------------------------
  // apply_rpm_voltage_compensation

  /** Which two table entries bracket the input: as written
      (`range_idx - 1` and `range_idx`) or as corrected (`range_idx` and
      `range_idx + 1`). */
  datatype Bracket = AsWritten | Corrected

  /** `apply_rpm_voltage_compensation`: 0 at or below 0.0, 1.0 at or above
      1.0, and otherwise the interpolation in the table, which splits
      [0.0, 1.0] into 17 equal brackets: the input times 17 gives the
      bracket index in its integer part and the scale in its fraction.
      `None` is a read before the table's start. */
  function CompensateWith(lib: Lib, table: seq<int>, linearSpeed: int, b: Bracket): (r: Option<int>)
    requires |table| == CORRECTION_TABLE_LENGTH
    ensures linearSpeed <= 0 ==> r == Some(0)
    ensures linearSpeed >= ONE ==> r == Some(ONE)
  {
    if linearSpeed <= 0 then Some(0)
    else if linearSpeed >= ONE then Some(ONE)
    else
      var x := linearSpeed * 17;
      var idx := x / 65536;
      var scale := x % 65536;
      match b
      case AsWritten =>
        if idx >= 1 then Some(Resistance.Interpolate(lib, table[idx - 1], table[idx], scale)) else None
      case Corrected =>
        Some(Resistance.Interpolate(lib, table[idx], table[idx + 1], scale))
  }

  function Compensate(lib: Lib, table: seq<int>, linearSpeed: int): (r: int)
    requires |table| == CORRECTION_TABLE_LENGTH
    ensures linearSpeed <= 0 ==> r == 0
    ensures linearSpeed >= ONE ==> r == ONE
  {
    CompensateWith(lib, table, linearSpeed, Corrected).value
  }

  /** Inside [0.0, 1.0] the power lies between the two entries of the
      bracket holding the input, up to rounding. */
  lemma CompensationBetween(lib: Lib, table: seq<int>, linearSpeed: int, k: int)
    requires Lawful(lib) && |table| == CORRECTION_TABLE_LENGTH
    requires 0 < linearSpeed < ONE && k * 65536 <= linearSpeed * 17 < (k + 1) * 65536
    requires IsInt32(table[k]) && IsInt32(table[k + 1])
    ensures var r := Compensate(lib, table, linearSpeed);
      Min(table[k], table[k + 1]) - 2 < r < Max(table[k], table[k + 1]) + 2
  {
    var x := linearSpeed * 17;
    BracketOf(x, k);
    Resistance.InterpolateBetween(lib, table[k], table[k + 1], x % 65536);
  }

  lemma BracketOf(x: int, k: int)
    requires 0 <= x && k * 65536 <= x < (k + 1) * 65536
    ensures x / 65536 == k && 0 <= x % 65536 < 65536 && x == k * 65536 + x % 65536
  {
  }

  /** With the identity table the corrected compensation returns its input,
      up to two raw units of rounding. */
  lemma IdentityCompensationExact(lib: Lib, linearSpeed: int)
    requires Lawful(lib)
    ensures var t := CorrectionTable(DefaultPoints());
      var r := Compensate(lib, t, linearSpeed);
      0 <= linearSpeed <= ONE ==> linearSpeed - 2 <= r <= linearSpeed + 2
  {
    var t := CorrectionTable(DefaultPoints());
    DefaultTableIsIdentity();
    if 0 < linearSpeed < ONE {
      var x := linearSpeed * 17;
      var k := x / 65536;
      BracketOf(x, k);
      assert t[k] == IdentityEntry(k) && t[k + 1] == IdentityEntry(k + 1);
      var r := Resistance.Interpolate(lib, t[k], t[k + 1], x % 65536);
      assert Compensate(lib, t, linearSpeed) == r;
      InterpolateIdentity(lib, k, x % 65536);
      Unscale(r, linearSpeed, 0);
    }
  }

  /** From a bound on 17 r to one on r. */
  lemma Unscale(r: int, y: int, shift: int)
    requires 17 * y - shift - 42 < 17 * r < 17 * y - shift + 42
    ensures shift == 0 ==> y - 2 <= r <= y + 2
    ensures shift == 65536 ==> y - 3857 <= r <= y - 3853
  {
  }

  /** As written, the identity table gives the input less one bracket,
      1/17 (about 3855 raw units): 0.5 comes back as about 0.441. */
  lemma AsWrittenCompensationLags(lib: Lib, linearSpeed: int)
    requires Lawful(lib) && 3856 <= linearSpeed < ONE
    ensures var t := CorrectionTable(DefaultPoints());
      var r := CompensateWith(lib, t, linearSpeed, AsWritten);
      r.Some? && linearSpeed - 3857 <= r.value <= linearSpeed - 3853
  {
    var t := CorrectionTable(DefaultPoints());
    DefaultTableIsIdentity();
    var x := linearSpeed * 17;
    var k := x / 65536;
    BracketOf(x, k);
    assert t[k - 1] == IdentityEntry(k - 1) && t[k] == IdentityEntry(k);
    var r := Resistance.Interpolate(lib, t[k - 1], t[k], x % 65536);
    assert CompensateWith(lib, t, linearSpeed, AsWritten) == Some(r);
    InterpolateIdentity(lib, k - 1, x % 65536);
    Unscale(r, linearSpeed, 65536);
  }

  /** As written the first bracket reads before the table: defined exactly
      from 1/17 on. The configured minimal limit is at least 0.085 and the
      PID output never drops below it, so the read stays in the table in
      operation. */
  lemma AsWrittenIndexValid(lib: Lib, table: seq<int>, linearSpeed: int)
    requires |table| == CORRECTION_TABLE_LENGTH
    ensures CompensateWith(lib, table, linearSpeed, AsWritten).None? <==> 0 < linearSpeed < 3856
  {
  }

  /** The interpolation between the identity entries k and k + 1 at `scale`
      is (k + scale / 65536) / 17, up to rounding (in units of 1/17 raw). */
  lemma InterpolateIdentity(lib: Lib, k: int, scale: int)
    requires Lawful(lib) && 0 <= k < CORRECTION_TABLE_LENGTH - 1 && 0 <= scale < 65536
    ensures var r := Resistance.Interpolate(lib, IdentityEntry(k), IdentityEntry(k + 1), scale);
      k * 65536 + scale - 42 < 17 * r < k * 65536 + scale + 42
  {
    var a, b := IdentityEntry(k), IdentityEntry(k + 1);
    var u := 65536 - scale;
    var ea, eb := 17 * a - k * 65536, 17 * b - (k + 1) * 65536;
    assert -8 <= ea <= 8 && -8 <= eb <= 8;
    assert 0 <= a <= 65536 && 0 <= b <= 65536;
    SmallProduct(a, u);
    SmallProduct(b, scale);
    var ma, mb := lib.mul(a, u), lib.mul(b, scale);
    assert a * u - 65536 < 65536 * ma < a * u + 65536;
    assert b * scale - 65536 < 65536 * mb < b * scale + 65536;
    Combine(a, b, u, scale, ea, eb, k);
    ErrorBound(ea, eb, u, scale);
    Cancel(ma + mb, a * u + b * scale, k * 65536 + scale, ea * u + eb * scale);
  }

  lemma SmallProduct(a: int, u: int)
    requires 0 <= a <= 65536 && 0 <= u <= 65536
    ensures 0 <= a * u <= 65536 * 65536 < MUL_SAFE
  {
    assert a * u <= 65536 * u;
  }

  lemma Combine(a: int, b: int, u: int, s: int, ea: int, eb: int, k: int)
    requires 17 * a == k * 65536 + ea && 17 * b == (k + 1) * 65536 + eb && u + s == 65536
    ensures 17 * (a * u + b * s) == 65536 * (k * 65536 + s) + ea * u + eb * s
  {
    assert 17 * (a * u) == (k * 65536 + ea) * u;
    assert 17 * (b * s) == ((k + 1) * 65536 + eb) * s;
    assert (k * 65536) * u + ((k + 1) * 65536) * s == k * 65536 * (u + s) + 65536 * s;
  }

  lemma ErrorBound(ea: int, eb: int, u: int, s: int)
    requires -8 <= ea <= 8 && -8 <= eb <= 8 && 0 <= u && 0 <= s && u + s == 65536
    ensures -8 * 65536 <= ea * u + eb * s <= 8 * 65536
  {
    assert -8 * u <= ea * u <= 8 * u;
    assert -8 * s <= eb * s <= 8 * s;
  }

  lemma Cancel(r: int, p: int, x: int, e: int)
    requires p - 2 * 65536 < 65536 * r < p + 2 * 65536
    requires 17 * p == 65536 * x + e && -8 * 65536 <= e <= 8 * 65536
    ensures x - 42 < 17 * r < x + 42
  {
    assert 65536 * (17 * r) == 17 * (65536 * r);
  }

  // ---------------------------------------------------------------------------
  // speed_pid_tick and tick

  /** `speed_pid_tick`: the integral accumulates the divergence and is
      clamped to the speed limits, and the output (proportional part plus
      integral) is clamped to them too. Returns the integral and the
      output. */
  function SpeedPidTick(lib: Lib, c: Config, integral: int, knobNormalized: int, speed: int): (r: (int, int))
    ensures c.minLimit <= c.maxLimit ==> c.minLimit <= r.0 <= c.maxLimit && c.minLimit <= r.1 <= c.maxLimit
    ensures r.0 <= c.maxLimit && r.1 <= c.maxLimit
    ensures var tmp := integral + lib.mul(c.pidIInv, knobNormalized - speed);
      c.minLimit <= tmp <= c.maxLimit ==> r.0 == tmp
  {
    var divergence := knobNormalized - speed;
    var integral1 := Clamp(integral + lib.mul(c.pidIInv, divergence), c.minLimit, c.maxLimit);
    var proportional := lib.mul(c.pidP, divergence);
    (integral1, Clamp(proportional + integral1, c.minLimit, c.maxLimit))
  }

  /** `tick` with `in_knob` and `in_speed` as inputs. On the working call
      of the divider the knob is normalised, the speed PID runs unless the
      limiter is active, the limiter takes over when its output drops below
      the PID's, and the power is the compensated PID output. With the
      limiter stub at 1.0 and limits inside [0.0, 1.0] the limiter never
      becomes active and the PID output stays within the limits. */
  function Tick(lib: Lib, s: Controller, knob: int, speed: int): (r: Controller)
    requires |s.config.correctionTable| == CORRECTION_TABLE_LENGTH
    ensures r.config == s.config
    ensures r.counter == RegulatorCommon.DividerStep(FREQ_DIVISOR, s.counter).0
    ensures !RegulatorCommon.DividerStep(FREQ_DIVISOR, s.counter).1 ==> r == s.(counter := r.counter)
    ensures RegulatorCommon.DividerStep(FREQ_DIVISOR, s.counter).1 ==>
      r.knobNormalized == RegulatorCommon.NormalizeKnob(lib, s.config.deadZone, s.config.knobNormCoeff, s.config.minLimit, knob) &&
      r.outPower == Compensate(lib, s.config.correctionTable, r.pidOut)
    ensures s.config.minLimit <= s.config.maxLimit <= LIMITER_OUT && !s.limiterActive ==>
      !r.limiterActive && (s.config.minLimit <= s.pidOut <= s.config.maxLimit ==> s.config.minLimit <= r.pidOut <= s.config.maxLimit)
  {
    var c := s.config;
    var (counter, works) := RegulatorCommon.DividerStep(FREQ_DIVISOR, s.counter);
    if !works then s.(counter := counter)
    else
      var kn := RegulatorCommon.NormalizeKnob(lib, c.deadZone, c.knobNormCoeff, c.minLimit, knob);
      var (integral1, out) := if !s.limiterActive then SpeedPidTick(lib, c, s.integral, kn, speed) else (s.integral, s.pidOut);
      var (integral2, active) :=
        if out <= LIMITER_OUT then
          (if s.limiterActive then (out - lib.mul(kn - speed, c.pidP), false) else (integral1, false))
        else (integral1, true);
      Controller(c, kn, integral2, out, active, counter, Compensate(lib, c.correctionTable, out))
  }
}

=== FILE: stability_filter.dfy ===
/** `StabilityFilterTemplate<PRECISION_IN_PERCENTS>`: a ring of the last three
    values pushed, reporting "stable" once the spread of the three is within
    the given percentage of their maximum. */
module StabilityFilter {
  import opened Fix16

  /** STABILITY_FILTER_LENGTH */
  const LENGTH: int := 3

  /** `data` is the ring, `head` the next slot to write and `count` the number
      of pushes since the last reset. Reset does not clear the ring. */
  datatype Filter = Filter(data: seq<int>, head: int, count: int, edgeMultiplier: int)

  predicate Valid(f: Filter) {
    |f.data| == LENGTH && 0 <= f.head < LENGTH && f.count >= 0
  }

  /** `edge_multiplier = PRECISION_IN_PERCENTS / 100`, applied to the raw
      fix16 value, so F16(5) gives 3276 (about 0.04999). */
  function EdgeMultiplier(precision: int): (m: int)
    ensures precision >= 0 ==> 0 <= 100 * m <= precision < 100 * m + 100
  {
    CDiv(precision, 100)
  }

  /** The constructor. The ring's initial contents are whatever the memory
      held; they are a parameter here. */
  function New(precision: int, initial: seq<int>): (f: Filter)
    requires |initial| == LENGTH
    ensures Valid(f) && f.count == 0 && f.head == 0
    ensures f.edgeMultiplier == EdgeMultiplier(precision)
  {
    Filter(initial, 0, 0, EdgeMultiplier(precision))
  }

  /** `reset()`: restart counting; old ring contents stay in place. */
  function Reset(f: Filter): (r: Filter)
    requires Valid(f)
    ensures Valid(r) && r.count == 0 && r.head == 0
    ensures r.data == f.data && r.edgeMultiplier == f.edgeMultiplier
  {
    f.(head := 0, count := 0)
  }

  /** `push(val)`. */
  function Push(f: Filter, v: int): (r: Filter)
    requires Valid(f)
    ensures Valid(r) && r.count == f.count + 1 && r.edgeMultiplier == f.edgeMultiplier
    ensures r.head == (f.head + 1) % LENGTH
    ensures r.data[f.head] == v
    ensures forall k :: 0 <= k < LENGTH && k != f.head ==> r.data[k] == f.data[k]
  {
    var head := f.head + 1;
    f.(data := f.data[f.head := v], head := if head == LENGTH then 0 else head, count := f.count + 1)
  }

  /** The C expressions for the smallest and largest of three values. */
  function Min3(a: int, b: int, c: int): int {
    if a <= b && a <= c then a else if b <= a && b <= c then b else c
  }

  function Max3(a: int, b: int, c: int): int {
    if a >= b && a >= c then a else if b >= a && b >= c then b else c
  }

  /** `is_stable()`. */
  function IsStable(lib: Lib, f: Filter): bool
    requires Valid(f)
  {
    if f.count < LENGTH then false
    else
      var lo := Min3(f.data[0], f.data[1], f.data[2]);
      var hi := Max3(f.data[0], f.data[1], f.data[2]);
      var diff := hi - lo;
      var absMax := if hi > 0 then hi else -hi;
      var absDiff := if diff > 0 then diff else -diff;
      !(lib.mul(absMax, f.edgeMultiplier) < absDiff)
  }

  /** `average()`: the C quotient of the sum of the three slots by 3. */
  function Average(f: Filter): int
    requires Valid(f)
  {
    CDiv(f.data[0] + f.data[1] + f.data[2], LENGTH)
  }

  // ---------------------------------------------------------------------------
  // Reference: the same questions asked of the history of pushed values.

  /** Three values are stable when their spread is at most |max| scaled by
      the edge multiplier. */
  predicate WindowStable(lib: Lib, edge: int, w: seq<int>)
    requires |w| == LENGTH
  {
    var lo := Min(Min(w[0], w[1]), w[2]);
    var hi := Max(Max(w[0], w[1]), w[2]);
    hi - lo <= lib.mul(Abs(hi), edge)
  }

  /** The filter after pushing every value of `h` in order. */
  function PushAll(f: Filter, h: seq<int>): (r: Filter)
    requires Valid(f)
    ensures Valid(r) && r.edgeMultiplier == f.edgeMultiplier
    decreases |h|
  {
    if |h| == 0 then f else Push(PushAll(f, h[..|h| - 1]), h[|h| - 1])
  }

  /** Slot of the k-th newest value (k = 1 is the newest) behind `head`. */
  function Behind(head: int, k: int): (slot: int)
    requires 0 <= head < LENGTH && 1 <= k <= LENGTH
    ensures 0 <= slot < LENGTH
  {
    if head >= k then head - k else head + LENGTH - k
  }

  /** After a reset, the ring holds the last (up to) three values pushed, the
      newest just behind `head`. */
  lemma {:induction false} PushAllTracksHistory(f: Filter, h: seq<int>)
    requires Valid(f) && f.head == 0 && f.count == 0
    ensures PushAll(f, h).count == |h|
    ensures |h| >= 1 ==> PushAll(f, h).data[Behind(PushAll(f, h).head, 1)] == h[|h| - 1]
    ensures |h| >= 2 ==> PushAll(f, h).data[Behind(PushAll(f, h).head, 2)] == h[|h| - 2]
    ensures |h| >= 3 ==> PushAll(f, h).data[Behind(PushAll(f, h).head, 3)] == h[|h| - 3]
    decreases |h|
  {
    if |h| > 0 {
      var p := h[..|h| - 1];
      PushAllTracksHistory(f, p);
      var g := PushAll(f, p);
      assert PushAll(f, h) == Push(g, h[|h| - 1]);
      if |h| >= 2 {
        assert h[|h| - 2] == p[|p| - 1];
      }
      if |h| >= 3 {
        assert h[|h| - 3] == p[|p| - 2];
      }
    }
  }

  /** Before three pushes the filter is never stable; after them it is stable
      exactly when the last three values pushed are, in whatever slots they
      landed. */
  lemma IsStableMatchesHistory(lib: Lib, f: Filter, h: seq<int>)
    requires Valid(f) && f.head == 0 && f.count == 0
    ensures IsStable(lib, PushAll(f, h)) <==>
              |h| >= LENGTH && WindowStable(lib, f.edgeMultiplier, h[|h| - LENGTH..])
  {
    PushAllTracksHistory(f, h);
    if |h| >= LENGTH {
      RingWindow(lib, PushAll(f, h), h[|h| - LENGTH..]);
    }
  }

  /** A full ring answers `is_stable()` like its contents in push order. */
  lemma RingWindow(lib: Lib, r: Filter, w: seq<int>)
    requires Valid(r) && r.count >= LENGTH && |w| == LENGTH
    requires r.data[Behind(r.head, 1)] == w[2]
    requires r.data[Behind(r.head, 2)] == w[1]
    requires r.data[Behind(r.head, 3)] == w[0]
    ensures IsStable(lib, r) <==> WindowStable(lib, r.edgeMultiplier, w)
  {
    var a, b, c := r.data[0], r.data[1], r.data[2];
    Min3Max3(a, b, c);
    var lo := Min(Min(w[0], w[1]), w[2]);
    var hi := Max(Max(w[0], w[1]), w[2]);
    if r.head == 0 {
      assert a == w[0] && b == w[1] && c == w[2];
    } else if r.head == 1 {
      assert a == w[2] && b == w[0] && c == w[1];
    } else {
      assert a == w[1] && b == w[2] && c == w[0];
    }
    assert Min(Min(a, b), c) == lo && Max(Max(a, b), c) == hi;
    assert (if hi > 0 then hi else -hi) == Abs(hi);
  }

  lemma Min3Max3(a: int, b: int, c: int)
    ensures Min3(a, b, c) == Min(Min(a, b), c)
    ensures Max3(a, b, c) == Max(Max(a, b), c)
  {
  }

  /** `average()` after at least three pushes is the C mean of the last three. */
  lemma AverageMatchesHistory(f: Filter, h: seq<int>)
    requires Valid(f) && f.head == 0 && f.count == 0 && |h| >= LENGTH
    ensures Average(PushAll(f, h)) == CDiv(h[|h| - 3] + h[|h| - 2] + h[|h| - 1], LENGTH)
  {
    PushAllTracksHistory(f, h);
  }

  /** Three equal readings are stable for any non-negative precision. */
  lemma EqualValuesStable(lib: Lib, edge: int, v: int)
    requires Lawful(lib) && -INT32_MAX <= v <= INT32_MAX && 0 <= edge <= ONE
    ensures WindowStable(lib, edge, [v, v, v])
  {
    MulBound(Abs(v), edge, INT32_MAX, ONE);
    MulSign(lib, Abs(v), edge);
  }

  lemma MulBound(a: int, b: int, x: int, y: int)
    requires 0 <= a <= x && 0 <= b <= y
    ensures 0 <= a * b <= x * y
  {
    assert a * b <= x * b;
    assert x * b <= x * y;
  }
}

=== FILE: start_stop.dfy ===
/** The motor start/stop time measurement the PID and ADRC calibrators share
    (`calculate_start_stop_time` and the two recording loops before it).
    While the speed rises (or falls) to a stable value, the low-pass filtered
    speed of every tenth positive zero crossing is kept, at most
    `DATA_LENGTH` of them. The time is then taken where the record first
    passes 85% of the way from its first to its last value. */
module StartStop {
  import opened Fix16
  import opened Wrappers

  /** `speed_data_length`: 10 s of 60 crossings per second, every tenth. */
  const DATA_LENGTH: int := 60

  /** `SPEED_DATA_SAVE_RATIO`. */
  const SAVE_RATIO: int := 10

  /** `F16(LOWPASS_FILTER_ALPHA)` for a 5 Hz cut-off at 50 Hz sampling, and
      `F16(1.0 - LOWPASS_FILTER_ALPHA)`; they sum to 1.0. */
  const ALPHA: int := 25288
  const ALPHA_REST: int := 40248

  /** `F16(SPEED_MEASURE_THRESHOLD)` = 0.15 and `F16(1.0 - ...)` = 0.85. */
  const LEVEL: int := 9830
  const LEVEL_REST: int := 55706

  /** `start_stop_adjust` = log(0.02) / log(0.15) = 2.0621 as fix16: the
      factor from the 15% crossing of a first-order step response to its
      2% crossing. */
  const ADJUST: int := 135141

  /** One step of the low-pass filter. */
  function Lowpass(lib: Lib, prev: int, speed: int): int {
    lib.mul(ALPHA, speed) + lib.mul(ALPHA_REST, prev)
  }

  /** The filter's value after the crossings `s`; the first one seeds the
      filter with itself. */
  function Filtered(lib: Lib, s: seq<int>): int
    requires |s| > 0
    decreases |s|
  {
    var prev := if |s| == 1 then s[0] else Filtered(lib, s[..|s| - 1]);
    Lowpass(lib, prev, s[|s| - 1])
  }

  /** With exact-to-a-unit multiplication the filter stays within two raw
      units of the range of its two inputs. */
  lemma LowpassBetween(lib: Lib, prev: int, speed: int)
    requires Lawful(lib) && IsInt32(prev) && IsInt32(speed)
    ensures Min(prev, speed) - 2 < Lowpass(lib, prev, speed) < Max(prev, speed) + 2
  {
    var m1 := lib.mul(ALPHA, speed);
    var m2 := lib.mul(ALPHA_REST, prev);
    assert 25288 * speed - 65536 < 65536 * m1 < 25288 * speed + 65536;
    assert 40248 * prev - 65536 < 65536 * m2 < 40248 * prev + 65536;
  }

  // ---------------------------------------------------------------------------
  // Recording.

  /** A recording loop's variables: `start_time_ticks` (or
      `stop_time_ticks`), `start_stop_scaler_cyclic_cnt`, `filtered_speed`,
      and the stored samples (`speed_data_idx` is their count). */
  datatype Recorder = Recorder(ticks: int, cyclic: int, filtered: int, data: seq<int>)

  /** The counters as the calibrator sets them before the loop. The
      filter's previous value is not reset, but it is never read before the
      first crossing overwrites it. */
  function BeginRecord(): (r: Recorder)
    ensures r.ticks == 0 && r.cyclic == 0 && r.data == []
  {
    Recorder(0, 0, 0, [])
  }

  predicate RecorderValid(r: Recorder) {
    0 <= r.cyclic < SAVE_RATIO && |r.data| <= DATA_LENGTH
  }

  /** One tick of the loop after its YIELD: every tick is counted; on a
      positive zero crossing with room left the filter advances, and every
      tenth such crossing (the cyclic counter wraps 9 to 0) stores it. */
  function Record(lib: Lib, r: Recorder, up: bool, speed: int): (q: Recorder)
    requires RecorderValid(r)
    ensures RecorderValid(q) && q.ticks == r.ticks + 1
    ensures q.data == r.data || (up && q.data == r.data + [q.filtered])
    ensures |r.data| < DATA_LENGTH && up && r.cyclic == 0 ==> |q.data| == |r.data| + 1
  {
    var ticks := r.ticks + 1;
    if !up || |r.data| >= DATA_LENGTH then r.(ticks := ticks)
    else
      var f := Lowpass(lib, if |r.data| == 0 then speed else r.filtered, speed);
      var data := if r.cyclic == 0 then r.data + [f] else r.data;
      Recorder(ticks, (r.cyclic + 1) % SAVE_RATIO, f, data)
  }

  /** The speeds seen on the positive zero crossings of a run of ticks. */
  function Crossings(xs: seq<(bool, int)>): (s: seq<int>)
    ensures |s| <= |xs|
    decreases |xs|
  {
    if |xs| == 0 then []
    else Crossings(xs[..|xs| - 1]) + (if xs[|xs| - 1].0 then [xs[|xs| - 1].1] else [])
  }

  /** The recorder after a run of ticks from the loop's start. */
  function Records(lib: Lib, xs: seq<(bool, int)>): (r: Recorder)
    ensures RecorderValid(r)
    decreases |xs|
  {
    if |xs| == 0 then BeginRecord()
    else
      var x := xs[|xs| - 1];
      Record(lib, Records(lib, xs[..|xs| - 1]), x.0, x.1)
  }

  /** The recorder against the crossings `s` it has seen: it holds one
      sample per ten crossings, rounded up, but at most `DATA_LENGTH`, and
      sample `k` is the filter's value at crossing `10 k`. Until the record
      fills, the cyclic counter is the crossing count modulo 10 and the
      filter is current. */
  ghost predicate Follows(lib: Lib, r: Recorder, s: seq<int>) {
    && RecorderValid(r)
    && |r.data| == Min(DATA_LENGTH, (|s| + 9) / 10)
    && (forall k :: 0 <= k < |r.data| ==> 10 * k < |s| && r.data[k] == Filtered(lib, s[..10 * k + 1]))
    && (|s| <= 591 ==> r.cyclic == |s| % 10)
    && (0 < |s| <= 591 ==> r.filtered == Filtered(lib, s))
  }

  lemma RecordFollows(lib: Lib, r: Recorder, s: seq<int>, up: bool, speed: int)
    requires Follows(lib, r, s)
    ensures Follows(lib, Record(lib, r, up, speed), if up then s + [speed] else s)
  {
    if up {
      var t := s + [speed];
      var q := Record(lib, r, up, speed);
      assert t[..|t| - 1] == s;
      forall k | 0 <= k < |r.data|
        ensures q.data[k] == Filtered(lib, t[..10 * k + 1])
      {
        assert t[..10 * k + 1] == s[..10 * k + 1];
      }
      if |r.data| < DATA_LENGTH {
        assert |s| <= 590;
        assert q.filtered == Filtered(lib, t);
        if r.cyclic == 0 {
          assert |s| == 10 * |r.data|;
          assert t[..10 * |r.data| + 1] == t;
        }
      }
    }
  }

  /** The recording loop keeps one filtered sample per ten crossings,
      at most `DATA_LENGTH`, and counts every tick. */
  lemma {:induction false} RecordsFollow(lib: Lib, xs: seq<(bool, int)>)
    ensures Follows(lib, Records(lib, xs), Crossings(xs))
    ensures Records(lib, xs).ticks == |xs|
    decreases |xs|
  {
    if |xs| > 0 {
      var p, x := xs[..|xs| - 1], xs[|xs| - 1];
      RecordsFollow(lib, p);
      RecordFollows(lib, Records(lib, p), Crossings(p), x.0, x.1);
      assert Records(lib, xs) == Record(lib, Records(lib, p), x.0, x.1);
      assert Crossings(xs) == if x.0 then Crossings(p) + [x.1] else Crossings(p);
    }
  }

  // ---------------------------------------------------------------------------
  // The time measurement.

  /** `speed_at_measure_threshold`: 85% of the last sample plus 15% of the
      first. */
  function Threshold(lib: Lib, data: seq<int>): int
    requires |data| > 0
  {
    lib.mul(data[|data| - 1], LEVEL_REST) + lib.mul(data[0], LEVEL)
  }

  /** Whether a sample lies strictly beyond the threshold: above it for a
      rise, below it for a fall. */
  predicate Beyond(v: int, level: int, rising: bool) {
    if rising then v > level else v < level
  }

  /** The search loop: the first index from `from` on whose sample lies
      beyond the threshold, or none. */
  function Crossing(data: seq<int>, level: int, rising: bool, from: nat): (r: Option<nat>)
    requires from <= |data|
    ensures r.Some? ==> from <= r.value < |data| && Beyond(data[r.value], level, rising)
    ensures r.Some? ==> forall k :: from <= k < r.value ==> !Beyond(data[k], level, rising)
    ensures r.None? ==> forall k :: from <= k < |data| ==> !Beyond(data[k], level, rising)
    decreases |data| - from
  {
    if from == |data| then None
    else if Beyond(data[from], level, rising) then Some(from)
    else Crossing(data, level, rising, from + 1)
  }

  /** `start_time_measured` (or `stop_time_measured`): the time of the
      crossing, or 0 without one. `seconds(i, ticks, len)` is
      `fix16_from_float(i * ticks / (len * APP_TICK_FREQUENCY))`, the time
      of sample `i` of `len` recorded over `ticks` ticks. */
  function Measured(lib: Lib, seconds: (int, int, int) -> int, r: Recorder, rising: bool): int
    requires |r.data| > 0
  {
    match Crossing(r.data, Threshold(lib, r.data), rising, 0)
    case None => 0
    case Some(i) => seconds(i, r.ticks, |r.data|)
  }

  /** `calculate_start_stop_time`: the sum of both measured times, scaled
      by `start_stop_adjust`. Both records must hold a sample (the code
      reads the last one). */
  function StartStopTime(lib: Lib, seconds: (int, int, int) -> int, rise: Recorder, fall: Recorder): int
    requires |rise.data| > 0 && |fall.data| > 0
  {
    lib.mul(Measured(lib, seconds, rise, true) + Measured(lib, seconds, fall, false), ADJUST)
  }

  /** A record that rises by at least 14 raw units from its first to its
      last sample crosses the threshold strictly after its first sample:
      the first one lies below the threshold and the last one above. */
  lemma RiseCrossesInside(lib: Lib, data: seq<int>)
    requires Lawful(lib) && |data| > 0 && IsInt32(data[0]) && IsInt32(data[|data| - 1])
    requires data[|data| - 1] - data[0] >= 14
    ensures var c := Crossing(data, Threshold(lib, data), true, 0);
      c.Some? && 0 < c.value < |data|
  {
    ThresholdNear(lib, data);
  }

  /** A record that falls by at least 14 raw units crosses the threshold
      strictly after its first sample. */
  lemma FallCrossesInside(lib: Lib, data: seq<int>)
    requires Lawful(lib) && |data| > 0 && IsInt32(data[0]) && IsInt32(data[|data| - 1])
    requires data[0] - data[|data| - 1] >= 14
    ensures var c := Crossing(data, Threshold(lib, data), false, 0);
      c.Some? && 0 < c.value < |data|
  {
    ThresholdNear(lib, data);
  }

  /** The threshold lies within two raw units of 0.85 last + 0.15 first. */
  lemma ThresholdNear(lib: Lib, data: seq<int>)
    requires Lawful(lib) && |data| > 0 && IsInt32(data[0]) && IsInt32(data[|data| - 1])
    ensures var first, last := data[0], data[|data| - 1];
      55706 * last + 9830 * first - 131072 < 65536 * Threshold(lib, data) < 55706 * last + 9830 * first + 131072
  {
    var first, last := data[0], data[|data| - 1];
    var m1 := lib.mul(last, LEVEL_REST);
    var m2 := lib.mul(first, LEVEL);
    assert last * 55706 - 65536 < 65536 * m1 < last * 55706 + 65536;
    assert first * 9830 - 65536 < 65536 * m2 < first * 9830 + 65536;
  }

  /** Without a crossing in either record the start/stop time is 0. */
  lemma NoCrossingNoTime(lib: Lib, seconds: (int, int, int) -> int, rise: Recorder, fall: Recorder)
    requires Lawful(lib) && |rise.data| > 0 && |fall.data| > 0
    requires Crossing(rise.data, Threshold(lib, rise.data), true, 0).None?
    requires Crossing(fall.data, Threshold(lib, fall.data), false, 0).None?
    ensures StartStopTime(lib, seconds, rise, fall) == 0
  {
    assert 0 * ADJUST == 0;
    MulSign(lib, 0, ADJUST);
  }
}

=== FILE: triac_driver.dfy ===
/** The triac driver of the older firmware (`TriacDriver`). It keeps the same
    state as the phase part of `Io`, but it counts the tick of a zero cross
    too: the counter goes up at the end of every tick, so it reads 1 after
    the tick of a crossing, and a recorded half-period includes that tick.
    The setpoint it copies to `Sensors` every tick is an input of
    `Sensors.SpeedTick` in this model. */
module TriacDriver {
  import opened Fix16
  import opened Io

  /** `rearm`, run on the tick of a zero cross: the period is recorded on a
      down crossing once a full half-period has been seen, the counter and
      the flags restart and the pin goes off. */
  function Rearm(p: Phase, down: bool): Phase {
    var counted := p.onceZeroCrossed || p.oncePeriodCounted;
    p.(oncePeriodCounted := counted, onceZeroCrossed := true,
       period := if counted && down then p.counter else p.period,
       counter := 0, openDone := false, closeDone := false)
  }

  /** `tick`: rearm on a zero cross; before a period is known only count;
      otherwise close at the tail of an open half-wave, open once the
      threshold is reached with more than the tail left, and count. */
  function Tick(lib: Lib, p: Phase, ignition: bool, setpoint: int, up: bool, down: bool): (g: Gate)
    ensures var c := if up || down then 0 else p.counter;
      g.phase.counter == U32(c + 1) &&
      (g.phase.onceZeroCrossed <==> p.onceZeroCrossed || up || down) &&
      (g.phase.oncePeriodCounted <==> p.oncePeriodCounted || ((up || down) && p.onceZeroCrossed)) &&
      (g.phase.period != p.period ==> down && g.phase.oncePeriodCounted && g.phase.period == p.counter) &&
      (g.turnedOn <==>
         (g.phase.oncePeriodCounted && !(p.openDone && !(up || down)) &&
          c >= TicksThreshold(lib, setpoint, g.phase.period) &&
          U32(c + TRIAC_ZERO_TAIL_LENGTH) < g.phase.period)) &&
      (g.turnedOff <==>
         (!(up || down) && p.oncePeriodCounted && p.openDone && !p.closeDone &&
          U32(c + TRIAC_ZERO_TAIL_LENGTH) >= p.period))
    ensures g.phase.openDone == (g.turnedOn || (p.openDone && !(up || down)))
    ensures g.phase.closeDone == (g.turnedOff || (p.closeDone && !(up || down)))
    ensures g.ignition == (g.turnedOn || (ignition && !(up || down) && !g.turnedOff))
    ensures PhaseValid(p) || up || down ==> PhaseValid(g.phase)
  {
    var crossing := up || down;
    var p1 := if crossing then Rearm(p, down) else p;
    var ign1 := ignition && !crossing;
    if !p1.oncePeriodCounted then
      Gate(p1.(counter := U32(p1.counter + 1)), ign1, false, false)
    else
      var close := p1.openDone && !p1.closeDone && U32(p1.counter + TRIAC_ZERO_TAIL_LENGTH) >= p1.period;
      var p2 := if close then p1.(closeDone := true) else p1;
      var ign2 := if close then false else ign1;
      var open := !p2.openDone && p2.counter >= TicksThreshold(lib, setpoint, p2.period) &&
                  U32(p2.counter + TRIAC_ZERO_TAIL_LENGTH) < p2.period;
      var p3 := if open then p2.(openDone := true) else p2;
      Gate(p3.(counter := U32(p3.counter + 1)), open || ign2, open, close)
  }

  /** The driver makes the decisions of `Io`, one count ahead: started from
      the `Io` state with the counter advanced by one, a tick opens and
      closes the triac exactly when `Io` does and ends one count ahead
      again. The exception is the down crossing that records the
      half-period: the driver's period is one tick longer. */
  lemma TickMatchesIo(lib: Lib, p: Phase, ignition: bool, setpoint: int, up: bool, down: bool)
    requires 0 <= p.counter < UINT32_LIMIT
    ensures var recorded := down && (p.onceZeroCrossed || p.oncePeriodCounted);
      var gI := PhaseTick(lib, p, ignition, setpoint, up, down);
      var gT := Tick(lib, p.(counter := U32(p.counter + 1)), ignition, setpoint, up, down);
      (!recorded ==>
         gT.phase == gI.phase.(counter := U32(gI.phase.counter + 1)) &&
         gT.turnedOn == gI.turnedOn && gT.turnedOff == gI.turnedOff && gT.ignition == gI.ignition) &&
      (recorded ==>
         gI.phase.period == p.counter && gT.phase.period == U32(p.counter + 1) &&
         gI.phase.counter == 0 && gT.phase.counter == 1)
  {
    if up || down {
      CrossingMatchesIo(lib, p, ignition, setpoint, up, down);
    } else {
      BetweenMatchesIo(lib, p, ignition, setpoint);
    }
  }

  lemma CrossingMatchesIo(lib: Lib, p: Phase, ignition: bool, setpoint: int, up: bool, down: bool)
    requires 0 <= p.counter < UINT32_LIMIT && (up || down)
    ensures var recorded := down && (p.onceZeroCrossed || p.oncePeriodCounted);
      var gI := PhaseTick(lib, p, ignition, setpoint, up, down);
      var gT := Tick(lib, p.(counter := U32(p.counter + 1)), ignition, setpoint, up, down);
      gI.phase.counter == 0 && gT.phase.counter == 1 &&
      (!recorded ==>
         gT.phase == gI.phase.(counter := 1) &&
         gT.turnedOn == gI.turnedOn && gT.turnedOff == gI.turnedOff && gT.ignition == gI.ignition) &&
      (recorded ==> gI.phase.period == p.counter && gT.phase.period == U32(p.counter + 1))
  {
    var recorded := down && (p.onceZeroCrossed || p.oncePeriodCounted);
    var gI := PhaseTick(lib, p, ignition, setpoint, up, down);
    var gT := Tick(lib, p.(counter := U32(p.counter + 1)), ignition, setpoint, up, down);
    assert gI.phase.counter == 0 && gT.phase.counter == 1;
    if !recorded {
      assert gT.phase.period == gI.phase.period;
      assert gT.turnedOn == gI.turnedOn;
    }
  }

  lemma BetweenMatchesIo(lib: Lib, p: Phase, ignition: bool, setpoint: int)
    requires 0 <= p.counter < UINT32_LIMIT
    ensures var gI := PhaseTick(lib, p, ignition, setpoint, false, false);
      var gT := Tick(lib, p.(counter := U32(p.counter + 1)), ignition, setpoint, false, false);
      gT.phase == gI.phase.(counter := U32(gI.phase.counter + 1)) &&
      gT.turnedOn == gI.turnedOn && gT.turnedOff == gI.turnedOff && gT.ignition == gI.ignition
  {
    var gI := PhaseTick(lib, p, ignition, setpoint, false, false);
    var gT := Tick(lib, p.(counter := U32(p.counter + 1)), ignition, setpoint, false, false);
    assert gI.phase.counter == U32(p.counter + 1);
  }
}

=== FILE: truncated_mean.dfy ===
/** Outlier-rejecting mean of a small ADC sample batch (truncated_mean.cpp and
    the older `Sensors::truncated_mean` member): compute mean and variance in
    one pass, drop the samples whose squared deviation reaches the variance
    times window², and return the rounded mean of the rest. */
module TruncatedMean {
  import opened Fix16

  /** "count should NOT be > 16" */
  const MAX_COUNT: int := 16

  /** `inv_div[k]`: F16(1.0 / k), with 1.0 in slots 0 and 1. */
  const INV_DIV: seq<int> :=
    [65536, 65536, 32768, 21845, 16384, 13107, 10923, 9362, 8192,
     7282, 6554, 5958, 5461, 5041, 4681, 4369, 4096]

  /** `F16(1.1)`, the window every caller passes. */
  const WINDOW_1_1: int := 72090

  /** The batch size the firmware uses (ADC_FETCH_PER_TICK). */
  const FETCH_PER_TICK: int := 8

  function Sum(s: seq<int>): int {
    if |s| == 0 then 0 else s[0] + Sum(s[1..])
  }

  function SumSq(s: seq<int>): int {
    if |s| == 0 then 0 else s[0] * s[0] + SumSq(s[1..])
  }

  /** `uint16_t` samples, as the source's buffers hold. */
  predicate IsU16Samples(s: seq<int>) {
    forall i :: 0 <= i < |s| ==> 0 <= s[i] < 0x1_0000
  }

  /** Samples of the 12-bit ADC. */
  predicate Is12BitSamples(s: seq<int>) {
    forall i :: 0 <= i < |s| ==> 0 <= s[i] < 4096
  }

  /** A valid batch: at least two samples (the variance divides by
      count - 1) and at most sixteen. */
  predicate IsBatch(s: seq<int>) {
    2 <= |s| <= MAX_COUNT && IsU16Samples(s)
  }

  /** `((window >> 8) * (window >> 8)) >> 12`: window² in 1/16 units, the
      product on a C `int`. */
  function WindowSquare(window: int): int {
    Asr(I32(Asr(window, 8) * Asr(window, 8)), 12)
  }

  /** `(mean - val) * (mean - val)` on a C `int`. Signed overflow is
      undefined in C; the model takes the two's-complement wrap-around. */
  function Deviation(mean: int, x: int): int {
    I32((mean - x) * (mean - x))
  }

  /** The samples the second pass keeps: strictly inside the deviation bound. */
  function Kept(s: seq<int>, mean: int, bound: int): (r: seq<int>)
    ensures |r| <= |s|
  {
    if |s| == 0 then []
    else (if Deviation(mean, s[0]) < bound then [s[0]] else []) + Kept(s[1..], mean, bound)
  }

  // ---------------------------------------------------------------------------
  // truncated_mean.cpp

  /** `mean = ((s + (count >> 1)) * inv_div[count]) >> 16` in uint32. */
  function Mean(src: seq<int>): int
    requires IsBatch(src)
  {
    var s := U32(Sum(src));
    U32((s + |src| / 2) * INV_DIV[|src|]) / ONE
  }

  /** `sigma_square` as the int the source stores. */
  function SigmaSquare(src: seq<int>): int
    requires IsBatch(src)
  {
    VarianceFromSums(U32(Sum(src)), U32(SumSq(src)), |src|)
  }

  /** `(s2 - (s * s / count)) / (count - 1)` on uint32 operands, stored in an
      int. */
  function VarianceFromSums(s: int, s2: int, count: int): int
    requires 0 <= s < UINT32_LIMIT && 0 <= s2 < UINT32_LIMIT && count >= 2
  {
    ToSigned(U32(s2 - U32(s * s) / count) / (count - 1))
  }

  /** `(window_square * sigma_square) >> 4`, the product on a C `int`. */
  function SigmaWinSquare(src: seq<int>, window: int): int
    requires IsBatch(src)
  {
    Asr(I32(WindowSquare(window) * SigmaSquare(src)), 4)
  }

  /** `truncated_mean(src, count, window)`. The source walks the buffer from
      the end; sums and counts do not depend on the order. The last product
      is on a C `int` and the shifted result is returned as `uint32_t`. */
  function TruncatedMean(src: seq<int>, window: int): int
    requires IsBatch(src)
  {
    var mean := Mean(src);
    var kept := Kept(src, mean, SigmaWinSquare(src, window));
    if |kept| == 0 then mean
    else U32(Asr(I32((Sum(kept) + |kept| / 2) * INV_DIV[|kept|]), 16))
  }

  // ---------------------------------------------------------------------------
  // Sensors::truncated_mean (older revision): the same filter with exact
  // integer division instead of the reciprocal table.

  function MeanDiv(src: seq<int>): int
    requires IsBatch(src)
  {
    (U32(Sum(src)) + |src| / 2) / |src|
  }

  function TruncatedMeanDiv(src: seq<int>, window: int): int
    requires IsBatch(src)
  {
    var mean := MeanDiv(src);
    var kept := Kept(src, mean, SigmaWinSquare(src, window));
    if |kept| == 0 then mean else (Sum(kept) + |kept| / 2) / |kept|
  }

  // ---------------------------------------------------------------------------
  // Properties.

  lemma {:induction false} SumBounds(s: seq<int>, lo: int, hi: int)
    requires forall i :: 0 <= i < |s| ==> lo <= s[i] <= hi
    ensures |s| * lo <= Sum(s) <= |s| * hi
    decreases |s|
  {
    if |s| > 0 {
      SumBounds(s[1..], lo, hi);
      assert |s| * lo == lo + (|s| - 1) * lo;
      assert |s| * hi == hi + (|s| - 1) * hi;
    }
  }

  lemma {:induction false} SumSqBound(s: seq<int>)
    requires Is12BitSamples(s)
    ensures 0 <= SumSq(s) <= |s| * (4095 * 4095)
    decreases |s|
  {
    if |s| > 0 {
      SumSqBound(s[1..]);
      MulLe(s[0], s[0], 4095);
    }
  }

  lemma MulLe(a: int, b: int, m: int)
    requires 0 <= a <= m && 0 <= b <= m
    ensures 0 <= a * b <= m * m
  {
    assert a * b <= m * b <= m * m;
  }

  /** With 12-bit samples and at most 16 of them, none of the uint32 sums or
      products wraps around. */
  lemma NoWrapFor12Bit(src: seq<int>)
    requires IsBatch(src) && Is12BitSamples(src)
    ensures 0 <= Sum(src) <= 16 * 4095
    ensures 0 <= SumSq(src) < UINT32_LIMIT
    ensures 0 <= Sum(src) * Sum(src) < UINT32_LIMIT
  {
    SumBounds(src, 0, 4095);
    SumSqBound(src);
    MulLe(Sum(src), Sum(src), 16 * 4095);
  }

  /** Sum of squared deviations from `x`, expanded. */
  function SumSqDev(s: seq<int>, x: int): int {
    if |s| == 0 then 0 else (s[0] - x) * (s[0] - x) + SumSqDev(s[1..], x)
  }

  lemma {:induction false} SumSqDevExpand(s: seq<int>, x: int)
    ensures SumSqDev(s, x) == SumSq(s) - 2 * x * Sum(s) + |s| * (x * x)
    decreases |s|
  {
    if |s| > 0 {
      var t := s[1..];
      SumSqDevExpand(t, x);
      ExpandStep(s[0], x, |t|, Sum(t), SumSq(t));
    }
  }

  lemma ExpandStep(y: int, x: int, m: int, st: int, qt: int)
    ensures (y - x) * (y - x) + (qt - 2 * x * st + m * (x * x)) ==
            (y * y + qt) - 2 * x * (y + st) + (m + 1) * (x * x)
  {
    var xx := x * x;
    assert (y - x) * (y - x) == y * y - 2 * x * y + xx;
    assert 2 * x * (y + st) == 2 * x * y + 2 * x * st;
    assert (m + 1) * xx == m * xx + xx;
  }

  lemma {:induction false} SumSqDevNonNegative(s: seq<int>, x: int)
    ensures SumSqDev(s, x) >= 0
    decreases |s|
  {
    if |s| > 0 {
      SumSqDevNonNegative(s[1..], x);
      Square(s[0] - x);
    }
  }

  lemma Square(d: int)
    ensures d * d >= 0
  {
    if d < 0 {
      assert d * d == (-d) * (-d);
    }
  }

  /** Cauchy–Schwarz: (Σv)² <= n·Σv², so the variance numerator
      `s2 - s * s / count` never goes negative. */
  lemma {:induction false} SumSquareBound(s: seq<int>)
    ensures Sum(s) * Sum(s) <= |s| * SumSq(s)
    decreases |s|
  {
    if |s| > 0 {
      var t := s[1..];
      var x := s[0];
      SumSquareBound(t);
      SumSqDevExpand(t, x);
      SumSqDevNonNegative(t, x);
      assert Sum(s) == Sum(t) + x && SumSq(s) == SumSq(t) + x * x;
      StepSquareBound(|t|, Sum(t), SumSq(t), x, SumSqDev(t, x));
    }
  }

  lemma StepSquareBound(m: int, st: int, qt: int, x: int, dev: int)
    requires st * st <= m * qt && dev >= 0
    requires dev == qt - 2 * x * st + m * (x * x)
    ensures (st + x) * (st + x) <= (m + 1) * (qt + x * x)
  {
    var xx := x * x;
    assert (m + 1) * (qt + xx) == m * qt + qt + m * xx + xx;
    assert (st + x) * (st + x) == st * st + 2 * x * st + xx;
  }

  /** For 12-bit batches the variance numerator is computed exactly. */
  lemma VarianceNumeratorExact(src: seq<int>)
    requires IsBatch(src) && Is12BitSamples(src)
    ensures 0 <= SumSq(src) - Sum(src) * Sum(src) / |src|
    ensures SigmaSquare(src) == (SumSq(src) - Sum(src) * Sum(src) / |src|) / (|src| - 1)
  {
    NoWrapFor12Bit(src);
    SumSquareBound(src);
    SumSqBound(src);
    var n := |src|;
    var sq := Sum(src) * Sum(src);
    DivLe(sq, n, SumSq(src));
    VarianceExact(Sum(src), SumSq(src), n);
  }

  lemma VarianceExact(s: int, s2: int, n: int)
    requires 2 <= n <= MAX_COUNT && 0 <= s && 0 <= s * s < UINT32_LIMIT
    requires 0 <= s2 <= 16 * (4095 * 4095) && s * s / n <= s2
    ensures VarianceFromSums(s, s2, n) == (s2 - s * s / n) / (n - 1)
  {
    var sq := s * s;
    VarianceFromSquare(sq, s2, n);
  }

  lemma VarianceFromSquare(sq: int, s2: int, n: int)
    requires 2 <= n <= MAX_COUNT && 0 <= sq < UINT32_LIMIT
    requires 0 <= s2 <= 16 * (4095 * 4095) && sq / n <= s2
    ensures ToSigned(U32(s2 - U32(sq) / n) / (n - 1)) == (s2 - sq / n) / (n - 1)
  {
    assert U32(sq) == sq;
    var a := sq / n;
    DivAtMost(sq, n);
    var num := s2 - a;
    assert 0 <= num <= s2 < UINT32_LIMIT;
    assert U32(num) == num;
    var v := num / (n - 1);
    DivAtMost(num, n - 1);
    assert v <= INT32_MAX;
    assert ToSigned(v) == v;
  }

  lemma DivAtMost(a: int, d: int)
    requires 0 <= a && 1 <= d
    ensures 0 <= a / d <= a
  {
  }

  lemma DivLe(a: int, n: int, b: int)
    requires n > 0 && 0 <= a <= n * b
    ensures a / n <= b
  {
  }

  /** For the batch size the firmware uses, the reciprocal table is exact and
      `mean` is the sum divided by 8, rounded half up. */
  lemma MeanOfEightIsRounded(src: seq<int>)
    requires IsBatch(src) && Is12BitSamples(src) && |src| == FETCH_PER_TICK
    ensures Mean(src) == (Sum(src) + 4) / 8
    ensures Mean(src) == MeanDiv(src)
  {
    NoWrapFor12Bit(src);
    var x := Sum(src) + 4;
    var q, r := x / 8, x % 8;
    assert x * 8192 == q * 65536 + r * 8192;
    assert 0 <= r * 8192 < 65536;
    assert (x * 8192) / 65536 == q;
  }

  /** With three samples the table rounds 1/3 down, so the mean of 0, 1, 1 is
      0 where rounding 2/3 gives 1. */
  lemma MeanOfThreeRoundsLow()
    ensures Mean([0, 1, 1]) == 0
    ensures MeanDiv([0, 1, 1]) == 1
  {
    assert Sum([0, 1, 1]) == 2 by {
      assert [0, 1, 1][1..] == [1, 1];
      assert [1, 1][1..] == [1];
    }
  }

  /** `((S + (k >> 1)) * inv_div[k]) >> 16` stays within the bounds of the k
      averaged 12-bit values. */
  lemma TableQuotientBounded(k: int, S: int, lo: int, hi: int)
    requires 1 <= k <= MAX_COUNT && 0 <= lo <= hi < 4096
    requires k * lo <= S <= k * hi
    ensures lo <= ((S + k / 2) * INV_DIV[k]) / ONE <= hi
  {
    var x := (S + k / 2) * INV_DIV[k];
    assert ONE * lo <= x < ONE * (hi + 1) by {
      if k == 1 {} else if k == 2 {} else if k == 3 {} else if k == 4 {}
      else if k == 5 {} else if k == 6 {} else if k == 7 {} else if k == 8 {}
      else if k == 9 {} else if k == 10 {} else if k == 11 {} else if k == 12 {}
      else if k == 13 {} else if k == 14 {} else if k == 15 {} else {}
    }
    DivBetween(x, ONE, lo, hi);
  }

  lemma DivBetween(x: int, d: int, lo: int, hi: int)
    requires d > 0 && d * lo <= x < d * (hi + 1)
    ensures lo <= x / d <= hi
  {
    var q := x / d;
    assert d * q <= x < d * q + d;
    if q < lo {
      MulMono(d, q + 1, lo);
    }
    if q > hi {
      MulMono(d, hi + 1, q);
    }
  }

  lemma MulMono(d: int, a: int, b: int)
    requires d >= 0 && a <= b
    ensures d * a <= d * b
  {
    assert d * b - d * a == d * (b - a);
  }

  lemma {:induction false} KeptWithin(s: seq<int>, mean: int, bound: int, lo: int, hi: int)
    requires forall i :: 0 <= i < |s| ==> lo <= s[i] <= hi
    ensures forall i :: 0 <= i < |Kept(s, mean, bound)| ==> lo <= Kept(s, mean, bound)[i] <= hi
    ensures |Kept(s, mean, bound)| <= |s|
    decreases |s|
  {
    if |s| > 0 {
      KeptWithin(s[1..], mean, bound, lo, hi);
    }
  }

  /** A sample value survives the second pass exactly when its squared
      deviation from the mean, as the C `int` holds it, is below the bound;
      for a mean and a value of 12 bits that is the true square. */
  lemma {:induction false} KeptExactly(s: seq<int>, mean: int, bound: int, x: int)
    ensures x in Kept(s, mean, bound) <==> x in s && Deviation(mean, x) < bound
    ensures 0 <= mean < 4096 && 0 <= x < 4096 ==>
      (x in Kept(s, mean, bound) <==> x in s && (mean - x) * (mean - x) < bound)
    decreases |s|
  {
    if |s| > 0 {
      KeptExactly(s[1..], mean, bound, x);
      assert s == [s[0]] + s[1..];
      assert x in s <==> x == s[0] || x in s[1..];
    }
    if 0 <= mean < 4096 && 0 <= x < 4096 {
      DeviationExact(mean, x);
    }
  }

  /** Twelve-bit operands never wrap the squared deviation. */
  lemma DeviationExact(mean: int, x: int)
    requires 0 <= mean < 4096 && 0 <= x < 4096
    ensures Deviation(mean, x) == (mean - x) * (mean - x)
  {
    var d := mean - x;
    Square(d);
    if d >= 0 {
      MulLe(d, d, 4095);
    } else {
      MulLe(-d, -d, 4095);
      assert d * d == (-d) * (-d);
    }
  }

  /** Sixteen-bit samples do wrap it: with seven zeros and one 65535 the
      window bound is 100643840 (19 times the variance 536854528 wraps
      around), and the outlier's squared deviation 57343² wraps negative,
      so every sample is kept and the result is the plain mean 8192. The
      unbounded products would drop the outlier and return 0. */
  lemma WideOutlierKept()
    ensures var src := [0, 0, 0, 0, 0, 0, 0, 65535];
      && Mean(src) == 8192
      && SigmaWinSquare(src, WINDOW_1_1) == 100643840
      && Kept(src, 8192, 100643840) == src
      && TruncatedMean(src, WINDOW_1_1) == 8192
      && (8192 - 65535) * (8192 - 65535) > Asr(WindowSquare(WINDOW_1_1) * SigmaSquare(src), 4)
  {
    var src := [0, 0, 0, 0, 0, 0, 0, 65535];
    OutlierSums(src);
    OutlierStatistics(src);
    OutlierAllKept(src);
    OutlierResult(src);
  }

  lemma OutlierSums(src: seq<int>)
    requires src == [0, 0, 0, 0, 0, 0, 0, 65535]
    ensures Sum(src) == 65535 && SumSq(src) == 4294836225
  {
    var k := 7;
    while k > 0
      invariant 0 <= k <= 7
      invariant Sum(src[k..]) == 65535 && SumSq(src[k..]) == 4294836225
    {
      assert src[k - 1..][1..] == src[k..];
      k := k - 1;
    }
  }

  lemma OutlierStatistics(src: seq<int>)
    requires IsBatch(src) && |src| == 8 && Sum(src) == 65535 && SumSq(src) == 4294836225
    ensures Mean(src) == 8192
    ensures SigmaSquare(src) == 536854528
    ensures SigmaWinSquare(src, WINDOW_1_1) == 100643840
    ensures Asr(WindowSquare(WINDOW_1_1) * SigmaSquare(src), 4) == 637514752
  {
    DefaultWindowSquare();
    OutlierMean(src);
    OutlierVariance(src);
    OutlierBound();
  }

  /** F16(1.1) gives window² = 19/16. */
  lemma DefaultWindowSquare()
    ensures WindowSquare(WINDOW_1_1) == 19
  {
    assert Pow2(4) == 16 && Pow2(8) == 256 && Pow2(12) == 4096;
  }

  lemma OutlierMean(src: seq<int>)
    requires IsBatch(src) && |src| == 8 && Sum(src) == 65535
    ensures Mean(src) == 8192
  {
    assert U32(65535) == 65535;
    AsrSixteen((65535 + 4) * 8192);
  }

  lemma OutlierVariance(src: seq<int>)
    requires IsBatch(src) && |src| == 8 && Sum(src) == 65535 && SumSq(src) == 4294836225
    ensures SigmaSquare(src) == 536854528
  {
    assert U32(65535) == 65535 && U32(4294836225) == 4294836225;
    assert U32(65535 * 65535) / 8 == 536854528;
    assert U32(4294836225 - 536854528) / 7 == 536854528;
  }

  lemma OutlierBound()
    ensures Asr(I32(19 * 536854528), 4) == 100643840
    ensures Asr(19 * 536854528, 4) == 637514752
  {
    assert Pow2(4) == 16;
    assert U32(19 * 536854528) == 1610301440;
    assert I32(19 * 536854528) == 1610301440;
  }

  lemma OutlierAllKept(src: seq<int>)
    requires src == [0, 0, 0, 0, 0, 0, 0, 65535]
    ensures Kept(src, 8192, 100643840) == src
  {
    assert Deviation(8192, 0) == 67108864;
    assert Deviation(8192, 65535) == -1006747647;
    var k := 7;
    while k > 0
      invariant 0 <= k <= 7
      invariant Kept(src[k..], 8192, 100643840) == src[k..]
    {
      assert src[k - 1..][1..] == src[k..];
      assert src[k - 1] == 0;
      k := k - 1;
    }
  }

  lemma OutlierResult(src: seq<int>)
    requires IsBatch(src) && |src| == 8 && Sum(src) == 65535
    requires Mean(src) == 8192 && SigmaWinSquare(src, WINDOW_1_1) == 100643840
    requires Kept(src, 8192, 100643840) == src
    ensures TruncatedMean(src, WINDOW_1_1) == 8192
  {
    var x := (65535 + 8 / 2) * INV_DIV[8];
    assert x == 536895488;
    assert I32(x) == x;
    AsrSixteen(x);
    assert U32(Asr(I32(x), 16)) == 8192;
  }

  /** The filtered mean never leaves the range of the samples: a batch that
      lies in [lo, hi] gives a result in [lo, hi]. */
  lemma TruncatedMeanBounded(src: seq<int>, window: int, lo: int, hi: int)
    requires IsBatch(src) && 0 <= lo <= hi < 4096
    requires forall i :: 0 <= i < |src| ==> lo <= src[i] <= hi
    ensures lo <= TruncatedMean(src, window) <= hi
  {
    MeanBounded(src, lo, hi);
    var mean := Mean(src);
    var kept := Kept(src, mean, SigmaWinSquare(src, window));
    KeptWithin(src, mean, SigmaWinSquare(src, window), lo, hi);
    if |kept| > 0 {
      KeptMeanBounded(kept, lo, hi);
    }
  }

  /** The rounded mean of a batch lies within the range of its samples. */
  lemma MeanBounded(src: seq<int>, lo: int, hi: int)
    requires IsBatch(src) && 0 <= lo <= hi < 4096
    requires forall i :: 0 <= i < |src| ==> lo <= src[i] <= hi
    ensures lo <= Mean(src) <= hi
  {
    NoWrapFor12Bit(src);
    var n := |src|;
    SumBounds(src, lo, hi);
    TableQuotientBounded(n, Sum(src), lo, hi);
    var x := (Sum(src) + n / 2) * INV_DIV[n];
    assert 0 <= x < UINT32_LIMIT by {
      assert x / ONE <= hi;
    }
  }

  /** The mean of the kept samples, by the reciprocal table, lies within
      their range. */
  lemma {:induction false} KeptMeanBounded(kept: seq<int>, lo: int, hi: int)
    requires 1 <= |kept| <= MAX_COUNT && 0 <= lo <= hi < 4096
    requires forall i :: 0 <= i < |kept| ==> lo <= kept[i] <= hi
    ensures lo <= U32(Asr(I32((Sum(kept) + |kept| / 2) * INV_DIV[|kept|]), 16)) <= hi
  {
    SumBounds(kept, lo, hi);
    TableShiftBounded(|kept|, Sum(kept), lo, hi);
  }

  lemma TableShiftBounded(k: int, S: int, lo: int, hi: int)
    requires 1 <= k <= MAX_COUNT && 0 <= lo <= hi < 4096
    requires k * lo <= S <= k * hi
    ensures lo <= U32(Asr(I32((S + k / 2) * INV_DIV[k]), 16)) <= hi
  {
    var x := (S + k / 2) * INV_DIV[k];
    TableQuotientBounded(k, S, lo, hi);
    assert 0 <= x < ONE * 4096 by {
      DivBetween(x, ONE, lo, hi);
    }
    assert I32(x) == x;
    AsrSixteen(x);
  }

  /** A shift right by 16 is the floor division by 1.0. */
  lemma AsrSixteen(x: int)
    ensures Asr(x, 16) == x / ONE
  {
    assert Pow2(4) == 16;
    assert Pow2(8) == 256;
    assert Pow2(12) == 4096;
    assert Pow2(16) == ONE;
  }

  /** A constant batch comes back unchanged. */
  lemma ConstantBatch(src: seq<int>, window: int, c: int)
    requires IsBatch(src) && 0 <= c < 4096
    requires forall i :: 0 <= i < |src| ==> src[i] == c
    ensures TruncatedMean(src, window) == c
    ensures TruncatedMeanDiv(src, window) == c
  {
    TruncatedMeanBounded(src, window, c, c);
    TruncatedMeanDivBounded(src, window, c, c);
  }

  lemma RoundedDivBounded(k: int, S: int, lo: int, hi: int)
    requires 1 <= k && lo <= hi && k * lo <= S <= k * hi
    ensures lo <= (S + k / 2) / k <= hi
  {
    DivBetween(S + k / 2, k, lo, hi);
  }

  /** The same bound for the older, division-based variant. */
  lemma TruncatedMeanDivBounded(src: seq<int>, window: int, lo: int, hi: int)
    requires IsBatch(src) && 0 <= lo <= hi < 4096
    requires forall i :: 0 <= i < |src| ==> lo <= src[i] <= hi
    ensures lo <= TruncatedMeanDiv(src, window) <= hi
  {
    NoWrapFor12Bit(src);
    SumBounds(src, lo, hi);
    RoundedDivBounded(|src|, Sum(src), lo, hi);
    var mean := MeanDiv(src);
    var bound := SigmaWinSquare(src, window);
    var kept := Kept(src, mean, bound);
    KeptWithin(src, mean, bound, lo, hi);
    if |kept| > 0 {
      SumBounds(kept, lo, hi);
      RoundedDivBounded(|kept|, Sum(kept), lo, hi);
    }
  }
}

=== FILE: wrappers.dfy ===
/** The optional value shared by the models. */
module Wrappers {
  datatype Option<T> = None | Some(value: T)
}
